=== FILE: README.md ===
# PortWatch in Dafny

PortWatch is a macOS/Linux connection monitor. A Python backend takes
periodic snapshots of the host's open connections, scores each one, and runs
an optional interactive alert mode. That mode stores allow/deny rules and
raises desktop notifications. A React frontend shows the snapshots with
evidence tags, a plain-language explanation per connection, a closed-connection
history, a world map and several panels. This project models the decision logic of both sides and proves what it promises.

Each source file becomes one Dafny module:

| module | file | models |
|---|---|---|
| `Common` | common.dfy | options, results and the string operations the sources use (`startsWith`, `includes`, `split`, `trim` with JavaScript's or Python's whitespace, ASCII case, number text), and a stable sort |
| `Records` | records.dfy | the connection row, the DNS assessment and the kill record shared by backend and frontend |
| `Reconciler` | reconciler.dfy | `frontend/src/App.jsx`: the snapshot reconciler, the row filter, the alerts-panel auto-open (a class holding the `lastAlertCount` ref) |
| `Evidence` | evidence.dfy | `frontend/src/components/Chips.jsx`: the ordered evidence tags, built by methods that push onto a tag list |
| `Narrative` | narrative.dfy | `frontend/src/components/ConnectionDetailsModal.jsx`: the fifteen-step explanation cascade and its helpers |
| `Scoring` | scoring.dfy | `_score_row` of `backend/core/server.py` and of the older `server.py`, as step-by-step methods against a weight table |
| `Threats` | threats.dfy | the resource threat scan, its disk-write cache, and the bounded newest-first kill log (a class over a sequence) |
| `Lsof` | lsof.dfy | the `lsof -F` tag-line parser and the action plan of `server.py` |
| `Probes` | probes.dfy | codesign output parsing, special-port names, address printing, host extraction and the abuse-score upgrade |
| `Rules` | rules.dfy | `backend/core/rules_manager.py`: the rule table as a class over a sequence of rules |
| `Alerts` | alerts.dfy | `backend/core/alert_engine.py`: the alert engine class over the rule table |
| `Dns` | dns.dfy | `backend/utils/dns_analyzer.py` and the sniffer bookkeeping of `backend/utils/dns_sniffer.py` |
| `Table`, `Dashboard`, `WorldMap`, `KilledBar`, `DnsLists`, `Export`, `BlockedPanel`, `AlertsPanel` | table.dfy … alertspanel.dfy | the frontend components of the same names |
| `Tray`, `Notifier` | tray.dfy, notifier.dfy | `backend/ui/tray_app.py` and `backend/utils/notifier.py` |

The model uses these conventions:

- Time is whole seconds and is always a parameter. The kill bar's relative time is the only exception: it uses real seconds and takes their floor.
- Scores are kept in hundredths of a point, so every weight and the abuse term `abuse / 20` are exact integers.
- The results of operating-system calls are fields or parameters. This covers psutil, lsof, codesign, file times, the resolved executable path, the socket probe and the sniffer's line classification.
- Python's `ipaddress` classification behind `_is_public_ip` is a parameter of the scorer, `Env.isPublic`. The model applies it, as the source does, to the remote address up to its first colon (`Scoring.ScoredHost`). `Probes.Ipv6RowNotPublic` relies on one property of it, `Scoring.RejectsBareWords`: a text with neither a dot nor a colon is not an address.
- Missing JavaScript and Python strings are the empty string. Missing numbers are `None`.
- Translated texts are their translation keys.
- The md5 alert id is an injective constructor.
- The SQLite rule table is a sequence in insertion order, and rule ids come from a counter.

## Model

| member | source | states |
|---|---|---|
| Reconciler.Keys | frontend/src/App.jsx:152 | the key set holds the `pid-raddr` key of every row and nothing else |
| Reconciler.InitialData | frontend/src/App.jsx:28 | the dashboard starts with no active rows and no history |
| Reconciler.Close | frontend/src/App.jsx:153-159 | a row stamped closed keeps its session key |
| Reconciler.CloseAll | frontend/src/App.jsx:153-159 | the vanished rows become closed entries one for one, in order |
| Reconciler.DropKeys | frontend/src/App.jsx:165 | the reconnection filter keeps exactly the entries whose key is not in the snapshot, each taken from the input |
| Reconciler.DropKeysAppend | frontend/src/App.jsx:164-165 | filtering the joined history is filtering each part and joining |
| Reconciler.Reconcile | frontend/src/App.jsx:144-175 | the new state carries the message's timestamp; what it keeps of the history is stated by `ReconcileHistoryContents` and `ReconcileKeepsHistory` |
| Reconciler.ReconcileHistoryContents | frontend/src/App.jsx:144-175 | up to order, the new history is the previous history without the entries whose key is back, plus the rows the message closed |
| Reconciler.ReconcileKeepsHistory | frontend/src/App.jsx:144-175 | an entry of the previous history stays exactly when its key is not among the message's keys |
| Reconciler.InHistory | frontend/src/App.jsx:150-165 | every history entry after a message has a key absent from the message, and was already history or is a previously active row stamped closed |
| Reconciler.ReconcileRowsExact | frontend/src/App.jsx:145-172 | the active rows become exactly the message's rows, or none when the message has none |
| Reconciler.ReconcileClosesVanished | frontend/src/App.jsx:150-165 | every previously active row whose key is missing from the message enters the history with status CLOSED and the message's time |
| Reconciler.ReconcileNoSharedKeys | frontend/src/App.jsx:163-165 | no history entry shares its key with an active row |
| Reconciler.ReconcileHistorySorted | frontend/src/App.jsx:167-168 | the history is ordered by closing time, newest first |
| Reconciler.ReconcileKeepsInvariant | frontend/src/App.jsx:144-175 | the updater keeps the history sorted and disjoint from the active keys |
| Reconciler.ReconcileIdempotent | frontend/src/App.jsx:144-175 | re-applying the snapshot that produced the current rows changes neither rows nor history |
| Reconciler.FirstMessageClosesNothing | frontend/src/App.jsx:144-175 | the first message closes nothing |
| Reconciler.EmptyMessageClosesAll | frontend/src/App.jsx:145-168 | a message without rows clears the active rows, and the history becomes the whole previous history plus every previously active row closed at `now` (as a multiset, so each earlier entry survives) |
| Reconciler.DuplicateClose | frontend/src/App.jsx:152-159 | two active rows differing only in local address both enter the history under one key |
| Reconciler.Passes | frontend/src/App.jsx:224-249 | a row passes exactly when it matches the search, is not a hidden Apple row, is established when that switch applies, is not bajo under the high-risk switch, and is in the selected country |
| Reconciler.FilteredRows | frontend/src/App.jsx:222-249 | the table shows exactly the passing rows of the selected view, in their order (a subsequence) and each as often as it occurs there (multiset) |
| Reconciler.HistoryIgnoresEstablished | frontend/src/App.jsx:239-240 | the established-only switch has no effect on the history view |
| Reconciler.AppState.constructor | frontend/src/App.jsx:28-46 | empty data, no killed processes, no pending alerts, panel closed, remembered count 0 |
| Reconciler.AppState.OnMessage | frontend/src/App.jsx:139-193 | the data becomes the reconciled data; killed processes and pending alerts are replaced only when present; the panel opens only when the pending count exceeds the remembered one, which then becomes the current count |
| Reconciler.AppState.TakeAlerts | frontend/src/App.jsx:183-192 | the pending-alert step alone, with the data and the killed list unchanged |
| Evidence.PortTablesDisjoint | frontend/src/components/Chips.jsx:6-8 | no port is in two of the sensitive, mining and Tor tables |
| Evidence.IsPublicIp | frontend/src/components/Chips.jsx:10-15 | an address is public exactly when it is non-empty, not loopback and not in a private range |
| Evidence.Private172Octet | frontend/src/components/Chips.jsx:13 | a `172.n.` address is private exactly when 16 <= n <= 31 |
| Evidence.Rank | frontend/src/components/Chips.jsx:64-196 | each tag has one position in the order the checks run |
| Evidence.BuildChips | frontend/src/components/Chips.jsx:17-196 | the chips built by running the checks in order are the chips of every firing check, in check order |
| Evidence.AddFolderChips | frontend/src/components/Chips.jsx:64-72 | the temporary-folder and sensitive-port checks append their tags when they fire, so the list holds exactly the firing tags of every check so far, in the fixed order |
| Evidence.AddPortChips | frontend/src/components/Chips.jsx:73-84 | the mining-port, Tor-port and public-address checks append their tags when they fire, so the list holds exactly the firing tags of every check so far, in the fixed order |
| Evidence.AddPatternChips | frontend/src/components/Chips.jsx:86-100 | the binary-age, beaconing and ransomware checks append their tags when they fire, so the list holds exactly the firing tags of every check so far, in the fixed order |
| Evidence.AddOriginChips | frontend/src/components/Chips.jsx:102-124 | the domain-risk and country checks append their tags when they fire, so the list holds exactly the firing tags of every check so far, in the fixed order |
| Evidence.AddStateChips | frontend/src/components/Chips.jsx:127-140 | the closed-state and signature checks append their tags when they fire, so the list holds exactly the firing tags of every check so far, in the fixed order |
| Evidence.AddLineageChips | frontend/src/components/Chips.jsx:142-151 | the quarantine and parent-process checks append their tags when they fire, so the list holds exactly the firing tags of every check so far, in the fixed order |
| Evidence.AddReputationChips | frontend/src/components/Chips.jsx:153-184 | the reputation and destination-count checks append their tags when they fire, so the list holds exactly the firing tags of every check so far, in the fixed order |
| Evidence.AddResourceChips | frontend/src/components/Chips.jsx:186-196 | the CPU and memory checks complete the list |
| Evidence.ChipsUpToShape | frontend/src/components/Chips.jsx:37-196 | every chip after the first k checks comes from a firing check among them, in increasing check order |
| Evidence.ChipsUpToComplete | frontend/src/components/Chips.jsx:37-196 | every firing check among the first k has its chip in the list |
| Evidence.ChipsOrdered | frontend/src/components/Chips.jsx:64-196 | the chips appear in strictly increasing check order, so no tag appears twice |
| Evidence.ChipsExactlyFiring | frontend/src/components/Chips.jsx:64-196 | a tag is shown exactly when its check fires, with the label that check gives it |
| Evidence.PortTagsExclusive | frontend/src/components/Chips.jsx:70-79 | a connection never shows two of the sensitive, mining and Tor chips |
| Evidence.SignatureTagsExclusive | frontend/src/components/Chips.jsx:134-140 | 'unsigned' shows exactly for unsigned binaries, 'apple' exactly for signed Apple ones, never both, and the notarized caption exactly when notarized |
| Evidence.DnsTagLabel | frontend/src/components/Chips.jsx:102-117 | the domain chip shows exactly for a positive score, with the score as a percentage, red from 60 and amber from 30 |
| Evidence.ManyDstsLabel | frontend/src/components/Chips.jsx:179-184 | the destination chip shows from 5 distinct destinations and reads 10+ from 10 |
| Evidence.TmpHintsReduce | frontend/src/components/Chips.jsx:65 | the four temporary-folder hints amount to containing `/tmp` or `/dev/shm` |
| Evidence.OtherTagConditions | frontend/src/components/Chips.jsx:81-196 | the condition under which each remaining chip shows |
| Narrative.GetIpType | frontend/src/components/ConnectionDetailsModal.jsx:37-43 | unknown exactly for an empty host, this Mac exactly for loopback text, the local network exactly for private ranges |
| Narrative.InternetIsPublic | frontend/src/components/ConnectionDetailsModal.jsx:37-43 | the dialog's "Internet" class is exactly the chips' public-address test |
| Narrative.HostFrom | frontend/src/components/ConnectionDetailsModal.jsx:45 | the host is the address up to its first colon: a colon-free prefix followed by a colon or the end |
| Narrative.PortFrom | frontend/src/components/ConnectionDetailsModal.jsx:46-50 | after trimming JavaScript whitespace, an address with nothing after its last colon reads as port 0, and any other text reads as its decimal value, and as no number (`null`) exactly when it is not a decimal integer numeral |
| Narrative.PortFromRoundTrip | frontend/src/components/ConnectionDetailsModal.jsx:46-50 | the port of `host:port` reads back as that port |
| Narrative.HostOfAddress | frontend/src/components/ConnectionDetailsModal.jsx:45 | the host of `host:tail` reads back as that host |
| Narrative.SeemsServerLocalOf | frontend/src/components/ConnectionDetailsModal.jsx:52-60 | a local address looks like a server exactly when its port is non-zero, privileged or typical, and its host is not on the Internet |
| Narrative.ProcName | frontend/src/components/ConnectionDetailsModal.jsx:63 | the name shown is never empty and is the process name when there is one |
| Narrative.TmpFlagIsTmp | frontend/src/components/ConnectionDetailsModal.jsx:71 | the temporary-folder flag is containing `/tmp` |
| Narrative.GetNarrative | frontend/src/components/ConnectionDetailsModal.jsx:62-158 | the story names the process shown |
| Narrative.NarrativeGuardHolds | frontend/src/components/ConnectionDetailsModal.jsx:62-158 | the condition of the story told holds |
| Narrative.NarrativeNoEarlierGuard | frontend/src/components/ConnectionDetailsModal.jsx:62-158 | no earlier condition of the cascade holds |
| Narrative.NarrativeStepIsFirstGuard | frontend/src/components/ConnectionDetailsModal.jsx:62-158 | the story told is the one of the first condition that holds |
| Narrative.MiningTorFirst | frontend/src/components/ConnectionDetailsModal.jsx:75-78 | mining and Tor together always give the mining-over-Tor story |
| Narrative.DropperBeforeUnsignedInternet | frontend/src/components/ConnectionDetailsModal.jsx:85-88 | an unsigned binary in a temporary folder is told within the first three stories, as a dropper unless mining-Tor or beaconing with a risky domain come first |
| Narrative.HighDnsRouting | frontend/src/components/ConnectionDetailsModal.jsx:80-102 | a domain score above 50 is told as beaconing to it with beacons, else as a malicious domain unless an earlier story applies |
| Narrative.SuspiciousDomainRange | frontend/src/components/ConnectionDetailsModal.jsx:121-128 | the suspicious-domain story is only told for a score in (20, 50] |
| Narrative.Readable | frontend/src/components/ConnectionDetailsModal.jsx:162-174 | a known reason reads as its translation key, any other as its lower-case text |
| Narrative.GetReasons | frontend/src/components/ConnectionDetailsModal.jsx:160-175 | at most the first three reasons are listed, each made readable |
| Narrative.NetworkActivityIff | frontend/src/components/ConnectionDetailsModal.jsx:174 | the generic "network activity" text shows exactly when there are no reasons or a single empty one |
| Narrative.CanKillLevels | frontend/src/components/ConnectionDetailsModal.jsx:177 | the kill button shows exactly for alto and medio |
| Scoring.DnsReasonTexts | backend/core/server.py:952-955 | one `DNS: ` reason per reason of the domain analysis, in order |
| Scoring.Clamp | backend/core/server.py:957-958 | the score lies in [0, 10], and a score already there is kept |
| Scoring.LevelOf | backend/core/server.py:959-964 | alto exactly from 7, medio exactly in [4, 7), bajo exactly below 4 |
| Scoring.ScoredHost | backend/core/server.py:866 | the host tested for a public address is the colon-free start of the remote address, ending at its first colon |
| Scoring.ScoreRow | backend/core/server.py:840-965 | the score is the clamped sum of the weights of the firing signals, the level is that score's level, and the reasons are the firing signals' reasons in check order |
| Scoring.LegacyScoreRow | server.py:111-199 | the same for the older scorer, whose list of signals has no resource, parent or domain checks |
| Scoring.LegacyResourcesSilent | server.py:111-199 | the older scorer gives no points and no reasons for CPU, memory, parent or domain |
| Scoring.AddPortAndPathSignals | backend/core/server.py:845-869 | the port, temporary-folder and public-address checks add their weights and reasons |
| Scoring.AddPortSignals | backend/core/server.py:845-857 | the sensitive, mining and Tor port checks add their weights and reasons |
| Scoring.AddPathSignals | backend/core/server.py:859-869 | the temporary-folder and public-address checks add their weights and reasons |
| Scoring.AddBehaviourSignals | backend/core/server.py:871-894 | the binary-age, beaconing and destination-count checks add their weights and reasons |
| Scoring.AddActivitySignals | backend/core/server.py:871-887 | the binary-age and beaconing checks add their weights and reasons |
| Scoring.AddDestinationSignals | backend/core/server.py:889-894 | ten or more destinations add 1.5 with a reason, five to nine add 0.8 silently |
| Scoring.AddSignatureSignals | backend/core/server.py:896-911 | the signature and quarantine checks add their weights and reasons |
| Scoring.AddFolderSignals | backend/core/server.py:913-926 | the system-folder and user-folder checks add their weights and reasons |
| Scoring.AddResourceSignals | backend/core/server.py:928-955 | the CPU, memory, parent and domain checks add their weights and reasons |
| Scoring.AddUsageSignals | backend/core/server.py:928-941 | the CPU and memory checks add their weights and reasons |
| Scoring.AddOriginSignals | backend/core/server.py:943-955 | the parent-process and domain checks add their weights and reasons |
| Scoring.ScoreAndLevel | backend/core/server.py:957-964 | the clamped score is in [0, 10] and its level reads the unclamped score's thresholds |
| Scoring.SignatureExclusive | backend/core/server.py:902-907 | unsigned and Apple never both fire; together they add 2, -1.5 or 0 |
| Scoring.SilentSignals | backend/core/server.py:840-955 | every firing signal with a weight gives a reason, except five-to-nine destinations; the domain check gives one reason per domain reason |
| Scoring.LegacySignalIgnoresResources | server.py:111-199 | each signal of the older scorer ignores CPU, memory, parent and domain data |
| Scoring.LegacyIgnoresResources | server.py:111-199 | the older scorer's score and reasons ignore CPU, memory, parent and domain data |
| Scoring.SignalAgrees | server.py:111-199 | a signal that both scorers check gives the same points and reasons when the path needs no normalising and is outside the home folder |
| Scoring.VersionsAgree | server.py:111-199 | the two scorers agree on such a row when none of the newer checks fires |
| Scoring.SignalFloor | backend/core/server.py:840-955 | only the Apple (-1.5) and system-folder (-0.5) signals and the domain score can lower the score |
| Scoring.NonDnsFloor | backend/core/server.py:840-955 | without the domain score the sum is at least -2 |
| Scoring.PortPathFloor | backend/core/server.py:845-869 | the port and path checks never lower the score |
| Scoring.BehaviourFloor | backend/core/server.py:871-894 | the behaviour checks never lower the score |
| Scoring.SignatureFloor | backend/core/server.py:896-911 | the signature checks lower the score by at most 1.5 |
| Scoring.FolderFloor | backend/core/server.py:913-926 | the folder checks lower the score by at most 0.5 |
| Scoring.ResourceFloor | backend/core/server.py:928-955 | the resource checks other than the domain never lower the score |
| Scoring.DnsSaturates | backend/core/server.py:950-964 | a domain score of 9 or more makes the level alto whatever else fires |
| Scoring.DnsWeight | backend/core/server.py:950-953 | a domain score of 9 or more adds at least 9 |
| Threats.WriteSpeed | backend/core/server.py:509-523 | the write speed is never negative, is zero for a process seen for the first time, is positive only when both time and bytes grew, and otherwise is the byte growth over the time elapsed, in MB/s |
| Threats.IoCache.constructor | backend/core/server.py:88 | the write-counter cache starts empty |
| Threats.IoCache.Prune | backend/core/server.py:476-479 | the cache keeps exactly the entries of processes still alive |
| Threats.IoCache.Sample | backend/core/server.py:509-525 | the speed is the one computed from the previous sample, and the process's entry becomes the new sample |
| Threats.ScoreThreat | backend/core/server.py:538-581 | the threat score and reasons are the sums of the CPU, memory, signature, folder and write-pattern checks |
| Threats.ScoreUsage | backend/core/server.py:542-556 | CPU over 70 adds 3 and over 50 adds 1; memory over 1 GB adds 2 and over 512 MB adds 1; each with a reason |
| Threats.ScoreBinary | backend/core/server.py:558-566 | unsigned adds 2 and a temporary folder adds 3, each with a reason |
| Threats.ScoreIo | backend/core/server.py:568-576 | the ransomware pattern adds 5, heavy writes add 2, each with a reason |
| Threats.ThreatScoreAndReasons | backend/core/server.py:538-581 | every point comes with a reason and no reason is worth more than five, so the score lies between the number of reasons and five times it, at most 15 |
| Threats.ThreatThreshold | backend/core/server.py:578-584 | high CPU with no signature, large memory from a temporary folder, or the ransomware pattern alone reach four; a single CPU, memory, signature or folder signal does not |
| Threats.ScanAll | backend/core/server.py:482-604 | every reported process has a positive pid and a score of at least four; no more reports than processes |
| Threats.ScannedPids | backend/core/server.py:482-490 | the pids sampled are those of the processes that pass the pid and self checks |
| Threats.ScanCacheKeys | backend/core/server.py:482-525 | after the scan the cache holds the earlier entries and one per process sampled |
| Threats.StepReportsIff | backend/core/server.py:482-596 | a process is reported exactly when it is sampled and scores at least four; only sampled processes update the cache |
| Threats.ScanAllSnoc | backend/core/server.py:482-596 | one more process scanned appends its report, if any, and its cache update |
| Threats.ScanOne | backend/core/server.py:483-596 | one process: the threat it reports (only a positive, unprotected pid scoring at least 4) and the new cache are those of the per-process step `Step` |
| Threats.ScanThreats | backend/core/server.py:467-604 | the cache is pruned to the live pids, then every process is sampled in order; the threats and the final cache are those of `ScanAll` |
| Threats.Pushed | backend/core/server.py:638-641 | a kill is inserted at the front and the oldest entry is dropped once the log exceeds 50 |
| Threats.KillLog.constructor | backend/core/server.py:78-79 | the kill log starts empty |
| Threats.KillLog.Record | backend/core/server.py:638-641 | recording pushes the kill and keeps the log within 50 entries |
| Threats.KillLog.Recent | backend/core/server.py:698 | the entries sent to the clients are the twenty newest |
| Threats.KillLog.Clear | backend/core/server.py:1764-1772 | clearing empties the log |
| Threats.PushedShape | backend/core/server.py:638-641 | the log stays within 50, the new kill is first, and the older entries follow in order, losing at most the oldest |
| Threats.PushedAllShape | backend/core/server.py:617-641 | after several pushes the log stays within 50 and the last kill pushed is first |
| Threats.RenderAll | backend/core/server.py:621 | one text per reason, in order |
| Threats.KillsOf | backend/core/server.py:617-641 | only successfully killed threats are recorded, each as a resource kill |
| Threats.LogKills | backend/core/server.py:617-644 | the log after a monitor pass is the old log with each killed threat pushed in scan order |
| Lsof.ApplyTag | server.py:396-411 | 'p' sets the pid (or -1 when it is not a number), 'c' the command, 'u' the user, 'T' the status after `ST=` or the protocol after `P=`; other tags change nothing |
| Lsof.SplitFirst | server.py:415-417 | `split("->", 1)`: the text is left, separator and right, with no earlier separator; no split exactly when there is no separator |
| Lsof.ParseNameOf | server.py:412-422 | a name `local->host:port` yields that local address, that remote address and that port |
| Lsof.SplitUnique | server.py:415-417 | the split at the first separator is unique |
| Lsof.ParseNameNoArrow | server.py:423-424 | a name without an arrow is the local address alone, with no remote address and no port |
| Lsof.NameRow | server.py:428-461 | the row carries the current pid (0 read as -1), command and user (each `?` when empty) and status; it starts with no destination count and score 0; a beacon needs a known pid and a remote address |
| Lsof.ReadLines | server.py:393-465 | no more rows than lines; with only established wanted every row is established; beacons only on rows with a known pid and a remote address |
| Lsof.ReadLineEffect | server.py:394-427 | only 'n' lines add rows, one each, carrying the fields the earlier lines set, unless only established ones are wanted and the status is another |
| Lsof.BadPidLine | server.py:397-428 | a 'p' line that is not a number makes the following rows carry pid -1 |
| Lsof.DstHostsSnoc | server.py:462-464 | one more row adds its host to its process's destination set when it has a known pid and a remote address |
| Lsof.FinishAll | server.py:467-470 | one finished row per row read, in order |
| Lsof.CollectedOrder | server.py:467-472 | the rows come out by score, highest first, beacons first among equal scores, and are a permutation of the finished rows |
| Lsof.FinishedCounts | server.py:462-470 | each row's destination count is the number of distinct hosts of its process, zero without a known pid, and its score lies in [0, 10] |
| Lsof.CollectLsof | server.py:383-475 | the loop over the lines, keeping the current fields, the rows and the host sets, returns the rows of `Collected` (read, finished with their destination counts, sorted), and no rows when lsof failed |
| Lsof.ReadOne | server.py:394-465 | one line of the loop gives the cursor and rows of the line step `ReadLine` and keeps the host sets equal to the hosts of the rows read |
| Lsof.FinishRows | server.py:467-470 | the finishing loop gives each row its count, score, level and reasons |
| Lsof.FinishOne | server.py:468-470 | one row finished with the count taken from the host sets |
| Lsof.ActionPlanShape | server.py:493-520 | the plan starts with identifying the process and ends with the post-mortem; it has the remote step exactly with a remote address and the three binary steps exactly with a known executable, else the unresolved note; 8 to 11 steps |
| Probes.AuthorityLineInside | server.py:255 | a line that starts with `Authority=` once trimmed contains it and has an `=` to split at |
| Probes.Authorities | server.py:255 | one authority value per authority line |
| Probes.ParseCodesign | server.py:250-256 | a signed result never comes from ad hoc output; one authority per authority line of the text |
| Probes.AuthorityImpliesSigned | server.py:252-255 | output that lists an authority and is not ad hoc reads as signed |
| Probes.AppleImpliesSigned | server.py:252-253 | an Apple authority in output that is not ad hoc reads as signed |
| Probes.SingleAuthorityLine | server.py:255 | a one-line output `Authority=v` lists exactly the trimmed `v` |
| Probes.AuthorityValueOf | server.py:255 | the value of `Authority=v` is the trimmed `v` |
| Probes.ServiceName | backend/core/server.py:967-980 | no port gives no name; mining and Tor ports get their own names; otherwise the TCP name, else the UDP name, else none |
| Probes.SpecialPortsIgnoreTable | backend/core/server.py:970-974 | the mining and Tor names do not depend on the system's service table |
| Probes.FmtAddr | backend/core/server.py:1017-1025 | no address prints as empty; a pair prints as the ip, a colon and more |
| Probes.RemoteHost | backend/core/server.py:1295-1308 | the host is no longer than the address, a prefix of an unbracketed one, and free of `]` for a bracketed one |
| Probes.Ipv6RowNotPublic | backend/core/server.py:866-867 | for an IPv6 pair printed without brackets, the scorer tests only the first group of the address; the public-address, recent-binary, suspicious-parent and legacy user-folder signals then never fire |
| Probes.FmtAddrRoundTrip | backend/core/server.py:1017-1025 | the host and the port of a printed pair read back, through the host extraction of the abuse block, as the ip and the port |
| Probes.BracketedHost | backend/core/server.py:1299-1302 | a bracketed IPv6 address yields the text inside the brackets |
| Probes.RaisedLevel | backend/core/server.py:1316-1318 | the level is re-derived from the score at 4 and 7 and kept below 4 |
| Probes.AbuseUpgradeFrame | backend/core/server.py:1310-1318 | only the score, the level and the abuse score change, and a host without a cached score leaves the row as it was |
| Probes.AbuseUpgradeShape | backend/core/server.py:1310-1318 | the score never goes down, the level changes only with the score, and then to the raised level |
| Probes.AbuseHit | backend/core/server.py:1312-1318 | a positive cached score adds score/20 points and raises the level |
| Probes.AbuseMiss | backend/core/server.py:1310-1314 | otherwise the score and the level stay |
| Probes.AbuseOnlyRaisesLevel | backend/core/server.py:1310-1318 | a row whose level matched its score still does, and its level never drops |
| Probes.AbuseNotClamped | backend/core/server.py:1315 | the bonus is added after the clamp, so a row can end above 10 |
| Rules.ExpiryFor | backend/core/rules_manager.py:107-110 | a rule gets an expiry exactly when it is temporary with a non-zero ttl, and then it is ttl hours after creation |
| Rules.RequestError | backend/core/rules_manager.py:99-102 | a request is refused exactly when its action is not allow/deny or its scope not once/always/temporary |
| Rules.First | backend/core/rules_manager.py:232-250 | `LIMIT 1`: the earliest fitting rule, and none only when no rule fits |
| Rules.PreferExact | backend/core/rules_manager.py:199-228 | `ORDER BY port DESC NULLS LAST`: a rule with the exact port wins over an any-port rule, which is returned only when no exact-port rule matches |
| Rules.Match | backend/core/rules_manager.py:167-252 | a match is an enabled rule of the table |
| Rules.FirstAppend | backend/core/rules_manager.py:232-250 | a rule added at the end is found only when no earlier rule fits |
| Rules.Expire | backend/core/rules_manager.py:191-197 | expiring disables rule by rule, keeping the order |
| Rules.ExpireOne | backend/core/rules_manager.py:193-196 | a rule stays enabled exactly when it was enabled and has not expired; nothing else changes |
| Rules.ExpireKeepsValid | backend/core/rules_manager.py:191-197 | expiring keeps the ids unique |
| Rules.MatchNotExpired | backend/core/rules_manager.py:191-252 | the rule matched after expiring is enabled and not expired |
| Rules.MatchPriority | backend/core/rules_manager.py:181-252 | the hash tier is asked first when a hash is given, then the path tier when a path is given, then process, destination and port, then process and destination with no port |
| Rules.HashTierPrefersExact | backend/core/rules_manager.py:199-213 | when a hash rule with the exact port exists, the hash tier returns an exact-port rule |
| Rules.PathTierPrefersExact | backend/core/rules_manager.py:215-228 | the same for the path tier |
| Rules.NoPortMatchesPortless | backend/core/rules_manager.py:230-252 | without a port the third tier never matches (`port = NULL` is never true), so a match is then portless |
| Rules.FindId | backend/core/rules_manager.py:129-136 | a rule is found exactly when one has the id, and it is that rule |
| Rules.SetEnabled | backend/core/rules_manager.py:264-276 | only the rules with the id change, and only their enabled flag |
| Rules.UpdateFields | backend/core/rules_manager.py:278-307 | only the rule with the id changes: its action when one is given, its comment when one is given |
| Rules.ImportedRules | backend/core/rules_manager.py:340-372 | one new rule per complete record, with fresh consecutive ids |
| Rules.RulesManager.constructor | backend/core/rules_manager.py:24-26 | the manager starts with no rules |
| Rules.RulesManager.CreateRule | backend/core/rules_manager.py:66-127 | an invalid request is refused and changes nothing; a valid one appends one rule with a fresh id, the request's fields and its expiry |
| Rules.RulesManager.GetRule | backend/core/rules_manager.py:129-144 | a rule is returned exactly when one has the id, and it has that id |
| Rules.RulesManager.AllRules | backend/core/rules_manager.py:146-165 | the rules, enabled only when asked, newest first, and no others |
| Rules.RulesManager.FindMatchingRule | backend/core/rules_manager.py:167-252 | expired rules are disabled first, then the match is taken from the updated table |
| Rules.RulesManager.ExpireRules | backend/core/rules_manager.py:191-197 | the rules whose expiry has passed are disabled |
| Rules.RulesManager.DeleteRule | backend/core/rules_manager.py:254-262 | the rules with the id are removed, and the answer says whether there was one |
| Rules.RulesManager.DisableRule | backend/core/rules_manager.py:264-269 | the rule with the id is disabled, and the answer says whether there was one |
| Rules.RulesManager.EnableRule | backend/core/rules_manager.py:271-276 | the rule with the id is enabled, and the answer says whether there was one |
| Rules.RulesManager.UpdateRule | backend/core/rules_manager.py:278-307 | an invalid action is an error and changes nothing; nothing to update answers false; otherwise the fields are updated and the answer says whether the rule exists |
| Rules.RulesManager.CleanupExpiredRules | backend/core/rules_manager.py:309-321 | every expired rule, enabled or not, is deleted, the others kept in order, and the count is the number removed |
| Rules.RulesManager.ImportRules | backend/core/rules_manager.py:327-374 | the table becomes the old rules (none when overwriting) followed by one new rule per complete record |
| Rules.RulesManager.ImportOne | backend/core/rules_manager.py:340-372 | one record: appended with a fresh id when complete, skipped otherwise |
| Rules.ImportedSnoc | backend/core/rules_manager.py:340-372 | one more record imported appends its rule, if complete, with the next id |
| Alerts.ProcName | backend/core/alert_engine.py:49 | the connection's process when it has one, the fallback when it has neither a process nor a name |
| Alerts.HostOf | backend/core/alert_engine.py:50 | the host is never empty; unless it is "unknown" it is the remote address up to its first colon; an address empty before its first colon gives "unknown" |
| Alerts.KeyIgnoresRemotePort | backend/core/alert_engine.py:47-52 | two connections with the same process, host and port share one alert id, whatever follows the host in the address |
| Alerts.KeySeparates | backend/core/alert_engine.py:52 | for bar-free process names and hosts the key determines the process, the host and the port |
| Alerts.ShouldAlert | backend/core/alert_engine.py:54-90 | an alert is raised exactly when alerts are on, the level passes the threshold, the app is not ignored and it is not an auto-allowed signed app |
| Alerts.ThresholdOrder | backend/core/alert_engine.py:62-86 | "high" alerts on a subset of what "medium" alerts on, which is a subset of "all"; an `alto` connection passing the other filters always alerts |
| Alerts.ShouldNotify | backend/core/alert_engine.py:92-99 | a key never notified is notified; otherwise only once more than the cooldown has passed |
| Alerts.NotifyCooldown | backend/core/alert_engine.py:92-99 | after a notification at `sent`, the same key is silent up to `sent + cooldown` and notified after it |
| Alerts.Recorded | backend/core/alert_engine.py:146-156 | the connection's alert becomes pending with a count one higher than before; every other alert is unchanged |
| Alerts.RecordedCount | backend/core/alert_engine.py:146-156 | n repeated alerting connections leave one pending alert whose count grew by n |
| Alerts.Resolve | backend/core/alert_engine.py:241-244 | the alert becomes resolved with the decision and time recorded, keeping its id, connection, count and creation time |
| Alerts.QueryOf | backend/core/alert_engine.py:113-119 | the engine asks the rule table without a hash and with the connection's port |
| Alerts.Stored | backend/core/alert_engine.py:158-164 | storing under a key appends it to the dictionary order when new and keeps its place otherwise |
| Alerts.Restricted | backend/core/alert_engine.py:318-319 | deleting keys keeps exactly the keys still in the table, without repeats |
| Alerts.RestrictedInOrder | backend/core/alert_engine.py:318-319 | the keys left after deleting keep their relative order |
| Alerts.PendingIn | backend/core/alert_engine.py:285-290 | the listing holds only pending alerts of the table, and every pending alert whose key is in the order |
| Alerts.PendingInOrder | backend/core/alert_engine.py:285-290 | the ids of the listing follow the dictionary order |
| Alerts.PendingAppend | backend/core/alert_engine.py:158-164 | a key stored last lists its alert, while pending, after all the others |
| Alerts.StoredKeepsOrder | backend/core/alert_engine.py:158-164 | recording an alert keeps the table well formed and the order listing each of its keys once |
| Alerts.AlertEngine.constructor | backend/core/alert_engine.py:23-45 | an empty cache, no alerts (and an empty key order), no notifications, alerts off with threshold "high" and a 60-second cooldown |
| Alerts.AlertEngine.ProcessConnection | backend/core/alert_engine.py:101-192 | a matching rule decides (a "once" rule is disabled); otherwise the key is remembered and the connection is either recorded as a pending alert answered "ask", with a notification unless cooling down, or allowed |
| Alerts.AlertEngine.Unmatched | backend/core/alert_engine.py:137-192 | the no-rule path: "ask" with the alert recorded exactly when the filter passes (a new key joining the end of the dictionary order), "allow" with the table unchanged otherwise |
| Alerts.AlertEngine.Notify | backend/core/alert_engine.py:161-178 | a notification is appended and its time stored exactly when the key is not cooling down |
| Alerts.AlertEngine.DecideAlert | backend/core/alert_engine.py:194-247 | unknown alert: false and nothing changes; "always"/"temporary" add the rule built from the connection (ttl 24 for temporary) and resolve the alert, or return false when the table refuses it; any other scope only resolves |
| Alerts.AlertEngine.AlertInfoFor | backend/core/alert_engine.py:249-283 | information exists exactly for a connection with an alert; the id, status and creation time are the stored alert's, and the decision and resolution time are the stored ones once resolved and absent before |
| Alerts.AlertEngine.PendingAlerts | backend/core/alert_engine.py:285-290 | exactly the alerts with status pending, listed in the insertion order of the alert dictionary |
| Alerts.AlertEngine.UpdateSettings | backend/core/alert_engine.py:292-305 | the given settings replace the old ones; the seen cache is cleared exactly when alerts are switched on or the threshold is given |
| Alerts.AlertEngine.CleanupOldAlerts | backend/core/alert_engine.py:307-323 | exactly the alerts resolved before the cutoff are removed, and the remaining keys keep their dictionary order |
| Alerts.CleanupKeepsPending | backend/core/alert_engine.py:307-323 | a pending alert survives cleanup |
| Alerts.NoMatchPersists | backend/core/alert_engine.py:113-119 | a connection with no matching rule still has none after a later expiry sweep |
| Alerts.DecisionSticks | backend/core/alert_engine.py:217-238 | after an "always" or unexpired "temporary" decision, the next lookup for the same connection returns the new rule |
| Alerts.AppendedRuleMatches | backend/core/rules_manager.py:167-252 | a rule made for exactly the query, appended to a table with no match, is the match |
| AlertsPanel.ScopeFor | frontend/src/components/AlertsPanel.jsx:36 | the scope picked for the alert when there is a non-empty one, "always" otherwise |
| AlertsPanel.SetScope | frontend/src/components/AlertsPanel.jsx:47-52 | the alert's scope is set and every other alert's entry is kept |
| AlertsPanel.Decide | frontend/src/components/AlertsPanel.jsx:35-45 | the decision carries the alert id, the action and the chosen scope; the alert's entry is deleted and every other entry kept |
| AlertsPanel.PickedScopeIsUsed | frontend/src/components/AlertsPanel.jsx:35-52 | a picked scope is the one the decision sends, and afterwards the alert falls back to "always" |
| AlertsPanel.OtherDecisionsKept | frontend/src/components/AlertsPanel.jsx:35-52 | picking a scope for one alert does not change another alert's decision |
| AlertsPanel.ShowAlert | frontend/src/components/AlertsPanel.jsx:74-80 | the process shown is the process, else the non-empty name, else "Unknown"; the destination is the remote address up to its first colon; the level defaults to medio |
| AlertsPanel.ShownHostIsKeyHost | frontend/src/components/AlertsPanel.jsx:77 | a non-empty destination shown is the host in the backend's alert key |
| BlockedPanel.DeniedRules | frontend/src/components/BlockedProcessesPanel.jsx:14-19 | nothing is rendered exactly when no rule is an enabled deny rule; otherwise the enabled deny rules, in table order |
| BlockedPanel.ListedRules | frontend/src/components/BlockedProcessesPanel.jsx:15 | a rule is listed exactly when it is in the table, denies and is enabled |
| BlockedPanel.FormatScope | frontend/src/components/BlockedProcessesPanel.jsx:32-39 | the three known scopes are translated under their `scope_` key; any other scope is shown verbatim |
| BlockedPanel.ScopeColor | frontend/src/components/BlockedProcessesPanel.jsx:41-48 | the neutral slate colour is used exactly for unknown scopes |
| BlockedPanel.PortText | frontend/src/components/BlockedProcessesPanel.jsx:150 | the port text never contains a colon |
| BlockedPanel.RuleConnFields | frontend/src/components/BlockedProcessesPanel.jsx:143-158 | the built connection takes process, address and port from the rule, the executable from the rule when it has one, defaults the level to medio, and keeps the context's other fields |
| BlockedPanel.RuleConnAddress | frontend/src/components/BlockedProcessesPanel.jsx:150-151 | the details dialog reads the rule's destination back from the address, and its port, or 0 when the rule has none |
| Dashboard.PidFor | frontend/src/components/Dashboard.jsx:29 | the pid shown is that of the first row with the name, and there is none ('?') when that row's pid is 0 or no row has the name |
| Dashboard.LevelsWithinTotal | frontend/src/components/Dashboard.jsx:15-18 | the alto, medio and bajo counts add up to at most the number of rows |
| Dashboard.TallyOfShape | frontend/src/components/Dashboard.jsx:21-25 | the name tally has one entry per distinct process name, in first-seen order, whose count is that name's number of rows |
| Dashboard.BuildTally | frontend/src/components/Dashboard.jsx:21-25 | the `forEach` pass builds exactly the tally of the rows' process names |
| Dashboard.Increment | frontend/src/components/Dashboard.jsx:23-24 | one name counted: its entry is bumped, or a new entry with count 1 is appended |
| Dashboard.EntriesShape | frontend/src/components/Dashboard.jsx:26-31 | every entry carries its name's number of rows, which is positive, and the pid of the name's first row |
| Dashboard.TopShape | frontend/src/components/Dashboard.jsx:26-33 | at most five entries, in non-increasing count order, each with its name's true count and pid |
| Dashboard.Summarize | frontend/src/components/Dashboard.jsx:14-41 | the total, the per-level counts (within the total), the number of distinct names and the top list |
| Table.WithPidMembers | frontend/src/components/ConnectionTable.jsx:27-35 | a connection is in a pid's row list exactly when it is a row with that pid |
| Table.GroupsOfShape | frontend/src/components/ConnectionTable.jsx:26-35 | each group holds exactly its pid's rows, in order, headed by the first of them, and no two groups share a pid |
| Table.GroupedShape | frontend/src/components/ConnectionTable.jsx:25-37 | after ordering, the groups are still exactly the pids' rows with distinct pids, sorted by descending score, with ties in object key order |
| Table.RowInOneGroup | frontend/src/components/ConnectionTable.jsx:25-37 | every row appears in exactly one group |
| Table.GroupRows | frontend/src/components/ConnectionTable.jsx:25-37 | the loop and the sort compute `Grouped`, whose shape `GroupedShape`, `GroupedTiesInKeyOrder` and `RowInOneGroup` state |
| Table.GroupedTiesInKeyOrder | frontend/src/components/ConnectionTable.jsx:25-37 | groups with equal scores keep the `Object.values` key order: array-index pids ascending, so a group with a negative pid never comes before one of the same score with an array-index pid |
| Table.FlagEmoji | frontend/src/components/ConnectionTable.jsx:11-18 | an empty code gives the empty text; otherwise one regional-indicator character per UTF-16 unit of the upper-cased code, offset by 127397 |
| Table.FlagRoundTrip | frontend/src/components/ConnectionTable.jsx:11-18 | for an ASCII code the flag has one character per letter and reads back as the upper-cased code |
| Table.Click | frontend/src/components/ConnectionTable.jsx:97-103 | a group with one connection is selected and its expansion kept; a larger group toggles its expansion and selects nothing |
| Table.ClickTwice | frontend/src/components/ConnectionTable.jsx:97-103 | two clicks on a multi-connection group restore its expansion |
| WorldMap.NumberInverts | frontend/src/components/WorldMap.jsx:13-24 | the table's ids identify its codes: the reverse lookup of a code's id gives the code back |
| WorldMap.CodeInverts | frontend/src/components/WorldMap.jsx:13-24 | each id in the table belongs to exactly one code |
| WorldMap.IdRange | frontend/src/components/WorldMap.jsx:13-24 | every code in the table has two letters and its id is below 1000 |
| WorldMap.IdText | frontend/src/components/WorldMap.jsx:13-24 | an id is written with exactly three digits |
| WorldMap.IdTextValue | frontend/src/components/WorldMap.jsx:13-24 | the three-digit text of a number reads back as that number |
| WorldMap.ValueIdText | frontend/src/components/WorldMap.jsx:13-24 | a three-digit text is the text of the number it spells, zero-padded |
| WorldMap.IsoToId | frontend/src/components/WorldMap.jsx:35 | a code with an id has two letters, and its id three characters |
| WorldMap.IdToIsoInverts | frontend/src/components/WorldMap.jsx:74 | the map's `find` over the table gives back the code whose id was looked up |
| WorldMap.IsoToIdInverts | frontend/src/components/WorldMap.jsx:35 | an id found by the map's `find` is that code's id |
| WorldMap.IsoToIdInjective | frontend/src/components/WorldMap.jsx:13-24 | no two codes share an id |
| WorldMap.CountsOfGet | frontend/src/components/WorldMap.jsx:29-43 | every key counts the rows with that country text, plus the rows whose code has that key as id |
| WorldMap.CodeCount | frontend/src/components/WorldMap.jsx:29-43 | a two-letter code counts exactly the rows from that country |
| WorldMap.IdCount | frontend/src/components/WorldMap.jsx:29-43 | a country's numeric id counts exactly that country's rows when no row has the id itself as its country |
| WorldMap.KeysCounted | frontend/src/components/WorldMap.jsx:29-43 | a key is present exactly when its count is positive |
| WorldMap.AddCountry | frontend/src/components/WorldMap.jsx:32-40 | one row counted: its id when it has one, and its code, each bumped by one; nothing for an empty country |
| WorldMap.CountCountries | frontend/src/components/WorldMap.jsx:29-43 | the `forEach` pass builds exactly the per-country counts |
| WorldMap.MaxCount | frontend/src/components/WorldMap.jsx:45 | an upper bound of every count that is itself a count, or 0 for no counts |
| WorldMap.MapClick | frontend/src/components/WorldMap.jsx:73-93 | a country with connections and a code is selected, or cleared when already selected; anything else changes nothing; a selected code's id is the clicked id |
| WorldMap.ClickToggles | frontend/src/components/WorldMap.jsx:73-93 | clicking a country again clears the selection, and clicking after a clear selects it again |
| WorldMap.ClickSelectsCountry | frontend/src/components/WorldMap.jsx:29-93 | clicking the map id of a country that has rows selects that country's code |
| KilledBar.ParanoidKills | frontend/src/components/KilledProcessesBar.jsx:11-13 | nothing is rendered exactly when every kill came from a deny rule; otherwise the other kills, in order |
| KilledBar.ShownKills | frontend/src/components/KilledProcessesBar.jsx:11 | a kill is listed exactly when it is in the list and its type is not "block" |
| KilledBar.Ago | frontend/src/components/KilledProcessesBar.jsx:18-22 | seconds below a minute, whole minutes below an hour, whole hours from then on, each amount the floor of the elapsed time in its unit |
| KilledBar.FormatTimeShows | frontend/src/components/KilledProcessesBar.jsx:15-23 | the text is the amount, the unit letter and " ago", and the amount reads back from it |
| KilledBar.TypeLabel | frontend/src/components/KilledProcessesBar.jsx:31-35 | "Resource" and "Network" exactly for those types, "Unknown" for any other |
| KilledBar.Detail | frontend/src/components/KilledProcessesBar.jsx:68-74 | the record shown is KILLED; the reasons are empty exactly when the reason text is, and otherwise join back to it with no part holding the separator `, `, which is what `split(', ')` yields; the score is the kill's when non-zero, else 8 for alto and 5 otherwise |
| DnsLists.WithList | frontend/src/components/DNSListsTab.jsx:65-68 | the spread update sets one list and keeps the other three |
| DnsLists.WithOwnList | frontend/src/components/DNSListsTab.jsx:65-68 | setting a list to itself changes nothing |
| DnsLists.Dedup | frontend/src/components/DNSListsTab.jsx:67 | `[...new Set(...)]`: no duplicates, and exactly the same values |
| DnsLists.DedupKeeps | frontend/src/components/DNSListsTab.jsx:67 | a list without duplicates passes through the `Set` unchanged, order included |
| DnsLists.BlankValueIgnored | frontend/src/components/DNSListsTab.jsx:63-70 | a value changes nothing exactly when every character of it is JavaScript whitespace |
| DnsLists.AddToList | frontend/src/components/DNSListsTab.jsx:63-70 | a value that trims (with JavaScript's whitespace) to nothing changes nothing; otherwise the list gains the trimmed value, stays duplicate-free, the other lists are kept and the input is cleared |
| DnsLists.AddExisting | frontend/src/components/DNSListsTab.jsx:63-70 | adding a value already listed leaves the configuration as it was |
| DnsLists.AddNew | frontend/src/components/DNSListsTab.jsx:63-70 | a new value is appended at the end of the list |
| DnsLists.RemoveFromList | frontend/src/components/DNSListsTab.jsx:72-77 | every occurrence of the value leaves the list, every other value keeps all its occurrences (multiset) in their order (subsequence), and the other lists are kept |
| DnsLists.RemoveUndoesAdd | frontend/src/components/DNSListsTab.jsx:63-77 | removing a value just added restores the configuration |
| Dns.FirstSuffix | backend/utils/dns_analyzer.py:153-157 | the first risky TLD in list order that the domain ends with, and none exactly when it ends with none |
| Dns.FirstContained | backend/utils/dns_analyzer.py:160-164 | the first risky keyword in list order that the domain contains, and none exactly when it contains none |
| Dns.NameLabel | backend/utils/dns_analyzer.py:133-134 | the label whose entropy is measured is the domain up to its first dot |
| Dns.EntropyPoints | backend/utils/dns_analyzer.py:136-142 | 50 points above 4.5 bits, 20 above 4.0, none otherwise |
| Dns.EntropyReasons | backend/utils/dns_analyzer.py:136-142 | one reason exactly when the entropy scores |
| Dns.LengthPoints | backend/utils/dns_analyzer.py:145-150 | 40 points above 60 characters, 15 above 40, none otherwise |
| Dns.LengthReasons | backend/utils/dns_analyzer.py:145-150 | one reason exactly when the length scores |
| Dns.FoundReasons | backend/utils/dns_analyzer.py:153-164 | the TLD and keyword stages each add one reason exactly when they found an entry |
| Dns.RiskOf | backend/utils/dns_analyzer.py:172-179 | CRITICAL from 60, SUSPICIOUS from 30, LOW above 0, SAFE otherwise |
| Dns.SafeCases | backend/utils/dns_analyzer.py:119-126 | an empty domain is SAFE with no reason; a whitelisted one is SAFE with the single reason "Whitelisted" |
| Dns.RawScoreBounds | backend/utils/dns_analyzer.py:128-170 | each reason brings between 10 and 50 points, there are at most five reasons and the raw score is at most 160 |
| Dns.VerdictOfScore | backend/utils/dns_analyzer.py:172-186 | the score returned is within 0..100 and the verdict taken from the uncapped score equals the verdict of the capped one; SAFE exactly when the score is 0 and exactly when there is no reason |
| Dns.KeywordAndTld | backend/utils/dns_analyzer.py:153-179 | a risky keyword and a risky TLD make a domain at least SUSPICIOUS, and CRITICAL with high entropy |
| Dns.FindSuffix | backend/utils/dns_analyzer.py:153-157 | the loop with `break` finds the first suffix of the list that ends the domain |
| Dns.FindKeyword | backend/utils/dns_analyzer.py:160-164 | the loop with `break` finds the first risky keyword |
| Dns.ListScore | backend/utils/dns_analyzer.py:153-170 | the TLD, keyword and IP stages add 20, 40 and 10 points with their reasons, in order |
| Dns.NameScore | backend/utils/dns_analyzer.py:136-150 | the entropy and length stages add their points and reasons, in order |
| Dns.AnalyzeDomain | backend/utils/dns_analyzer.py:114-186 | the stage-by-stage computation returns `Analysis`, whose properties `SafeCases`, `VerdictOfScore` and `KeywordAndTld` state |
| Dns.DnsSniffer.constructor | backend/utils/dns_sniffer.py:14-38 | no address mapped and no query pending |
| Dns.DnsSniffer.HandleLine | backend/utils/dns_sniffer.py:95-122 | a query is remembered (the table is emptied once it passes 1000) and the map is untouched; a response for a remembered id maps the address to the domain, the time and the domain's analysis; anything else changes nothing |
| Dns.DnsSniffer.DomainForIp | backend/utils/dns_sniffer.py:53-62 | an entry at most an hour old is returned; an older one is deleted and none returned; an unknown address gives none |
| Export.ConnFields | frontend/src/components/ExportButton.jsx:18-33 | a connection line has the twelve header columns: "Connection", the time, the pid, the quoted process, the level, the score (empty for 0), the quoted reasons joined by "; ", both addresses, the port, the status and the country |
| Export.KillFields | frontend/src/components/ExportButton.jsx:38-52 | a kill line has twelve columns, starts with "Killed Process", takes the level or else the kill type, and has no local address, status KILLED and no country |
| Export.ConnLines | frontend/src/components/ExportButton.jsx:18-35 | one line per connection row, in order |
| Export.KillLines | frontend/src/components/ExportButton.jsx:38-54 | one line per kill, in order |
| Export.AppendRows | frontend/src/components/ExportButton.jsx:18-35 | the `forEach` pass appends each connection's line followed by a newline |
| Export.AppendKills | frontend/src/components/ExportButton.jsx:38-54 | the `forEach` pass appends each kill's line followed by a newline |
| Export.ExportCsv | frontend/src/components/ExportButton.jsx:10-56 | the text is the header, the connection lines and the kill lines, each ended by a newline |
| Export.CsvShape | frontend/src/components/ExportButton.jsx:15-54 | the header comes first, then exactly one line per connection, then exactly one per kill |
| Export.LineKinds | frontend/src/components/ExportButton.jsx:20-52 | a connection line starts with `Connection,` and a kill line with `Killed Process,` |
| Export.CsvReadsBack | frontend/src/components/ExportButton.jsx:10-56 | when no field contains a newline, splitting the file at newlines gives back the header and every line, then the empty text after the last newline |
| Export.ExportJson | frontend/src/components/ExportButton.jsx:60-75 | each count equals the length of the array exported beside it; a missing array is exported empty with count 0 |
| Tray.Candidates | backend/ui/tray_app.py:61 | six candidates: the preferred port and the five after it, in order |
| Tray.ChoosePort | backend/ui/tray_app.py:58-65 | the first candidate not in use, with every earlier candidate in use; an error exactly when all six are in use |
| Tray.ConnectionsRisk | backend/ui/tray_app.py:448-456 | alto exactly when some connection is alto; otherwise medio exactly when some connection is medio; otherwise bajo |
| Tray.LevelsGrow | backend/ui/tray_app.py:450-456 | one more connection scanned: a level is present exactly when it was before or is this connection's |
| Tray.Monitor.constructor | backend/ui/tray_app.py:409 | no pending alert has been seen yet |
| Tray.Monitor.Tick | backend/ui/tray_app.py:414-456 | a new alert exactly when alert mode is on and the pending count grew, the count being then remembered; a pending alert forces alto; otherwise the connections decide |
| Tray.IconsAlwaysShown | backend/ui/tray_app.py:405-477 | while the monitor runs (both normal icons loaded), both phases of the blink have an icon for any level |
| Tray.IconFallback | backend/ui/tray_app.py:467-477 | each icon is the level's own when loaded and the normal one otherwise |
| Notifier.DestTextShape | backend/utils/notifier.py:76-78 | the text starts with the destination, ends with ` (country)` when a country is given, and is the destination alone without a port or country |
| Notifier.DestTextReadsBack | backend/utils/notifier.py:76-78 | the host and the port read back from `destination:port` |
| Notifier.LevelKey | backend/utils/notifier.py:83-91 | no Spanish level survives: bajo/low give low, medio/medium give medium, alta/alto/high give high, any other normalised text is kept |
| Notifier.Subtitle | backend/utils/notifier.py:94-103 | "⚪ Desconocido" exactly for keys outside the six known ones |
| Notifier.LevelKeyIgnoresPrefix | backend/utils/notifier.py:82-83 | a `risk.` or `RISK.` prefix never changes the level key |
| Notifier.LevelKeyIgnoresCase | backend/utils/notifier.py:83 | upper-case levels give the same key as lower-case ones |
| Notifier.LowLevels | backend/utils/notifier.py:85-103 | bajo and low both get the low subtitle |
| Notifier.MediumLevels | backend/utils/notifier.py:85-103 | medio and medium both get the medium subtitle |
| Notifier.HighLevels | backend/utils/notifier.py:85-103 | alto, alta and high all get the high subtitle |
| Notifier.LowerWord | backend/utils/notifier.py:83 | a lower-case word normalises to itself |
| Notifier.SendAlert | backend/utils/notifier.py:54-119 | macOS gets a dialog exactly for medio/medium/alto/high (stop icon exactly for alto/high) and a banner otherwise; Linux is critical exactly for alto/high; other systems get nothing; the title, subtitle and message are the built ones |
| Notifier.PrefixedLevelNotEscalated | backend/utils/notifier.py:107-190 | a `risk.`-prefixed level keeps its subtitle but never gets the macOS dialog nor critical urgency |

## Left out

- Operating-system I/O enters as inputs and is not modelled. This covers psutil enumeration, the `lsof`, `codesign`, `spctl` and `xattr` subprocesses, file times, process parents, and the `os.kill`/`killpg`/launchctl calls.
- The FastAPI routes, the WebSocket manager, `broadcast_loop` and the scheduling of `resource_monitor_loop` are async I/O. Only one pass of the resource scan is modelled.
- The kill records built by the network kill path (`backend/core/server.py:1275-1289`) and the deny-rule kill path (`backend/core/server.py:730-741`) are not modelled. Both paths use the same insert-and-bound step on the kill log, which is modelled once as `Threats.KillLog.Record`.
- Beacon detection (`_beacon_flag`, a numpy standard deviation) is not modelled. The `beacon` flag is an input field of the row.
- The disk-write speed of the resource scan divides real numbers. It is computed on Dafny reals, not on binary floating point.
- Formatting with `toFixed`, `round(x, 2)`, entropy to two decimals, `toISOString` and `toLocaleString` is not modelled. These texts are parameters or opaque functions.
- The Shannon entropy of `calculate_entropy` is a parameter.
- The d3 colour scale of the world map and its fill colours are not modelled.
- Common.ParseInt and Dns.IpLike accept ASCII digits only. Python's `int()` and the `\d` of its regular expressions also accept other Unicode decimal digits, which neither `lsof` output nor domain names carry.
- `Common.ParseInt` accepts an optional sign followed by decimal digits. It does not accept the surrounding whitespace and digit underscores that Python's `int()` also takes, because `lsof` never emits them.
- `Probes.ParseCodesign` splits its input at `\n` only. Python's `splitlines` also splits at `\r` and other line breaks, which `codesign` does not emit.
- The case folding of the string helpers is ASCII only. JavaScript's `toLowerCase`/`toUpperCase` and Python's `lower` also fold non-ASCII letters.
- JavaScript's ordering of array-index object keys is not modelled in `Dashboard`. A process named by a decimal number such as "123" comes first in `Object.entries`; the model keeps first-seen order, which only affects ties after the stable sort. `Table.Grouped` does model that ordering for pids.
- Narrative.PortFrom: reads the trimmed empty text as 0 and optionally signed decimal integers as themselves; any other text reads as no number. JavaScript's `Number()` also accepts hexadecimal, octal and binary literals, fractions and exponents, which the backend's `ip:port` addresses do not carry.
- The risky TLDs are a Python set, whose iteration order is not modelled. The model takes them as a list and reports the first match in list order. The keywords are a list in the source as well.
- When several rules fit one tier of `find_matching_rule`, the model picks the earliest inserted: under `ORDER BY port DESC NULLS LAST LIMIT 1` among rules of the same port, and under the plain `LIMIT 1` of the process-destination tiers among all fitting rules. SQLite leaves both orders unspecified.
- Rule ids are `uuid4` values in the source and come from a counter here, so fresh ids are distinct by construction.
- Rule timestamps are integers, not ISO-8601 text compared as strings.
- The JSON `context` stored with a rule is not kept in the table. `BlockedPanel.RuleConn` takes the context as a parameter.
- SQLite schema creation and migration, `get_rules`, rule export, and the broken `create_rule` route of `backend/core/server.py:1805-1833` are not modelled.
- The DNS sniffer's thread, lock, `tcpdump` process and line regexes are not modelled. Each line comes in already classified as a query, a response or neither.
- DNS configuration load, save and reload are file I/O and are not modelled. The lists are a parameter of the analysis.
- AbuseIPDB requests, GeoIP lookups and downloads, and icon extraction are not modelled. Their results are fields of the row.
- The copy of the `lsof` fallback in `backend/core/server.py` is not modelled: it adds skipping the server's own process, domain enrichment and the newer scorer. Only the older `server.py` copy is modelled.
- `Tray.ChoosePort` takes the set of busy ports from the socket probe. Reading `PW_PORT` from the environment, with its `int()` conversion, is left to the caller.
- `Tray.Monitor.Tick` models one tick without the `try`/`except` around it. An exception raised by the alert engine or the connection table is not modelled.
- The tray's blinking timing, alarm sound, browser focus, `pystray` menu and privilege elevation are not modelled. Neither is the creation of substitute icons when an image file is missing; the loaded icons are a parameter.
- `Notifier.SendAlert` returns what would be handed to `terminal-notifier`, `osascript` or `notify-send`. The subprocess calls, the lookup of `terminal-notifier` and the boolean success result are not modelled.
- Clearing the alert table from the reset route (`backend/core/server.py:447`) is not modelled.
- Threats.LogKills: every kill of one monitoring pass is stamped with the same `now`. The source reads the clock once per kill, a few microseconds apart.
- Alerts.DecisionRequest: a missing executable path is the empty string in the model and becomes `None`. A connection that carries `exe` as an empty string passes `""` to `create_rule` in the source.
- Rules.ImportedRules: a record field that is JSON `null` reads the same as a missing key. The source counts such a key as present, so a record with a `null` required field is not skipped, and a `null` protocol, creation time or enabled flag is stored as NULL instead of its default.
- The network kill path's update of the connection row's status to `KILLED` is not modelled.
- Export.ExportCsv: the `RangeError` that `toISOString` throws on an invalid date is not modelled. The time text is a parameter.
- `send_rule_created` is not modelled: nothing in the modelled core calls it.
- Presentation-only React is not modelled: markup, modals, the copy button, the settings and GeoIP panels, and i18n setup.
- The repository's test scripts and development helpers are not modelled.

=== FILE: alerts.dfy ===
/** The interactive alert engine (backend/core/alert_engine.py): every new
    connection is first checked against the rule table; without a rule it
    becomes a pending alert that the user resolves with a decision, which may
    in turn create a rule.  Time is whole seconds, given by the caller, and
    the md5 digest of a connection key is an injective constructor. */
module Alerts {
  import opened Common
  import opened Records
  import opened Rules

  /** The digest naming the alert of one connection key. */
  datatype AlertId = AlertId(key: string)

  datatype AlertStatus = Pending | Resolved

  datatype Alert = Alert(
    id: AlertId,
    connection: Conn,
    createdAt: int,
    status: AlertStatus,
    count: nat,
    resolvedAt: Option<int>,
    decision: Option<string>)

  /** The user's alert settings. */
  datatype Settings = Settings(
    enabled: bool,
    alertLevel: string,
    ignoredApps: seq<string>,
    autoAllowSigned: bool,
    cooldown: int)

  /** Alerts start disabled, at the "high" threshold, with a one-minute
      notification cooldown. */
  const DefaultSettings := Settings(false, "high", [], false, 60)

  /** A partial settings update: only the present fields change. */
  datatype SettingsUpdate = SettingsUpdate(
    enabled: Option<bool>,
    alertLevel: Option<string>,
    ignoredApps: Option<seq<string>>,
    autoAllowSigned: Option<bool>,
    cooldown: Option<int>)

  /** One desktop notification the engine asked for. */
  datatype Notice = Notice(process: string, destination: string, port: Option<int>, level: string, country: string)

  /** The process name of a connection, with `fallback` when it has neither a
      process nor a name. */
  function ProcName(c: Conn, fallback: string): (r: string)
    ensures c.proc != "" ==> r == c.proc
    ensures c.proc == "" && c.name.None? ==> r == fallback
  {
    if c.proc != "" then c.proc else if c.name.Some? then c.name.value else fallback
  }

  /** The remote host: the text of the remote address before its first
      colon, or "unknown". */
  function HostOf(c: Conn): (r: string)
    ensures r != ""
    ensures r != "unknown" ==> r <= c.raddr && ':' !in r
    ensures r != "unknown" && |r| < |c.raddr| ==> c.raddr[|r|] == ':'
    ensures (|c.raddr| == 0 || c.raddr[0] == ':') ==> r == "unknown"
  {
    var h := BeforeFirst(c.raddr, ':');
    if h == "" then "unknown" else h
  }

  /** The port as Python formats it inside the key. */
  function PortText(p: Option<int>): string {
    if p.Some? then IntToString(p.value) else "None"
  }

  /** The key identifying a connection: process, host and port joined by
      bars. */
  function ConnectionKey(c: Conn): string {
    ProcName(c, "unknown") + "|" + HostOf(c) + "|" + PortText(c.dport)
  }

  function AlertIdOf(c: Conn): AlertId {
    AlertId(ConnectionKey(c))
  }

  /** Connections that differ only in the remote port or the text after the
      host share one key, hence one alert. */
  lemma KeyIgnoresRemotePort(c: Conn, d: Conn)
    requires ProcName(c, "unknown") == ProcName(d, "unknown") && c.dport == d.dport
    requires BeforeFirst(c.raddr, ':') == BeforeFirst(d.raddr, ':')
    ensures AlertIdOf(c) == AlertIdOf(d)
  {
  }

  /** For process names and hosts without a bar, the key tells the process,
      the host and the port apart. */
  lemma KeySeparates(p1: string, h1: string, t1: string, p2: string, h2: string, t2: string)
    requires '|' !in p1 && '|' !in p2 && '|' !in h1 && '|' !in h2
    requires p1 + "|" + h1 + "|" + t1 == p2 + "|" + h2 + "|" + t2
    ensures p1 == p2 && h1 == h2 && t1 == t2
  {
    assert p1 + "|" + h1 + "|" + t1 == p1 + "|" + (h1 + "|" + t1);
    assert p2 + "|" + h2 + "|" + t2 == p2 + "|" + (h2 + "|" + t2);
    BarSplit(p1, h1 + "|" + t1, p2, h2 + "|" + t2);
    BarSplit(h1, t1, h2, t2);
  }

  lemma BarSplit(a: string, b: string, x: string, y: string)
    requires '|' !in a && '|' !in x
    requires a + "|" + b == x + "|" + y
    ensures a == x && b == y
  {
    var s := a + "|" + b;
    assert s[..|a|] == a;
    FirstCharAt(s, |a|, '|');
    var t := x + "|" + y;
    assert t[..|x|] == x;
    FirstCharAt(t, |x|, '|');
    assert a == s[..|a|] && x == s[..|x|];
    assert b == s[|a| + 1..] && y == s[|x| + 1..];
  }

  // ---------------------------------------------------------------------------
  // Filtering and cooldown

  /** The connection's level; a missing level counts as "bajo". */
  function LevelOf(c: Conn): string {
    if c.level == "" then Bajo else c.level
  }

  /** "high" lets only "alto" through, "medium" everything but "bajo", and
      any other threshold everything. */
  predicate LevelPasses(threshold: string, level: string) {
    !(threshold == "high" && level != Alto) && !(threshold == "medium" && level == Bajo)
  }

  /** Whether a connection without a rule raises an alert. */
  function ShouldAlert(s: Settings, c: Conn): (r: bool)
    ensures r <==> s.enabled && LevelPasses(s.alertLevel, LevelOf(c))
                   && ProcName(c, "") !in s.ignoredApps && !(s.autoAllowSigned && c.apple)
  {
    if !s.enabled then false
    else if s.alertLevel == "high" && LevelOf(c) != Alto then false
    else if s.alertLevel == "medium" && LevelOf(c) == Bajo then false
    else if ProcName(c, "") in s.ignoredApps then false
    else !(s.autoAllowSigned && c.apple)
  }

  /** Lowering the threshold never silences an alert: what alerts at "high"
      alerts at "medium", and what alerts at "medium" alerts at "all". */
  lemma ThresholdOrder(s: Settings, c: Conn)
    ensures ShouldAlert(s.(alertLevel := "high"), c) ==> ShouldAlert(s.(alertLevel := "medium"), c)
    ensures ShouldAlert(s.(alertLevel := "medium"), c) ==> ShouldAlert(s.(alertLevel := "all"), c)
    ensures s.enabled && LevelOf(c) == Alto && ProcName(c, "") !in s.ignoredApps && !(s.autoAllowSigned && c.apple) ==>
      ShouldAlert(s, c)
  {
  }

  /** A notification is due when none was sent for the key or the last one is
      older than the cooldown. */
  function ShouldNotify(last: map<string, int>, key: string, cooldown: int, now: int): (r: bool)
    ensures key !in last ==> r
    ensures key in last ==> (r <==> now - last[key] > cooldown)
  {
    key !in last || now - last[key] > cooldown
  }

  /** After a notification at `sent`, none is due again for the same key
      until the cooldown has passed, and one is due after it. */
  lemma NotifyCooldown(last: map<string, int>, key: string, cooldown: int, sent: int, now: int)
    ensures now <= sent + cooldown ==> !ShouldNotify(last[key := sent], key, cooldown, now)
    ensures now > sent + cooldown ==> ShouldNotify(last[key := sent], key, cooldown, now)
  {
  }

  function NoticeOf(c: Conn): Notice {
    Notice(ProcName(c, "unknown"), HostOf(c), c.dport, if c.level == "" then Medio else c.level, c.country)
  }

  // ---------------------------------------------------------------------------
  // The alert table

  /** The alert table after one more alerting connection: a fresh pending
      alert whose count is one more than before. */
  function Recorded(alerts: map<AlertId, Alert>, c: Conn, now: int): (out: map<AlertId, Alert>)
    ensures out.Keys == alerts.Keys + {AlertIdOf(c)}
    ensures out[AlertIdOf(c)].status == Pending && out[AlertIdOf(c)].connection == c
    ensures out[AlertIdOf(c)].count == (if AlertIdOf(c) in alerts then alerts[AlertIdOf(c)].count else 0) + 1
    ensures forall id :: id in alerts && id != AlertIdOf(c) ==> out[id] == alerts[id]
  {
    var id := AlertIdOf(c);
    alerts[id := Alert(id, c, now, Pending, (if id in alerts then alerts[id].count else 0) + 1, None, None)]
  }

  /** The same connection alerting at each of the times in `nows`. */
  function RecordedAt(alerts: map<AlertId, Alert>, c: Conn, nows: seq<int>): map<AlertId, Alert>
    decreases |nows|
  {
    if |nows| == 0 then alerts else Recorded(RecordedAt(alerts, c, nows[..|nows| - 1]), c, nows[|nows| - 1])
  }

  /** Repeated alerting connections keep one pending alert whose count is the
      number of connections. */
  lemma {:induction false} RecordedCount(alerts: map<AlertId, Alert>, c: Conn, nows: seq<int>)
    requires |nows| > 0
    ensures AlertIdOf(c) in RecordedAt(alerts, c, nows)
    ensures RecordedAt(alerts, c, nows)[AlertIdOf(c)].status == Pending
    ensures RecordedAt(alerts, c, nows)[AlertIdOf(c)].count ==
      (if AlertIdOf(c) in alerts then alerts[AlertIdOf(c)].count else 0) + |nows|
    decreases |nows|
  {
    if |nows| > 1 {
      RecordedCount(alerts, c, nows[..|nows| - 1]);
    }
  }

  /** The alert after the user's decision. */
  function Resolve(a: Alert, action: string, now: int): (r: Alert)
    ensures r.status == Resolved && r.decision == Some(action) && r.resolvedAt == Some(now)
    ensures r.id == a.id && r.connection == a.connection && r.count == a.count && r.createdAt == a.createdAt
  {
    a.(status := Resolved, resolvedAt := Some(now), decision := Some(action))
  }

  /** An alert is stale once it has been resolved before the cutoff. */
  predicate Stale(a: Alert, cutoff: int) {
    a.status == Resolved && a.resolvedAt.Some? && a.resolvedAt.value < cutoff
  }

  /** Every alert sits under its own id, has been seen at least once, and
      carries a decision and a resolution time exactly when resolved. */
  predicate WellFormed(alerts: map<AlertId, Alert>) {
    forall id :: id in alerts ==>
      && alerts[id].id == id
      && alerts[id].count >= 1
      && (alerts[id].status == Resolved <==> alerts[id].resolvedAt.Some?)
      && (alerts[id].status == Resolved <==> alerts[id].decision.Some?)
  }

  /** What `get_alert_info_for_connection` reports. */
  datatype AlertInfo = AlertInfo(id: AlertId, status: AlertStatus, createdAt: int,
                                 decision: Option<string>, resolvedAt: Option<int>)

  /** The rule-table query for a connection; the engine never matches on a
      hash. */
  function QueryOf(c: Conn): (q: Query)
    ensures q.exeHash.None? && q.port == c.dport
  {
    Query(ProcName(c, "unknown"), HostOf(c), c.dport, ExeOf(c), None)
  }

  function ExeOf(c: Conn): Option<string> {
    if c.exe == "" then None else Some(c.exe)
  }

  /** The rule a decision creates: TCP, 24 hours for a temporary scope, with a
      comment naming the alert. */
  function DecisionRequest(c: Conn, id: AlertId, action: string, scope: string): RuleRequest {
    RuleRequest(ProcName(c, "unknown"), HostOf(c), action, scope, c.dport, "TCP", ExeOf(c), None,
                Some("Created via alert " + id.key), if scope == "temporary" then Some(24) else None)
  }

  predicate Persistent(scope: string) {
    scope == "always" || scope == "temporary"
  }

  function Merged(s: Settings, u: SettingsUpdate): Settings {
    Settings(
      if u.enabled.Some? then u.enabled.value else s.enabled,
      if u.alertLevel.Some? then u.alertLevel.value else s.alertLevel,
      if u.ignoredApps.Some? then u.ignoredApps.value else s.ignoredApps,
      if u.autoAllowSigned.Some? then u.autoAllowSigned.value else s.autoAllowSigned,
      if u.cooldown.Some? then u.cooldown.value else s.cooldown)
  }

  /** The seen cache is cleared when alerts are switched on or the threshold
      is part of the update. */
  predicate ClearsSeen(s: Settings, u: SettingsUpdate) {
    (u.enabled.Some? && u.enabled.value && !s.enabled) || u.alertLevel.Some?
  }

  // ---------------------------------------------------------------------------
  // The order of the alert table

  /** The key order of the alert dictionary after storing under `id`: a new
      key goes to the end, an existing one keeps its place. */
  function Stored(order: seq<AlertId>, id: AlertId): (r: seq<AlertId>)
    ensures id in r && forall x :: x in r <==> x in order || x == id
    ensures id !in order ==> r == order + [id]
    ensures id in order ==> r == order
  {
    if id in order then order else order + [id]
  }

  predicate NoRepeats(order: seq<AlertId>) {
    forall i, j :: 0 <= i < j < |order| ==> order[i] != order[j]
  }

  /** The key order lists each alert of the table exactly once. */
  ghost predicate OrderOf(order: seq<AlertId>, alerts: map<AlertId, Alert>) {
    NoRepeats(order) && forall id :: id in order <==> id in alerts
  }

  /** The key order after deleting every key missing from `alerts`: the
      remaining keys keep their places. */
  function Restricted(order: seq<AlertId>, alerts: map<AlertId, Alert>): (r: seq<AlertId>)
    ensures forall id :: id in r <==> id in order && id in alerts
    ensures NoRepeats(order) ==> NoRepeats(r)
    decreases |order|
  {
    if |order| == 0 then []
    else
      var rest := Restricted(order[1..], alerts);
      assert forall x :: x in order <==> x == order[0] || x in order[1..];
      assert NoRepeats(order) ==> order[0] !in order[1..];
      if order[0] in alerts then [order[0]] + rest else rest
  }

  /** Deleting keys leaves the others in their relative order. */
  lemma {:induction false} RestrictedInOrder(order: seq<AlertId>, alerts: map<AlertId, Alert>)
    ensures IsSubsequence(Restricted(order, alerts), order)
    decreases |order|
  {
    if |order| > 0 {
      var rest := Restricted(order[1..], alerts);
      RestrictedInOrder(order[1..], alerts);
      if order[0] !in alerts && |rest| > 0 {
        assert rest[0] in order[1..];
      }
    }
  }

  /** The ids of a listing of alerts. */
  function IdsOf(r: seq<Alert>): (ids: seq<AlertId>)
    ensures |ids| == |r| && forall i :: 0 <= i < |r| ==> ids[i] == r[i].id
  {
    seq(|r|, i requires 0 <= i < |r| => r[i].id)
  }

  /** The pending alerts, in the key order of the table. */
  function PendingIn(order: seq<AlertId>, alerts: map<AlertId, Alert>): (r: seq<Alert>)
    ensures |r| <= |order|
    ensures forall i :: 0 <= i < |r| ==> r[i] in alerts.Values && r[i].status == Pending
    ensures forall id :: id in order && id in alerts && alerts[id].status == Pending ==> alerts[id] in r
    decreases |order|
  {
    if |order| == 0 then []
    else
      var rest := PendingIn(order[1..], alerts);
      var id := order[0];
      assert forall x :: x in order ==> x == id || x in order[1..];
      if id in alerts && alerts[id].status == Pending then [alerts[id]] + rest else rest
  }

  /** The pending alerts come in the order their keys were first stored. */
  lemma {:induction false} PendingInOrder(order: seq<AlertId>, alerts: map<AlertId, Alert>)
    requires WellFormed(alerts) && NoRepeats(order)
    ensures IsSubsequence(IdsOf(PendingIn(order, alerts)), order)
    decreases |order|
  {
    if |order| > 0 {
      var rest := PendingIn(order[1..], alerts);
      PendingInOrder(order[1..], alerts);
      if order[0] in alerts && alerts[order[0]].status == Pending {
        assert IdsOf([alerts[order[0]]] + rest) == [order[0]] + IdsOf(rest);
      } else if |rest| > 0 {
        PendingIdsIn(order[1..], alerts);
        assert IdsOf(rest)[0] in order[1..];
      }
    }
  }

  /** Recording an alert and storing its key keep the order a listing of
      the table. */
  lemma StoredKeepsOrder(order: seq<AlertId>, alerts: map<AlertId, Alert>, c: Conn, now: int)
    requires WellFormed(alerts) && OrderOf(order, alerts)
    ensures WellFormed(Recorded(alerts, c, now))
    ensures OrderOf(Stored(order, AlertIdOf(c)), Recorded(alerts, c, now))
  {
    var id := AlertIdOf(c);
    if id !in order {
      var out := order + [id];
      forall i, j | 0 <= i < j < |out| ensures out[i] != out[j] {
        if j == |order| { assert out[i] in order; }
      }
    }
  }

  lemma {:induction false} PendingIdsIn(order: seq<AlertId>, alerts: map<AlertId, Alert>)
    requires WellFormed(alerts)
    ensures forall i :: 0 <= i < |PendingIn(order, alerts)| ==> PendingIn(order, alerts)[i].id in order
    decreases |order|
  {
    if |order| > 0 {
      PendingIdsIn(order[1..], alerts);
    }
  }

  /** A key stored last lists its alert, while pending, after all the others. */
  lemma {:induction false} PendingAppend(order: seq<AlertId>, alerts: map<AlertId, Alert>, id: AlertId)
    ensures PendingIn(order + [id], alerts)
      == PendingIn(order, alerts) + (if id in alerts && alerts[id].status == Pending then [alerts[id]] else [])
    decreases |order|
  {
    if |order| == 0 {
      assert order + [id] == [id];
      assert [id][1..] == [];
    } else {
      assert (order + [id])[1..] == order[1..] + [id];
      PendingAppend(order[1..], alerts, id);
    }
  }

  class AlertEngine {
    const store: RulesManager
    var seen: set<string>
    var alerts: map<AlertId, Alert>
    var settings: Settings
    var lastNotified: map<string, int>
    var notices: seq<Notice>
    /** The insertion order of the alert dictionary. */
    var order: seq<AlertId>

    ghost predicate Valid()
      reads this, store
    {
      store.Valid() && WellFormed(alerts) && OrderOf(order, alerts)
    }

    constructor(store: RulesManager)
      requires store.Valid()
      ensures Valid() && this.store == store
      ensures seen == {} && alerts == map[] && settings == DefaultSettings && lastNotified == map[] && notices == []
      ensures order == []
    {
      this.store := store;
      seen := {};
      alerts := map[];
      settings := DefaultSettings;
      lastNotified := map[];
      notices := [];
      order := [];
    }

    /** The action for a connection: a matching rule decides (and a one-off
        rule is used up); otherwise the connection is remembered and either
        becomes a pending alert, answered "ask", or passes the filter and is
        allowed. */
    method ProcessConnection(c: Conn, now: int) returns (action: string)
      requires Valid()
      modifies this, store
      ensures Valid()
      ensures settings == old(settings) && store.nextId == old(store.nextId)
      ensures var m := Match(Expire(old(store.rules), now), QueryOf(c));
        m.Some? ==>
          && action == m.value.action
          && store.rules == (if m.value.scope == "once" then SetEnabled(Expire(old(store.rules), now), m.value.id, false)
                             else Expire(old(store.rules), now))
          && seen == old(seen) && alerts == old(alerts) && order == old(order)
          && lastNotified == old(lastNotified) && notices == old(notices)
      ensures var m := Match(Expire(old(store.rules), now), QueryOf(c));
        m.None? ==>
          && store.rules == Expire(old(store.rules), now)
          && seen == old(seen) + {ConnectionKey(c)}
          && (ShouldAlert(old(settings), c) ==>
                action == "ask" && alerts == Recorded(old(alerts), c, now) && order == Stored(old(order), AlertIdOf(c)))
          && (!ShouldAlert(old(settings), c) ==> action == "allow" && alerts == old(alerts) && order == old(order))
      ensures var m := Match(Expire(old(store.rules), now), QueryOf(c));
        m.None? && ShouldAlert(old(settings), c) && ShouldNotify(old(lastNotified), ConnectionKey(c), old(settings).cooldown, now) ==>
          notices == old(notices) + [NoticeOf(c)] && lastNotified == old(lastNotified)[ConnectionKey(c) := now]
      ensures var m := Match(Expire(old(store.rules), now), QueryOf(c));
        !(m.None? && ShouldAlert(old(settings), c) && ShouldNotify(old(lastNotified), ConnectionKey(c), old(settings).cooldown, now)) ==>
          notices == old(notices) && lastNotified == old(lastNotified)
    {
      var rule := store.FindMatchingRule(QueryOf(c), now);
      if rule.Some? {
        if rule.value.scope == "once" {
          var _ := store.DisableRule(rule.value.id);
        }
        return rule.value.action;
      }
      action := Unmatched(c, now);
    }

    /** A connection without a rule: remembered, then either a pending alert
        with a notification when none is cooling down, or allowed. */
    method Unmatched(c: Conn, now: int) returns (action: string)
      requires WellFormed(alerts) && OrderOf(order, alerts)
      modifies this
      ensures WellFormed(alerts) && OrderOf(order, alerts)
      ensures settings == old(settings) && seen == old(seen) + {ConnectionKey(c)}
      ensures ShouldAlert(settings, c) ==>
        action == "ask" && alerts == Recorded(old(alerts), c, now) && order == Stored(old(order), AlertIdOf(c))
      ensures !ShouldAlert(settings, c) ==> action == "allow" && alerts == old(alerts) && order == old(order)
      ensures ShouldAlert(settings, c) && ShouldNotify(old(lastNotified), ConnectionKey(c), settings.cooldown, now) ==>
        notices == old(notices) + [NoticeOf(c)] && lastNotified == old(lastNotified)[ConnectionKey(c) := now]
      ensures !(ShouldAlert(settings, c) && ShouldNotify(old(lastNotified), ConnectionKey(c), settings.cooldown, now)) ==>
        notices == old(notices) && lastNotified == old(lastNotified)
    {
      seen := seen + {ConnectionKey(c)};
      if ShouldAlert(settings, c) {
        StoredKeepsOrder(order, alerts, c, now);
        alerts := Recorded(alerts, c, now);
        order := Stored(order, AlertIdOf(c));
        Notify(c, now);
        action := "ask";
      } else {
        action := "allow";
      }
    }

    /** Sends the notification for an alert unless one for the same key is
        still cooling down. */
    method Notify(c: Conn, now: int)
      modifies this
      ensures settings == old(settings) && seen == old(seen) && alerts == old(alerts) && order == old(order)
      ensures ShouldNotify(old(lastNotified), ConnectionKey(c), settings.cooldown, now) ==>
        notices == old(notices) + [NoticeOf(c)] && lastNotified == old(lastNotified)[ConnectionKey(c) := now]
      ensures !ShouldNotify(old(lastNotified), ConnectionKey(c), settings.cooldown, now) ==>
        notices == old(notices) && lastNotified == old(lastNotified)
    {
      var key := ConnectionKey(c);
      if ShouldNotify(lastNotified, key, settings.cooldown, now) {
        notices := notices + [NoticeOf(c)];
        lastNotified := lastNotified[key := now];
      }
    }

    /** The user's decision on an alert.  An unknown alert, or a rule the
        table refuses, gives false and leaves the alert pending; otherwise an
        "always" or "temporary" decision adds a rule and the alert is
        resolved. */
    method DecideAlert(id: AlertId, action: string, scope: string, now: int) returns (ok: bool)
      requires Valid()
      modifies this, store
      ensures Valid()
      ensures seen == old(seen) && settings == old(settings)
      ensures lastNotified == old(lastNotified) && notices == old(notices) && order == old(order)
      ensures id !in old(alerts) ==> !ok && alerts == old(alerts) && store.rules == old(store.rules)
      ensures id in old(alerts) && Persistent(scope) && !ValidAction(action) ==>
        !ok && alerts == old(alerts) && store.rules == old(store.rules)
      ensures id in old(alerts) && Persistent(scope) && ValidAction(action) ==>
        && ok && alerts == old(alerts)[id := Resolve(old(alerts)[id], action, now)]
        && store.rules == old(store.rules) + [NewRule(DecisionRequest(old(alerts)[id].connection, id, action, scope), old(store.nextId), now)]
      ensures id in old(alerts) && !Persistent(scope) ==>
        ok && alerts == old(alerts)[id := Resolve(old(alerts)[id], action, now)] && store.rules == old(store.rules)
    {
      if id !in alerts {
        return false;
      }
      var c := alerts[id].connection;
      if scope == "always" || scope == "temporary" {
        var created := store.CreateRule(DecisionRequest(c, id, action, scope), now);
        if created.Err? {
          return false;
        }
      }
      alerts := alerts[id := Resolve(alerts[id], action, now)];
      ok := true;
    }

    /** The alert state of a connection, with the decision once resolved. */
    function AlertInfoFor(c: Conn): (r: Option<AlertInfo>)
      reads this
      ensures r.Some? <==> AlertIdOf(c) in alerts
      ensures r.Some? ==> r.value.id == AlertIdOf(c) && r.value.status == alerts[AlertIdOf(c)].status
      ensures r.Some? ==> r.value.createdAt == alerts[AlertIdOf(c)].createdAt
      ensures r.Some? && r.value.status == Pending ==> r.value.decision.None? && r.value.resolvedAt.None?
      ensures r.Some? && r.value.status == Resolved ==>
        r.value.decision == alerts[AlertIdOf(c)].decision && r.value.resolvedAt == alerts[AlertIdOf(c)].resolvedAt
    {
      var id := AlertIdOf(c);
      if id !in alerts then None
      else
        var a := alerts[id];
        if a.status == Resolved then Some(AlertInfo(id, a.status, a.createdAt, a.decision, a.resolvedAt))
        else Some(AlertInfo(id, a.status, a.createdAt, None, None))
    }

    /** The alerts still waiting for a decision, in the order their keys
        were first stored. */
    function PendingAlerts(): (r: seq<Alert>)
      requires Valid()
      reads this, store
      ensures forall a :: a in r <==> a in alerts.Values && a.status == Pending
      ensures IsSubsequence(IdsOf(r), order)
    {
      PendingInOrder(order, alerts);
      PendingIn(order, alerts)
    }

    method UpdateSettings(u: SettingsUpdate)
      requires Valid()
      modifies this
      ensures Valid()
      ensures settings == Merged(old(settings), u)
      ensures seen == if ClearsSeen(old(settings), u) then {} else old(seen)
      ensures alerts == old(alerts) && order == old(order)
      ensures lastNotified == old(lastNotified) && notices == old(notices)
    {
      var wasEnabled := settings.enabled;
      var newEnabled := if u.enabled.Some? then u.enabled.value else wasEnabled;
      settings := Merged(settings, u);
      if (newEnabled && !wasEnabled) || u.alertLevel.Some? {
        seen := {};
      }
    }

    /** Forgets the alerts resolved more than `hours` hours ago. */
    method CleanupOldAlerts(hours: int, now: int)
      requires Valid()
      modifies this
      ensures Valid()
      ensures alerts == map id | id in old(alerts) && !Stale(old(alerts)[id], now - 3600 * hours) :: old(alerts)[id]
      ensures order == Restricted(old(order), alerts)
      ensures seen == old(seen) && settings == old(settings)
      ensures lastNotified == old(lastNotified) && notices == old(notices)
    {
      var cutoff := now - 3600 * hours;
      var kept := map id | id in alerts && !Stale(alerts[id], cutoff) :: alerts[id];
      order := Restricted(order, kept);
      alerts := kept;
    }
  }

  // ---------------------------------------------------------------------------
  // How the engine and the rule table work together

  /** Cleanup never drops a pending alert. */
  lemma CleanupKeepsPending(alerts: map<AlertId, Alert>, cutoff: int, id: AlertId)
    requires id in alerts && alerts[id].status == Pending
    ensures id in (map k | k in alerts && !Stale(alerts[k], cutoff) :: alerts[k])
  {
  }

  lemma ExpireAppend(rules: seq<Rule>, r: Rule, now: int)
    ensures Expire(rules + [r], now) == Expire(rules, now) + [ExpireOne(r, now)]
  {
  }

  /** A connection that found no rule finds none on the next call either: a
      later sweep only disables more rules. */
  lemma NoMatchPersists(rules: seq<Rule>, q: Query, later: int)
    requires Match(rules, q).None?
    ensures Match(Expire(rules, later), q).None?
  {
    var out := Expire(rules, later);
    forall i | 0 <= i < |out| && out[i].enabled
      ensures out[i] == rules[i]
    {
    }
  }

  /** After the user decides "always" or "temporary" on a connection that had
      no rule, the next call for the same connection, while a temporary rule
      has not expired, finds the new rule and so returns the decision. */
  lemma DecisionSticks(rules: seq<Rule>, c: Conn, id: AlertId, action: string, scope: string, ruleId: RuleId,
                       decided: int, now: int)
    requires Match(rules, QueryOf(c)).None?
    requires Persistent(scope) && ValidAction(action)
    requires now <= decided + 3600 * 24
    ensures Match(Expire(rules + [NewRule(DecisionRequest(c, id, action, scope), ruleId, decided)], now), QueryOf(c)) ==
      Some(NewRule(DecisionRequest(c, id, action, scope), ruleId, decided))
  {
    var q := QueryOf(c);
    var r := NewRule(DecisionRequest(c, id, action, scope), ruleId, decided);
    assert ExpireOne(r, now) == r;
    NoMatchPersists(rules, q, now);
    ExpireAppend(rules, r, now);
    AppendedRuleMatches(Expire(rules, now), r, q);
  }

  /** A rule for exactly the query, appended to a table where nothing
      matches, is the match. */
  lemma AppendedRuleMatches(rules: seq<Rule>, r: Rule, q: Query)
    requires Match(rules, q).None? && q.exeHash.None?
    requires r.enabled && r.process == q.process && r.destination == q.destination
    requires r.exePath == q.exePath && r.port == q.port
    ensures Match(rules + [r], q) == Some(r)
  {
    if Truthy(q.exePath) {
      FirstAppend(rules, r, ByPath, ExactPort, q);
      FirstAppend(rules, r, ByPath, NoPort, q);
    } else {
      FirstAppend(rules, r, ByProcess, ExactPort, q);
      FirstAppend(rules, r, ByProcess, NoPort, q);
    }
  }
}

=== FILE: alertspanel.dfy ===
/** The pending-alerts panel: the scope the user picked for each alert,
    what a decision sends to the backend, and what each alert shows. */
module AlertsPanel {
  import opened Common
  import opened Records
  import Alerts

  /** `selectedScopes[alertId] || 'always'`. */
  function ScopeFor(scopes: map<string, string>, id: string): (s: string)
    ensures s != ""
    ensures id in scopes && scopes[id] != "" ==> s == scopes[id]
    ensures !(id in scopes && scopes[id] != "") ==> s == "always"
  {
    if id in scopes && scopes[id] != "" then scopes[id] else "always"
  }

  /** The call `onDecide(alertId, action, scope)`. */
  datatype Decision = Decision(id: string, action: string, scope: string)

  /** `setScope`: one alert's entry set, every other entry kept. */
  function SetScope(scopes: map<string, string>, id: string, scope: string): (r: map<string, string>)
    ensures id in r && r[id] == scope
    ensures forall other :: other != id ==> (other in r <==> other in scopes)
    ensures forall other :: other != id && other in scopes ==> r[other] == scopes[other]
  {
    scopes[id := scope]
  }

  /** `handleDecide`: the decision sent, and the scopes with this alert's
      entry deleted and every other entry kept. */
  function Decide(scopes: map<string, string>, id: string, action: string): (r: (Decision, map<string, string>))
    ensures r.0.id == id && r.0.action == action && r.0.scope == ScopeFor(scopes, id)
    ensures id !in r.1
    ensures forall other :: other != id ==> (other in r.1 <==> other in scopes)
    ensures forall other :: other != id && other in scopes ==> r.1[other] == scopes[other]
  {
    (Decision(id, action, ScopeFor(scopes, id)), scopes - {id})
  }

  /** A scope picked for an alert is the one its decision carries, and the
      next decision on that id falls back to 'always'. */
  lemma PickedScopeIsUsed(scopes: map<string, string>, id: string, scope: string, action: string)
    requires scope != ""
    ensures Decide(SetScope(scopes, id, scope), id, action).0.scope == scope
    ensures ScopeFor(Decide(SetScope(scopes, id, scope), id, action).1, id) == "always"
  {
  }

  /** Picking a scope for one alert does not change the decision of another. */
  lemma OtherDecisionsKept(scopes: map<string, string>, id: string, scope: string, other: string, action: string)
    requires other != id
    ensures Decide(SetScope(scopes, id, scope), other, action).0 == Decide(scopes, other, action).0
  {
  }

  // ---------------------------------------------------------------------------
  // One alert as shown

  datatype AlertView = AlertView(proc: string, destination: string, port: Option<int>, level: string)

  function ShowAlert(c: Conn): (v: AlertView)
    ensures c.proc != "" ==> v.proc == c.proc
    ensures c.proc == "" && c.name.Some? && c.name.value != "" ==> v.proc == c.name.value
    ensures c.proc == "" && !(c.name.Some? && c.name.value != "") ==> v.proc == "Unknown"
    ensures v.proc != ""
    ensures v.destination <= c.raddr && ':' !in v.destination
    ensures |v.destination| < |c.raddr| ==> c.raddr[|v.destination|] == ':'
    ensures v.port == c.dport
    ensures v.level == (if c.level != "" then c.level else Medio)
  {
    var proc := if c.proc != "" then c.proc
                else if c.name.Some? && c.name.value != "" then c.name.value
                else "Unknown";
    AlertView(proc, BeforeFirst(c.raddr, ':'), c.dport, if c.level != "" then c.level else Medio)
  }

  /** The destination shown is the host of the backend's alert key whenever
      it is not empty. */
  lemma ShownHostIsKeyHost(c: Conn)
    requires ShowAlert(c).destination != ""
    ensures ShowAlert(c).destination == Alerts.HostOf(c)
  {
  }
}

=== FILE: blocked.dfy ===
/** The blocked-processes panel: the enabled deny rules it lists, the scope
    label and colour of each, and the connection record it builds from a
    rule for the details dialog.  Translated texts are modelled by their
    translation keys. */
module BlockedPanel {
  import opened Common
  import opened Records
  import opened Rules
  import Narrative

  predicate IsDenied(r: Rule) {
    r.action == "deny" && r.enabled
  }

  /** `deniedRules`, or `None` when the panel is not rendered. */
  function DeniedRules(rules: seq<Rule>): (r: Option<seq<Rule>>)
    ensures r.None? <==> forall i :: 0 <= i < |rules| ==> !IsDenied(rules[i])
    ensures r.Some? ==> |r.value| > 0 && r.value == Filter(rules, IsDenied)
  {
    var shown := Filter(rules, IsDenied);
    if |shown| == 0 then
      assert forall i :: 0 <= i < |rules| ==> rules[i] !in shown;
      None
    else
      assert shown[0] in rules && IsDenied(shown[0]);
      Some(shown)
  }

  /** Exactly the enabled deny rules are listed. */
  lemma ListedRules(rules: seq<Rule>, r: Rule)
    requires DeniedRules(rules).Some?
    ensures r in DeniedRules(rules).value <==> r in rules && r.action == "deny" && r.enabled
  {
  }

  /** The text shown for a scope: a translation key, or the scope itself. */
  datatype ScopeText = Translated(key: string) | Verbatim(text: string)

  predicate KnownScope(scope: string) {
    scope == "once" || scope == "temporary" || scope == "always"
  }

  /** `formatScope`. */
  function FormatScope(scope: string): (r: ScopeText)
    ensures r.Translated? <==> KnownScope(scope)
    ensures r.Translated? ==> r.key == "blockedProcesses.scope_" + scope
    ensures r.Verbatim? ==> r.text == scope
  {
    match scope
    case "once" => Translated("blockedProcesses.scope_once")
    case "temporary" => Translated("blockedProcesses.scope_temporary")
    case "always" => Translated("blockedProcesses.scope_always")
    case _ => Verbatim(scope)
  }

  const SlateClasses := "text-slate-400 bg-slate-500/10 border-slate-500/30"

  /** `getScopeColor`. */
  function ScopeColor(scope: string): (r: string)
    ensures r == SlateClasses <==> !KnownScope(scope)
  {
    match scope
    case "once" => "text-blue-400 bg-blue-500/10 border-blue-500/30"
    case "temporary" => "text-amber-400 bg-amber-500/10 border-amber-500/30"
    case "always" => "text-red-400 bg-red-500/10 border-red-500/30"
    case _ => SlateClasses
  }

  /** `${rule.port || ''}`. */
  function PortText(port: Option<int>): (r: string)
    ensures ':' !in r
  {
    if port.Some? && port.value != 0 then NoColonInNumber(port.value); IntToString(port.value) else ""
  }

  /** The connection built from a rule and the context stored with it (a
      row with every field empty when the rule has none). */
  function RuleConn(rule: Rule, context: Conn): Conn {
    context.(
      proc := rule.process,
      exe := if rule.exePath.Some? && rule.exePath.value != "" then rule.exePath.value else context.exe,
      raddr := rule.destination + ":" + PortText(rule.port),
      dport := rule.port,
      level := if context.level != "" then context.level else Medio)
  }

  /** The process, address and port come from the rule, the executable from
      the rule when it has one, the level defaults to medio, and the rest is
      the context's. */
  lemma RuleConnFields(rule: Rule, context: Conn)
    ensures var c := RuleConn(rule, context);
      && c.pid == context.pid && c.proc == rule.process && c.dport == rule.port
      && c.raddr == rule.destination + ":" + PortText(rule.port)
      && c.exe == (if rule.exePath.Some? && rule.exePath.value != "" then rule.exePath.value else context.exe)
      && c.level == (if context.level != "" then context.level else Medio)
      && c.reasons == context.reasons && c.dnsRisk == context.dnsRisk
      && c.country == context.country && c.user == context.user
  {
  }

  /** The details dialog reads the rule's destination and port back from the
      built address; a rule without a port reads as port 0. */
  lemma RuleConnAddress(rule: Rule, context: Conn)
    requires ':' !in rule.destination
    ensures Narrative.HostFrom(RuleConn(rule, context).raddr) == rule.destination
    ensures Narrative.PortFrom(RuleConn(rule, context).raddr)
      == (if rule.port.Some? && rule.port.value != 0 then rule.port else Some(0))
  {
    var raddr := RuleConn(rule, context).raddr;
    RuleConnFields(rule, context);
    var tail := PortText(rule.port);
    assert raddr[..|rule.destination|] == rule.destination;
    FirstCharAt(raddr, |rule.destination|, ':');
    LastColonAt(rule.destination, tail);
    assert raddr[|rule.destination| + 1..] == tail;
    if rule.port.Some? && rule.port.value != 0 {
      Narrative.PortFromRoundTrip(rule.destination, rule.port.value);
    }
  }
}

=== FILE: common.dfy ===
/** Values, string operations and ordering shared by every PortWatch module.
    The string helpers mirror the few JavaScript and Python string operations
    the core relies on (`startsWith`, `includes`, `split(':')[0]`, `rsplit`,
    `trim`, `toLowerCase`, number-to-text).  Trimming follows the whitespace
    set of the language at hand (JavaScript's `trim` or Python's `strip`,
    Unicode spaces included); case folding is restricted to ASCII. */
module Common {

  datatype Option<+T> = None | Some(value: T)

  datatype Result<+T, +E> = Ok(value: T) | Err(error: E)

  // ---------------------------------------------------------------------------
  // Prefixes, suffixes and substrings

  predicate StartsWith(s: string, p: string) {
    p <= s
  }

  predicate EndsWith(s: string, p: string) {
    |p| <= |s| && s[|s| - |p|..] == p
  }

  /** JavaScript `includes` / Python `in` on strings. */
  predicate Contains(s: string, sub: string)
    decreases |s|
  {
    sub <= s || (|s| > 0 && Contains(s[1..], sub))
  }

  lemma {:induction false} ContainsAt(s: string, sub: string, i: nat)
    requires i + |sub| <= |s| && s[i..i + |sub|] == sub
    ensures Contains(s, sub)
    decreases i
  {
    if i == 0 {
      assert s[..|sub|] == sub;
    } else {
      assert s[1..][i - 1..i - 1 + |sub|] == sub;
      ContainsAt(s[1..], sub, i - 1);
    }
  }

  lemma {:induction false} ContainsWitness(s: string, sub: string) returns (i: nat)
    requires Contains(s, sub)
    ensures i + |sub| <= |s| && s[i..i + |sub|] == sub
    decreases |s|
  {
    if sub <= s {
      i := 0;
    } else {
      var j := ContainsWitness(s[1..], sub);
      i := j + 1;
      assert s[i..i + |sub|] == s[1..][j..j + |sub|];
    }
  }

  lemma ContainsEmpty(s: string)
    ensures Contains(s, "")
  {
    assert "" <= s;
  }

  lemma ContainsPrefixed(s: string, sub: string, pre: string)
    requires Contains(s, sub)
    ensures Contains(pre + s, sub)
  {
    var i := ContainsWitness(s, sub);
    assert (pre + s)[|pre| + i..|pre| + i + |sub|] == s[i..i + |sub|];
    ContainsAt(pre + s, sub, |pre| + i);
  }

  lemma ContainsWithin(s: string, sub: string, t: string)
    requires Contains(t, sub) && Contains(s, t)
    ensures Contains(s, sub)
  {
    var i := ContainsWitness(s, t);
    var j := ContainsWitness(t, sub);
    assert s[i..i + |t|] == t;
    forall k | 0 <= k < |sub| ensures s[i + j + k] == sub[k] {
      assert sub[k] == t[j..j + |sub|][k] == t[j + k];
      assert t[j + k] == s[i..i + |t|][j + k];
    }
    assert s[i + j..i + j + |sub|] == sub;
    ContainsAt(s, sub, i + j);
  }

  lemma {:induction false} NotContainsLonger(s: string, sub: string)
    requires |s| < |sub|
    ensures !Contains(s, sub)
    decreases |s|
  {
    if |s| > 0 {
      NotContainsLonger(s[1..], sub);
    }
  }

  /** A string none of whose characters is `c` does not contain `c`. */
  lemma {:induction false} NotContainsChar(s: string, c: char)
    requires forall k :: 0 <= k < |s| ==> s[k] != c
    ensures !Contains(s, [c])
    decreases |s|
  {
    if |s| > 0 {
      assert !([c] <= s) by { assert s[0] != c; }
      NotContainsChar(s[1..], c);
    }
  }

  // ---------------------------------------------------------------------------
  // Case and whitespace

  function LowerChar(c: char): char {
    if 'A' <= c <= 'Z' then (c as int + 32) as char else c
  }

  function UpperChar(c: char): char {
    if 'a' <= c <= 'z' then (c as int - 32) as char else c
  }

  /** `toLowerCase()` / `lower()` on ASCII letters. */
  function ToLower(s: string): (r: string)
    ensures |r| == |s|
    ensures forall i :: 0 <= i < |s| ==> r[i] == LowerChar(s[i])
  {
    seq(|s|, i requires 0 <= i < |s| => LowerChar(s[i]))
  }

  function ToUpper(s: string): (r: string)
    ensures |r| == |s|
    ensures forall i :: 0 <= i < |s| ==> r[i] == UpperChar(s[i])
  {
    seq(|s|, i requires 0 <= i < |s| => UpperChar(s[i]))
  }

  /** Whose notion of whitespace a trim follows: Python's `str.isspace`, or
      the WhiteSpace and LineTerminator characters of ECMAScript. */
  datatype Whitespace = PythonSpace | JsSpace

  /** The characters both languages count as whitespace (ASCII tab, line
      feed, vertical tab, form feed, carriage return and space, and the
      Unicode space separators and line and paragraph separators), plus the
      information separators U+001C..U+001F and NEL for Python and the
      byte-order mark U+FEFF for JavaScript. */
  predicate IsSpace(c: char, w: Whitespace) {
    || c == ' ' || c == '\t' || c == '\n' || c == '\r' || c == '\U{000B}' || c == '\U{000C}'
    || c == '\U{00A0}' || c == '\U{1680}' || '\U{2000}' <= c <= '\U{200A}'
    || c == '\U{2028}' || c == '\U{2029}' || c == '\U{202F}' || c == '\U{205F}' || c == '\U{3000}'
    || (w == PythonSpace && ('\U{001C}' <= c <= '\U{001F}' || c == '\U{0085}'))
    || (w == JsSpace && c == '\U{FEFF}')
  }

  function TrimStart(s: string, w: Whitespace): (r: string)
    ensures |r| <= |s| && r == s[|s| - |r|..]
    ensures r == [] || !IsSpace(r[0], w)
    decreases |s|
  {
    if |s| > 0 && IsSpace(s[0], w) then TrimStart(s[1..], w) else s
  }

  function TrimEnd(s: string, w: Whitespace): (r: string)
    ensures r <= s
    ensures r == [] || !IsSpace(r[|r| - 1], w)
    decreases |s|
  {
    if |s| > 0 && IsSpace(s[|s| - 1], w) then TrimEnd(s[..|s| - 1], w) else s
  }

  /** Python `strip()` (with `PythonSpace`) or JavaScript `trim()` (with
      `JsSpace`). */
  function Trim(s: string, w: Whitespace): (r: string)
    ensures |r| <= |s|
    ensures r == [] || (!IsSpace(r[0], w) && !IsSpace(r[|r| - 1], w))
  {
    TrimEnd(TrimStart(s, w), w)
  }

  /** A string made of whitespace only trims to the empty string, and only such a string does. */
  lemma {:induction false} TrimEmptyIff(s: string, w: Whitespace)
    ensures Trim(s, w) == [] <==> forall k :: 0 <= k < |s| ==> IsSpace(s[k], w)
    decreases |s|
  {
    var t := TrimStart(s, w);
    if |s| > 0 && IsSpace(s[0], w) {
      TrimEmptyIff(s[1..], w);
      assert Trim(s, w) == Trim(s[1..], w);
      if forall k :: 0 <= k < |s[1..]| ==> IsSpace(s[1..][k], w) {
        forall k | 0 <= k < |s| ensures IsSpace(s[k], w) {
          if k > 0 { assert s[k] == s[1..][k - 1]; }
        }
      }
    } else if |s| > 0 {
      assert t == s;
      assert TrimEnd(s, w) != [] by {
        if TrimEnd(s, w) == [] { TrimEndKeepsNonSpace(s, w); }
      }
    }
  }

  lemma {:induction false} TrimEndKeepsNonSpace(s: string, w: Whitespace)
    requires |s| > 0 && !IsSpace(s[0], w)
    ensures |TrimEnd(s, w)| > 0
    decreases |s|
  {
    if IsSpace(s[|s| - 1], w) {
      TrimEndKeepsNonSpace(s[..|s| - 1], w);
    }
  }

  function StripCharStart(s: string, c: char): (r: string)
    ensures |r| <= |s|
    decreases |s|
  {
    if |s| > 0 && s[0] == c then StripCharStart(s[1..], c) else s
  }

  function StripCharEnd(s: string, c: char): (r: string)
    ensures |r| <= |s|
    decreases |s|
  {
    if |s| > 0 && s[|s| - 1] == c then StripCharEnd(s[..|s| - 1], c) else s
  }

  /** Python `s.strip(c)` for a single character. */
  function StripChar(s: string, c: char): (r: string)
    ensures |r| <= |s|
    ensures r == [] || (r[0] != c && r[|r| - 1] != c)
  {
    var t := StripCharStart(s, c);
    assert t == [] || t[0] != c by { StripStartHead(s, c); }
    var u := StripCharEnd(t, c);
    StripEndShape(t, c);
    u
  }

  lemma {:induction false} StripStartHead(s: string, c: char)
    ensures StripCharStart(s, c) == [] || StripCharStart(s, c)[0] != c
    decreases |s|
  {
    if |s| > 0 && s[0] == c { StripStartHead(s[1..], c); }
  }

  lemma {:induction false} StripEndShape(s: string, c: char)
    ensures StripCharEnd(s, c) <= s
    ensures StripCharEnd(s, c) == [] || StripCharEnd(s, c)[|StripCharEnd(s, c)| - 1] != c
    decreases |s|
  {
    if |s| > 0 && s[|s| - 1] == c { StripEndShape(s[..|s| - 1], c); }
  }

  /** Python `s.replace(pat, "")`: every non-overlapping occurrence, scanning left to right, is removed. */
  function RemoveAll(s: string, pat: string): (r: string)
    requires |pat| > 0
    ensures |r| <= |s|
    decreases |s|
  {
    if |s| == 0 then s
    else if pat <= s then RemoveAll(s[|pat|..], pat)
    else [s[0]] + RemoveAll(s[1..], pat)
  }

  // ---------------------------------------------------------------------------
  // Splitting on one character

  /** Index of the first `c` in `s`. */
  function IndexOf(s: string, c: char): (r: Option<nat>)
    ensures r.Some? ==> r.value < |s| && s[r.value] == c && forall k :: 0 <= k < r.value ==> s[k] != c
    ensures r.None? ==> forall k :: 0 <= k < |s| ==> s[k] != c
    decreases |s|
  {
    if |s| == 0 then None
    else if s[0] == c then Some(0)
    else match IndexOf(s[1..], c)
      case None => None
      case Some(i) => Some(i + 1)
  }

  /** Index of the last `c` in `s`. */
  function LastIndexOf(s: string, c: char): (r: Option<nat>)
    ensures r.Some? ==> r.value < |s| && s[r.value] == c && forall k :: r.value < k < |s| ==> s[k] != c
    ensures r.None? ==> forall k :: 0 <= k < |s| ==> s[k] != c
    decreases |s|
  {
    if |s| == 0 then None
    else if s[|s| - 1] == c then Some(|s| - 1)
    else LastIndexOf(s[..|s| - 1], c)
  }

  /** `s.split(c)[0]` in JavaScript and Python: the text before the first `c`, or all of `s`. */
  function BeforeFirst(s: string, c: char): (r: string)
    ensures r <= s
    ensures forall k :: 0 <= k < |r| ==> r[k] != c
    ensures |r| < |s| ==> s[|r|] == c
  {
    match IndexOf(s, c)
    case None => s
    case Some(i) => s[..i]
  }

  /** Python `s.rsplit(c, 1)[0]` when `c` occurs in `s`, else `s`. */
  function BeforeLast(s: string, c: char): (r: string)
    ensures r <= s
  {
    match LastIndexOf(s, c)
    case None => s
    case Some(i) => s[..i]
  }

  /** JavaScript `s.split(c).pop()`: the text after the last `c`, or all of `s`. */
  function AfterLast(s: string, c: char): (r: string)
    ensures forall k :: 0 <= k < |r| ==> r[k] != c
  {
    match LastIndexOf(s, c)
    case None => s
    case Some(i) => s[i + 1..]
  }

  /** The text after the first `c`, when there is one. */
  function AfterFirst(s: string, c: char): (r: Option<string>)
    ensures r.Some? <==> IndexOf(s, c).Some?
    ensures r.Some? ==> s == BeforeFirst(s, c) + [c] + r.value
  {
    match IndexOf(s, c)
    case None => None
    case Some(i) => Some(s[i + 1..])
  }

  /** The last colon of `host + ":" + tail` is the one added when `tail` has none. */
  lemma LastColonAt(host: string, tail: string)
    requires ':' !in tail
    ensures LastIndexOf(host + ":" + tail, ':') == Some(|host|)
  {
    var s := host + ":" + tail;
    assert s[|host| + 1..] == tail;
    LastCharAt(s, |host|, ':');
  }

  lemma LastCharAt(s: string, n: nat, c: char)
    requires n < |s| && s[n] == c && c !in s[n + 1..]
    ensures LastIndexOf(s, c) == Some(n)
  {
    forall j | n < j < |s| ensures s[j] != c {
      assert s[j] == s[n + 1..][j - n - 1];
    }
    LastIndexOfAt(s, c, n);
  }

  /** The first `c` is at `k` when it is there and nowhere before. */
  lemma IndexOfAt(s: string, c: char, k: nat)
    requires k < |s| && s[k] == c
    requires forall j :: 0 <= j < k ==> s[j] != c
    ensures IndexOf(s, c) == Some(k)
  {
  }

  lemma FirstCharAt(s: string, n: nat, c: char)
    requires n < |s| && s[n] == c && c !in s[..n]
    ensures IndexOf(s, c) == Some(n)
  {
    forall j | 0 <= j < n ensures s[j] != c {
      assert s[j] == s[..n][j];
    }
    IndexOfAt(s, c, n);
  }

  /** The last `c` is at `k` when it is there and nowhere after. */
  lemma LastIndexOfAt(s: string, c: char, k: nat)
    requires k < |s| && s[k] == c
    requires forall j :: k < j < |s| ==> s[j] != c
    ensures LastIndexOf(s, c) == Some(k)
  {
  }

  // ---------------------------------------------------------------------------
  // Splitting and joining on a separator string

  /** JavaScript `s.split(sep)` for a non-empty separator. */
  function SplitOn(s: string, sep: string): (r: seq<string>)
    requires |sep| > 0
    ensures |r| >= 1
    decreases |s|
  {
    if |s| < |sep| then [s]
    else if sep <= s then [""] + SplitOn(s[|sep|..], sep)
    else
      var rest := SplitOn(s[1..], sep);
      [[s[0]] + rest[0]] + rest[1..]
  }

  /** `parts.join(sep)`. */
  function Join(parts: seq<string>, sep: string): string
    decreases |parts|
  {
    if |parts| == 0 then ""
    else if |parts| == 1 then parts[0]
    else parts[0] + sep + Join(parts[1..], sep)
  }

  /** Splitting and re-joining on the same separator gives the original text back. */
  lemma {:induction false} JoinSplit(s: string, sep: string)
    requires |sep| > 0
    ensures Join(SplitOn(s, sep), sep) == s
    decreases |s|
  {
    if |s| < |sep| {
    } else if sep <= s {
      JoinSplit(s[|sep|..], sep);
      JoinSplitAtSeparator(s, sep);
    } else {
      JoinSplit(s[1..], sep);
      JoinSplitAtChar(s, sep);
    }
  }

  /** The parts of a split hold no separator, and the first part is where
      the text starts. */
  lemma {:induction false} SplitPartsFree(s: string, sep: string)
    requires |sep| > 0
    ensures SplitOn(s, sep)[0] <= s
    ensures forall i :: 0 <= i < |SplitOn(s, sep)| ==> !Contains(SplitOn(s, sep)[i], sep)
    decreases |s|
  {
    if |s| < |sep| {
      NotContainsLonger(s, sep);
    } else if sep <= s {
      SplitPartsFree(s[|sep|..], sep);
      NotContainsLonger("", sep);
    } else {
      var rest := SplitOn(s[1..], sep);
      SplitPartsFree(s[1..], sep);
      var head := [s[0]] + rest[0];
      assert head <= s;
      assert head[1..] == rest[0];
      assert !Contains(head, sep);
    }
  }

  lemma JoinCons(x: string, rest: seq<string>, sep: string)
    requires |rest| >= 1
    ensures Join([x] + rest, sep) == x + sep + Join(rest, sep)
  {
    assert ([x] + rest)[1..] == rest;
  }

  lemma JoinHead(x: string, rest: seq<string>, sep: string)
    requires |rest| >= 1
    ensures Join([x + rest[0]] + rest[1..], sep) == x + Join(rest, sep)
  {
    if |rest| > 1 {
      JoinCons(x + rest[0], rest[1..], sep);
      JoinCons(rest[0], rest[1..], sep);
      assert [rest[0]] + rest[1..] == rest;
    }
  }

  lemma SplitAtSeparator(s: string, sep: string)
    requires |sep| > 0 && |s| >= |sep| && sep <= s
    ensures SplitOn(s, sep) == [""] + SplitOn(s[|sep|..], sep)
    ensures s == sep + s[|sep|..]
  {
  }

  lemma EmptyPrefix(a: string, b: string)
    ensures "" + a + b == a + b
  {
  }

  lemma JoinSplitAtSeparator(s: string, sep: string)
    requires |sep| > 0 && |s| >= |sep| && sep <= s
    requires Join(SplitOn(s[|sep|..], sep), sep) == s[|sep|..]
    ensures Join(SplitOn(s, sep), sep) == s
  {
    var rest := SplitOn(s[|sep|..], sep);
    SplitAtSeparator(s, sep);
    JoinCons("", rest, sep);
    EmptyPrefix(sep, Join(rest, sep));
  }

  lemma JoinSplitAtChar(s: string, sep: string)
    requires |sep| > 0 && |s| >= |sep| && !(sep <= s)
    requires Join(SplitOn(s[1..], sep), sep) == s[1..]
    ensures Join(SplitOn(s, sep), sep) == s
  {
    var rest := SplitOn(s[1..], sep);
    assert SplitOn(s, sep) == [[s[0]] + rest[0]] + rest[1..];
    JoinHead([s[0]], rest, sep);
    assert s == [s[0]] + s[1..];
  }



  // ---------------------------------------------------------------------------
  // Decimal text of numbers

  function DigitChar(d: nat): char
    requires d < 10
  {
    ('0' as int + d) as char
  }

  predicate IsDigit(c: char) {
    '0' <= c <= '9'
  }

  predicate AllDigits(s: string) {
    forall k :: 0 <= k < |s| ==> IsDigit(s[k])
  }

  /** Decimal text of a natural number, without leading zeros. */
  function NatToString(n: nat): (r: string)
    ensures |r| >= 1 && AllDigits(r)
    ensures n > 0 ==> r[0] != '0'
  {
    if n < 10 then [DigitChar(n)]
    else NatToString(n / 10) + [DigitChar(n % 10)]
  }

  /** Decimal text of an integer as JavaScript `String(n)` and Python `str(n)` produce it. */
  function IntToString(i: int): (r: string)
    ensures |r| >= 1
    ensures i >= 0 ==> AllDigits(r)
    ensures i < 0 ==> r[0] == '-' && AllDigits(r[1..])
  {
    if i < 0 then "-" + NatToString(-i) else NatToString(i)
  }

  function DigitsValue(s: string): nat
    requires AllDigits(s)
    decreases |s|
  {
    if |s| == 0 then 0
    else 10 * DigitsValue(s[..|s| - 1]) + (s[|s| - 1] as int - '0' as int)
  }

  /** Python `int(text)` on a plain decimal numeral with an optional sign; anything else fails. */
  function ParseInt(s: string): (r: Option<int>)
    ensures r.Some? ==> |s| > 0
  {
    if |s| > 0 && AllDigits(s) then Some(DigitsValue(s))
    else if |s| > 1 && (s[0] == '-' || s[0] == '+') && AllDigits(s[1..]) then
      var v: int := DigitsValue(s[1..]);
      if s[0] == '-' then Some(-v) else Some(v)
    else None
  }

  lemma {:induction false} DigitsOfNat(n: nat)
    ensures DigitsValue(NatToString(n)) == n
  {
    if n >= 10 {
      DigitsOfNat(n / 10);
      var s := NatToString(n);
      assert s[..|s| - 1] == NatToString(n / 10);
    }
  }

  /** A text with no whitespace at either end is its own trim. */
  lemma TrimUnpadded(s: string, w: Whitespace)
    requires |s| > 0 && !IsSpace(s[0], w) && !IsSpace(s[|s| - 1], w)
    ensures Trim(s, w) == s
  {
    assert TrimStart(s, w) == s;
  }

  /** The text of a number has no whitespace to trim. */
  lemma TrimNumber(i: int, w: Whitespace)
    ensures Trim(IntToString(i), w) == IntToString(i)
  {
    var t := IntToString(i);
    assert t[0] == '-' || IsDigit(t[0]);
    assert IsDigit(t[|t| - 1]) by {
      if i < 0 {
        assert t[|t| - 1] == t[1..][|t| - 2];
      }
    }
    TrimUnpadded(t, w);
  }

  /** Printing an integer and parsing it back gives the integer. */
  lemma ParseIntToString(i: int)
    ensures ParseInt(IntToString(i)) == Some(i)
  {
    if i < 0 {
      var t := NatToString(-i);
      DigitsOfNat(-i);
      assert IntToString(i)[1..] == t;
      assert !AllDigits(IntToString(i)) by { assert !IsDigit(IntToString(i)[0]); }
    } else {
      DigitsOfNat(i);
    }
  }

  lemma NoColonInNumber(i: int)
    ensures forall k :: 0 <= k < |IntToString(i)| ==> IntToString(i)[k] != ':'
    ensures ':' !in IntToString(i)
  {
    var s := IntToString(i);
    forall k | 0 <= k < |s| ensures s[k] != ':' {
      if i < 0 && k > 0 { assert s[k] == s[1..][k - 1]; }
    }
  }

  // ---------------------------------------------------------------------------
  // Sequences

  function Filter<T>(s: seq<T>, p: T -> bool): (r: seq<T>)
    ensures |r| <= |s|
    ensures forall i :: 0 <= i < |r| ==> r[i] in s && p(r[i])
    ensures forall i :: 0 <= i < |s| && p(s[i]) ==> s[i] in r
    decreases |s|
  {
    if |s| == 0 then []
    else if p(s[0]) then [s[0]] + Filter(s[1..], p)
    else Filter(s[1..], p)
  }

  /** `r` is `s` with some elements left out and the others in their order. */
  predicate IsSubsequence<T(==)>(r: seq<T>, s: seq<T>)
    decreases |s|
  {
    if |r| == 0 then true
    else if |s| == 0 then false
    else if r[0] == s[0] then IsSubsequence(r[1..], s[1..])
    else IsSubsequence(r, s[1..])
  }

  lemma {:induction false} FilterSubsequence<T>(s: seq<T>, p: T -> bool)
    ensures IsSubsequence(Filter(s, p), s)
    decreases |s|
  {
    if |s| > 0 {
      FilterSubsequence(s[1..], p);
      var r := Filter(s, p);
      if !p(s[0]) && |r| > 0 {
        assert r[0] in s[1..] && p(r[0]);
      }
    }
  }

  /** Filtering keeps every occurrence of a value the predicate accepts and
      none of the others. */
  lemma {:induction false} FilterMultiset<T>(s: seq<T>, p: T -> bool)
    ensures forall x :: multiset(Filter(s, p))[x] == if p(x) then multiset(s)[x] else 0
    decreases |s|
  {
    if |s| > 0 {
      FilterMultiset(s[1..], p);
      assert s == [s[0]] + s[1..];
      assert multiset(s) == multiset{s[0]} + multiset(s[1..]);
      if p(s[0]) {
        assert multiset(Filter(s, p)) == multiset{s[0]} + multiset(Filter(s[1..], p));
      }
    }
  }

  lemma FilterAppend<T>(a: seq<T>, b: seq<T>, p: T -> bool)
    ensures Filter(a + b, p) == Filter(a, p) + Filter(b, p)
  {
    if |a| > 0 {
      assert (a + b)[1..] == a[1..] + b;
      FilterAppend(a[1..], b, p);
    } else {
      assert a + b == b;
    }
  }

  lemma FilterAll<T>(s: seq<T>, p: T -> bool)
    requires forall i :: 0 <= i < |s| ==> p(s[i])
    ensures Filter(s, p) == s
  {
    if |s| > 0 {
      FilterAll(s[1..], p);
    }
  }

  function Count<T>(s: seq<T>, p: T -> bool): nat
    decreases |s|
  {
    if |s| == 0 then 0 else (if p(s[0]) then 1 else 0) + Count(s[1..], p)
  }

  lemma CountIsFilterLength<T>(s: seq<T>, p: T -> bool)
    ensures Count(s, p) == |Filter(s, p)|
  {
    if |s| > 0 { CountIsFilterLength(s[1..], p); }
  }

  lemma CountAppend<T>(a: seq<T>, b: seq<T>, p: T -> bool)
    ensures Count(a + b, p) == Count(a, p) + Count(b, p)
  {
    if |a| > 0 {
      assert (a + b)[1..] == a[1..] + b;
      CountAppend(a[1..], b, p);
    } else {
      assert a + b == b;
    }
  }

  function Take<T>(s: seq<T>, n: nat): (r: seq<T>)
    ensures |r| == if |s| < n then |s| else n
    ensures r <= s
  {
    if |s| <= n then s else s[..n]
  }

  // ---------------------------------------------------------------------------
  // Stable sorting by an integer key (JavaScript `Array.prototype.sort` with a
  // numeric comparator and Python `list.sort(key=...)`, both stable)

  ghost predicate SortedBy<T>(s: seq<T>, key: T -> int) {
    forall i, j :: 0 <= i < j < |s| ==> key(s[i]) <= key(s[j])
  }

  function Insert<T>(x: T, s: seq<T>, key: T -> int): (r: seq<T>)
    ensures |r| == |s| + 1
    ensures multiset(r) == multiset(s) + multiset{x}
    decreases |s|
  {
    if |s| == 0 then [x]
    else if key(x) < key(s[0]) then [x] + s
    else
      assert s == [s[0]] + s[1..];
      [s[0]] + Insert(x, s[1..], key)
  }

  /** Insertion sort: stable, so elements with equal keys keep their input order. */
  function SortBy<T>(s: seq<T>, key: T -> int): (r: seq<T>)
    ensures |r| == |s|
    ensures multiset(r) == multiset(s)
    decreases |s|
  {
    if |s| == 0 then []
    else
      assert s == s[..|s| - 1] + [s[|s| - 1]];
      Insert(s[|s| - 1], SortBy(s[..|s| - 1], key), key)
  }

  lemma {:induction false} InsertSorted<T>(x: T, s: seq<T>, key: T -> int)
    requires SortedBy(s, key)
    ensures SortedBy(Insert(x, s, key), key)
    decreases |s|
  {
    if |s| > 0 && key(x) >= key(s[0]) {
      InsertSorted(x, s[1..], key);
      var t := Insert(x, s[1..], key);
      assert forall k :: 0 <= k < |t| ==> key(s[0]) <= key(t[k]) by {
        forall k | 0 <= k < |t| ensures key(s[0]) <= key(t[k]) {
          assert t[k] in multiset(t);
          assert t[k] in multiset(s[1..]) + multiset{x};
          if t[k] in multiset(s[1..]) {
            var m :| 0 <= m < |s[1..]| && s[1..][m] == t[k];
            assert s[1..][m] == s[m + 1];
          }
        }
      }
    }
  }

  /** The result of SortBy is ordered by the key. */
  lemma {:induction false} SortBySorted<T>(s: seq<T>, key: T -> int)
    ensures SortedBy(SortBy(s, key), key)
    decreases |s|
  {
    if |s| > 0 {
      SortBySorted(s[..|s| - 1], key);
      InsertSorted(s[|s| - 1], SortBy(s[..|s| - 1], key), key);
    }
  }

  /** Ordered by `major`, and by `minor` among equal `major` keys. */
  ghost predicate SortedThenBy<T>(s: seq<T>, major: T -> int, minor: T -> int) {
    forall i, j :: 0 <= i < j < |s| ==>
      major(s[i]) <= major(s[j]) && (major(s[i]) == major(s[j]) ==> minor(s[i]) <= minor(s[j]))
  }

  lemma {:induction false} InsertThenBy<T>(x: T, s: seq<T>, major: T -> int, minor: T -> int)
    requires SortedThenBy(s, major, minor)
    requires forall k :: 0 <= k < |s| ==> minor(s[k]) <= minor(x)
    ensures SortedThenBy(Insert(x, s, major), major, minor)
    decreases |s|
  {
    if |s| == 0 {
    } else if major(x) < major(s[0]) {
      ThenByCons(x, s, major, minor);
    } else {
      ThenByTail(s, major, minor);
      InsertThenBy(x, s[1..], major, minor);
      var t := Insert(x, s[1..], major);
      forall k | 0 <= k < |t|
        ensures major(s[0]) <= major(t[k]) && (major(s[0]) == major(t[k]) ==> minor(s[0]) <= minor(t[k]))
      {
        InsertedFrom(x, s[1..], major, k);
        if t[k] != x {
          var m :| 0 <= m < |s[1..]| && s[1..][m] == t[k];
          assert s[1..][m] == s[m + 1];
        }
      }
      ThenByCons(s[0], t, major, minor);
      assert Insert(x, s, major) == [s[0]] + t;
    }
  }

  lemma ThenByTail<T>(s: seq<T>, major: T -> int, minor: T -> int)
    requires |s| > 0 && SortedThenBy(s, major, minor)
    ensures SortedThenBy(s[1..], major, minor)
  {
    forall i, j | 0 <= i < j < |s[1..]|
      ensures major(s[1..][i]) <= major(s[1..][j]) && (major(s[1..][i]) == major(s[1..][j]) ==> minor(s[1..][i]) <= minor(s[1..][j]))
    {
      assert s[1..][i] == s[i + 1] && s[1..][j] == s[j + 1];
    }
  }

  lemma ThenByCons<T>(h: T, t: seq<T>, major: T -> int, minor: T -> int)
    requires SortedThenBy(t, major, minor)
    requires forall k :: 0 <= k < |t| ==> major(h) <= major(t[k]) && (major(h) == major(t[k]) ==> minor(h) <= minor(t[k]))
    ensures SortedThenBy([h] + t, major, minor)
  {
    var s := [h] + t;
    forall i, j | 0 <= i < j < |s|
      ensures major(s[i]) <= major(s[j]) && (major(s[i]) == major(s[j]) ==> minor(s[i]) <= minor(s[j]))
    {
      assert s[j] == t[j - 1];
      if i > 0 { assert s[i] == t[i - 1]; }
    }
  }

  /** Each element of an insertion is the inserted one or comes from the sequence. */
  lemma InsertedFrom<T>(x: T, s: seq<T>, key: T -> int, k: nat)
    requires k < |Insert(x, s, key)|
    ensures Insert(x, s, key)[k] == x || Insert(x, s, key)[k] in s
  {
    var t := Insert(x, s, key);
    assert t[k] in multiset(t);
    assert t[k] in multiset(s) + multiset{x};
  }

  /** A stable sort by `major` of a sequence ordered by `minor` leaves the
      elements with equal `major` keys ordered by `minor`. */
  lemma {:induction false} SortByThenBy<T>(s: seq<T>, major: T -> int, minor: T -> int)
    requires SortedBy(s, minor)
    ensures SortedThenBy(SortBy(s, major), major, minor)
    decreases |s|
  {
    if |s| > 0 {
      var init := s[..|s| - 1];
      var x := s[|s| - 1];
      SortByThenBy(init, major, minor);
      var t := SortBy(init, major);
      forall k | 0 <= k < |t| ensures minor(t[k]) <= minor(x) {
        assert t[k] in multiset(t);
        var m :| 0 <= m < |init| && init[m] == t[k];
      }
      InsertThenBy(x, t, major, minor);
    }
  }

  lemma {:induction false} InsertAtEnd<T>(x: T, s: seq<T>, key: T -> int)
    requires forall k :: 0 <= k < |s| ==> key(s[k]) <= key(x)
    ensures Insert(x, s, key) == s + [x]
    decreases |s|
  {
    if |s| > 0 {
      InsertAtEnd(x, s[1..], key);
      assert s == [s[0]] + s[1..];
    }
  }

  /** Sorting a sequence that is already ordered leaves it unchanged (stability). */
  lemma {:induction false} SortBySortedIdentity<T>(s: seq<T>, key: T -> int)
    requires SortedBy(s, key)
    ensures SortBy(s, key) == s
    decreases |s|
  {
    if |s| > 0 {
      var init := s[..|s| - 1];
      SortBySortedIdentity(init, key);
      InsertAtEnd(s[|s| - 1], init, key);
      assert init + [s[|s| - 1]] == s;
    }
  }

  lemma MultisetMembership<T>(a: seq<T>, b: seq<T>, x: T)
    requires multiset(a) == multiset(b)
    ensures x in a <==> x in b
  {
    assert x in a <==> x in multiset(a);
    assert x in b <==> x in multiset(b);
  }
  /** No two positions of `s` share a key. */
  ghost predicate DistinctBy<T>(s: seq<T>, id: T -> int) {
    forall i, j :: 0 <= i < j < |s| ==> id(s[i]) != id(s[j])
  }

  lemma MultisetDrop<T>(a: seq<T>, k: nat)
    requires k < |a|
    ensures multiset(a[..k] + a[k + 1..]) == multiset(a) - multiset{a[k]}
  {
    assert a == a[..k] + [a[k]] + a[k + 1..];
  }

  /** An element of `a` with position `k` dropped sits at another position of `a`. */
  lemma InDropped<T>(a: seq<T>, k: nat, y: T) returns (m: nat)
    requires k < |a| && y in a[..k] + a[k + 1..]
    ensures m < |a| && m != k && a[m] == y
  {
    var rest := a[..k] + a[k + 1..];
    var i :| 0 <= i < |rest| && rest[i] == y;
    m := if i < k then i else i + 1;
    assert rest[i] == a[m];
  }

  lemma DropKeepsDistinct<T>(a: seq<T>, k: nat, id: T -> int)
    requires k < |a| && DistinctBy(a, id)
    ensures DistinctBy(a[..k] + a[k + 1..], id)
  {
    var b := a[..k] + a[k + 1..];
    forall i, j | 0 <= i < j < |b| ensures id(b[i]) != id(b[j]) {
      var i' := if i < k then i else i + 1;
      var j' := if j < k then j else j + 1;
      assert b[i] == a[i'] && b[j] == a[j'];
    }
  }

  /** Reordering a sequence keeps its keys distinct. */
  lemma {:induction false} PermutationKeepsDistinct<T>(a: seq<T>, b: seq<T>, id: T -> int)
    requires multiset(a) == multiset(b) && DistinctBy(a, id)
    ensures DistinctBy(b, id)
    decreases |b|
  {
    if |b| > 0 {
      var x := b[|b| - 1];
      var b' := b[..|b| - 1];
      assert b == b' + [x];
      assert multiset(b') == multiset(b) - multiset{x};
      assert x in multiset(a);
      var k :| 0 <= k < |a| && a[k] == x;
      var a' := a[..k] + a[k + 1..];
      MultisetDrop(a, k);
      DropKeepsDistinct(a, k, id);
      PermutationKeepsDistinct(a', b', id);
      forall i | 0 <= i < |b'| ensures id(b'[i]) != id(x) {
        assert b'[i] in multiset(b');
        assert b'[i] in multiset(a');
        var m := InDropped(a, k, b'[i]);
      }
    }
  }
}

=== FILE: dashboard.dfy ===
/** The dashboard's summary of the current rows: totals per level, the number
    of distinct processes and the five busiest processes. */
module Dashboard {
  import opened Common
  import opened Records

  datatype Stats = Stats(total: nat, highRisk: nat, mediumRisk: nat, lowRisk: nat, uniqueProcs: nat)

  /** One entry of `procsMap`: a process name and its number of rows. */
  datatype Tally = Tally(name: string, count: nat)

  /** One entry of the top list; a missing pid is shown as '?'. */
  datatype TopProc = TopProc(name: string, count: nat, pid: Option<int>)

  /** The name a row is counted under: its process, or 'Unknown'. */
  function NameOf(r: Conn): string {
    if r.proc == "" then "Unknown" else r.proc
  }

  /** Number of rows whose level is `level` (`rows.filter(r => r.level === level).length`). */
  function CountLevel(rows: seq<Conn>, level: string): (n: nat)
    ensures n <= |rows|
    decreases |rows|
  {
    if |rows| == 0 then 0
    else CountLevel(rows[..|rows| - 1], level) + (if rows[|rows| - 1].level == level then 1 else 0)
  }

  /** The name of every row, in row order. */
  function Names(rows: seq<Conn>): (ns: seq<string>)
    ensures |ns| == |rows| && forall k :: 0 <= k < |rows| ==> ns[k] == NameOf(rows[k])
  {
    seq(|rows|, k requires 0 <= k < |rows| => NameOf(rows[k]))
  }

  /** Number of occurrences of `name`. */
  function CountName(names: seq<string>, name: string): nat
    decreases |names|
  {
    if |names| == 0 then 0
    else CountName(names[..|names| - 1], name) + (if names[|names| - 1] == name then 1 else 0)
  }

  /** The distinct names. */
  ghost function NameSet(names: seq<string>): set<string> {
    set n | n in names
  }

  /** Position of `name` in the tally (the lookup `procsMap[name]`). */
  function FindName(tallies: seq<Tally>, name: string): (r: Option<nat>)
    ensures r.Some? ==> r.value < |tallies| && tallies[r.value].name == name
    ensures r.None? ==> forall k :: 0 <= k < |tallies| ==> tallies[k].name != name
    decreases |tallies|
  {
    if |tallies| == 0 then None
    else if tallies[|tallies| - 1].name == name then Some(|tallies| - 1)
    else FindName(tallies[..|tallies| - 1], name)
  }

  /** One step of the `forEach`: `procsMap[name] = (procsMap[name] || 0) + 1`. */
  function Bump(ts: seq<Tally>, name: string): seq<Tally> {
    match FindName(ts, name)
    case Some(k) => ts[k := Tally(name, ts[k].count + 1)]
    case None => ts + [Tally(name, 1)]
  }

  /** `procsMap` after the `forEach` over the rows' names: names in the order
      they first appear. */
  function TallyOf(names: seq<string>): seq<Tally>
    decreases |names|
  {
    if |names| == 0 then [] else Bump(TallyOf(names[..|names| - 1]), names[|names| - 1])
  }

  /** What the tally keeps: one entry per distinct name, each holding the
      number of occurrences of that name. */
  ghost predicate TallyShape(ts: seq<Tally>, names: seq<string>) {
    DistinctNames(ts) && CountsMatch(ts, names) && Covers(ts, names) && |ts| == |NameSet(names)|
  }

  ghost predicate DistinctNames(ts: seq<Tally>) {
    forall i, j :: 0 <= i < j < |ts| ==> ts[i].name != ts[j].name
  }

  ghost predicate CountsMatch(ts: seq<Tally>, names: seq<string>) {
    forall k :: 0 <= k < |ts| ==> ts[k].count == CountName(names, ts[k].name)
  }

  ghost predicate Covers(ts: seq<Tally>, names: seq<string>) {
    forall n :: n in names <==> FindName(ts, n).Some?
  }

  lemma CountNameSnoc(names: seq<string>, x: string, name: string)
    ensures CountName(names + [x], name) == CountName(names, name) + (if x == name then 1 else 0)
  {
    assert (names + [x])[..|names|] == names;
  }

  lemma {:induction false} CountNameZero(names: seq<string>, name: string)
    requires name !in names
    ensures CountName(names, name) == 0
    decreases |names|
  {
    if |names| > 0 {
      var init := names[..|names| - 1];
      assert names == init + [names[|names| - 1]];
      CountNameZero(init, name);
    }
  }

  lemma {:induction false} CountNamePositive(names: seq<string>, name: string)
    requires name in names
    ensures CountName(names, name) > 0
    decreases |names|
  {
    var init := names[..|names| - 1];
    assert names == init + [names[|names| - 1]];
    if name != names[|names| - 1] {
      CountNamePositive(init, name);
    }
  }

  /** Looking a name up depends on the names only, not on the counts. */
  lemma {:induction false} FindNameSameNames(a: seq<Tally>, b: seq<Tally>, n: string)
    requires |a| == |b| && forall k :: 0 <= k < |a| ==> a[k].name == b[k].name
    ensures FindName(a, n) == FindName(b, n)
    decreases |a|
  {
    if |a| > 0 {
      FindNameSameNames(a[..|a| - 1], b[..|b| - 1], n);
    }
  }

  lemma FindNameSnoc(ts: seq<Tally>, t: Tally, n: string)
    ensures FindName(ts + [t], n) == if t.name == n then Some(|ts|) else FindName(ts, n)
  {
    assert (ts + [t])[..|ts|] == ts;
  }

  lemma NameSetSnoc(names: seq<string>, x: string)
    ensures NameSet(names + [x]) == NameSet(names) + {x}
    ensures x !in names ==> |NameSet(names + [x])| == |NameSet(names)| + 1
    ensures x in names ==> |NameSet(names + [x])| == |NameSet(names)|
  {
    assert NameSet(names + [x]) == NameSet(names) + {x};
  }

  lemma TallyOfSnoc(names: seq<string>, x: string)
    ensures TallyOf(names + [x]) == Bump(TallyOf(names), x)
  {
    assert (names + [x])[..|names|] == names;
  }

  lemma FoundCounts(ts: seq<Tally>, names: seq<string>, x: string, k: nat)
    requires CountsMatch(ts, names) && DistinctNames(ts) && FindName(ts, x) == Some(k)
    ensures CountsMatch(ts[k := Tally(x, ts[k].count + 1)], names + [x])
  {
    var out := ts[k := Tally(x, ts[k].count + 1)];
    forall m | 0 <= m < |out| ensures out[m].count == CountName(names + [x], out[m].name) {
      CountNameSnoc(names, x, out[m].name);
      if m < k {} else if m > k {}
    }
  }

  lemma FoundCovers(ts: seq<Tally>, names: seq<string>, x: string, k: nat)
    requires Covers(ts, names) && FindName(ts, x) == Some(k)
    ensures Covers(ts[k := Tally(x, ts[k].count + 1)], names + [x])
  {
    var out := ts[k := Tally(x, ts[k].count + 1)];
    forall n ensures n in names + [x] <==> FindName(out, n).Some? {
      FindNameSameNames(out, ts, n);
    }
  }

  lemma TallyStepFound(ts: seq<Tally>, names: seq<string>, x: string, k: nat)
    requires TallyShape(ts, names) && FindName(ts, x) == Some(k)
    ensures TallyShape(Bump(ts, x), names + [x])
  {
    var out := ts[k := Tally(x, ts[k].count + 1)];
    assert Bump(ts, x) == out;
    NameSetSnoc(names, x);
    FoundCounts(ts, names, x, k);
    FoundCovers(ts, names, x, k);
    FoundDistinct(ts, x, k);
  }

  lemma FoundDistinct(ts: seq<Tally>, x: string, k: nat)
    requires DistinctNames(ts) && k < |ts| && ts[k].name == x
    ensures DistinctNames(ts[k := Tally(x, ts[k].count + 1)])
  {
    var out := ts[k := Tally(x, ts[k].count + 1)];
    assert forall m :: 0 <= m < |out| ==> out[m].name == ts[m].name;
  }

  lemma NewCounts(ts: seq<Tally>, names: seq<string>, x: string)
    requires CountsMatch(ts, names) && x !in names && FindName(ts, x).None?
    ensures CountsMatch(ts + [Tally(x, 1)], names + [x])
  {
    var out := ts + [Tally(x, 1)];
    CountNameZero(names, x);
    forall m | 0 <= m < |out| ensures out[m].count == CountName(names + [x], out[m].name) {
      CountNameSnoc(names, x, out[m].name);
    }
  }

  lemma NewCovers(ts: seq<Tally>, names: seq<string>, x: string)
    requires Covers(ts, names)
    ensures Covers(ts + [Tally(x, 1)], names + [x])
  {
    forall n ensures n in names + [x] <==> FindName(ts + [Tally(x, 1)], n).Some? {
      FindNameSnoc(ts, Tally(x, 1), n);
      assert n in names + [x] <==> n in names || n == x;
    }
  }

  lemma NewDistinct(ts: seq<Tally>, x: string)
    requires DistinctNames(ts) && FindName(ts, x).None?
    ensures DistinctNames(ts + [Tally(x, 1)])
  {
  }

  lemma TallyStepNew(ts: seq<Tally>, names: seq<string>, x: string)
    requires TallyShape(ts, names) && FindName(ts, x).None?
    ensures TallyShape(Bump(ts, x), names + [x])
  {
    assert Bump(ts, x) == ts + [Tally(x, 1)];
    assert x !in names;
    NameSetSnoc(names, x);
    NewCounts(ts, names, x);
    NewCovers(ts, names, x);
    NewDistinct(ts, x);
  }

  lemma TallyStep(names: seq<string>, x: string)
    requires TallyShape(TallyOf(names), names)
    ensures TallyShape(TallyOf(names + [x]), names + [x])
  {
    TallyOfSnoc(names, x);
    var ts := TallyOf(names);
    var found := FindName(ts, x);
    if found.Some? {
      TallyStepFound(ts, names, x, found.value);
    } else {
      TallyStepNew(ts, names, x);
    }
  }

  /** `procsMap` has one entry per distinct name, holding that name's number
      of rows, so `Object.keys(procsMap).length` is the number of distinct
      names. */
  lemma {:induction false} TallyOfShape(names: seq<string>)
    ensures TallyShape(TallyOf(names), names)
    decreases |names|
  {
    if |names| == 0 {
      assert NameSet(names) == {};
    } else {
      var init := names[..|names| - 1];
      var x := names[|names| - 1];
      assert names == init + [x];
      TallyOfShape(init);
      TallyStep(init, x);
    }
  }

  /** The pid shown for a name: that of the first row whose process is
      exactly the name, or none ('?') when there is no such row or its pid
      is 0. */
  function PidFor(rows: seq<Conn>, name: string): (r: Option<int>)
    ensures r.Some? ==> exists i :: 0 <= i < |rows| && rows[i].proc == name && rows[i].pid == r.value &&
                          r.value != 0 && forall j :: 0 <= j < i ==> rows[j].proc != name
    ensures r.None? ==> forall i :: 0 <= i < |rows| && rows[i].proc == name ==>
                          rows[i].pid == 0 || exists j :: 0 <= j < i && rows[j].proc == name
    decreases |rows|
  {
    if |rows| == 0 then None
    else if rows[0].proc == name then (if rows[0].pid == 0 then None else Some(rows[0].pid))
    else
      var rest := PidFor(rows[1..], name);
      assert forall i :: 1 <= i < |rows| ==> rows[1..][i - 1] == rows[i];
      rest
  }

  function NegCount(t: TopProc): int {
    -(t.count as int)
  }

  function Entry(rows: seq<Conn>, t: Tally): TopProc {
    TopProc(t.name, t.count, PidFor(rows, t.name))
  }

  /** `topProcesses`: the tally entries with their pids, busiest first (stable),
      cut to five. */
  function TopOf(rows: seq<Conn>): seq<TopProc> {
    Take(SortBy(Entries(rows), NegCount), 5)
  }

  /** A row has at most one of the three levels, so the level counts never
      add up to more than the total. */
  lemma {:induction false} LevelsWithinTotal(rows: seq<Conn>)
    ensures CountLevel(rows, Alto) + CountLevel(rows, Medio) + CountLevel(rows, Bajo) <= |rows|
    decreases |rows|
  {
    if |rows| > 0 {
      LevelsWithinTotal(rows[..|rows| - 1]);
    }
  }

  /** The entries of the top list before sorting and cutting. */
  function Entries(rows: seq<Conn>): seq<TopProc> {
    var ts := TallyOf(Names(rows));
    seq(|ts|, k requires 0 <= k < |ts| => Entry(rows, ts[k]))
  }

  lemma EntriesShape(rows: seq<Conn>)
    ensures forall t :: t in Entries(rows) ==>
      (t.count == CountName(Names(rows), t.name) && t.count > 0 && t.pid == PidFor(rows, t.name))
  {
    var ts := TallyOf(Names(rows));
    TallyOfShape(Names(rows));
    forall t | t in Entries(rows)
      ensures t.count == CountName(Names(rows), t.name) && t.count > 0 && t.pid == PidFor(rows, t.name)
    {
      var k :| 0 <= k < |ts| && Entries(rows)[k] == t;
      assert FindName(ts, ts[k].name).Some?;
      CountNamePositive(Names(rows), t.name);
    }
  }

  /** The top list has at most five entries, busiest first, each carrying the
      number of rows with its name and the pid of the first row with that
      process. */
  lemma TopShape(rows: seq<Conn>)
    ensures |TopOf(rows)| <= 5
    ensures forall i, j :: 0 <= i < j < |TopOf(rows)| ==> TopOf(rows)[i].count >= TopOf(rows)[j].count
    ensures forall t :: t in TopOf(rows) ==>
      (t.count == CountName(Names(rows), t.name) && t.count > 0 && t.pid == PidFor(rows, t.name))
  {
    var entries := Entries(rows);
    var sorted := SortBy(entries, NegCount);
    assert TopOf(rows) == Take(sorted, 5);
    SortBySorted(entries, NegCount);
    forall i, j | 0 <= i < j < |TopOf(rows)| ensures TopOf(rows)[i].count >= TopOf(rows)[j].count {
      assert NegCount(sorted[i]) <= NegCount(sorted[j]);
    }
    EntriesShape(rows);
    forall t | t in TopOf(rows) ensures t in entries {
      assert t in sorted;
      MultisetMembership(entries, sorted, t);
    }
  }

  /** `procsMap` is filled by one pass over the rows. */
  method BuildTally(rows: seq<Conn>) returns (ts: seq<Tally>)
    ensures ts == TallyOf(Names(rows))
  {
    ghost var names := Names(rows);
    ts := [];
    var i := 0;
    while i < |rows|
      invariant 0 <= i <= |rows|
      invariant ts == TallyOf(names[..i])
    {
      var name := NameOf(rows[i]);
      assert names[..i + 1] == names[..i] + [name];
      TallyOfSnoc(names[..i], name);
      ts := Increment(ts, name);
      i := i + 1;
    }
    assert names[..i] == names;
  }

  /** The body of the `forEach`: bump the name's count, adding it at 1. */
  method Increment(ts: seq<Tally>, name: string) returns (out: seq<Tally>)
    ensures out == Bump(ts, name)
  {
    var found := FindName(ts, name);
    if found.Some? {
      var k := found.value;
      out := ts[k := Tally(name, ts[k].count + 1)];
    } else {
      out := ts + [Tally(name, 1)];
    }
  }

  /** The `useMemo` body: the level totals, the number of distinct process
      names and the top list. */
  method Summarize(rows: seq<Conn>) returns (stats: Stats, top: seq<TopProc>)
    ensures stats.total == |rows|
    ensures stats.highRisk == CountLevel(rows, Alto) && stats.mediumRisk == CountLevel(rows, Medio)
    ensures stats.lowRisk == CountLevel(rows, Bajo)
    ensures stats.highRisk + stats.mediumRisk + stats.lowRisk <= stats.total
    ensures stats.uniqueProcs == |NameSet(Names(rows))|
    ensures top == TopOf(rows)
  {
    var ts := BuildTally(rows);
    top := Take(SortBy(seq(|ts|, k requires 0 <= k < |ts| => Entry(rows, ts[k])), NegCount), 5);
    assert top == TopOf(rows);
    stats := Stats(|rows|, CountLevel(rows, Alto), CountLevel(rows, Medio), CountLevel(rows, Bajo), |ts|);
    TallyOfShape(Names(rows));
    LevelsWithinTotal(rows);
  }
}

=== FILE: dns.dfy ===
/** DNS risk analysis (backend/utils/dns_analyzer.py) and the DNS sniffer's
    bookkeeping (backend/utils/dns_sniffer.py): a domain is scored on the
    entropy of its first label, its length, a risky top-level domain, a
    suspicious keyword and an embedded address; the sniffer links query ids
    to domains and answered addresses to analysed domains.  The entropy, its
    rounding and its two-decimal text are floating-point computations and are
    given as functions. */
module Dns {
  import opened Common
  import opened Records

  /** The four configurable lists. */
  datatype DnsConfig = DnsConfig(
    whitelistDomains: set<string>,
    whitelistSuffixes: seq<string>,
    keywords: seq<string>,
    tlds: seq<string>)

  /** The floating-point pieces of the analysis: the Shannon entropy of a
      label, its text with two decimals and its value rounded to two
      decimals. */
  datatype Measures = Measures(entropy: string -> real, fixed2: real -> string, round2: real -> real)

  const DefaultConfig := DnsConfig(
    {"apple.com", "icloud.com", "googleapis.com", "google.com", "amazonaws.com", "microsoft.com",
     "windowsupdate.com", "digicert.com", "cloudflare.com", "akamai.net", "cdn.mozilla.net"},
    [".apple.com", ".icloud.com", ".google.com", ".googleapis.com", ".amazonaws.com", ".microsoft.com",
     ".azure.com", ".office.com", ".cdn.mozilla.net", ".akamaiedge.net", ".cloudfront.net"],
    ["xmrig", "pool", "minergate", "nanopool", "nicehash", "tor2web", "onion.to", "tor.link",
     "tracker", "adserver", "telemetry", "rat", "c2", "payload", "exploit"],
    [".xyz", ".top", ".ru", ".cn", ".tk", ".ml", ".ga", ".cf", ".gq", ".pw", ".cc"])

  // ---------------------------------------------------------------------------
  // The stages of the score

  /** The first entry of `list` that `d` ends with. */
  function FirstSuffix(list: seq<string>, d: string): (r: Option<string>)
    ensures r.Some? ==> r.value in list && EndsWith(d, r.value)
    ensures r.None? <==> forall k :: 0 <= k < |list| ==> !EndsWith(d, list[k])
    ensures r.Some? ==> exists i :: 0 <= i < |list| && list[i] == r.value && forall k :: 0 <= k < i ==> !EndsWith(d, list[k])
    decreases |list|
  {
    if |list| == 0 then None
    else if EndsWith(d, list[0]) then Some(list[0])
    else
      var r := FirstSuffix(list[1..], d);
      assert forall k :: 1 <= k < |list| ==> list[k] == list[1..][k - 1];
      if r.Some? then
        var i :| 0 <= i < |list[1..]| && list[1..][i] == r.value && forall k :: 0 <= k < i ==> !EndsWith(d, list[1..][k]);
        assert list[i + 1] == r.value;
        r
      else r
  }

  /** The first entry of `list` that occurs in `d`. */
  function FirstContained(list: seq<string>, d: string): (r: Option<string>)
    ensures r.Some? ==> r.value in list && Contains(d, r.value)
    ensures r.None? <==> forall k :: 0 <= k < |list| ==> !Contains(d, list[k])
    ensures r.Some? ==> exists i :: 0 <= i < |list| && list[i] == r.value && forall k :: 0 <= k < i ==> !Contains(d, list[k])
    decreases |list|
  {
    if |list| == 0 then None
    else if Contains(d, list[0]) then Some(list[0])
    else
      var r := FirstContained(list[1..], d);
      assert forall k :: 1 <= k < |list| ==> list[k] == list[1..][k - 1];
      if r.Some? then
        var i :| 0 <= i < |list[1..]| && list[1..][i] == r.value && forall k :: 0 <= k < i ==> !Contains(d, list[1..][k]);
        assert list[i + 1] == r.value;
        r
      else r
  }

  /** The domain as analysed: ASCII lower case, without dots at either end. */
  function Normal(domain: string): string {
    StripChar(ToLower(domain), '.')
  }

  predicate Whitelisted(cfg: DnsConfig, d: string) {
    d in cfg.whitelistDomains || FirstSuffix(cfg.whitelistSuffixes, d).Some?
  }

  /** The label the entropy is measured on: the text before the first dot. */
  function NameLabel(d: string): (r: string)
    ensures r <= d && '.' !in r
    ensures |r| < |d| ==> d[|r|] == '.'
  {
    BeforeFirst(d, '.')
  }

  predicate IsSeparator(c: char) {
    c == '-' || c == '.'
  }

  /** `n` groups of one to three digits, separated by a dash or a dot, start
      at position `i`. */
  predicate GroupsAt(s: string, i: nat, n: nat)
    decreases n, 1
  {
    n > 0 && (GroupOf(s, i, n, 1) || GroupOf(s, i, n, 2) || GroupOf(s, i, n, 3))
  }

  predicate GroupOf(s: string, i: nat, n: nat, len: nat)
    requires n > 0
    decreases n, 0
  {
    && i + len <= |s|
    && AllDigits(s[i..i + len])
    && (n == 1 || (i + len < |s| && IsSeparator(s[i + len]) && GroupsAt(s, i + len + 1, n - 1)))
  }

  /** The domain contains something shaped like an IPv4 address with dots or
      dashes, such as `1-2-3-4`. */
  predicate IpLike(d: string) {
    exists i :: 0 <= i <= |d| && GroupsAt(d, i, 4)
  }

  function EntropyPoints(e: real): (p: int)
    ensures p == 0 || p == 20 || p == 50
    ensures p == 50 <==> e > 4.5
    ensures p == 20 <==> 4.0 < e <= 4.5
  {
    if e > 4.5 then 50 else if e > 4.0 then 20 else 0
  }

  function EntropyReasons(e: real, fx: Measures): (r: seq<string>)
    ensures |r| == if EntropyPoints(e) > 0 then 1 else 0
  {
    if e > 4.5 then ["High Entropy (" + fx.fixed2(e) + ")"]
    else if e > 4.0 then ["Elevated Entropy (" + fx.fixed2(e) + ")"]
    else []
  }

  function LengthPoints(n: nat): (p: int)
    ensures p == 0 || p == 15 || p == 40
    ensures p == 40 <==> n > 60
    ensures p == 15 <==> 40 < n <= 60
  {
    if n > 60 then 40 else if n > 40 then 15 else 0
  }

  function LengthReasons(n: nat): (r: seq<string>)
    ensures |r| == if LengthPoints(n) > 0 then 1 else 0
  {
    if n > 60 then ["Excessive Length (Tunneling?)"]
    else if n > 40 then ["Long Domain Name"]
    else []
  }

  /** The reason of the TLD or the keyword stage: the stage name with the entry
      found in brackets, or nothing when no entry was found. */
  function FoundReasons(stage: string, found: Option<string>): (r: seq<string>)
    ensures |r| <= 1 && (|r| == 1 <==> found.Some?)
  {
    if found.Some? then [stage + " (" + found.value + ")"] else []
  }

  function IpReasons(d: string): seq<string> {
    if IpLike(d) then ["Contains IP Address"] else []
  }

  /** The score before it is capped: the sum of the stages. */
  function RawScore(cfg: DnsConfig, d: string, e: real): int {
    EntropyPoints(e) + LengthPoints(|d|)
    + (if FirstSuffix(cfg.tlds, d).Some? then 20 else 0)
    + (if FirstContained(cfg.keywords, d).Some? then 40 else 0)
    + (if IpLike(d) then 10 else 0)
  }

  function AllReasons(cfg: DnsConfig, d: string, e: real, fx: Measures): seq<string> {
    EntropyReasons(e, fx) + LengthReasons(|d|) + FoundReasons("Risky TLD", FirstSuffix(cfg.tlds, d))
    + FoundReasons("Suspicious Keyword", FirstContained(cfg.keywords, d)) + IpReasons(d)
  }

  /** The verdict for a score: 60 and above is critical, 30 and above
      suspicious, anything positive low. */
  function RiskOf(score: int): (r: DnsLevel)
    ensures r == Critical <==> score >= 60
    ensures r == Suspicious <==> 30 <= score < 60
    ensures r == Low <==> 0 < score < 30
    ensures r == Safe <==> score <= 0
  {
    if score >= 60 then Critical else if score >= 30 then Suspicious else if score > 0 then Low else Safe
  }

  /** What `analyze_domain` returns for a domain. */
  function Analysis(cfg: DnsConfig, domain: string, fx: Measures): DnsAnalysis {
    if domain == "" then DnsAnalysis(0, Safe, [], None)
    else
      var d := Normal(domain);
      if Whitelisted(cfg, d) then DnsAnalysis(0, Safe, ["Whitelisted"], None)
      else
        var e := fx.entropy(NameLabel(d));
        var raw := RawScore(cfg, d, e);
        DnsAnalysis(if raw < 100 then raw else 100, RiskOf(raw), AllReasons(cfg, d, e, fx), Some(fx.round2(e)))
  }

  // ---------------------------------------------------------------------------
  // What the analysis promises

  /** The empty domain and whitelisted domains are safe, with no score. */
  lemma SafeCases(cfg: DnsConfig, domain: string, fx: Measures)
    ensures domain == "" ==> Analysis(cfg, domain, fx) == DnsAnalysis(0, Safe, [], None)
    ensures domain != "" && Whitelisted(cfg, Normal(domain)) ==>
      Analysis(cfg, domain, fx) == DnsAnalysis(0, Safe, ["Whitelisted"], None)
  {
  }

  /** Each stage adds between 10 and 50 points and one reason, so the raw
      score lies between 10 and 50 times the number of reasons; at most one
      TLD and one keyword are reported. */
  lemma {:induction false} RawScoreBounds(cfg: DnsConfig, d: string, e: real, fx: Measures)
    ensures 10 * |AllReasons(cfg, d, e, fx)| <= RawScore(cfg, d, e) <= 50 * |AllReasons(cfg, d, e, fx)|
    ensures |AllReasons(cfg, d, e, fx)| <= 5 && RawScore(cfg, d, e) <= 160
  {
  }

  /** The returned score is capped at 100 but the verdict is taken from the
      uncapped score; capping never changes the verdict.  A domain is safe
      exactly when it scores nothing and has no reason. */
  lemma VerdictOfScore(cfg: DnsConfig, domain: string, fx: Measures)
    requires domain != "" && !Whitelisted(cfg, Normal(domain))
    ensures var a := Analysis(cfg, domain, fx);
      && 0 <= a.score <= 100
      && a.risk == RiskOf(a.score)
      && (a.risk == Safe <==> a.score == 0)
      && (a.risk == Safe <==> a.reasons == [])
      && a.entropy.Some?
  {
    var d := Normal(domain);
    var e := fx.entropy(NameLabel(d));
    RawScoreBounds(cfg, d, e, fx);
  }

  /** A keyword and a risky TLD together make a domain suspicious; with high
      entropy added it is critical. */
  lemma KeywordAndTld(cfg: DnsConfig, domain: string, fx: Measures)
    requires domain != "" && !Whitelisted(cfg, Normal(domain))
    requires FirstSuffix(cfg.tlds, Normal(domain)).Some? && FirstContained(cfg.keywords, Normal(domain)).Some?
    ensures Analysis(cfg, domain, fx).risk in {Suspicious, Critical}
    ensures fx.entropy(NameLabel(Normal(domain))) > 4.5 ==> Analysis(cfg, domain, fx).risk == Critical
  {
  }

  // ---------------------------------------------------------------------------
  // The analysis as the source computes it, stage by stage

  /** The first suffix of the list that ends the domain, scanning until the
      first match (the risky TLDs and the whitelisted suffixes). */
  method FindSuffix(d: string, suffixes: seq<string>) returns (t: Option<string>)
    ensures t == FirstSuffix(suffixes, d)
  {
    var i := 0;
    while i < |suffixes|
      invariant 0 <= i <= |suffixes|
      invariant FirstSuffix(suffixes, d) == FirstSuffix(suffixes[i..], d)
    {
      assert suffixes[i..][1..] == suffixes[i + 1..];
      if EndsWith(d, suffixes[i]) {
        return Some(suffixes[i]);
      }
      i := i + 1;
    }
    t := None;
  }

  /** The suspicious keyword, scanning the list until the first match. */
  method FindKeyword(d: string, keywords: seq<string>) returns (k: Option<string>)
    ensures k == FirstContained(keywords, d)
  {
    var i := 0;
    while i < |keywords|
      invariant 0 <= i <= |keywords|
      invariant FirstContained(keywords, d) == FirstContained(keywords[i..], d)
    {
      assert keywords[i..][1..] == keywords[i + 1..];
      if Contains(d, keywords[i]) {
        return Some(keywords[i]);
      }
      i := i + 1;
    }
    k := None;
  }

  method AnalyzeDomain(cfg: DnsConfig, domain: string, fx: Measures) returns (a: DnsAnalysis)
    ensures a == Analysis(cfg, domain, fx)
  {
    if domain == "" {
      return DnsAnalysis(0, Safe, [], None);
    }
    var d := StripChar(ToLower(domain), '.');
    var white := FindSuffix(d, cfg.whitelistSuffixes);
    if d in cfg.whitelistDomains || white.Some? {
      return DnsAnalysis(0, Safe, ["Whitelisted"], None);
    }
    var e := fx.entropy(BeforeFirst(d, '.'));
    var score, reasons := NameScore(d, e, fx);
    var listScore, listReasons := ListScore(cfg, d);
    score := score + listScore;
    JoinStages(EntropyReasons(e, fx), LengthReasons(|d|), FoundReasons("Risky TLD", FirstSuffix(cfg.tlds, d)),
               FoundReasons("Suspicious Keyword", FirstContained(cfg.keywords, d)), IpReasons(d));
    reasons := reasons + listReasons;
    a := DnsAnalysis(if score < 100 then score else 100, RiskOf(score), reasons, Some(fx.round2(e)));
  }

  lemma JoinStages(a: seq<string>, b: seq<string>, c: seq<string>, d: seq<string>, e: seq<string>)
    ensures (a + b) + (c + d + e) == a + b + c + d + e
  {
  }

  /** The TLD, keyword and address stages. */
  method ListScore(cfg: DnsConfig, d: string) returns (score: int, reasons: seq<string>)
    ensures score == (if FirstSuffix(cfg.tlds, d).Some? then 20 else 0)
                   + (if FirstContained(cfg.keywords, d).Some? then 40 else 0)
                   + (if IpLike(d) then 10 else 0)
    ensures reasons == FoundReasons("Risky TLD", FirstSuffix(cfg.tlds, d)) + FoundReasons("Suspicious Keyword", FirstContained(cfg.keywords, d)) + IpReasons(d)
  {
    score, reasons := 0, [];
    var tld := FindSuffix(d, cfg.tlds);
    if tld.Some? {
      score := score + 20;
      reasons := reasons + ["Risky TLD (" + tld.value + ")"];
    }
    var kw := FindKeyword(d, cfg.keywords);
    if kw.Some? {
      score := score + 40;
      reasons := reasons + ["Suspicious Keyword (" + kw.value + ")"];
    }
    if IpLike(d) {
      score := score + 10;
      reasons := reasons + ["Contains IP Address"];
    }
    assert "Risky TLD" + " (" == "Risky TLD (" && "Suspicious Keyword" + " (" == "Suspicious Keyword (";
    assert reasons == FoundReasons("Risky TLD", tld) + FoundReasons("Suspicious Keyword", kw) + IpReasons(d);
  }

  /** The entropy and length stages. */
  method NameScore(d: string, e: real, fx: Measures) returns (score: int, reasons: seq<string>)
    ensures score == EntropyPoints(e) + LengthPoints(|d|)
    ensures reasons == EntropyReasons(e, fx) + LengthReasons(|d|)
  {
    score, reasons := 0, [];
    if e > 4.5 {
      score := score + 50;
      reasons := reasons + ["High Entropy (" + fx.fixed2(e) + ")"];
    } else if e > 4.0 {
      score := score + 20;
      reasons := reasons + ["Elevated Entropy (" + fx.fixed2(e) + ")"];
    }
    if |d| > 60 {
      score := score + 40;
      reasons := reasons + ["Excessive Length (Tunneling?)"];
    } else if |d| > 40 {
      score := score + 15;
      reasons := reasons + ["Long Domain Name"];
    }
  }

  // ---------------------------------------------------------------------------
  // The sniffer

  /** What the two patterns found on one line of the capture: a query's id
      and domain, and a response's id and address. */
  datatype LineMatches = LineMatches(query: Option<(string, string)>, response: Option<(string, string)>)

  /** An answered address: its domain, when it was seen and the analysis. */
  datatype DnsEntry = DnsEntry(domain: string, ts: int, analysis: DnsAnalysis)

  const MaxPendingQueries := 1000
  const EntryLifetime := 3600

  class DnsSniffer {
    var dnsMap: map<string, DnsEntry>
    var pending: map<string, string>
    const cfg: DnsConfig
    const fx: Measures

    /** The pending-query table never holds more than 1000 ids. */
    ghost predicate Valid()
      reads this
    {
      |pending| <= MaxPendingQueries
    }

    constructor(cfg: DnsConfig, fx: Measures)
      ensures Valid() && dnsMap == map[] && pending == map[] && this.cfg == cfg && this.fx == fx
    {
      dnsMap := map[];
      pending := map[];
      this.cfg := cfg;
      this.fx := fx;
    }

    /** One captured line.  A query is remembered under its id (the whole
        table is dropped when it grows past 1000) and the line is not looked
        at as a response; a response whose id names a remembered domain
        records the analysed domain for the address. */
    method HandleLine(m: LineMatches, now: int)
      requires Valid()
      modifies this
      ensures Valid()
      ensures m.query.Some? ==> dnsMap == old(dnsMap)
      ensures m.query.Some? && |old(pending)[m.query.value.0 := m.query.value.1]| <= MaxPendingQueries ==>
        pending == old(pending)[m.query.value.0 := m.query.value.1]
      ensures m.query.Some? && |old(pending)[m.query.value.0 := m.query.value.1]| > MaxPendingQueries ==>
        pending == map[]
      ensures m.query.None? ==> pending == old(pending)
      ensures m.query.None? && m.response.Some? && m.response.value.0 in old(pending) && old(pending)[m.response.value.0] != "" ==>
        var domain := old(pending)[m.response.value.0];
        dnsMap == old(dnsMap)[m.response.value.1 := DnsEntry(domain, now, Analysis(cfg, domain, fx))]
      ensures m.query.None? && !(m.response.Some? && m.response.value.0 in old(pending) && old(pending)[m.response.value.0] != "") ==>
        dnsMap == old(dnsMap)
    {
      if m.query.Some? {
        var (id, domain) := m.query.value;
        pending := pending[id := domain];
        if |pending| > MaxPendingQueries {
          pending := map[];
        }
        return;
      }
      if m.response.Some? {
        var (id, ip) := m.response.value;
        if id in pending && pending[id] != "" {
          var domain := pending[id];
          var analysis := AnalyzeDomain(cfg, domain, fx);
          dnsMap := dnsMap[ip := DnsEntry(domain, now, analysis)];
        }
      }
    }

    /** The entry for an address while it is at most an hour old; an older
        entry is deleted. */
    method DomainForIp(ip: string, now: int) returns (r: Option<DnsEntry>)
      requires Valid()
      modifies this
      ensures Valid() && pending == old(pending)
      ensures ip !in old(dnsMap) ==> r.None? && dnsMap == old(dnsMap)
      ensures ip in old(dnsMap) && now - old(dnsMap)[ip].ts <= EntryLifetime ==>
        r == Some(old(dnsMap)[ip]) && dnsMap == old(dnsMap)
      ensures ip in old(dnsMap) && now - old(dnsMap)[ip].ts > EntryLifetime ==>
        r.None? && dnsMap == old(dnsMap) - {ip}
    {
      if ip in dnsMap {
        var data := dnsMap[ip];
        if now - data.ts > EntryLifetime {
          dnsMap := dnsMap - {ip};
          return None;
        }
        return Some(data);
      }
      r := None;
    }
  }
}

=== FILE: dnslists.dfy ===
/** The DNS lists tab: four editable lists of the DNS analyser's
    configuration, with adding a value (trimmed, ignored when blank, kept
    once) and removing one. */
module DnsLists {
  import opened Common

  datatype ListKey = WhitelistDomains | WhitelistSuffixes | BlacklistKeywords | BlacklistTlds

  datatype DnsConfig = DnsConfig(
    whitelistDomains: seq<string>,
    whitelistSuffixes: seq<string>,
    blacklistKeywords: seq<string>,
    blacklistTlds: seq<string>)

  /** `config[listKey]`. */
  function ListOf(c: DnsConfig, key: ListKey): seq<string> {
    match key
    case WhitelistDomains => c.whitelistDomains
    case WhitelistSuffixes => c.whitelistSuffixes
    case BlacklistKeywords => c.blacklistKeywords
    case BlacklistTlds => c.blacklistTlds
  }

  /** `{ ...prev, [listKey]: list }`: one list replaced, the others kept. */
  function WithList(c: DnsConfig, key: ListKey, list: seq<string>): (r: DnsConfig)
    ensures ListOf(r, key) == list
    ensures forall other :: other != key ==> ListOf(r, other) == ListOf(c, other)
  {
    match key
    case WhitelistDomains => c.(whitelistDomains := list)
    case WhitelistSuffixes => c.(whitelistSuffixes := list)
    case BlacklistKeywords => c.(blacklistKeywords := list)
    case BlacklistTlds => c.(blacklistTlds := list)
  }

  lemma WithOwnList(c: DnsConfig, key: ListKey)
    ensures WithList(c, key, ListOf(c, key)) == c
  {
  }

  predicate NoDuplicates(s: seq<string>) {
    forall i, j :: 0 <= i < j < |s| ==> s[i] != s[j]
  }

  /** `[...new Set(s)]`: every value once, where it first occurs. */
  function Dedup(s: seq<string>): (r: seq<string>)
    ensures NoDuplicates(r)
    ensures forall x :: x in r <==> x in s
    decreases |s|
  {
    if |s| == 0 then []
    else
      var init := s[..|s| - 1];
      var last := s[|s| - 1];
      assert forall x :: x in s <==> x in init || x == last;
      if last in init then Dedup(init) else Dedup(init) + [last]
  }

  /** A list without duplicates is its own set. */
  lemma {:induction false} DedupKeeps(s: seq<string>)
    requires NoDuplicates(s)
    ensures Dedup(s) == s
    decreases |s|
  {
    if |s| > 0 {
      var init := s[..|s| - 1];
      DedupKeeps(init);
      assert s[|s| - 1] !in init;
      assert init + [s[|s| - 1]] == s;
    }
  }

  /** The configuration after an edit, and the text left in the input box. */
  datatype Edit = Edit(config: DnsConfig, input: string)

  /** `addToList`: a blank value changes nothing; otherwise its trimmed text
      joins the list, once, and the input box is cleared. */
  function AddToList(c: DnsConfig, key: ListKey, value: string): (r: Edit)
    ensures Trim(value, JsSpace) == "" ==> r == Edit(c, value)
    ensures Trim(value, JsSpace) != "" ==> r.input == ""
    ensures forall other :: other != key ==> ListOf(r.config, other) == ListOf(c, other)
    ensures Trim(value, JsSpace) != "" ==> NoDuplicates(ListOf(r.config, key))
    ensures Trim(value, JsSpace) != "" ==>
      forall x :: x in ListOf(r.config, key) <==> x in ListOf(c, key) || x == Trim(value, JsSpace)
  {
    var v := Trim(value, JsSpace);
    if v == "" then Edit(c, value)
    else Edit(WithList(c, key, Dedup(ListOf(c, key) + [v])), "")
  }

  /** The value is ignored exactly when it is made of whitespace only, as
      JavaScript's `trim()` counts it (the byte-order mark and no-break
      spaces included). */
  lemma BlankValueIgnored(c: DnsConfig, key: ListKey, value: string)
    ensures AddToList(c, key, value) == Edit(c, value) <==> forall k :: 0 <= k < |value| ==> IsSpace(value[k], JsSpace)
  {
    TrimEmptyIff(value, JsSpace);
  }

  /** Adding a value already in a duplicate-free list leaves it as it was. */
  lemma AddExisting(c: DnsConfig, key: ListKey, value: string)
    requires NoDuplicates(ListOf(c, key)) && Trim(value, JsSpace) in ListOf(c, key)
    ensures AddToList(c, key, value).config == c
  {
    var list := ListOf(c, key);
    assert (list + [Trim(value, JsSpace)])[..|list|] == list;
    DedupKeeps(list);
    WithOwnList(c, key);
  }

  /** Adding a new value to a duplicate-free list appends it, keeping the
      order of the others. */
  lemma AddNew(c: DnsConfig, key: ListKey, value: string)
    requires NoDuplicates(ListOf(c, key)) && Trim(value, JsSpace) != "" && Trim(value, JsSpace) !in ListOf(c, key)
    ensures ListOf(AddToList(c, key, value).config, key) == ListOf(c, key) + [Trim(value, JsSpace)]
  {
    var list := ListOf(c, key);
    var s := list + [Trim(value, JsSpace)];
    assert s[..|list|] == list;
    DedupKeeps(list);
  }

  /** The filter callback `item => item !== value`. */
  function Other(value: string): string -> bool {
    (x: string) => x != value
  }

  /** `removeFromList`: every occurrence of the value leaves the list, every
      other value keeps all its occurrences, in their order. */
  function RemoveFromList(c: DnsConfig, key: ListKey, value: string): (r: DnsConfig)
    ensures forall other :: other != key ==> ListOf(r, other) == ListOf(c, other)
    ensures forall x :: x in ListOf(r, key) <==> x in ListOf(c, key) && x != value
    ensures multiset(ListOf(r, key)) == multiset(ListOf(c, key))[value := 0]
    ensures IsSubsequence(ListOf(r, key), ListOf(c, key))
  {
    var list := ListOf(c, key);
    var kept := Filter(list, Other(value));
    FilterSubsequence(list, Other(value));
    FilterMultiset(list, Other(value));
    assert multiset(kept) == multiset(list)[value := 0];
    WithList(c, key, kept)
  }

  /** Removing a value that was just added to a duplicate-free list restores
      the configuration. */
  lemma RemoveUndoesAdd(c: DnsConfig, key: ListKey, value: string)
    requires NoDuplicates(ListOf(c, key)) && Trim(value, JsSpace) != "" && Trim(value, JsSpace) !in ListOf(c, key)
    ensures RemoveFromList(AddToList(c, key, value).config, key, Trim(value, JsSpace)) == c
  {
    var list := ListOf(c, key);
    var v := Trim(value, JsSpace);
    var p := Other(v);
    AddNew(c, key, value);
    FilterAppend(list, [v], p);
    FilterAll(list, p);
    assert Filter([v], p) == [];
    WithOwnList(c, key);
  }
}

=== FILE: evidence.dfy ===
/** The evidence tags ("chips") the connection table shows next to a row
    (frontend/src/components/Chips.jsx): a fixed, ordered list of checks on one
    row, each adding at most one tag. */
module Evidence {
  import opened Common
  import opened Records

  // ---------------------------------------------------------------------------
  // Fixed tables

  predicate IsSensitivePort(p: int) {
    p == 22 || p == 23 || p == 25 || p == 445 || p == 3389 || p == 5900
  }

  predicate IsMiningPort(p: int) {
    p == 3333 || p == 4444
  }

  /** The thirty ports 9001 to 9030. */
  predicate IsTorPort(p: int) {
    9001 <= p <= 9030
  }

  lemma PortTablesDisjoint(p: int)
    ensures !(IsSensitivePort(p) && IsMiningPort(p))
    ensures !(IsSensitivePort(p) && IsTorPort(p))
    ensures !(IsMiningPort(p) && IsTorPort(p))
  {
  }

  predicate IsRiskyCountry(c: string) {
    c == "RU" || c == "CN" || c == "KP" || c == "IR" || c == "SY" || c == "BY"
  }

  // ---------------------------------------------------------------------------
  // Address classification by text prefix

  /** The pattern `^172\.(1[6-9]|2\d|3[01])\.`. */
  predicate Private172(h: string) {
    && |h| >= 7 && h[..4] == "172." && h[6] == '.'
    && ((h[4] == '1' && '6' <= h[5] <= '9') || (h[4] == '2' && IsDigit(h[5])) || (h[4] == '3' && (h[5] == '0' || h[5] == '1')))
  }

  predicate IsLoopbackText(h: string) {
    "127." <= h || h == "::1"
  }

  predicate IsPrivateText(h: string) {
    "10." <= h || "192.168." <= h || Private172(h)
  }

  /** Public unless empty, loopback or one of the private prefixes; nothing
      else (link-local, multicast, IPv6 private ranges) is recognised. */
  predicate IsPublicIp(host: string)
    ensures IsPublicIp(host) <==> host != "" && !IsLoopbackText(host) && !IsPrivateText(host)
  {
    if host == "" then false
    else if IsLoopbackText(host) then false
    else if IsPrivateText(host) then false
    else true
  }

  lemma {:induction false} NatToStringLength(n: nat)
    ensures n < 10 ==> |NatToString(n)| == 1
    ensures 10 <= n < 100 ==> NatToString(n) == [DigitChar(n / 10), DigitChar(n % 10)]
    ensures n >= 100 ==> |NatToString(n)| >= 3
  {
    if n >= 100 {
      NatToStringLength(n / 10);
    } else if n >= 10 {
      assert NatToString(n / 10) == [DigitChar(n / 10)];
    }
  }

  /** The prefix test on `172.` addresses accepts exactly the second octets 16
      to 31 of section 3 of RFC 1918, for any numeric second octet. */
  lemma Private172Octet(n: nat, rest: string)
    ensures Private172("172." + NatToString(n) + "." + rest) <==> 16 <= n <= 31
  {
    var h := "172." + NatToString(n) + "." + rest;
    var o := NatToString(n);
    NatToStringLength(n);
    assert h[..4] == "172.";
    assert h[4] == o[0];
    if n < 10 {
      assert h[5] == '.';
    } else if n < 100 {
      assert h[5] == o[1] && h[6] == '.';
      assert o[0] == DigitChar(n / 10) && o[1] == DigitChar(n % 10);
    } else {
      assert h[6] == o[2];
      assert IsDigit(o[2]);
    }
  }

  // ---------------------------------------------------------------------------
  // Tags

  datatype Tag = Tmp | Sensitive | Mining | Tor | PublicIp | Recent | Beacon | Ransomware | DnsRisk
               | RiskyCountry | Closed | Unsigned | Apple | Quarantine | Parent | Abuse | ManyDsts
               | HighCpu | HighRam

  /** The number of checks. */
  const TagCount: nat := 19

  /** The tag of the `k`-th check, in the order the checks run. */
  function TagAt(k: nat): Tag
    requires k < TagCount
  {
    if k == 0 then Tmp else if k == 1 then Sensitive else if k == 2 then Mining else if k == 3 then Tor
    else if k == 4 then PublicIp else if k == 5 then Recent else if k == 6 then Beacon
    else if k == 7 then Ransomware else if k == 8 then DnsRisk else if k == 9 then RiskyCountry
    else if k == 10 then Closed else if k == 11 then Unsigned else if k == 12 then Apple
    else if k == 13 then Quarantine else if k == 14 then Parent else if k == 15 then Abuse
    else if k == 16 then ManyDsts else if k == 17 then HighCpu else HighRam
  }

  /** The position of a tag's check. */
  function Rank(t: Tag): (k: nat)
    ensures k < TagCount && TagAt(k) == t
  {
    match t
    case Tmp => 0 case Sensitive => 1 case Mining => 2 case Tor => 3 case PublicIp => 4
    case Recent => 5 case Beacon => 6 case Ransomware => 7 case DnsRisk => 8 case RiskyCountry => 9
    case Closed => 10 case Unsigned => 11 case Apple => 12 case Quarantine => 13 case Parent => 14
    case Abuse => 15 case ManyDsts => 16 case HighCpu => 17 case HighRam => 18
  }

  /** What a tag shows: literal text, a translation key, a translation key
      followed by text, or a number formatted with `toFixed(0)`. */
  datatype Label = Text(s: string) | Tr(key: string) | TrThen(key: string, suffix: string)
                 | CpuPercent(cpu: real) | RamMegabytes(bytes: int)

  /** A tag with its label and its colour band (0 for the plain colour, 1 and 2
      for the stronger bands of the DNS and abuse tags). */
  datatype Chip = Chip(tag: Tag, caption: Label, band: nat)

  function Host(raddr: string): string {
    BeforeFirst(raddr, ':')
  }

  predicate HasTmpHint(exe: string) {
    Contains(exe, "/tmp") || Contains(exe, "/private/tmp") || Contains(exe, "/var/tmp") || Contains(exe, "/dev/shm")
  }

  predicate PortIs(row: Conn, p: int -> bool) {
    row.dport.Some? && p(row.dport.value)
  }

  predicate HasRansomwareReason(row: Conn) {
    exists i :: 0 <= i < |row.reasons| && Contains(row.reasons[i], "RANSOMWARE")
  }

  /** The condition under which each tag is added. */
  predicate Fires(row: Conn, t: Tag) {
    match t
    case Tmp => HasTmpHint(ToLower(row.exe))
    case Sensitive => PortIs(row, IsSensitivePort)
    case Mining => PortIs(row, IsMiningPort)
    case Tor => PortIs(row, IsTorPort)
    case PublicIp => IsPublicIp(Host(row.raddr))
    case Recent => row.exeRecent && IsPublicIp(Host(row.raddr))
    case Beacon => row.beacon
    case Ransomware => HasRansomwareReason(row)
    case DnsRisk => row.dnsRisk.Some? && row.dnsRisk.value.score > 0
    case RiskyCountry => row.country != "" && IsRiskyCountry(row.country)
    case Closed => row.status == "CLOSED"
    case Unsigned => !row.signed
    case Apple => row.signed && row.apple
    case Quarantine => row.quarantine
    case Parent => row.suspiciousParent
    case Abuse => row.abuseScore > 0
    case ManyDsts => row.uniqueDsts >= 5
    case HighCpu => row.cpu > 50.0
    case HighRam => row.mem > 524288000
  }

  function DnsScore(row: Conn): int {
    if row.dnsRisk.Some? then row.dnsRisk.value.score else 0
  }

  /** The tag as shown when it fires. */
  function ChipFor(row: Conn, t: Tag): Chip {
    match t
    case Tmp => Chip(Tmp, Text("/tmp"), 0)
    case Sensitive => Chip(Sensitive, Text(":" + (if row.dport.Some? then IntToString(row.dport.value) else "0")), 0)
    case Mining => Chip(Mining, Tr("chips.mining"), 0)
    case Tor => Chip(Tor, Tr("chips.tor"), 0)
    case PublicIp => Chip(PublicIp, Tr("chips.public_ip"), 0)
    case Recent => Chip(Recent, Tr("chips.recent"), 0)
    case Beacon => Chip(Beacon, Text("beacon"), 0)
    case Ransomware => Chip(Ransomware, Text("🚨 RANSOMWARE"), 0)
    case DnsRisk =>
      Chip(DnsRisk, Text("DNS: " + IntToString(DnsScore(row)) + "%"),
           if DnsScore(row) >= 60 then 2 else if DnsScore(row) >= 30 then 1 else 0)
    case RiskyCountry => Chip(RiskyCountry, Text("📍 " + row.country), 0)
    case Closed => Chip(Closed, Tr("chips.closed"), 0)
    case Unsigned => Chip(Unsigned, Tr("chips.unsigned"), 0)
    case Apple => Chip(Apple, Tr(if row.notarized then "chips.apple_verified" else "chips.apple"), 0)
    case Quarantine => Chip(Quarantine, Tr("chips.quarantine"), 0)
    case Parent => Chip(Parent, Text("↳ " + (if row.parentName != "" then row.parentName else "script")), 0)
    case Abuse =>
      Chip(Abuse, TrThen("chips.abuse", ": " + IntToString(row.abuseScore) + "%"),
           if row.abuseScore >= 80 then 2 else if row.abuseScore >= 50 then 1 else 0)
    case ManyDsts => Chip(ManyDsts, Text(if row.uniqueDsts >= 10 then "10+ dsts" else "5+ dsts"), 0)
    case HighCpu => Chip(HighCpu, CpuPercent(row.cpu), 0)
    case HighRam => Chip(HighRam, RamMegabytes(row.mem), 0)
  }

  /** The tags produced by the first `k` checks. */
  function ChipsUpTo(row: Conn, k: nat): seq<Chip>
    requires k <= TagCount
  {
    if k == 0 then []
    else ChipsUpTo(row, k - 1) + (if Fires(row, TagAt(k - 1)) then [ChipFor(row, TagAt(k - 1))] else [])
  }

  /** Runs the checks in order, appending one tag per firing check. */
  method BuildChips(row: Conn) returns (chips: seq<Chip>)
    ensures chips == ChipsUpTo(row, TagCount)
  {
    chips := [];
    chips := AddFolderChips(row, chips);
    chips := AddPortChips(row, chips);
    chips := AddPatternChips(row, chips);
    chips := AddOriginChips(row, chips);
    chips := AddStateChips(row, chips);
    chips := AddLineageChips(row, chips);
    chips := AddReputationChips(row, chips);
    chips := AddResourceChips(row, chips);
  }

  /** The executable-folder and sensitive-port checks. */
  method AddFolderChips(row: Conn, chips0: seq<Chip>) returns (chips: seq<Chip>)
    requires chips0 == ChipsUpTo(row, 0)
    ensures chips == ChipsUpTo(row, 2)
  {
    var exe := ToLower(row.exe);
    chips := chips0;
    if Contains(exe, "/tmp") || Contains(exe, "/private/tmp") || Contains(exe, "/var/tmp") || Contains(exe, "/dev/shm") {
      chips := chips + [Chip(Tmp, Text("/tmp"), 0)];
    }
    assert chips == ChipsUpTo(row, 1);
    if row.dport.Some? && IsSensitivePort(row.dport.value) {
      chips := chips + [Chip(Sensitive, Text(":" + IntToString(row.dport.value)), 0)];
    }
  }

  /** The mining-port, Tor-port and public-address checks. */
  method AddPortChips(row: Conn, chips0: seq<Chip>) returns (chips: seq<Chip>)
    requires chips0 == ChipsUpTo(row, 2)
    ensures chips == ChipsUpTo(row, 5)
  {
    var host := Host(row.raddr);
    chips := chips0;
    if row.dport.Some? && IsMiningPort(row.dport.value) {
      chips := chips + [Chip(Mining, Tr("chips.mining"), 0)];
    }
    assert chips == ChipsUpTo(row, 3);
    if row.dport.Some? && IsTorPort(row.dport.value) {
      chips := chips + [Chip(Tor, Tr("chips.tor"), 0)];
    }
    assert chips == ChipsUpTo(row, 4);
    if IsPublicIp(host) {
      chips := chips + [Chip(PublicIp, Tr("chips.public_ip"), 0)];
    }
  }

  /** The binary-age, beaconing and ransomware-reason checks. */
  method AddPatternChips(row: Conn, chips0: seq<Chip>) returns (chips: seq<Chip>)
    requires chips0 == ChipsUpTo(row, 5)
    ensures chips == ChipsUpTo(row, 8)
  {
    var host := Host(row.raddr);
    chips := chips0;
    if row.exeRecent && IsPublicIp(host) {
      chips := chips + [Chip(Recent, Tr("chips.recent"), 0)];
    }
    assert chips == ChipsUpTo(row, 6);
    if row.beacon {
      chips := chips + [Chip(Beacon, Text("beacon"), 0)];
    }
    assert chips == ChipsUpTo(row, 7);
    if HasRansomwareReason(row) {
      chips := chips + [Chip(Ransomware, Text("🚨 RANSOMWARE"), 0)];
    }
  }

  /** The domain-risk and country checks. */
  method AddOriginChips(row: Conn, chips0: seq<Chip>) returns (chips: seq<Chip>)
    requires chips0 == ChipsUpTo(row, 8)
    ensures chips == ChipsUpTo(row, 10)
  {
    chips := chips0;
    if row.dnsRisk.Some? && row.dnsRisk.value.score > 0 {
      var score := row.dnsRisk.value.score;
      var band := if score >= 60 then 2 else if score >= 30 then 1 else 0;
      assert Chip(DnsRisk, Text("DNS: " + IntToString(score) + "%"), band) == ChipFor(row, DnsRisk);
      chips := chips + [Chip(DnsRisk, Text("DNS: " + IntToString(score) + "%"), band)];
    } else {
      assert !Fires(row, DnsRisk);
    }
    assert chips == ChipsUpTo(row, 9);
    if row.country != "" && IsRiskyCountry(row.country) {
      chips := chips + [Chip(RiskyCountry, Text("📍 " + row.country), 0)];
    }
  }

  /** The connection-state and signature checks; 'unsigned' and 'apple' are the
      two arms of one branch. */
  method AddStateChips(row: Conn, chips0: seq<Chip>) returns (chips: seq<Chip>)
    requires chips0 == ChipsUpTo(row, 10)
    ensures chips == ChipsUpTo(row, 13)
  {
    chips := chips0;
    if row.status == "CLOSED" {
      chips := chips + [Chip(Closed, Tr("chips.closed"), 0)];
    }
    assert chips == ChipsUpTo(row, 11);
    if !row.signed {
      chips := chips + [Chip(Unsigned, Tr("chips.unsigned"), 0)];
    } else if row.apple {
      var key := if row.notarized then "chips.apple_verified" else "chips.apple";
      chips := chips + [Chip(Apple, Tr(key), 0)];
    }
  }

  /** The quarantine and parent-process checks. */
  method AddLineageChips(row: Conn, chips0: seq<Chip>) returns (chips: seq<Chip>)
    requires chips0 == ChipsUpTo(row, 13)
    ensures chips == ChipsUpTo(row, 15)
  {
    chips := chips0;
    if row.quarantine {
      chips := chips + [Chip(Quarantine, Tr("chips.quarantine"), 0)];
    }
    assert chips == ChipsUpTo(row, 14);
    if row.suspiciousParent {
      var parentName := if row.parentName != "" then row.parentName else "script";
      chips := chips + [Chip(Parent, Text("↳ " + parentName), 0)];
    }
  }

  /** The reputation and destination-count checks. */
  method AddReputationChips(row: Conn, chips0: seq<Chip>) returns (chips: seq<Chip>)
    requires chips0 == ChipsUpTo(row, 15)
    ensures chips == ChipsUpTo(row, 17)
  {
    chips := chips0;
    if row.abuseScore > 0 {
      var band := if row.abuseScore >= 80 then 2 else if row.abuseScore >= 50 then 1 else 0;
      chips := chips + [Chip(Abuse, TrThen("chips.abuse", ": " + IntToString(row.abuseScore) + "%"), band)];
    }
    assert chips == ChipsUpTo(row, 16);
    if row.uniqueDsts >= 10 {
      chips := chips + [Chip(ManyDsts, Text("10+ dsts"), 0)];
    } else if row.uniqueDsts >= 5 {
      chips := chips + [Chip(ManyDsts, Text("5+ dsts"), 0)];
    }
  }

  /** The CPU and memory checks. */
  method AddResourceChips(row: Conn, chips0: seq<Chip>) returns (chips: seq<Chip>)
    requires chips0 == ChipsUpTo(row, 17)
    ensures chips == ChipsUpTo(row, TagCount)
  {
    chips := chips0;
    if row.cpu > 50.0 {
      chips := chips + [Chip(HighCpu, CpuPercent(row.cpu), 0)];
    }
    assert chips == ChipsUpTo(row, 18);
    if row.mem > 524288000 {
      chips := chips + [Chip(HighRam, RamMegabytes(row.mem), 0)];
    }
  }

  // ---------------------------------------------------------------------------
  // Properties of the tag list

  /** Every chip in `s` comes from one of the first `k` checks, which fired,
      and carries that check's label. */
  predicate ChipsSound(row: Conn, s: seq<Chip>, k: nat) {
    forall i :: 0 <= i < |s| ==> Rank(s[i].tag) < k && Fires(row, s[i].tag) && s[i] == ChipFor(row, s[i].tag)
  }

  /** The chips of `s` appear in strictly increasing check order. */
  predicate ChipsRanked(s: seq<Chip>) {
    forall i, j :: 0 <= i < j < |s| ==> Rank(s[i].tag) < Rank(s[j].tag)
  }

  lemma RankOfTagAt(k: nat)
    requires k < TagCount
    ensures Rank(TagAt(k)) == k
  {
  }

  lemma ExtendShape(row: Conn, prev: seq<Chip>, t: Tag, k: nat)
    requires ChipsSound(row, prev, k) && ChipsRanked(prev)
    requires Rank(t) == k && Fires(row, t)
    ensures ChipsSound(row, prev + [ChipFor(row, t)], k + 1)
    ensures ChipsRanked(prev + [ChipFor(row, t)])
  {
    assert ChipFor(row, t).tag == t;
  }

  lemma {:induction false} ChipsUpToShape(row: Conn, k: nat)
    requires k <= TagCount
    ensures ChipsSound(row, ChipsUpTo(row, k), k)
    ensures ChipsRanked(ChipsUpTo(row, k))
  {
    if k > 0 {
      ChipsUpToShape(row, k - 1);
      var t := TagAt(k - 1);
      RankOfTagAt(k - 1);
      if Fires(row, t) {
        ExtendShape(row, ChipsUpTo(row, k - 1), t, k - 1);
      }
    }
  }

  lemma {:induction false} ChipsUpToComplete(row: Conn, k: nat, u: Tag)
    requires k <= TagCount
    requires Rank(u) < k && Fires(row, u)
    ensures exists i :: 0 <= i < |ChipsUpTo(row, k)| && ChipsUpTo(row, k)[i].tag == u
  {
    var prev := ChipsUpTo(row, k - 1);
    var s := ChipsUpTo(row, k);
    if Rank(u) == k - 1 {
      assert TagAt(k - 1) == u;
      assert s == prev + [ChipFor(row, u)];
      assert ChipFor(row, u).tag == u;
      assert s[|prev|].tag == u;
    } else {
      ChipsUpToComplete(row, k - 1, u);
      var i :| 0 <= i < |prev| && prev[i].tag == u;
      assert s[i] == prev[i];
    }
  }

  /** The tags come out in the fixed check order, each at most once: tmp,
      sensitive, mining, tor, public_ip, recent, beacon, ransomware, dns_risk,
      risky_country, closed, unsigned/apple, quarantine, parent, abuse,
      many_dsts, high_cpu, high_ram. */
  lemma ChipsOrdered(row: Conn)
    ensures forall i, j :: 0 <= i < j < |ChipsUpTo(row, TagCount)| ==>
      Rank(ChipsUpTo(row, TagCount)[i].tag) < Rank(ChipsUpTo(row, TagCount)[j].tag)
  {
    ChipsUpToShape(row, TagCount);
  }

  /** A tag is shown exactly when its condition holds, with its own label. */
  lemma ChipsExactlyFiring(row: Conn, t: Tag)
    ensures Fires(row, t) <==> exists i :: 0 <= i < |ChipsUpTo(row, TagCount)| && ChipsUpTo(row, TagCount)[i].tag == t
    ensures forall i :: 0 <= i < |ChipsUpTo(row, TagCount)| ==>
      ChipsUpTo(row, TagCount)[i] == ChipFor(row, ChipsUpTo(row, TagCount)[i].tag)
  {
    ChipsUpToShape(row, TagCount);
    if Fires(row, t) {
      ChipsUpToComplete(row, TagCount, t);
    }
  }

  /** At most one port tag fires: the three port tables are disjoint. */
  lemma PortTagsExclusive(row: Conn)
    ensures !(Fires(row, Sensitive) && Fires(row, Mining))
    ensures !(Fires(row, Sensitive) && Fires(row, Tor))
    ensures !(Fires(row, Mining) && Fires(row, Tor))
  {
    if row.dport.Some? {
      PortTablesDisjoint(row.dport.value);
    }
  }

  /** The signature tags: 'unsigned' exactly for unsigned rows, 'apple' exactly
      for signed Apple rows, never both; the verified label exactly when
      notarized. */
  lemma SignatureTagsExclusive(row: Conn)
    ensures Fires(row, Unsigned) <==> !row.signed
    ensures Fires(row, Apple) <==> row.signed && row.apple
    ensures !(Fires(row, Unsigned) && Fires(row, Apple))
    ensures Fires(row, Apple) ==> (ChipFor(row, Apple).caption == Tr("chips.apple_verified") <==> row.notarized)
  {
  }

  /** The DNS tag fires exactly for a positive score and always reads
      `DNS: <score>%`; only its colour band depends on the score. */
  lemma DnsTagLabel(row: Conn)
    ensures Fires(row, DnsRisk) <==> row.dnsRisk.Some? && row.dnsRisk.value.score > 0
    ensures Fires(row, DnsRisk) ==>
      && ChipFor(row, DnsRisk).caption == Text("DNS: " + IntToString(row.dnsRisk.value.score) + "%")
      && (ChipFor(row, DnsRisk).band == 2 <==> row.dnsRisk.value.score >= 60)
      && (ChipFor(row, DnsRisk).band == 1 <==> 30 <= row.dnsRisk.value.score < 60)
  {
  }

  /** The destination-count tag reads '10+ dsts' from ten destinations and
      '5+ dsts' from five to nine, never both. */
  lemma ManyDstsLabel(row: Conn)
    ensures Fires(row, ManyDsts) <==> row.uniqueDsts >= 5
    ensures Fires(row, ManyDsts) ==>
      (ChipFor(row, ManyDsts).caption == Text("10+ dsts") <==> row.uniqueDsts >= 10)
      && (ChipFor(row, ManyDsts).caption == Text("5+ dsts") <==> 5 <= row.uniqueDsts < 10)
  {
  }

  /** The temporary-folder tag needs only two of its four hints: the other two
      paths contain '/tmp'. */
  lemma TmpHintsReduce(exe: string)
    ensures HasTmpHint(exe) <==> Contains(exe, "/tmp") || Contains(exe, "/dev/shm")
  {
    if Contains(exe, "/private/tmp") {
      ContainsAt("/private/tmp", "/tmp", 8);
      ContainsWithin(exe, "/tmp", "/private/tmp");
    }
    if Contains(exe, "/var/tmp") {
      ContainsAt("/var/tmp", "/tmp", 4);
      ContainsWithin(exe, "/tmp", "/var/tmp");
    }
  }

  /** 'recent' needs both a recent binary and a public host; 'ransomware' needs a
      reason mentioning RANSOMWARE; the country, CPU and RAM tags follow their
      fixed thresholds. */
  lemma OtherTagConditions(row: Conn)
    ensures Fires(row, Recent) <==> row.exeRecent && Fires(row, PublicIp)
    ensures Fires(row, Ransomware) <==> exists i :: 0 <= i < |row.reasons| && Contains(row.reasons[i], "RANSOMWARE")
    ensures Fires(row, RiskyCountry) <==> row.country in {"RU", "CN", "KP", "IR", "SY", "BY"}
    ensures Fires(row, HighCpu) <==> row.cpu > 50.0
    ensures Fires(row, HighRam) <==> row.mem > 524288000
  {
  }
}

=== FILE: export.dfy ===
/** The CSV export: a fixed header line, one line per connection row of the
    current snapshot, then one line per kill, each ended by a newline.  The
    browser's date and number texts are parameters. */
module Export {
  import opened Common
  import opened Records

  /** The texts the browser produces: `new Date(t * 1000).toISOString()` for a
      time in seconds, and the decimal text of a score kept in hundredths. */
  datatype Formats = Formats(isoTime: real -> string, scoreText: int -> string)

  const Columns: seq<string> := ["Type", "Timestamp", "PID", "Process", "Level", "Score", "Reasons",
    "Local Address", "Remote Address", "Remote Port", "Status", "Country"]

  const Header := Join(Columns, ",")

  /** `n || ''` for a number. */
  function NumberField(n: int): string {
    if n != 0 then IntToString(n) else ""
  }

  /** `port || ''`. */
  function PortField(p: Option<int>): string {
    if p.Some? && p.value != 0 then IntToString(p.value) else ""
  }

  function Quoted(s: string): string {
    "\"" + s + "\""
  }

  /** The twelve columns of a connection row. */
  function ConnFields(row: Conn, ts: real, fmt: Formats): (r: seq<string>)
    ensures |r| == 12 && r[0] == "Connection" && r[1] == fmt.isoTime(ts) && r[2] == NumberField(row.pid)
    ensures r[3] == Quoted(row.proc) && r[4] == row.level
    ensures r[5] == (if row.score != 0 then fmt.scoreText(row.score) else "")
    ensures r[6] == Quoted(Join(row.reasons, "; "))
    ensures r[7..] == [row.laddr, row.raddr, PortField(row.dport), row.status, row.country]
  {
    ["Connection", fmt.isoTime(ts), NumberField(row.pid), Quoted(row.proc), row.level,
     if row.score != 0 then fmt.scoreText(row.score) else "",
     Quoted(Join(row.reasons, "; ")), row.laddr, row.raddr, PortField(row.dport), row.status, row.country]
  }

  /** The twelve columns of a kill: no local address, status KILLED, no
      country, and the level column falls back to the kind of kill. */
  function KillFields(k: Kill, fmt: Formats): (r: seq<string>)
    ensures |r| == 12 && r[0] == "Killed Process"
    ensures r[4] == (if k.level != "" then k.level else k.kind)
    ensures r[7] == "" && r[10] == "KILLED" && r[11] == ""
  {
    ["Killed Process", fmt.isoTime(k.timestamp), NumberField(k.pid), Quoted(k.proc),
     if k.level != "" then k.level else k.kind,
     if k.score.Some? && k.score.value != 0 then IntToString(k.score.value) else "",
     Quoted(k.reason), "", k.raddr, PortField(k.dport), "KILLED", ""]
  }

  function ConnLine(row: Conn, ts: real, fmt: Formats): string {
    Join(ConnFields(row, ts, fmt), ",")
  }

  function KillLine(k: Kill, fmt: Formats): string {
    Join(KillFields(k, fmt), ",")
  }

  function ConnLines(rows: seq<Conn>, ts: real, fmt: Formats): (r: seq<string>)
    ensures |r| == |rows|
    ensures forall i :: 0 <= i < |rows| ==> r[i] == ConnLine(rows[i], ts, fmt)
  {
    if |rows| == 0 then []
    else ConnLines(rows[..|rows| - 1], ts, fmt) + [ConnLine(rows[|rows| - 1], ts, fmt)]
  }

  function KillLines(kills: seq<Kill>, fmt: Formats): (r: seq<string>)
    ensures |r| == |kills|
    ensures forall i :: 0 <= i < |kills| ==> r[i] == KillLine(kills[i], fmt)
  {
    if |kills| == 0 then []
    else KillLines(kills[..|kills| - 1], fmt) + [KillLine(kills[|kills| - 1], fmt)]
  }

  /** The lines of the export, in order: the header line, the rows, the
      kills. */
  function CsvLines(header: string, rows: seq<Conn>, ts: real, kills: seq<Kill>, fmt: Formats): seq<string> {
    [header] + ConnLines(rows, ts, fmt) + KillLines(kills, fmt)
  }

  /** Each line followed by a newline. */
  function Unlines(lines: seq<string>): string {
    if |lines| == 0 then "" else Unlines(lines[..|lines| - 1]) + lines[|lines| - 1] + "\n"
  }

  lemma UnlinesSnoc(lines: seq<string>, line: string)
    ensures Unlines(lines + [line]) == Unlines(lines) + line + "\n"
  {
    assert (lines + [line])[..|lines|] == lines;
  }

  /** One more line appended to the text of the lines so far. */
  lemma UnlinesStep(done: seq<string>, before: seq<string>, line: string, csv: string)
    requires csv == Unlines(done + before)
    ensures csv + line + "\n" == Unlines(done + (before + [line]))
  {
    assert done + (before + [line]) == (done + before) + [line];
    UnlinesSnoc(done + before, line);
  }

  lemma RowLinesSnoc(rows: seq<Conn>, ts: real, fmt: Formats, i: nat)
    requires i < |rows|
    ensures ConnLines(rows[..i + 1], ts, fmt) == ConnLines(rows[..i], ts, fmt) + [ConnLine(rows[i], ts, fmt)]
  {
    assert rows[..i + 1][..i] == rows[..i];
  }

  lemma KillLinesSnoc(kills: seq<Kill>, fmt: Formats, j: nat)
    requires j < |kills|
    ensures KillLines(kills[..j + 1], fmt) == KillLines(kills[..j], fmt) + [KillLine(kills[j], fmt)]
  {
    assert kills[..j + 1][..j] == kills[..j];
  }

  /** The first loop of `exportToCSV`: one line per connection row appended
      to the text of the lines before. */
  method AppendRows(start: string, ghost done: seq<string>, rows: seq<Conn>, ts: real, fmt: Formats)
    returns (csv: string)
    requires start == Unlines(done)
    ensures csv == Unlines(done + ConnLines(rows, ts, fmt))
  {
    csv := start;
    var i := 0;
    assert done + ConnLines(rows[..0], ts, fmt) == done;
    while i < |rows|
      invariant 0 <= i <= |rows|
      invariant csv == Unlines(done + ConnLines(rows[..i], ts, fmt))
    {
      var line := ConnLine(rows[i], ts, fmt);
      RowLinesSnoc(rows, ts, fmt, i);
      UnlinesStep(done, ConnLines(rows[..i], ts, fmt), line, csv);
      csv := csv + line + "\n";
      i := i + 1;
    }
    assert rows[..i] == rows;
  }

  /** The second loop of `exportToCSV`: one line per kill appended to the
      text of the lines before. */
  method AppendKills(start: string, ghost done: seq<string>, kills: seq<Kill>, fmt: Formats)
    returns (csv: string)
    requires start == Unlines(done)
    ensures csv == Unlines(done + KillLines(kills, fmt))
  {
    csv := start;
    var j := 0;
    assert done + KillLines(kills[..0], fmt) == done;
    while j < |kills|
      invariant 0 <= j <= |kills|
      invariant csv == Unlines(done + KillLines(kills[..j], fmt))
    {
      var line := KillLine(kills[j], fmt);
      KillLinesSnoc(kills, fmt, j);
      UnlinesStep(done, KillLines(kills[..j], fmt), line, csv);
      csv := csv + line + "\n";
      j := j + 1;
    }
    assert kills[..j] == kills;
  }

  /** `exportToCSV`'s string builder: the header line, then one line per
      connection row and one per kill. */
  method ExportCsv(rows: seq<Conn>, ts: real, kills: seq<Kill>, fmt: Formats) returns (csv: string)
    ensures csv == Unlines(CsvLines(Header, rows, ts, kills, fmt))
  {
    csv := Header + "\n";
    UnlinesSnoc([], Header);
    EmptyPrefix(Header, "\n");
    assert [] + [Header] == [Header];
    csv := AppendRows(csv, [Header], rows, ts, fmt);
    csv := AppendKills(csv, [Header] + ConnLines(rows, ts, fmt), kills, fmt);
  }

  lemma ThreePartsAt(h: string, a: seq<string>, b: seq<string>)
    ensures |[h] + a + b| == 1 + |a| + |b| && ([h] + a + b)[0] == h
    ensures forall i :: 0 <= i < |a| ==> ([h] + a + b)[1 + i] == a[i]
    ensures forall j :: 0 <= j < |b| ==> ([h] + a + b)[1 + |a| + j] == b[j]
  {
  }

  /** The export has one line for the header, one per row and one per kill:
      the header first, then the rows, then the kills, in their order. */
  lemma CsvShape(header: string, rows: seq<Conn>, ts: real, kills: seq<Kill>, fmt: Formats)
    ensures var lines := CsvLines(header, rows, ts, kills, fmt);
      && |lines| == 1 + |rows| + |kills|
      && lines[0] == header
      && (forall i :: 0 <= i < |rows| ==> lines[1 + i] == ConnLine(rows[i], ts, fmt))
      && (forall j :: 0 <= j < |kills| ==> lines[1 + |rows| + j] == KillLine(kills[j], fmt))
  {
    ThreePartsAt(header, ConnLines(rows, ts, fmt), KillLines(kills, fmt));
  }

  /** A line starts with its first column and a comma. */
  lemma JoinFirst(fields: seq<string>)
    requires |fields| > 1
    ensures Join(fields, ",") == fields[0] + "," + Join(fields[1..], ",")
  {
  }

  lemma LineKinds(row: Conn, ts: real, k: Kill, fmt: Formats)
    ensures "Connection," <= ConnLine(row, ts, fmt)
    ensures "Killed Process," <= KillLine(k, fmt)
  {
    JoinFirst(ConnFields(row, ts, fmt));
    JoinFirst(KillFields(k, fmt));
  }

  // ---------------------------------------------------------------------------
  // Reading the lines back

  lemma {:induction false} SplitAtFirstNewline(a: string, rest: string)
    requires '\n' !in a
    ensures SplitOn(a + "\n" + rest, "\n") == [a] + SplitOn(rest, "\n")
    decreases |a|
  {
    var s := a + "\n" + rest;
    if |a| == 0 {
      assert s == "\n" + rest;
      assert s[1..] == rest;
    } else {
      assert s[1..] == a[1..] + "\n" + rest;
      assert !("\n" <= s) by { assert s[0] == a[0]; }
      SplitAtFirstNewline(a[1..], rest);
      assert [a[0]] + a[1..] == a;
    }
  }

  lemma {:induction false} UnlinesFront(lines: seq<string>)
    requires |lines| > 0
    ensures Unlines(lines) == lines[0] + "\n" + Unlines(lines[1..])
    decreases |lines|
  {
    if |lines| > 1 {
      var init := lines[..|lines| - 1];
      UnlinesFront(init);
      assert init[1..] == lines[1..][..|lines| - 2];
    }
  }

  /** Splitting the text at newlines gives the lines back, followed by the
      empty text after the last newline, when no line holds a newline. */
  lemma {:induction false} UnlinesSplit(lines: seq<string>)
    requires NoNewlines(lines)
    ensures SplitOn(Unlines(lines), "\n") == lines + [""]
    decreases |lines|
  {
    if |lines| > 0 {
      UnlinesFront(lines);
      SplitAtFirstNewline(lines[0], Unlines(lines[1..]));
      UnlinesSplit(lines[1..]);
      assert [lines[0]] + (lines[1..] + [""]) == lines + [""];
    }
  }

  lemma {:induction false} JoinWithout(parts: seq<string>, sep: string, c: char)
    requires c !in sep && forall i :: 0 <= i < |parts| ==> c !in parts[i]
    ensures c !in Join(parts, sep)
    decreases |parts|
  {
    if |parts| > 1 {
      JoinWithout(parts[1..], sep, c);
    }
  }

  lemma NumberHasNoNewline(n: int)
    ensures '\n' !in IntToString(n)
  {
    var s := IntToString(n);
    forall k | 0 <= k < |s| ensures s[k] != '\n' {
      if n < 0 && k > 0 { assert s[k] == s[1..][k - 1]; }
    }
  }

  /** The browser's texts never hold a newline. */
  ghost predicate PlainFormats(fmt: Formats) {
    && (forall t :: '\n' !in fmt.isoTime(t))
    && (forall n :: '\n' !in fmt.scoreText(n))
  }

  predicate PlainRow(row: Conn) {
    && '\n' !in row.proc && '\n' !in row.level && '\n' !in row.laddr && '\n' !in row.raddr
    && '\n' !in row.status && '\n' !in row.country
    && forall i :: 0 <= i < |row.reasons| ==> '\n' !in row.reasons[i]
  }

  predicate PlainKill(k: Kill) {
    '\n' !in k.proc && '\n' !in k.level && '\n' !in k.kind && '\n' !in k.reason && '\n' !in k.raddr
  }

  lemma ConnLinePlain(row: Conn, ts: real, fmt: Formats)
    requires PlainFormats(fmt) && PlainRow(row)
    ensures '\n' !in ConnLine(row, ts, fmt)
  {
    var f := ConnFields(row, ts, fmt);
    JoinWithout(row.reasons, "; ", '\n');
    NumberHasNoNewline(row.pid);
    if row.dport.Some? { NumberHasNoNewline(row.dport.value); }
    assert forall i :: 0 <= i < |f| ==> '\n' !in f[i];
    JoinWithout(f, ",", '\n');
  }

  lemma KillLinePlain(k: Kill, fmt: Formats)
    requires PlainFormats(fmt) && PlainKill(k)
    ensures '\n' !in KillLine(k, fmt)
  {
    var f := KillFields(k, fmt);
    NumberHasNoNewline(k.pid);
    if k.dport.Some? { NumberHasNoNewline(k.dport.value); }
    if k.score.Some? { NumberHasNoNewline(k.score.value); }
    assert forall i :: 0 <= i < |f| ==> '\n' !in f[i];
    JoinWithout(f, ",", '\n');
  }

  lemma HeaderPlain()
    ensures '\n' !in Header
  {
    assert NoNewlines(Columns);
    JoinWithout(Columns, ",", '\n');
  }

  predicate NoNewlines(lines: seq<string>) {
    forall i :: 0 <= i < |lines| ==> '\n' !in lines[i]
  }

  lemma RowLinesPlain(rows: seq<Conn>, ts: real, fmt: Formats)
    requires PlainFormats(fmt) && forall i :: 0 <= i < |rows| ==> PlainRow(rows[i])
    ensures NoNewlines(ConnLines(rows, ts, fmt))
  {
    forall i | 0 <= i < |rows| ensures '\n' !in ConnLines(rows, ts, fmt)[i] {
      ConnLinePlain(rows[i], ts, fmt);
    }
  }

  lemma KillLinesPlain(kills: seq<Kill>, fmt: Formats)
    requires PlainFormats(fmt) && forall j :: 0 <= j < |kills| ==> PlainKill(kills[j])
    ensures NoNewlines(KillLines(kills, fmt))
  {
    forall j | 0 <= j < |kills| ensures '\n' !in KillLines(kills, fmt)[j] {
      KillLinePlain(kills[j], fmt);
    }
  }

  lemma ConcatPlain(a: seq<string>, b: seq<string>)
    requires NoNewlines(a) && NoNewlines(b)
    ensures NoNewlines(a + b)
  {
    forall i | 0 <= i < |a + b| ensures '\n' !in (a + b)[i] {
      if i >= |a| { assert (a + b)[i] == b[i - |a|]; }
    }
  }

  /** When no text holds a newline, the export splits at its newlines into
      exactly its 1 + rows + kills lines. */
  lemma CsvReadsBack(rows: seq<Conn>, ts: real, kills: seq<Kill>, fmt: Formats)
    requires PlainFormats(fmt)
    requires forall i :: 0 <= i < |rows| ==> PlainRow(rows[i])
    requires forall j :: 0 <= j < |kills| ==> PlainKill(kills[j])
    ensures SplitOn(Unlines(CsvLines(Header, rows, ts, kills, fmt)), "\n") == CsvLines(Header, rows, ts, kills, fmt) + [""]
  {
    RowLinesPlain(rows, ts, fmt);
    KillLinesPlain(kills, fmt);
    HeaderPlain();
    assert NoNewlines([Header]);
    ConcatPlain([Header], ConnLines(rows, ts, fmt));
    ConcatPlain([Header] + ConnLines(rows, ts, fmt), KillLines(kills, fmt));
    UnlinesSplit(CsvLines(Header, rows, ts, kills, fmt));
  }

  // ---------------------------------------------------------------------------
  // The JSON export

  /** The `connections` and `killed_processes` parts of the JSON export; the
      timestamps, the mode flag and the metadata are left out. */
  datatype JsonExport = JsonExport(connectionCount: nat, connections: seq<Conn>, killCount: nat, kills: seq<Kill>)

  /** `exportToJSON`: each count is the length of the array exported beside
      it, and a missing array is exported empty with count 0. */
  function ExportJson(rows: Option<seq<Conn>>, kills: Option<seq<Kill>>): (r: JsonExport)
    ensures r.connectionCount == |r.connections| && r.killCount == |r.kills|
    ensures r.connections == (if rows.Some? then rows.value else [])
    ensures r.kills == (if kills.Some? then kills.value else [])
  {
    var connections := if rows.Some? then rows.value else [];
    var killed := if kills.Some? then kills.value else [];
    JsonExport(|connections|, connections, |killed|, killed)
  }
}

=== FILE: killbar.dfy ===
/** The bar of kills made by paranoid mode: which entries of the kill log it
    shows, how long ago each happened, the label of its kind, and the record
    the details dialog receives when one is clicked. */
module KilledBar {
  import opened Common
  import opened Records

  /** Kills made by deny rules belong to the blocked-processes panel. */
  predicate IsParanoidKill(k: Kill) {
    k.kind != "block"
  }

  /** `paranoidKills`, or `None` when the bar is not rendered. */
  function ParanoidKills(kills: seq<Kill>): (r: Option<seq<Kill>>)
    ensures r.None? <==> forall i :: 0 <= i < |kills| ==> kills[i].kind == "block"
    ensures r.Some? ==> |r.value| > 0 && r.value == Filter(kills, IsParanoidKill)
  {
    var shown := Filter(kills, IsParanoidKill);
    if |shown| == 0 then
      assert forall i :: 0 <= i < |kills| ==> kills[i] !in shown;
      None
    else
      assert shown[0] in kills && IsParanoidKill(shown[0]);
      Some(shown)
  }

  /** Every non-block kill is shown, and nothing else. */
  lemma ShownKills(kills: seq<Kill>, k: Kill)
    requires ParanoidKills(kills).Some?
    ensures k in ParanoidKills(kills).value <==> k in kills && k.kind != "block"
  {
  }

  // ---------------------------------------------------------------------------
  // Relative time

  datatype Unit = Seconds | Minutes | Hours

  function UnitLetter(u: Unit): char {
    match u
    case Seconds => 's'
    case Minutes => 'm'
    case Hours => 'h'
  }

  /** Whole seconds elapsed, expressed in the largest unit that fits, rounded
      down. */
  function Ago(diff: int): (r: (int, Unit))
    ensures r.1 == Seconds <==> diff < 60
    ensures r.1 == Hours <==> diff >= 3600
    ensures r.1 == Seconds ==> r.0 == diff
    ensures r.1 == Minutes ==> 1 <= r.0 < 60 && r.0 * 60 <= diff < r.0 * 60 + 60
    ensures r.1 == Hours ==> 1 <= r.0 && r.0 * 3600 <= diff < r.0 * 3600 + 3600
  {
    if diff < 60 then (diff, Seconds)
    else if diff < 3600 then (diff / 60, Minutes)
    else (diff / 3600, Hours)
  }

  /** `formatTime`: the clock reading `now` is a parameter. */
  function FormatTime(now: real, timestamp: real): string {
    var a := Ago((now - timestamp).Floor);
    IntToString(a.0) + [UnitLetter(a.1)] + " ago"
  }

  /** The text reads back as the amount, its unit letter and " ago". */
  lemma FormatTimeShows(now: real, timestamp: real)
    ensures var s := FormatTime(now, timestamp);
            var a := Ago((now - timestamp).Floor);
            && |s| > 5 && s[|s| - 4..] == " ago" && s[|s| - 5] == UnitLetter(a.1)
            && ParseInt(s[..|s| - 5]) == Some(a.0)
  {
    var a := Ago((now - timestamp).Floor);
    var s := FormatTime(now, timestamp);
    assert s[..|s| - 5] == IntToString(a.0);
    ParseIntToString(a.0);
  }

  /** `getTypeLabel`. */
  function TypeLabel(kind: string): (r: string)
    ensures r == "Resource" <==> kind == "resource"
    ensures r == "Network" <==> kind == "network"
    ensures r == "Unknown" <==> kind != "resource" && kind != "network"
  {
    if kind == "resource" then "Resource"
    else if kind == "network" then "Network"
    else "Unknown"
  }

  // ---------------------------------------------------------------------------
  // The record handed to the details dialog

  /** The kill with the fields the dialog needs laid over it. */
  datatype KillDetail = KillDetail(kill: Kill, reasons: seq<string>, status: string, score: int)

  function Detail(k: Kill): (d: KillDetail)
    ensures d.kill == k && d.status == "KILLED"
    ensures k.reason == "" <==> d.reasons == []
    ensures k.reason != "" ==> Join(d.reasons, ", ") == k.reason
    ensures forall i :: 0 <= i < |d.reasons| ==> !Contains(d.reasons[i], ", ")
    ensures k.score.Some? && k.score.value != 0 ==> d.score == k.score.value
    ensures k.score.None? || k.score.value == 0 ==> d.score == (if k.level == Alto then 8 else 5)
  {
    var reasons := if k.reason != "" then JoinSplit(k.reason, ", "); SplitPartsFree(k.reason, ", "); SplitOn(k.reason, ", ") else [];
    var score := if k.score.Some? && k.score.value != 0 then k.score.value else if k.level == Alto then 8 else 5;
    KillDetail(k, reasons, "KILLED", score)
  }
}

=== FILE: lsof.dfy ===
/** The legacy server's lsof fallback (`_collect_connections_lsof` in
    server.py): the tag lines of `lsof -F pcnTu` are read in order, the 'p',
    'c', 'u' and 'T' lines set the fields of the current process, each 'n'
    line yields one connection row carrying them, and the rows are then
    counted per process, scored and sorted.  Also the action-plan list of the
    same server. */
module Lsof {
  import opened Common
  import opened Records
  import Scoring
  import Probes

  // ---------------------------------------------------------------------------
  // The current-process fields

  /** The fields the tag lines set; they persist until the next line of the
      same tag. */
  datatype Cursor = Cursor(pid: int, proc: string, user: string, status: string, proto: string)

  const Start := Cursor(-1, "?", "?", "", "")

  /** `int(val)`, or −1 when it fails. */
  function PidOf(val: string): int {
    if ParseInt(val).Some? then ParseInt(val).value else -1
  }

  /** The effect of a line other than an 'n' line: 'p', 'c' and 'u' set the
      pid, the command and the user; 'T' sets the status after `ST=` or the
      protocol after `P=`; any other line changes nothing. */
  function ApplyTag(c: Cursor, tag: char, val: string): (c': Cursor)
    ensures tag == 'p' ==> c' == c.(pid := PidOf(val))
    ensures tag == 'c' ==> c' == c.(proc := val)
    ensures tag == 'u' ==> c' == c.(user := val)
    ensures tag == 'T' && StartsWith(val, "ST=") ==> c' == c.(status := val[3..])
    ensures tag == 'T' && !StartsWith(val, "ST=") && StartsWith(val, "P=") ==> c' == c.(proto := val[2..])
    ensures tag == 'T' && !StartsWith(val, "ST=") && !StartsWith(val, "P=") ==> c' == c
    ensures tag != 'p' && tag != 'c' && tag != 'u' && tag != 'T' ==> c' == c
  {
    if tag == 'p' then c.(pid := PidOf(val))
    else if tag == 'c' then c.(proc := val)
    else if tag == 'u' then c.(user := val)
    else if tag == 'T' then
      if StartsWith(val, "ST=") then c.(status := val[3..])
      else if StartsWith(val, "P=") then c.(proto := val[2..])
      else c
    else c
  }

  // ---------------------------------------------------------------------------
  // The name field of an 'n' line

  /** `s.split(sep, 1)`: the text before the first occurrence of `sep` and the
      text after it. */
  function SplitFirst(s: string, sep: string): (r: Option<(string, string)>)
    requires |sep| > 0
    ensures r.Some? ==> s == r.value.0 + sep + r.value.1
    ensures r.Some? ==> forall k :: 0 <= k < |r.value.0| ==> !StartsWith(s[k..], sep)
    ensures r.None? ==> forall k :: 0 <= k <= |s| ==> !StartsWith(s[k..], sep)
    decreases |s|
  {
    if StartsWith(s, sep) then Some(("", s[|sep|..]))
    else if |s| == 0 then None
    else
      var rest := SplitFirst(s[1..], sep);
      assert forall k :: 1 <= k <= |s| ==> s[k..] == s[1..][k - 1..];
      if rest.None? then None else Some(([s[0]] + rest.value.0, rest.value.1))
  }

  datatype NameField = NameField(laddr: string, raddr: string, dport: Option<int>)

  /** `laddr->raddr` is split at the first arrow and the port is the number
      after the last ':' of the remote side; without an arrow the whole text is
      the local address. */
  function ParseName(name: string): NameField {
    var parts := SplitFirst(name, "->");
    if parts.None? then NameField(name, "", None)
    else
      var right := parts.value.1;
      NameField(parts.value.0, right, if ':' in right then ParseInt(AfterLast(right, ':')) else None)
  }

  lemma ArrowNotInside(l: string, r: string)
    requires forall k :: 0 <= k < |l| ==> !StartsWith(l[k..], "->")
    ensures forall k :: 0 <= k < |l| ==> !StartsWith((l + "->" + r)[k..], "->")
  {
    var s := l + "->" + r;
    forall k | 0 <= k < |l| ensures !StartsWith(s[k..], "->") {
      if k + 1 < |l| {
        assert s[k..k + 2] == l[k..k + 2];
        assert !StartsWith(l[k..], "->");
      } else {
        assert s[k + 1] == '-';
      }
    }
  }

  /** An 'n' line `local->host:port` gives back the local address, the remote
      address and the port, whatever the host, as long as the local address
      holds no arrow. */
  lemma ParseNameOf(l: string, host: string, port: int)
    requires forall k :: 0 <= k < |l| ==> !StartsWith(l[k..], "->")
    ensures ParseName(l + "->" + host + ":" + IntToString(port)) ==
      NameField(l, host + ":" + IntToString(port), Some(port))
  {
    var right := host + ":" + IntToString(port);
    var s := l + "->" + right;
    assert s == l + "->" + host + ":" + IntToString(port);
    ArrowNotInside(l, right);
    assert s[|l|..][..2] == "->";
    var parts := SplitFirst(s, "->");
    assert parts.Some?;
    SplitUnique(s, parts.value.0, l, parts.value.1, right);
    NoColonInNumber(port);
    LastColonAt(host, IntToString(port));
    assert right[|host|] == ':';
    ParseIntToString(port);
  }

  /** Two splits of `s` at first occurrences of the arrow agree. */
  lemma SplitUnique(s: string, a: string, l: string, b: string, r: string)
    requires s == a + "->" + b && s == l + "->" + r
    requires forall k :: 0 <= k < |a| ==> !StartsWith(s[k..], "->")
    requires forall k :: 0 <= k < |l| ==> !StartsWith(s[k..], "->")
    ensures a == l && b == r
  {
    ArrowAt(s, a, b);
    ArrowAt(s, l, r);
    assert |a| == |l|;
    assert s[..|a|] == a;
    assert s[..|l|] == l;
    assert s[|a| + 2..] == b;
    assert s[|l| + 2..] == r;
  }

  lemma ArrowAt(s: string, a: string, b: string)
    requires s == a + "->" + b
    ensures StartsWith(s[|a|..], "->")
  {
    assert s[|a|..] == "->" + b;
  }

  /** Without an arrow the name is all local address. */
  lemma ParseNameNoArrow(name: string)
    requires forall k :: 0 <= k <= |name| ==> !StartsWith(name[k..], "->")
    ensures ParseName(name) == NameField(name, "", None)
  {
    var parts := SplitFirst(name, "->");
    if parts.Some? {
      ArrowAt(name, parts.value.0, parts.value.1);
    }
  }

  // ---------------------------------------------------------------------------
  // What the system reports about a process

  datatype SignInfo = SignInfo(signed: bool, apple: bool, notarized: bool, quarantine: bool)

  /** The answers of psutil, codesign, the file system and the beacon detector:
      the executable of each pid whose lookup succeeds, the signature of each
      executable, the executables modified in the last 72 hours, the
      pid-destination pairs flagged as beacons, and the service table. */
  datatype System = System(
    exes: map<int, string>,
    signs: map<string, SignInfo>,
    recentExes: set<string>,
    beacons: set<(int, string)>,
    services: Probes.ServiceTable)

  function ExeOf(sys: System, pid: int): string {
    if pid != -1 && pid in sys.exes then sys.exes[pid] else ""
  }

  function SignOf(sys: System, exe: string): SignInfo {
    if exe != "" && exe in sys.signs then sys.signs[exe] else SignInfo(false, false, false, false)
  }

  /** `int(current.get("pid") or -1)`: a pid of 0 is falsy and becomes −1. */
  function RowPid(c: Cursor): int {
    if c.pid == 0 then -1 else c.pid
  }

  /** `value or default` on strings. */
  function OrDefault(s: string, d: string): string {
    if s == "" then d else s
  }

  /** The row an 'n' line yields under the current fields. */
  function NameRow(c: Cursor, name: string, sys: System): (row: Conn)
    ensures row.pid == RowPid(c) && row.status == c.status
    ensures row.proc == OrDefault(c.proc, "?") && row.user == OrDefault(c.user, "?")
    ensures row.uniqueDsts == 0 && row.score == 0
    ensures row.beacon ==> row.pid != -1 && row.raddr != ""
  {
    var f := ParseName(name);
    var pid := RowPid(c);
    var exe := ExeOf(sys, pid);
    var sign := SignOf(sys, exe);
    Conn(pid, OrDefault(c.proc, "?"), None, OrDefault(c.user, "?"), exe, f.laddr, f.raddr, f.dport,
         Probes.ServiceName(f.dport, sys.services), c.status,
         pid != -1 && f.raddr != "" && (pid, f.raddr) in sys.beacons, 0,
         sign.signed, sign.apple, sign.notarized, sign.quarantine,
         exe != "" && exe in sys.recentExes,
         "", false, "", None, 0.0, 0, 0, "", [], "", 0, None)
  }

  // ---------------------------------------------------------------------------
  // Reading the lines

  datatype Reading = Reading(cursor: Cursor, rows: seq<Conn>)

  /** One line: empty lines are skipped, an 'n' line adds its row unless only
      established connections are wanted and the current status is another,
      any other line updates the fields. */
  function ReadLine(r: Reading, line: string, establishedOnly: bool, sys: System): Reading {
    if line == "" then r
    else if line[0] == 'n' then
      if establishedOnly && r.cursor.status != "ESTABLISHED" then r
      else Reading(r.cursor, r.rows + [NameRow(r.cursor, line[1..], sys)])
    else Reading(ApplyTag(r.cursor, line[0], line[1..]), r.rows)
  }

  function ReadLines(lines: seq<string>, establishedOnly: bool, sys: System): (r: Reading)
    ensures |r.rows| <= |lines|
    ensures establishedOnly ==> forall i :: 0 <= i < |r.rows| ==> r.rows[i].status == "ESTABLISHED"
    ensures forall i :: 0 <= i < |r.rows| ==> r.rows[i].beacon ==> r.rows[i].pid != -1 && r.rows[i].raddr != ""
    decreases |lines|
  {
    if |lines| == 0 then Reading(Start, [])
    else ReadLine(ReadLines(lines[..|lines| - 1], establishedOnly, sys), lines[|lines| - 1], establishedOnly, sys)
  }

  /** Only 'n' lines add rows, one each; the fields they carry are the ones the
      last 'p', 'c', 'u' and 'T' lines set. */
  lemma ReadLineEffect(r: Reading, line: string, establishedOnly: bool, sys: System)
    ensures line == "" || line[0] != 'n' ==> ReadLine(r, line, establishedOnly, sys).rows == r.rows
    ensures line != "" && line[0] == 'n' ==> ReadLine(r, line, establishedOnly, sys).cursor == r.cursor
    ensures line != "" && line[0] == 'n' && (!establishedOnly || r.cursor.status == "ESTABLISHED") ==>
      ReadLine(r, line, establishedOnly, sys).rows == r.rows + [NameRow(r.cursor, line[1..], sys)]
    ensures line != "" && line[0] == 'n' && establishedOnly && r.cursor.status != "ESTABLISHED" ==>
      ReadLine(r, line, establishedOnly, sys) == r
  {
  }

  /** A 'p' line whose value is not a number sets the pid to −1, and the rows of
      the following 'n' lines then carry −1. */
  lemma BadPidLine(r: Reading, val: string, name: string, sys: System)
    requires ParseInt(val).None?
    ensures ReadLine(ReadLine(r, "p" + val, false, sys), "n" + name, false, sys).rows ==
      r.rows + [NameRow(r.cursor.(pid := -1), name, sys)]
    ensures NameRow(r.cursor.(pid := -1), name, sys).pid == -1
  {
    assert ("p" + val)[1..] == val;
    assert ("n" + name)[1..] == name;
  }

  // ---------------------------------------------------------------------------
  // Destinations per process, scores and order

  /** The distinct hosts (text before the first ':') of a process's rows with a
      known pid and a remote address. */
  function DstHosts(rows: seq<Conn>, pid: int): set<string> {
    set i | 0 <= i < |rows| && rows[i].pid == pid && pid != -1 && rows[i].raddr != "" :: BeforeFirst(rows[i].raddr, ':')
  }

  function Counted(row: Conn): bool {
    row.pid != -1 && row.raddr != ""
  }

  lemma DstHostsSnoc(rows: seq<Conn>, row: Conn, pid: int)
    ensures DstHosts(rows + [row], pid) ==
      DstHosts(rows, pid) + (if row.pid == pid && Counted(row) then {BeforeFirst(row.raddr, ':')} else {})
  {
    var s := rows + [row];
    assert forall i :: 0 <= i < |rows| ==> s[i] == rows[i];
    assert s[|rows|] == row;
  }

  function HostsOf(uniq: map<int, set<string>>, pid: int): set<string> {
    if pid in uniq then uniq[pid] else {}
  }

  /** A row finished for the client: its destination count and its legacy
      score. */
  function Finish(row: Conn, rows: seq<Conn>, envOf: Conn -> Scoring.Env): Conn {
    var r := row.(uniqueDsts := |DstHosts(rows, row.pid)|);
    var score := Scoring.Clamp(Scoring.RawScore(r, envOf(r), Scoring.Legacy));
    r.(score := score, level := Scoring.LevelOf(score), reasons := Scoring.ReasonList(r, envOf(r), Scoring.Legacy))
  }

  function FinishAll(rows: seq<Conn>, envOf: Conn -> Scoring.Env): (out: seq<Conn>)
    ensures |out| == |rows|
    ensures forall i :: 0 <= i < |rows| ==> out[i] == Finish(rows[i], rows, envOf)
  {
    seq(|rows|, i requires 0 <= i < |rows| => Finish(rows[i], rows, envOf))
  }

  /** Score descending, beacons first among equal scores. */
  function LsofOrder(row: Conn): int {
    -2 * row.score + (if row.beacon then 0 else 1)
  }

  /** The rows the fallback returns; nothing when lsof failed. */
  function Collected(output: Option<seq<string>>, establishedOnly: bool, sys: System, envOf: Conn -> Scoring.Env): seq<Conn> {
    if output.None? then []
    else
      var rows := ReadLines(output.value, establishedOnly, sys).rows;
      SortBy(FinishAll(rows, envOf), LsofOrder)
  }

  /** The rows come out by score, highest first, beacons first among equal
      scores, and are exactly the finished rows read from the lines. */
  lemma CollectedOrder(output: Option<seq<string>>, establishedOnly: bool, sys: System, envOf: Conn -> Scoring.Env)
    requires output.Some?
    ensures forall i, j :: 0 <= i < j < |Collected(output, establishedOnly, sys, envOf)| ==>
      var a := Collected(output, establishedOnly, sys, envOf)[i];
      var b := Collected(output, establishedOnly, sys, envOf)[j];
      a.score > b.score || (a.score == b.score && (a.beacon || !b.beacon))
    ensures multiset(Collected(output, establishedOnly, sys, envOf)) ==
      multiset(FinishAll(ReadLines(output.value, establishedOnly, sys).rows, envOf))
  {
    var rows := FinishAll(ReadLines(output.value, establishedOnly, sys).rows, envOf);
    SortBySorted(rows, LsofOrder);
  }

  /** Each finished row's destination count is the number of distinct hosts its
      process talks to; a row without a known pid counts none. */
  lemma FinishedCounts(rows: seq<Conn>, envOf: Conn -> Scoring.Env, i: nat)
    requires i < |rows|
    ensures FinishAll(rows, envOf)[i].uniqueDsts == |DstHosts(rows, rows[i].pid)|
    ensures rows[i].pid == -1 ==> FinishAll(rows, envOf)[i].uniqueDsts == 0
    ensures 0 <= FinishAll(rows, envOf)[i].score <= 1000
  {
    if rows[i].pid == -1 {
      assert DstHosts(rows, -1) == {};
    }
  }

  // ---------------------------------------------------------------------------
  // The collector

  /** Reads the lines keeping the current fields, the rows and the per-process
      host sets, then finishes and sorts the rows. */
  method CollectLsof(output: Option<seq<string>>, establishedOnly: bool, sys: System, envOf: Conn -> Scoring.Env)
    returns (rows: seq<Conn>)
    ensures rows == Collected(output, establishedOnly, sys, envOf)
  {
    if output.None? {
      return [];
    }
    var lines := output.value;
    var current := Start;
    var read: seq<Conn> := [];
    var uniq: map<int, set<string>> := map[];
    var i := 0;
    while i < |lines|
      invariant 0 <= i <= |lines|
      invariant Reading(current, read) == ReadLines(lines[..i], establishedOnly, sys)
      invariant forall pid :: HostsOf(uniq, pid) == DstHosts(read, pid)
    {
      assert lines[..i + 1][..i] == lines[..i];
      current, read, uniq := ReadOne(current, read, uniq, lines[i], establishedOnly, sys);
      i := i + 1;
    }
    assert lines[..i] == lines;
    var finished := FinishRows(read, uniq, envOf);
    rows := SortBy(finished, LsofOrder);
  }

  /** The loop body for one line. */
  method ReadOne(current: Cursor, read: seq<Conn>, uniq: map<int, set<string>>, line: string,
                 establishedOnly: bool, sys: System)
    returns (current': Cursor, read': seq<Conn>, uniq': map<int, set<string>>)
    requires forall pid :: HostsOf(uniq, pid) == DstHosts(read, pid)
    ensures Reading(current', read') == ReadLine(Reading(current, read), line, establishedOnly, sys)
    ensures forall pid :: HostsOf(uniq', pid) == DstHosts(read', pid)
  {
    current', read', uniq' := current, read, uniq;
    if line == "" {
      return;
    }
    var tag, val := line[0], line[1..];
    if tag == 'n' {
      if establishedOnly && current.status != "ESTABLISHED" {
        return;
      }
      var row := NameRow(current, val, sys);
      if row.pid != -1 && row.raddr != "" {
        uniq' := uniq[row.pid := HostsOf(uniq, row.pid) + {BeforeFirst(row.raddr, ':')}];
      }
      read' := read + [row];
      forall pid ensures HostsOf(uniq', pid) == DstHosts(read', pid) {
        DstHostsSnoc(read, row, pid);
      }
    } else {
      current' := ApplyTag(current, tag, val);
    }
  }

  /** Sets each row's destination count from the host sets and scores it. */
  method FinishRows(read: seq<Conn>, uniq: map<int, set<string>>, envOf: Conn -> Scoring.Env)
    returns (finished: seq<Conn>)
    requires forall pid :: HostsOf(uniq, pid) == DstHosts(read, pid)
    ensures finished == FinishAll(read, envOf)
  {
    finished := [];
    var j := 0;
    while j < |read|
      invariant 0 <= j <= |read|
      invariant finished == FinishAll(read, envOf)[..j]
    {
      var done := FinishOne(read, j, |HostsOf(uniq, read[j].pid)|, envOf);
      PrefixSnoc(FinishAll(read, envOf), j);
      finished := finished + [done];
      j := j + 1;
    }
    assert FinishAll(read, envOf)[..j] == FinishAll(read, envOf);
  }

  lemma PrefixSnoc<T>(s: seq<T>, j: nat)
    requires j < |s|
    ensures s[..j + 1] == s[..j] + [s[j]]
  {
  }

  /** One row: its destination count, then the legacy scorer. */
  method FinishOne(rows: seq<Conn>, j: nat, count: nat, envOf: Conn -> Scoring.Env) returns (done: Conn)
    requires j < |rows| && count == |DstHosts(rows, rows[j].pid)|
    ensures done == FinishAll(rows, envOf)[j]
  {
    var r := rows[j].(uniqueDsts := count);
    var score, level, reasons := Scoring.LegacyScoreRow(r, envOf(r));
    done := r.(score := score, level := level, reasons := reasons);
  }

  // ---------------------------------------------------------------------------
  // The action plan

  /** The steps of the plan; `Text` gives the line the client shows. */
  datatype PlanStep =
    | Identify(pid: int) | InspectRemote(raddr: string) | Capture(raddr: string)
    | ReadStrings(exe: string) | HashBinary(exe: string) | CheckSignature(exe: string) | Unresolved
    | OpenFiles(pid: int) | Suspend(pid: int) | Firewall | Persistence | PostMortem

  function Text(step: PlanStep): string {
    match step
    case Identify(pid) =>
      "Identificar proceso " + IntToString(pid) + ": ps -fp " + IntToString(pid) + " && lsof -p " + IntToString(pid)
    case InspectRemote(raddr) => "Inspeccionar conexión remota " + raddr + ": whois/ipinfo y reputación"
    case Capture(raddr) =>
      "Capturar tráfico focalizado 60s: sudo tcpdump -i any host " + (if raddr != "" then BeforeFirst(raddr, ':') else "<IP>")
    case ReadStrings(exe) => "Revisar binario: strings '" + exe + "' | less"
    case HashBinary(exe) => "Hash y verificación: shasum -a 256 '" + exe + "'"
    case CheckSignature(exe) => "Firma y Gatekeeper: codesign -dv --verbose=4 '" + exe + "' && spctl -a -vv '" + exe + "'"
    case Unresolved => "No se pudo resolver la ruta del ejecutable (permisos o proceso efímero)"
    case OpenFiles(pid) => "Listar archivos abiertos: lsof -p " + IntToString(pid)
    case Suspend(pid) => "Contención temporal: sudo kill -STOP " + IntToString(pid) + " (y evaluar)"
    case Firewall => "Reglas de firewall: ufw/pf para bloquear IP/puerto si es malicioso"
    case Persistence => "Persistencia: chequear servicios/cron/launchd del usuario del proceso"
    case PostMortem => "Post-mortem: kill -TERM, volcado (gcore) y análisis fuera de línea"
  }

  /** The suggested plan for a process, its remote address (empty when none)
      and its resolved executable (empty when it could not be resolved). */
  function ActionPlan(pid: int, raddr: string, exe: string): seq<PlanStep> {
    [Identify(pid)] + (if raddr != "" then [InspectRemote(raddr)] else []) + [Capture(raddr)]
    + (if exe != "" then [ReadStrings(exe), HashBinary(exe), CheckSignature(exe)] else [Unresolved])
    + [OpenFiles(pid), Suspend(pid), Firewall, Persistence, PostMortem]
  }

  /** The plan starts by identifying the process and ends with the post-mortem;
      it has the remote-inspection step exactly when there is a remote address
      and the three binary steps exactly when the executable is known, so it
      has between 8 and 11 steps. */
  lemma ActionPlanShape(pid: int, raddr: string, exe: string)
    ensures ActionPlan(pid, raddr, exe)[0] == Identify(pid)
    ensures ActionPlan(pid, raddr, exe)[|ActionPlan(pid, raddr, exe)| - 1] == PostMortem
    ensures |ActionPlan(pid, raddr, exe)| == 8 + (if raddr != "" then 1 else 0) + (if exe != "" then 2 else 0)
    ensures 8 <= |ActionPlan(pid, raddr, exe)| <= 11
    ensures raddr != "" <==> InspectRemote(raddr) in ActionPlan(pid, raddr, exe)
    ensures exe != "" <==> ReadStrings(exe) in ActionPlan(pid, raddr, exe)
    ensures exe == "" <==> Unresolved in ActionPlan(pid, raddr, exe)
  {
  }
}

=== FILE: narrative.dfy ===
/** The connection details dialog's plain-language explanation of one row
    (frontend/src/components/ConnectionDetailsModal.jsx): a first-match table
    of fifteen stories, the address helpers it relies on, the readable evidence
    line and the kill button's guard.  Translated texts are modelled by their
    translation keys. */
module Narrative {
  import opened Common
  import opened Records
  import Evidence

  // ---------------------------------------------------------------------------
  // Address helpers

  /** Where an address lives: 'desconocido', 'tu Mac', 'tu red local' or
      'Internet'. */
  datatype IpType = Unknown | ThisMac | LocalNet | Internet

  function IpTypeText(t: IpType): string {
    match t
    case Unknown => "desconocido"
    case ThisMac => "tu Mac"
    case LocalNet => "tu red local"
    case Internet => "Internet"
  }

  function GetIpType(host: string): (t: IpType)
    ensures t == Unknown <==> host == ""
    ensures t == ThisMac <==> host != "" && Evidence.IsLoopbackText(host)
    ensures t == LocalNet <==> host != "" && !Evidence.IsLoopbackText(host) && Evidence.IsPrivateText(host)
  {
    if host == "" then Unknown
    else if Evidence.IsLoopbackText(host) then ThisMac
    else if Evidence.IsPrivateText(host) then LocalNet
    else Internet
  }

  /** The dialog's address classes agree with the evidence tags: a host is
      'Internet' exactly when the public-address tag fires for it. */
  lemma InternetIsPublic(host: string)
    ensures GetIpType(host) == Internet <==> Evidence.IsPublicIp(host)
  {
  }

  function HostFrom(addr: string): (h: string)
    ensures h <= addr && ':' !in h
    ensures |h| < |addr| ==> addr[|h|] == ':'
  {
    BeforeFirst(addr, ':')
  }

  /** `Number(addr.split(':').pop())` when finite, for the texts a port can
      take: after trimming JavaScript whitespace, the empty text reads as 0
      and a decimal integer numeral as its value.  Every other text reads as
      no number here (see the README for the numerals `Number` also accepts). */
  function PortFrom(addr: string): (p: Option<int>)
    ensures Trim(AfterLast(addr, ':'), JsSpace) == "" ==> p == Some(0)
    ensures p.Some? && p.value != 0 ==> ParseInt(Trim(AfterLast(addr, ':'), JsSpace)) == p
    ensures Trim(AfterLast(addr, ':'), JsSpace) != "" ==> p == ParseInt(Trim(AfterLast(addr, ':'), JsSpace))
    ensures p.None? <==> Trim(AfterLast(addr, ':'), JsSpace) != "" && ParseInt(Trim(AfterLast(addr, ':'), JsSpace)).None?
  {
    var text := Trim(AfterLast(addr, ':'), JsSpace);
    if text == "" then Some(0) else ParseInt(text)
  }

  /** The port of a `host:port` address written with a decimal port is read
      back. */
  lemma PortFromRoundTrip(host: string, port: int)
    ensures PortFrom(host + ":" + IntToString(port)) == Some(port)
  {
    var addr := host + ":" + IntToString(port);
    var digits := IntToString(port);
    NoColonInNumber(port);
    LastColonAt(host, digits);
    assert addr[|host| + 1..] == digits;
    assert AfterLast(addr, ':') == digits;
    TrimNumber(port, JsSpace);
    ParseIntToString(port);
  }

  predicate IsTypicalServerPort(p: int) {
    p in {80, 443, 8000, 8080, 3000, 5000, 8888, 27017, 6379, 5432, 3306, 22, 5900}
  }

  /** The local side looks like a server: a non-zero port that is privileged
      or typical, on an address that is not on the Internet. */
  predicate SeemsServerLocal(conn: Conn) {
    var lp := PortFrom(conn.laddr);
    && lp.Some? && lp.value != 0
    && (lp.value <= 1024 || IsTypicalServerPort(lp.value))
    && GetIpType(HostFrom(conn.laddr)) != Internet
  }

  /** For a local address `host:port` with a decimal port, the local side
      looks like a server exactly when the port is non-zero and privileged or
      typical, and the host is not on the Internet. */
  lemma SeemsServerLocalOf(conn: Conn, host: string, port: int)
    requires ':' !in host
    requires conn.laddr == host + ":" + IntToString(port)
    ensures SeemsServerLocal(conn) <==>
      port != 0 && (port <= 1024 || IsTypicalServerPort(port)) && GetIpType(host) != Internet
  {
    PortFromRoundTrip(host, port);
    HostOfAddress(host, IntToString(port));
  }

  lemma HostOfAddress(host: string, tail: string)
    requires ':' !in host
    ensures HostFrom(host + ":" + tail) == host
  {
    var s := host + ":" + tail;
    assert s[..|host|] == host;
    FirstCharAt(s, |host|, ':');
  }

  // ---------------------------------------------------------------------------
  // Flags

  function ProcName(conn: Conn): (p: string)
    ensures p != ""
    ensures conn.proc != "" ==> p == conn.proc
  {
    if conn.proc != "" then conn.proc
    else if conn.name.Some? && conn.name.value != "" then conn.name.value
    else "Este proceso"
  }

  predicate SomeReasonContains(conn: Conn, word: string) {
    exists i :: 0 <= i < |conn.reasons| && Contains(conn.reasons[i], word)
  }

  predicate IsUnsigned(conn: Conn) { !conn.signed && !conn.apple }
  predicate IsTor(conn: Conn) { conn.service == "tor" || SomeReasonContains(conn, "Tor") }
  predicate IsMining(conn: Conn) { conn.service == "mining-stratum" || SomeReasonContains(conn, "minería") }
  predicate IsHighRes(conn: Conn) { conn.cpu > 50.0 || conn.mem > 524288000 }
  predicate IsPublic(conn: Conn) { GetIpType(HostFrom(conn.raddr)) == Internet }
  predicate IsTmp(conn: Conn) { Contains(conn.exe, "/tmp") || Contains(conn.exe, "/var/tmp") }

  /** The second hint of the temporary-folder flag is redundant: every path
      containing '/var/tmp' contains '/tmp'. */
  lemma TmpFlagIsTmp(conn: Conn)
    ensures IsTmp(conn) <==> Contains(conn.exe, "/tmp")
  {
    if Contains(conn.exe, "/var/tmp") {
      ContainsAt("/var/tmp", "/tmp", 4);
      ContainsWithin(conn.exe, "/tmp", "/var/tmp");
    }
  }

  predicate DnsAbove(conn: Conn, bound: int) {
    conn.dnsRisk.Some? && conn.dnsRisk.value.score > bound
  }

  function DnsReasons(conn: Conn): string {
    if conn.dnsRisk.Some? then Join(conn.dnsRisk.value.reasons, ", ") else ""
  }

  // ---------------------------------------------------------------------------
  // The story table

  /** One explanation with its parameters; sub-texts are translation keys. */
  datatype Story =
    | MiningTor(proc: string)
    | C2Beacon(proc: string)
    | DropperBehavior(proc: string, path: string)
    | UnsignedTor(proc: string)
    | MaliciousDomain(proc: string, domain: string, reasons: string)
    | CryptoMining(proc: string, signature: string, resources: string)
    | TorTraffic(proc: string)
    | BeaconBehavior(proc: string)
    | SuspiciousDomain(proc: string, domain: string, reasons: string)
    | TmpExecution(proc: string)
    | HighResources(proc: string, context: string)
    | UnsignedInternet(proc: string)
    | SystemProcess(proc: string)
    | VerifiedApp(proc: string, ipType: IpType)
    | Generic(proc: string, pid: int)

  /** A story's position in the table. */
  function Step(s: Story): nat {
    match s
    case MiningTor(_) => 0 case C2Beacon(_) => 1 case DropperBehavior(_, _) => 2 case UnsignedTor(_) => 3
    case MaliciousDomain(_, _, _) => 4 case CryptoMining(_, _, _) => 5 case TorTraffic(_) => 6
    case BeaconBehavior(_) => 7 case SuspiciousDomain(_, _, _) => 8 case TmpExecution(_) => 9
    case HighResources(_, _) => 10 case UnsignedInternet(_) => 11 case SystemProcess(_) => 12
    case VerifiedApp(_, _) => 13 case Generic(_, _) => 14
  }

  function StoryKey(s: Story): string {
    match s
    case MiningTor(_) => "narratives.mining_tor"
    case C2Beacon(_) => "narratives.c2_beacon"
    case DropperBehavior(_, _) => "narratives.dropper_behavior"
    case UnsignedTor(_) => "narratives.unsigned_tor"
    case MaliciousDomain(_, _, _) => "narratives.malicious_domain"
    case CryptoMining(_, _, _) => "narratives.crypto_mining"
    case TorTraffic(_) => "narratives.tor_traffic"
    case BeaconBehavior(_) => "narratives.beacon_behavior"
    case SuspiciousDomain(_, _, _) => "narratives.suspicious_domain"
    case TmpExecution(_) => "narratives.tmp_execution"
    case HighResources(_, _) => "narratives.high_resources"
    case UnsignedInternet(_) => "narratives.unsigned_internet"
    case SystemProcess(_) => "narratives.system_process"
    case VerifiedApp(_, _) => "narratives.verified_app"
    case Generic(_, _) => "narratives.generic"
  }

  /** The condition of each row of the table; the last one always holds. */
  predicate Guard(conn: Conn, k: nat) {
    if k == 0 then IsMining(conn) && IsTor(conn)
    else if k == 1 then DnsAbove(conn, 50) && conn.beacon
    else if k == 2 then IsUnsigned(conn) && IsTmp(conn)
    else if k == 3 then IsUnsigned(conn) && IsTor(conn)
    else if k == 4 then DnsAbove(conn, 50)
    else if k == 5 then IsMining(conn)
    else if k == 6 then IsTor(conn)
    else if k == 7 then conn.beacon && IsUnsigned(conn)
    else if k == 8 then DnsAbove(conn, 20)
    else if k == 9 then IsTmp(conn)
    else if k == 10 then IsHighRes(conn)
    else if k == 11 then IsUnsigned(conn) && IsPublic(conn)
    else if k == 12 then conn.apple
    else if k == 13 then conn.signed
    else true
  }

  /** `getNarrative`: the stories in the table's order, told of the
      connection's process. */
  function GetNarrative(conn: Conn): (s: Story)
    ensures s.proc == ProcName(conn)
  {
    var proc := ProcName(conn);
    if IsMining(conn) && IsTor(conn) then MiningTor(proc)
    else if DnsAbove(conn, 50) && conn.beacon then C2Beacon(proc)
    else if IsUnsigned(conn) && IsTmp(conn) then DropperBehavior(proc, conn.exe)
    else if IsUnsigned(conn) && IsTor(conn) then UnsignedTor(proc)
    else if DnsAbove(conn, 50) then MaliciousDomain(proc, conn.domain, DnsReasons(conn))
    else if IsMining(conn) then
      var signature := if IsUnsigned(conn) then "narratives.no_signature" else "narratives.third_party";
      var resources := if IsHighRes(conn) then "narratives.consuming_resources" else "narratives.maintains_connection";
      CryptoMining(proc, signature, resources)
    else if IsTor(conn) then TorTraffic(proc)
    else if conn.beacon && IsUnsigned(conn) then BeaconBehavior(proc)
    else if DnsAbove(conn, 20) then SuspiciousDomain(proc, conn.domain, DnsReasons(conn))
    else if IsTmp(conn) then TmpExecution(proc)
    else if IsHighRes(conn) then
      HighResources(proc, if conn.apple then "narratives.apple_context" else "narratives.third_party_context")
    else if IsUnsigned(conn) && IsPublic(conn) then UnsignedInternet(proc)
    else if conn.apple then SystemProcess(proc)
    else if conn.signed then VerifiedApp(proc, GetIpType(HostFrom(conn.raddr)))
    else Generic(proc, conn.pid)
  }

  /** The first row whose condition holds picks the story: its condition
      holds and no condition above it does. */
  lemma NarrativeGuardHolds(conn: Conn)
    ensures Guard(conn, Step(GetNarrative(conn)))
  {
    var k := Step(GetNarrative(conn));
    if IsMining(conn) && IsTor(conn) {
      assert k == 0;
    } else if DnsAbove(conn, 50) && conn.beacon {
      assert k == 1;
    } else if IsUnsigned(conn) && IsTmp(conn) {
      assert k == 2;
    } else if IsUnsigned(conn) && IsTor(conn) {
      assert k == 3;
    } else if DnsAbove(conn, 50) {
      assert k == 4;
    } else if IsMining(conn) {
      assert k == 5;
    } else if IsTor(conn) {
      assert k == 6;
    } else {
      GuardHoldsLower(conn);
    }
  }

  lemma GuardHoldsLower(conn: Conn)
    requires !(IsMining(conn) && IsTor(conn)) && !(DnsAbove(conn, 50) && conn.beacon)
    requires !(IsUnsigned(conn) && IsTmp(conn)) && !(IsUnsigned(conn) && IsTor(conn))
    requires !DnsAbove(conn, 50) && !IsMining(conn) && !IsTor(conn)
    ensures Guard(conn, Step(GetNarrative(conn)))
  {
    var k := Step(GetNarrative(conn));
    if conn.beacon && IsUnsigned(conn) {
      assert k == 7;
    } else if DnsAbove(conn, 20) {
      assert k == 8;
    } else if IsTmp(conn) {
      assert k == 9;
    } else if IsHighRes(conn) {
      assert k == 10;
    } else if IsUnsigned(conn) && IsPublic(conn) {
      assert k == 11;
    } else if conn.apple {
      assert k == 12;
    } else if conn.signed {
      assert k == 13;
    } else {
      assert k == 14;
    }
  }

  lemma NarrativeNoEarlierGuard(conn: Conn, k: nat)
    requires k < Step(GetNarrative(conn))
    ensures !Guard(conn, k)
  {
  }

  /** The story is determined by the first holding condition alone: two rows
      whose conditions first hold at the same place get stories of the same
      kind. */
  lemma NarrativeStepIsFirstGuard(conn: Conn, k: nat)
    requires k <= 14 && Guard(conn, k)
    requires forall j :: 0 <= j < k ==> !Guard(conn, j)
    ensures Step(GetNarrative(conn)) == k
  {
    var s := GetNarrative(conn);
    NarrativeGuardHolds(conn);
    if Step(s) > k {
      NarrativeNoEarlierGuard(conn, k);
    }
  }

  /** Mining together with Tor wins over every other story. */
  lemma MiningTorFirst(conn: Conn)
    requires IsMining(conn) && IsTor(conn)
    ensures GetNarrative(conn) == MiningTor(ProcName(conn))
  {
  }

  /** An unsigned binary in a temporary folder is told as a dropper unless a
      higher story applies, and never as the lower 'unsigned on the Internet'
      story. */
  lemma DropperBeforeUnsignedInternet(conn: Conn)
    requires IsUnsigned(conn) && IsTmp(conn)
    ensures Step(GetNarrative(conn)) <= 2
    ensures !(IsMining(conn) && IsTor(conn)) && !(DnsAbove(conn, 50) && conn.beacon) ==>
      GetNarrative(conn) == DropperBehavior(ProcName(conn), conn.exe)
  {
  }

  /** A DNS score above 50 always leads to one of the first five stories, to
      the command-and-control story with a beacon, and to the malicious-domain
      story when nothing above it applies. */
  lemma HighDnsRouting(conn: Conn)
    requires DnsAbove(conn, 50)
    ensures Step(GetNarrative(conn)) <= 4
    ensures conn.beacon && !(IsMining(conn) && IsTor(conn)) ==> GetNarrative(conn).C2Beacon?
    ensures !conn.beacon && !(IsMining(conn) && IsTor(conn)) && !(IsUnsigned(conn) && (IsTmp(conn) || IsTor(conn))) ==>
      GetNarrative(conn).MaliciousDomain?
  {
  }

  /** The suspicious-domain story is told only for DNS scores in (20, 50]. */
  lemma SuspiciousDomainRange(conn: Conn)
    requires GetNarrative(conn).SuspiciousDomain?
    ensures conn.dnsRisk.Some? && 20 < conn.dnsRisk.value.score <= 50
  {
  }

  // ---------------------------------------------------------------------------
  // Readable evidence and the kill guard

  /** The fixed table of reason texts with a translation. */
  function ReasonKey(r: string): Option<string> {
    if r == "Puerto sensible" then Some("evidence.sensitive_port")
    else if r == "Ejecutable en carpeta temporal" then Some("evidence.temp_folder")
    else if r == "Conecta a Internet (IP pública)" then Some("evidence.internet_connection")
    else if r == "Patrón repetitivo de conexión" then Some("evidence.repeated_connections")
    else if r == "Muchos destinos distintos" then Some("evidence.many_destinations")
    else if r == "Aplicación sin firma" then Some("evidence.unsigned_app")
    else if r == "Aplicación de Apple" then Some("evidence.apple_app")
    else if r == "Marcado como descargado recientemente" then Some("evidence.downloaded_recently")
    else if r == "Ejecutable en carpeta de usuario" then Some("evidence.user_folder")
    else None
  }

  /** One readable reason: a translation key, or the reason lower-cased. */
  datatype ReasonText = Translated(key: string) | Lowered(text: string)

  function Readable(r: string): (t: ReasonText)
    ensures ReasonKey(r).Some? ==> t == Translated(ReasonKey(r).value)
    ensures ReasonKey(r).None? ==> t == Lowered(ToLower(r))
  {
    match ReasonKey(r)
    case Some(k) => Translated(k)
    case None => Lowered(ToLower(r))
  }

  /** The evidence line: the readable forms joined with ', ', or the generic
      network-activity text when that join is empty. */
  datatype EvidenceLine = NetworkActivity | Listed(items: seq<ReasonText>)

  function GetReasons(conn: Conn): (e: EvidenceLine)
    ensures e.Listed? ==> |e.items| == |Take(conn.reasons, 3)| <= 3
    ensures e.Listed? ==> forall i :: 0 <= i < |e.items| ==> e.items[i] == Readable(conn.reasons[i])
  {
    var first := Take(conn.reasons, 3);
    var items := seq(|first|, i requires 0 <= i < |first| => Readable(first[i]));
    if |items| == 0 || items == [Lowered("")] then NetworkActivity else Listed(items)
  }

  /** The generic text appears exactly when there is no reason, or a single
      empty one. */
  lemma NetworkActivityIff(conn: Conn)
    ensures GetReasons(conn) == NetworkActivity <==> |conn.reasons| == 0 || (|conn.reasons| == 1 && conn.reasons[0] == "")
  {
    var first := Take(conn.reasons, 3);
    var items := seq(|first|, i requires 0 <= i < |first| => Readable(first[i]));
    assert GetReasons(conn) == if |items| == 0 || items == [Lowered("")] then NetworkActivity else Listed(items);
    if |conn.reasons| == 1 {
      assert first == conn.reasons;
      assert items == [Readable(conn.reasons[0])];
      assert |ToLower(conn.reasons[0])| == |conn.reasons[0]|;
      assert Readable(conn.reasons[0]) == Lowered("") <==> conn.reasons[0] == "";
    }
    if |conn.reasons| >= 2 {
      assert |items| >= 2;
    }
  }

  predicate CanKill(conn: Conn) {
    conn.level == Alto || conn.level == Medio
  }

  /** The kill button is offered exactly for rows at level 'alto' or 'medio',
      never for 'bajo'. */
  lemma CanKillLevels(conn: Conn)
    ensures CanKill(conn) <==> conn.level in {"alto", "medio"}
    ensures conn.level == Bajo ==> !CanKill(conn)
  {
  }
}

=== FILE: notifier.dfy ===
/** The desktop notification of a new connection alert: the destination
    text, the normalised risk level and its subtitle, the message, and which
    kind of notification each operating system gets.  Running the
    notification programs is not modelled; the value built is what they
    would be given. */
module Notifier {
  import opened Common
  import Narrative

  /** `dest_str`: `destination:port` when the port is given and non-zero,
      followed by ` (country)` when a country is given. */
  function DestText(destination: string, port: Option<int>, country: Option<string>): string {
    var base := if port.Some? && port.value != 0 then destination + ":" + IntToString(port.value) else destination;
    if country.Some? && country.value != "" then base + " (" + country.value + ")" else base
  }

  /** The text starts with the destination, ends with the country in
      brackets when there is one, and is the destination alone when there is
      neither a port nor a country. */
  lemma DestTextShape(destination: string, port: Option<int>, country: Option<string>)
    ensures destination <= DestText(destination, port, country)
    ensures country.Some? && country.value != "" ==>
      EndsWith(DestText(destination, port, country), " (" + country.value + ")")
    ensures (port.None? || port.value == 0) && (country.None? || country.value == "") ==>
      DestText(destination, port, country) == destination
  {
    var r := DestText(destination, port, country);
    var base := if port.Some? && port.value != 0 then destination + ":" + IntToString(port.value) else destination;
    assert destination <= base;
    if country.Some? && country.value != "" {
      var tail := " (" + country.value + ")";
      assert r == base + tail;
      assert r[..|base|] == base;
      assert r[|r| - |tail|..] == tail;
    }
  }

  /** Without a country, the host and the port read back from the
      destination text of a destination with a port. */
  lemma DestTextReadsBack(destination: string, port: int)
    requires ':' !in destination && port != 0
    ensures Narrative.HostFrom(DestText(destination, Some(port), None)) == destination
    ensures Narrative.PortFrom(DestText(destination, Some(port), None)) == Some(port)
  {
    Narrative.PortFromRoundTrip(destination, port);
    Narrative.HostOfAddress(destination, IntToString(port));
  }

  // ---------------------------------------------------------------------------
  // Levels

  /** `level.lower().replace("risk.", "")`. */
  function Normalize(level: string): string {
    RemoveAll(ToLower(level), "risk.")
  }

  /** The Spanish level names read as the English keys; any other text is
      kept as it is. */
  function LevelKey(level: string): (r: string)
    ensures r != "bajo" && r != "medio" && r != "alta" && r != "alto"
    ensures Normalize(level) in {"bajo", "low"} ==> r == "low"
    ensures Normalize(level) in {"medio", "medium"} ==> r == "medium"
    ensures Normalize(level) in {"alta", "alto", "high"} ==> r == "high"
    ensures Normalize(level) !in {"bajo", "medio", "alta", "alto"} ==> r == Normalize(level)
  {
    match Normalize(level)
    case "bajo" => "low"
    case "medio" => "medium"
    case "alta" => "high"
    case "alto" => "high"
    case n => n
  }

  const LowSubtitle := "\U{1F7E2} Riesgo Bajo"
  const MediumSubtitle := "\U{1F7E1} Riesgo Medio"
  const HighSubtitle := "\U{1F534} Riesgo Alto"
  const UnknownSubtitle := "\U{26AA} Desconocido"

  /** `level_map.get(level_key, "⚪ Desconocido")`. */
  function Subtitle(key: string): (r: string)
    ensures r == UnknownSubtitle <==> key !in {"low", "medium", "high", "bajo", "medio", "alto"}
  {
    match key
    case "low" => LowSubtitle
    case "medium" => MediumSubtitle
    case "high" => HighSubtitle
    case "bajo" => LowSubtitle
    case "medio" => MediumSubtitle
    case "alto" => HighSubtitle
    case _ => UnknownSubtitle
  }

  lemma ToLowerAppend(a: string, b: string)
    ensures ToLower(a + b) == ToLower(a) + ToLower(b)
  {
    assert forall i :: 0 <= i < |a + b| ==> ToLower(a + b)[i] == (ToLower(a) + ToLower(b))[i];
  }

  lemma ToLowerOfUpper(s: string)
    ensures ToLower(ToUpper(s)) == ToLower(s)
  {
    assert forall i :: 0 <= i < |s| ==> ToLower(ToUpper(s))[i] == ToLower(s)[i];
  }

  /** The `risk.` prefix of a translation key never changes the level, in
      any case. */
  lemma LevelKeyIgnoresPrefix(level: string)
    ensures LevelKey("risk." + level) == LevelKey(level)
    ensures LevelKey("RISK." + level) == LevelKey(level)
  {
    ToLowerAppend("risk.", level);
    ToLowerAppend("RISK.", level);
    assert ToLower("risk.") == "risk." && ToLower("RISK.") == "risk.";
    RemoveLeading("risk.", ToLower(level));
  }

  /** Upper-case letters read as their lower-case ones. */
  lemma LevelKeyIgnoresCase(level: string)
    ensures LevelKey(ToUpper(level)) == LevelKey(level)
  {
    ToLowerOfUpper(level);
  }

  lemma RemoveLeading(pat: string, s: string)
    requires |pat| > 0
    ensures RemoveAll(pat + s, pat) == RemoveAll(s, pat)
  {
    assert (pat + s)[|pat|..] == s;
  }

  /** The backend's Spanish levels and the English ones get the same
      subtitle. */
  lemma LowLevels()
    ensures Subtitle(LevelKey("bajo")) == Subtitle(LevelKey("low")) == LowSubtitle
  {
    LowerWord("bajo");
    LowerWord("low");
  }

  lemma MediumLevels()
    ensures Subtitle(LevelKey("medio")) == Subtitle(LevelKey("medium")) == MediumSubtitle
  {
    LowerWord("medio");
    LowerWord("medium");
  }

  lemma HighLevels()
    ensures Subtitle(LevelKey("alto")) == Subtitle(LevelKey("alta")) == Subtitle(LevelKey("high")) == HighSubtitle
  {
    LowerWord("alto");
    LowerWord("alta");
    LowerWord("high");
  }

  /** A lower-case word shorter than `risk.` or without a dot normalises to
      itself. */
  lemma LowerWord(w: string)
    requires forall i :: 0 <= i < |w| ==> 'a' <= w[i] <= 'z'
    ensures Normalize(w) == w
  {
    assert ToLower(w) == w;
    NoDotKept(w);
  }

  lemma {:induction false} NoDotKept(s: string)
    requires '.' !in s
    ensures RemoveAll(s, "risk.") == s
    decreases |s|
  {
    if |s| > 0 {
      assert |s| < 5 || s[4] != "risk."[4];
      NoDotKept(s[1..]);
      assert [s[0]] + s[1..] == s;
    }
  }

  // ---------------------------------------------------------------------------
  // The notification

  const Title := "PortWatch - Nueva Conexión"

  function Message(process: string, dest: string): string {
    process + " quiere conectarse a " + dest
  }

  datatype Os = Darwin | Linux | OtherOs(name: string)

  /** What is handed to the notification program. */
  datatype Delivery =
    | MacDialog(title: string, subtitle: string, message: string, icon: string)
    | MacBanner(title: string, subtitle: string, message: string)
    | LinuxNotification(urgency: string, title: string, message: string)
    | NotSupported

  /** `send_alert`: macOS shows a dialog for the medium and high levels
      written in plain words and a banner otherwise; Linux marks the high
      levels critical; other systems get nothing.  The choice reads the raw
      level, lower-cased, not its normalised key. */
  function SendAlert(os: Os, process: string, destination: string, port: Option<int>, level: string,
                     country: Option<string>): (d: Delivery)
    ensures os == Darwin ==> (d.MacDialog? <==> ToLower(level) in {"medio", "medium", "alto", "high"})
    ensures os == Darwin ==> d.MacDialog? || d.MacBanner?
    ensures d.MacDialog? ==> (d.icon == "stop" <==> ToLower(level) in {"alto", "high"})
    ensures os == Linux ==> d.LinuxNotification? && (d.urgency == "critical" <==> ToLower(level) in {"alto", "high"})
    ensures os.OtherOs? <==> d == NotSupported
    ensures d != NotSupported ==> d.title == Title && d.message == Message(process, DestText(destination, port, country))
    ensures d.MacDialog? || d.MacBanner? ==> d.subtitle == Subtitle(LevelKey(level))
  {
    var message := Message(process, DestText(destination, port, country));
    var subtitle := Subtitle(LevelKey(level));
    var lower := ToLower(level);
    match os
    case Darwin =>
      if lower in {"medio", "medium", "alto", "high"} then
        LowerTwice(level);
        MacDialog(Title, subtitle, message, if ToLower(lower) in {"alto", "high"} then "stop" else "caution")
      else MacBanner(Title, subtitle, message)
    case Linux =>
      LinuxNotification(if lower in {"alto", "high"} then "critical" else "normal", Title, message)
    case OtherOs(_) => NotSupported
  }

  lemma LowerTwice(s: string)
    ensures ToLower(ToLower(s)) == ToLower(s)
  {
  }

  /** A level written as a translation key, such as `risk.medio`, keeps
      the subtitle of the bare level but never gets the dialog on macOS nor
      critical urgency on Linux. */
  lemma PrefixedLevelNotEscalated(level: string, process: string, destination: string, port: Option<int>,
                                  country: Option<string>)
    ensures Subtitle(LevelKey("risk." + level)) == Subtitle(LevelKey(level))
    ensures SendAlert(Darwin, process, destination, port, "risk." + level, country).MacBanner?
    ensures SendAlert(Linux, process, destination, port, "risk." + level, country).urgency == "normal"
  {
    LevelKeyIgnoresPrefix(level);
    ToLowerAppend("risk.", level);
    var lower := ToLower("risk." + level);
    assert lower[0] == 'r';
    assert lower !in {"medio", "medium", "alto", "high"};
  }
}

=== FILE: probes.dfy ===
/** Small probes the backend applies to each connection: reading the output of
    `codesign`, naming a port, printing a socket address, taking the host out
    of a remote address, and raising a row's score by a cached abuse report.
    The same helpers exist, unchanged, in the older single-file server. */
module Probes {
  import opened Common
  import opened Records
  import Evidence
  import Scoring

  // ---------------------------------------------------------------------------
  // codesign output

  /** What the backend keeps of `codesign -dv` output. */
  datatype CodeSign = CodeSign(signed: bool, apple: bool, authorities: seq<string>)

  /** The key of an authority line, and the key with Apple's authority. */
  const AuthorityKey := "Authority="
  const AppleAuthority := AuthorityKey + "Apple"

  /** A line that, once trimmed, starts with `Authority=`. */
  predicate IsAuthorityLine(line: string) {
    StartsWith(Trim(line, PythonSpace), AuthorityKey)
  }

  /** The trimmed line sits inside the line at some offset. */
  lemma TrimOffset(s: string) returns (a: nat)
    ensures a + |Trim(s, PythonSpace)| <= |s| && s[a..a + |Trim(s, PythonSpace)|] == Trim(s, PythonSpace)
  {
    var t := TrimStart(s, PythonSpace);
    a := |s| - |t|;
    assert Trim(s, PythonSpace) <= t;
    assert s[a..a + |Trim(s, PythonSpace)|] == t[..|Trim(s, PythonSpace)|];
  }

  /** What the trimmed line starts with occurs in the line itself, and so does
      each of its characters. */
  lemma TrimmedPrefixInside(line: string, p: string, c: char, k: nat)
    requires p <= Trim(line, PythonSpace)
    requires k < |p| && p[k] == c
    ensures Contains(line, p)
    ensures IndexOf(line, c).Some?
  {
    var t := Trim(line, PythonSpace);
    var a := TrimOffset(line);
    assert a + |t| <= |line| && line[a..a + |t|] == t;
    assert line[a..a + |p|] == t[..|p|];
    ContainsAt(line, p, a);
    assert line[a + k] == c;
  }

  lemma AuthorityLineInside(line: string)
    requires IsAuthorityLine(line)
    ensures Contains(line, AuthorityKey)
    ensures IndexOf(line, '=').Some?
  {
    TrimmedPrefixInside(line, AuthorityKey, '=', 9);
  }

  /** A string containing `p + q` contains `p`. */
  lemma ContainsShorter(s: string, p: string, q: string)
    requires Contains(s, p + q)
    ensures Contains(s, p)
  {
    var i := ContainsWitness(s, p + q);
    assert s[i..i + |p|] == (p + q)[..|p|];
    ContainsAt(s, p, i);
  }

  /** The text after the first `=` of an authority line, trimmed. */
  function AuthorityValue(line: string): string
    requires IsAuthorityLine(line)
  {
    AuthorityLineInside(line);
    Trim(AfterFirst(line, '=').value, PythonSpace)
  }

  /** The values of the authority lines, in order. */
  function Authorities(lines: seq<string>): (r: seq<string>)
    ensures |r| == Count(lines, IsAuthorityLine)
    decreases |lines|
  {
    if |lines| == 0 then []
    else (if IsAuthorityLine(lines[0]) then [AuthorityValue(lines[0])] else []) + Authorities(lines[1..])
  }

  /** Signed means "not ad hoc, and some authority or code directory was
      printed"; Apple means an Apple authority was printed. */
  function ParseCodesign(text: string): (c: CodeSign)
    ensures c.signed ==> !Contains(text, "Signature=adhoc")
    ensures |c.authorities| == Count(SplitOn(text, "\n"), IsAuthorityLine)
  {
    CodeSign(
      !Contains(text, "Signature=adhoc") && (Contains(text, AuthorityKey) || Contains(text, "CodeDirectory v=")),
      Contains(text, AppleAuthority),
      Authorities(SplitOn(text, "\n")))
  }

  /** Every piece of a split is a substring of the text, the first a prefix. */
  lemma {:induction false} SplitPartsInside(s: string, sep: string)
    requires |sep| > 0
    ensures SplitOn(s, sep)[0] <= s
    ensures forall i :: 0 <= i < |SplitOn(s, sep)| ==> Contains(s, SplitOn(s, sep)[i])
    decreases |s|
  {
    var r := SplitOn(s, sep);
    if |s| < |sep| {
      ContainsAt(s, s, 0);
    } else if sep <= s {
      var t := s[|sep|..];
      SplitPartsInside(t, sep);
      assert r == [""] + SplitOn(t, sep);
      assert s == s[..|sep|] + t;
      forall i | 0 <= i < |r| ensures Contains(s, r[i]) {
        if i == 0 {
          ContainsEmpty(s);
        } else {
          assert r[i] == SplitOn(t, sep)[i - 1];
          ContainsPrefixed(t, r[i], s[..|sep|]);
        }
      }
    } else {
      var t := s[1..];
      SplitPartsInside(t, sep);
      assert r == [[s[0]] + SplitOn(t, sep)[0]] + SplitOn(t, sep)[1..];
      assert s == [s[0]] + t;
      forall i | 0 <= i < |r| ensures Contains(s, r[i]) {
        if i == 0 {
          ContainsAt(s, r[0], 0);
        } else {
          assert r[i] == SplitOn(t, sep)[i];
          ContainsPrefixed(t, r[i], [s[0]]);
        }
      }
    }
  }

  lemma {:induction false} AuthorityLineOf(lines: seq<string>) returns (i: nat)
    requires |Authorities(lines)| > 0
    ensures i < |lines| && IsAuthorityLine(lines[i])
    decreases |lines|
  {
    if IsAuthorityLine(lines[0]) {
      i := 0;
    } else {
      var j := AuthorityLineOf(lines[1..]);
      i := j + 1;
    }
  }

  /** A printed authority makes the binary signed unless it is ad hoc. */
  lemma AuthorityImpliesSigned(text: string)
    requires |ParseCodesign(text).authorities| > 0
    requires !Contains(text, "Signature=adhoc")
    ensures ParseCodesign(text).signed
  {
    var lines := SplitOn(text, "\n");
    var i := AuthorityLineOf(lines);
    SplitPartsInside(text, "\n");
    AuthorityLineInside(lines[i]);
    ContainsWithin(text, AuthorityKey, lines[i]);
  }

  /** An Apple authority makes the binary signed unless it is ad hoc. */
  lemma AppleImpliesSigned(text: string)
    requires ParseCodesign(text).apple
    requires !Contains(text, "Signature=adhoc")
    ensures ParseCodesign(text).signed
  {
    ContainsShorter(text, AuthorityKey, "Apple");
  }

  lemma {:induction false} SplitWithoutSeparator(s: string, c: char)
    requires forall k :: 0 <= k < |s| ==> s[k] != c
    ensures SplitOn(s, [c]) == [s]
    decreases |s|
  {
    if |s| >= 1 {
      SplitWithoutSeparator(s[1..], c);
      assert [s[0]] + s[1..] == s;
    }
  }

  lemma {:induction false} TrimEndKeeps(s: string, k: nat)
    requires k < |s| && !IsSpace(s[k], PythonSpace)
    ensures k < |TrimEnd(s, PythonSpace)|
    decreases |s|
  {
    if IsSpace(s[|s| - 1], PythonSpace) {
      TrimEndKeeps(s[..|s| - 1], k);
    }
  }

  /** Trimming keeps a prefix that has no space at either end. */
  lemma TrimKeepsPrefix(p: string, v: string)
    requires |p| > 0 && !IsSpace(p[0], PythonSpace) && !IsSpace(p[|p| - 1], PythonSpace)
    ensures p <= Trim(p + v, PythonSpace)
  {
    var s := p + v;
    assert s[0] == p[0];
    assert TrimStart(s, PythonSpace) == s;
    var t := TrimEnd(s, PythonSpace);
    TrimEndKeeps(s, |p| - 1);
    assert t[..|p|] == s[..|p|] == p;
  }

  /** A one-line output `Authority=v` yields exactly the authority `v`, trimmed. */
  lemma SingleAuthorityLine(v: string)
    requires forall k :: 0 <= k < |v| ==> v[k] != '\n'
    ensures ParseCodesign(AuthorityKey + v).authorities == [Trim(v, PythonSpace)]
  {
    var s := AuthorityKey + v;
    assert forall k :: 0 <= k < |s| ==> s[k] != '\n';
    SplitWithoutSeparator(s, '\n');
    AuthorityValueOf(v);
    assert Authorities([s]) == [AuthorityValue(s)] + Authorities([]);
  }

  lemma AuthorityValueOf(v: string)
    ensures IsAuthorityLine(AuthorityKey + v)
    ensures AuthorityValue(AuthorityKey + v) == Trim(v, PythonSpace)
  {
    var s := AuthorityKey + v;
    TrimKeepsPrefix(AuthorityKey, v);
    assert IsAuthorityLine(s);
    IndexOfAt(s, '=', 9);
    assert s[10..] == v;
  }

  // ---------------------------------------------------------------------------
  // Service names

  /** The system's `getservbyport` answers, keyed by port and protocol; a
      missing key is a lookup that raised. */
  type ServiceTable = map<(int, string), string>

  /** The special mining and Tor ports are named before the system is asked;
      otherwise the TCP name wins over the UDP name. */
  function ServiceName(port: Option<int>, services: ServiceTable): (name: string)
    ensures port.None? ==> name == ""
    ensures port.Some? && Evidence.IsMiningPort(port.value) ==> name == "mining-stratum"
    ensures port.Some? && Evidence.IsTorPort(port.value) ==> name == "tor"
    ensures port.Some? && !Evidence.IsMiningPort(port.value) && !Evidence.IsTorPort(port.value) ==>
      name == (if (port.value, "tcp") in services then services[(port.value, "tcp")]
               else if (port.value, "udp") in services then services[(port.value, "udp")]
               else "")
  {
    if port.None? then ""
    else if Evidence.IsMiningPort(port.value) then "mining-stratum"
    else if Evidence.IsTorPort(port.value) then "tor"
    else if (port.value, "tcp") in services then services[(port.value, "tcp")]
    else if (port.value, "udp") in services then services[(port.value, "udp")]
    else ""
  }

  /** The special names do not depend on the system's table. */
  lemma SpecialPortsIgnoreTable(p: int, a: ServiceTable, b: ServiceTable)
    requires Evidence.IsMiningPort(p) || Evidence.IsTorPort(p)
    ensures ServiceName(Some(p), a) == ServiceName(Some(p), b) != ""
  {
  }

  // ---------------------------------------------------------------------------
  // Socket addresses

  /** A psutil address: none (or the empty tuple), an `(ip, port)` pair, or
      something else that is printed as is. */
  datatype SockAddr = NoAddr | Endpoint(ip: string, port: int) | Raw(text: string)

  function FmtAddr(a: SockAddr): (s: string)
    ensures a.NoAddr? ==> s == ""
    ensures a.Endpoint? ==> |s| > |a.ip| && s[|a.ip|] == ':' && a.ip <= s
  {
    match a
    case NoAddr => ""
    case Endpoint(ip, port) => ip + ":" + IntToString(port)
    case Raw(text) => text
  }

  /** The host part of a remote address: the text inside the brackets of an
      IPv6 address, else the text before the last colon, else the whole. */
  function RemoteHost(raw: string): (host: string)
    ensures |host| <= |raw|
    ensures !("[" <= raw) ==> host <= raw
    ensures "[" <= raw ==> forall k :: 0 <= k < |host| ==> host[k] != ']'
  {
    if raw == "" then ""
    else if "[" <= raw then
      match IndexOf(raw, ']')
      case None => ""
      case Some(e) => raw[1..e]
    else if ':' in raw then BeforeLast(raw, ':')
    else raw
  }

  /** Printing an `(ip, port)` pair and reading it back gives the ip and the
      port, also for unbracketed IPv6 text: the port has no colon. */
  lemma FmtAddrRoundTrip(ip: string, port: int)
    requires !("[" <= ip)
    ensures RemoteHost(FmtAddr(Endpoint(ip, port))) == ip
    ensures ParseInt(AfterLast(FmtAddr(Endpoint(ip, port)), ':')) == Some(port)
  {
    var digits := IntToString(port);
    var s := ip + ":" + digits;
    assert FmtAddr(Endpoint(ip, port)) == s;
    NoColonInNumber(port);
    LastColonAt(ip, digits);
    UnbracketedJoin(ip, digits);
    ParseIntToString(port);
  }

  /** The scorer splits the same printed text at its FIRST colon instead.
      For an IPv6 pair that keeps only the first group of the address, which
      is no address at all: such a row never counts as talking to a public
      host, so it loses the public-address point and the recent-binary,
      suspicious-parent and legacy user-folder bonuses gated on it. */
  lemma {:induction false} Ipv6RowNotPublic(ip: string, port: int, row: Conn, env: Scoring.Env, v: Scoring.Version)
    requires Scoring.RejectsBareWords(env)
    requires ':' in ip && '.' !in BeforeFirst(ip, ':')
    requires row.raddr == FmtAddr(Endpoint(ip, port))
    ensures Scoring.ScoredHost(row) == BeforeFirst(ip, ':')
    ensures !Scoring.Fired(row, env, v, Scoring.PublicHost)
    ensures !Scoring.Fired(row, env, v, Scoring.RecentBinary)
    ensures !Scoring.Fired(row, env, v, Scoring.SuspiciousParent)
    ensures v == Scoring.Legacy ==> !Scoring.Fired(row, env, v, Scoring.UserFolder)
  {
    var h := BeforeFirst(ip, ':');
    var s := row.raddr;
    assert |h| < |ip| && ip[|h|] == ':';
    assert s[..|h|] == h && s[|h|] == ':';
    FirstCharAt(s, |h|, ':');
    assert Scoring.ScoredHost(row) == h;
  }

  /** Joining an unbracketed host to a colon-free tail keeps the text
      unbracketed, with the host before the last colon. */
  lemma UnbracketedJoin(ip: string, digits: string)
    requires !("[" <= ip)
    ensures var s := ip + ":" + digits; s != "" && !("[" <= s) && ':' in s
  {
    var s := ip + ":" + digits;
    assert s[|ip|] == ':';
    if ip == [] {
      assert s[0] == ':';
    } else {
      assert s[0] == ip[0];
    }
  }

  /** A bracketed IPv6 address yields the text inside the brackets. */
  lemma BracketedHost(h: string, tail: string)
    requires forall k :: 0 <= k < |h| ==> h[k] != ']'
    ensures RemoteHost("[" + h + "]" + tail) == h
  {
    var s := "[" + h + "]" + tail;
    assert s[|h| + 1] == ']';
    assert forall k :: 0 <= k < |h| + 1 ==> s[k] != ']' by {
      forall k | 0 <= k < |h| + 1 ensures s[k] != ']' {
        if k > 0 { assert s[k] == h[k - 1]; }
      }
    }
    assert IndexOf(s, ']') == Some(|h| + 1);
    assert s[1..|h| + 1] == h;
  }

  // ---------------------------------------------------------------------------
  // Abuse reputation

  /** The reputation cache: remote host to AbuseIPDB confidence score, as
      fetched earlier (a negative score marks a failed lookup). */
  type ReputationCache = map<string, int>

  /** The level after a bonus: re-derived from the score at the medio and alto
      thresholds, kept as it was below them. */
  function RaisedLevel(score: int, level: string): (l: string)
    ensures score >= 400 ==> l == Scoring.LevelOf(score)
    ensures score < 400 ==> l == level
  {
    if score >= 700 then Alto else if score >= 400 then Medio else level
  }

  /** A known, non-negative score is copied into the row; a positive one adds
      `score / 20` points (`5 * score` hundredths), without clamping again, and
      re-derives the level only upwards from the medio threshold. */
  function AbuseUpgrade(row: Conn, cache: ReputationCache): Conn {
    var rip := RemoteHost(row.raddr);
    if rip != "" && rip in cache && cache[rip] >= 0 then
      var v := cache[rip];
      if v > 0 then
        var score := row.score + 5 * v;
        row.(abuseScore := v, score := score, level := RaisedLevel(score, row.level))
      else row.(abuseScore := v)
    else row
  }

  /** Only the score, the level and the abuse score change, and a host
      without a cached score leaves the row as it was. */
  lemma AbuseUpgradeFrame(row: Conn, cache: ReputationCache)
    ensures var r := AbuseUpgrade(row, cache);
      r == row.(score := r.score, level := r.level, abuseScore := r.abuseScore)
    ensures RemoteHost(row.raddr) !in cache ==> AbuseUpgrade(row, cache) == row
  {
    var rip := RemoteHost(row.raddr);
    if rip != "" && rip in cache && cache[rip] >= 0 {
      var v := cache[rip];
      if v > 0 {
        var score := row.score + 5 * v;
        assert AbuseUpgrade(row, cache) == row.(abuseScore := v, score := score, level := RaisedLevel(score, row.level));
      } else {
        assert AbuseUpgrade(row, cache) == row.(abuseScore := v);
      }
    } else {
      assert AbuseUpgrade(row, cache) == row;
    }
  }

  /** The score never goes down, and the level changes only with the score. */
  lemma AbuseUpgradeShape(row: Conn, cache: ReputationCache)
    ensures AbuseUpgrade(row, cache).score >= row.score
    ensures AbuseUpgrade(row, cache).score == row.score ==> AbuseUpgrade(row, cache).level == row.level
    ensures AbuseUpgrade(row, cache).score > row.score ==>
      AbuseUpgrade(row, cache).level == RaisedLevel(AbuseUpgrade(row, cache).score, row.level)
  {
    var rip := RemoteHost(row.raddr);
    if rip != "" && rip in cache && cache[rip] > 0 {
      AbuseHit(row, cache);
    } else {
      AbuseMiss(row, cache);
    }
  }

  lemma AbuseHit(row: Conn, cache: ReputationCache)
    requires RemoteHost(row.raddr) != "" && RemoteHost(row.raddr) in cache && cache[RemoteHost(row.raddr)] > 0
    ensures AbuseUpgrade(row, cache).score == row.score + 5 * cache[RemoteHost(row.raddr)]
    ensures AbuseUpgrade(row, cache).level == RaisedLevel(AbuseUpgrade(row, cache).score, row.level)
  {
  }

  lemma AbuseMiss(row: Conn, cache: ReputationCache)
    requires !(RemoteHost(row.raddr) != "" && RemoteHost(row.raddr) in cache && cache[RemoteHost(row.raddr)] > 0)
    ensures AbuseUpgrade(row, cache).score == row.score
    ensures AbuseUpgrade(row, cache).level == row.level
  {
  }

  /** When the row's level matches its score before the upgrade, it still does
      after it, and the level never goes down. */
  lemma AbuseOnlyRaisesLevel(row: Conn, cache: ReputationCache)
    requires row.level == Scoring.LevelOf(row.score)
    ensures AbuseUpgrade(row, cache).level == Scoring.LevelOf(AbuseUpgrade(row, cache).score)
    ensures LevelRank(AbuseUpgrade(row, cache).level) >= LevelRank(row.level)
  {
    var r := AbuseUpgrade(row, cache);
    AbuseUpgradeShape(row, cache);
    if r.score > row.score {
      assert r.level == RaisedLevel(r.score, row.level);
    }
  }

  /** A full abuse score on a row already at the maximum takes it past ten
      points: the upgrade is not clamped. */
  lemma AbuseNotClamped(row: Conn, cache: ReputationCache)
    requires row.score == 1000
    requires RemoteHost(row.raddr) != "" && RemoteHost(row.raddr) in cache && cache[RemoteHost(row.raddr)] == 100
    ensures AbuseUpgrade(row, cache).score == 1500 > Scoring.Clamp(1500)
  {
  }
}

=== FILE: reconciler.dfy ===
/** The dashboard's session bookkeeping (frontend/src/App.jsx): every snapshot
    pushed by the backend replaces the active rows, rows that vanished since the
    previous snapshot move to a closed-connection history, and reconnections are
    dropped from that history.  Also the table filter and the alerts-panel
    auto-open step of the WebSocket handler. */
module Reconciler {
  import opened Common
  import opened Records

  /** The frontend's session key `pid + '-' + raddr`; unlike the backend's
      key it ignores the local address. */
  function SessionKey(r: Conn): string {
    IntToString(r.pid) + "-" + r.raddr
  }

  function Keys(rows: seq<Conn>): (ks: set<string>)
    ensures forall i :: 0 <= i < |rows| ==> SessionKey(rows[i]) in ks
    ensures forall k :: k in ks ==> exists i :: 0 <= i < |rows| && SessionKey(rows[i]) == k
  {
    set i | 0 <= i < |rows| :: SessionKey(rows[i])
  }

  /** One message pushed over the WebSocket; every part may be missing. */
  datatype Snapshot = Snapshot(ts: int, rows: Option<seq<Conn>>, pendingAlerts: Option<seq<string>>, killed: Option<seq<Kill>>)

  /** The dashboard's `data` state: active rows and closed history. */
  datatype AppData = AppData(ts: int, rows: seq<Conn>, history: seq<Conn>)

  function InitialData(): (d: AppData)
    ensures d.rows == [] && d.history == []
  {
    AppData(0, [], [])
  }

  function MessageRows(msg: Snapshot): seq<Conn> {
    match msg.rows
    case None => []
    case Some(rows) => rows
  }

  /** A row as it enters the history. */
  function Close(r: Conn, now: int): (c: Conn)
    ensures SessionKey(c) == SessionKey(r)
  {
    r.(status := "CLOSED", closedAt := Some(now))
  }

  function ClosedTime(r: Conn): int {
    match r.closedAt
    case None => 0
    case Some(t) => t
  }

  /** Sort key putting the most recently closed entry first. */
  function NewestFirst(r: Conn): int {
    -ClosedTime(r)
  }

  /** Rows stamped closed at `now`, one for one. */
  function CloseAll(s: seq<Conn>, now: int): (closed: seq<Conn>)
    ensures |closed| == |s|
    ensures forall i :: 0 <= i < |s| ==> closed[i] == Close(s[i], now)
  {
    seq(|s|, i requires 0 <= i < |s| => Close(s[i], now))
  }

  /** History without the entries whose key is in `keys`. */
  function DropKeys(s: seq<Conn>, keys: set<string>): (r: seq<Conn>)
    ensures |r| <= |s|
    ensures forall i :: 0 <= i < |r| ==> r[i] in s && SessionKey(r[i]) !in keys
    ensures forall i :: 0 <= i < |s| && SessionKey(s[i]) !in keys ==> s[i] in r
    decreases |s|
  {
    if |s| == 0 then []
    else if SessionKey(s[0]) in keys then DropKeys(s[1..], keys)
    else [s[0]] + DropKeys(s[1..], keys)
  }

  lemma {:induction false} DropKeysNone(s: seq<Conn>, keys: set<string>)
    requires forall c :: c in s ==> SessionKey(c) !in keys
    ensures DropKeys(s, keys) == s
    decreases |s|
  {
    if |s| > 0 {
      DropKeysNone(s[1..], keys);
      assert s == [s[0]] + s[1..];
    }
  }

  lemma {:induction false} DropKeysAppend(a: seq<Conn>, b: seq<Conn>, keys: set<string>)
    ensures DropKeys(a + b, keys) == DropKeys(a, keys) + DropKeys(b, keys)
    decreases |a|
  {
    if |a| == 0 {
      assert a + b == b;
    } else {
      assert (a + b)[0] == a[0];
      assert (a + b)[1..] == a[1..] + b;
      DropKeysAppend(a[1..], b, keys);
    }
  }

  lemma {:induction false} DropKeysLength(s: seq<Conn>, keys: set<string>)
    requires forall c :: c in s ==> SessionKey(c) !in keys
    ensures |DropKeys(s, keys)| == |s|
  {
    DropKeysNone(s, keys);
  }

  /** The `setData` updater run for every message: the message's rows become
      the active rows, and the history keeps its entries and gains the rows
      that vanished, less every entry whose key is back (see
      `ReconcileHistoryContents` and `ReconcileKeepsHistory`). */
  function Reconcile(prev: AppData, msg: Snapshot, now: int): (d: AppData)
    ensures d.ts == msg.ts
  {
    var current := MessageRows(msg);
    var keys := Keys(current);
    var closed := CloseAll(DropKeys(prev.rows, keys), now);
    var kept := DropKeys(prev.history + closed, keys);
    AppData(msg.ts, current, SortBy(kept, NewestFirst))
  }

  /** What the updater maintains about the history between messages. */
  ghost predicate HistoryInvariant(d: AppData) {
    && SortedBy(d.history, NewestFirst)
    && (forall i, j :: 0 <= i < |d.history| && 0 <= j < |d.rows| ==> SessionKey(d.history[i]) != SessionKey(d.rows[j]))
    && (forall i :: 0 <= i < |d.history| ==> d.history[i].status == "CLOSED" && d.history[i].closedAt.Some?)
  }

  /** The entries closed by this message. */
  function ClosedBy(prev: AppData, msg: Snapshot, now: int): seq<Conn> {
    CloseAll(DropKeys(prev.rows, Keys(MessageRows(msg))), now)
  }

  lemma InHistory(prev: AppData, msg: Snapshot, now: int, h: Conn)
    requires h in Reconcile(prev, msg, now).history
    ensures SessionKey(h) !in Keys(MessageRows(msg))
    ensures h in prev.history || exists r :: r in prev.rows && h == Close(r, now)
  {
    var keys := Keys(MessageRows(msg));
    var vanished := DropKeys(prev.rows, keys);
    var closed := CloseAll(vanished, now);
    var kept := DropKeys(prev.history + closed, keys);
    MultisetMembership(SortBy(kept, NewestFirst), kept, h);
    if h !in prev.history {
      ClosedFromVanished(vanished, now, h);
    }
  }

  lemma ClosedFromVanished(vanished: seq<Conn>, now: int, h: Conn)
    requires h in CloseAll(vanished, now)
    ensures exists r :: r in vanished && h == Close(r, now)
  {
    var i :| 0 <= i < |vanished| && CloseAll(vanished, now)[i] == h;
    assert vanished[i] in vanished;
  }

  /** The new active set is exactly the message's rows. */
  lemma ReconcileRowsExact(prev: AppData, msg: Snapshot, now: int)
    ensures Reconcile(prev, msg, now).rows == (if msg.rows.Some? then msg.rows.value else [])
  {
  }

  /** Every previously active row whose key is missing from the snapshot enters
      the history, stamped closed at `now`. */
  lemma ReconcileClosesVanished(prev: AppData, msg: Snapshot, now: int, j: nat)
    requires j < |prev.rows| && SessionKey(prev.rows[j]) !in Keys(MessageRows(msg))
    ensures Close(prev.rows[j], now) in Reconcile(prev, msg, now).history
    ensures Close(prev.rows[j], now).status == "CLOSED" && Close(prev.rows[j], now).closedAt == Some(now)
  {
    var vanished := DropKeys(prev.rows, Keys(MessageRows(msg)));
    var closed := ClosedBy(prev, msg, now);
    var c := Close(prev.rows[j], now);
    assert prev.rows[j] in vanished;
    var i :| 0 <= i < |vanished| && vanished[i] == prev.rows[j];
    assert closed[i] == c;
    ReconcileHistoryContents(prev, msg, now);
    assert c in multiset(closed);
    assert c in multiset(Reconcile(prev, msg, now).history);
  }

  /** Up to order, the new history is the previous history without the
      entries whose key is back, followed by the rows this message closed. */
  lemma ReconcileHistoryContents(prev: AppData, msg: Snapshot, now: int)
    ensures multiset(Reconcile(prev, msg, now).history)
      == multiset(DropKeys(prev.history, Keys(MessageRows(msg)))) + multiset(ClosedBy(prev, msg, now))
  {
    var keys := Keys(MessageRows(msg));
    var vanished := DropKeys(prev.rows, keys);
    var closed := ClosedBy(prev, msg, now);
    DropKeysAppend(prev.history, closed, keys);
    forall c | c in closed ensures SessionKey(c) !in keys {
      var i :| 0 <= i < |closed| && closed[i] == c;
      assert c == Close(vanished[i], now);
    }
    DropKeysNone(closed, keys);
  }

  /** An entry of the previous history stays in the history exactly when
      its key is not back in the message. */
  lemma ReconcileKeepsHistory(prev: AppData, msg: Snapshot, now: int, h: Conn)
    requires h in prev.history
    ensures h in Reconcile(prev, msg, now).history <==> SessionKey(h) !in Keys(MessageRows(msg))
  {
    var keys := Keys(MessageRows(msg));
    if SessionKey(h) !in keys {
      var i :| 0 <= i < |prev.history| && prev.history[i] == h;
      assert h in DropKeys(prev.history, keys);
      ReconcileHistoryContents(prev, msg, now);
      assert h in multiset(Reconcile(prev, msg, now).history);
    } else if h in Reconcile(prev, msg, now).history {
      InHistory(prev, msg, now, h);
    }
  }

  /** No history entry shares its key with an active row, so a reconnection
      removes its closed entries. */
  lemma ReconcileNoSharedKeys(prev: AppData, msg: Snapshot, now: int, i: nat, j: nat)
    requires i < |Reconcile(prev, msg, now).history| && j < |Reconcile(prev, msg, now).rows|
    ensures SessionKey(Reconcile(prev, msg, now).history[i]) != SessionKey(Reconcile(prev, msg, now).rows[j])
  {
    var d := Reconcile(prev, msg, now);
    InHistory(prev, msg, now, d.history[i]);
  }

  /** The history is ordered by closing time, newest first. */
  lemma ReconcileHistorySorted(prev: AppData, msg: Snapshot, now: int)
    ensures SortedBy(Reconcile(prev, msg, now).history, NewestFirst)
    ensures forall i, j :: 0 <= i < j < |Reconcile(prev, msg, now).history| ==>
      ClosedTime(Reconcile(prev, msg, now).history[i]) >= ClosedTime(Reconcile(prev, msg, now).history[j])
  {
    var keys := Keys(MessageRows(msg));
    SortBySorted(DropKeys(prev.history + ClosedBy(prev, msg, now), keys), NewestFirst);
  }

  /** The updater keeps the history invariant. */
  lemma ReconcileKeepsInvariant(prev: AppData, msg: Snapshot, now: int)
    requires HistoryInvariant(prev)
    ensures HistoryInvariant(Reconcile(prev, msg, now))
  {
    var d := Reconcile(prev, msg, now);
    ReconcileHistorySorted(prev, msg, now);
    forall i, j | 0 <= i < |d.history| && 0 <= j < |d.rows|
      ensures SessionKey(d.history[i]) != SessionKey(d.rows[j])
    {
      ReconcileNoSharedKeys(prev, msg, now, i, j);
    }
    forall i | 0 <= i < |d.history| ensures d.history[i].status == "CLOSED" && d.history[i].closedAt.Some? {
      InHistory(prev, msg, now, d.history[i]);
    }
  }

  /** Re-applying the snapshot that produced the current rows closes nothing and
      leaves the history as it was. */
  lemma {:induction false} ReconcileIdempotent(prev: AppData, msg: Snapshot, now: int)
    requires HistoryInvariant(prev)
    requires MessageRows(msg) == prev.rows
    ensures Reconcile(prev, msg, now).history == prev.history
    ensures Reconcile(prev, msg, now).rows == prev.rows
  {
    var keys := Keys(prev.rows);
    DropKeysAll(prev.rows, keys);
    var closed := CloseAll(DropKeys(prev.rows, keys), now);
    assert prev.history + closed == prev.history;
    forall c | c in prev.history ensures SessionKey(c) !in keys {
      var i :| 0 <= i < |prev.history| && prev.history[i] == c;
      forall j | 0 <= j < |prev.rows| ensures SessionKey(prev.rows[j]) != SessionKey(c) {
      }
    }
    DropKeysNone(prev.history, keys);
    SortBySortedIdentity(prev.history, NewestFirst);
  }

  lemma {:induction false} DropKeysAll(s: seq<Conn>, keys: set<string>)
    requires forall i :: 0 <= i < |s| ==> SessionKey(s[i]) in keys
    ensures DropKeys(s, keys) == []
    decreases |s|
  {
    if |s| > 0 {
      DropKeysAll(s[1..], keys);
    }
  }

  /** The first message, applied to the initial state, closes nothing. */
  lemma FirstMessageClosesNothing(msg: Snapshot, now: int)
    ensures Reconcile(InitialData(), msg, now).history == []
  {
    var keys := Keys(MessageRows(msg));
    assert DropKeys([], keys) == [];
    assert InitialData().history + CloseAll([], now) == [];
  }

  /** A message without rows closes every previously active row and keeps the
      whole previous history. */
  lemma {:induction false} EmptyMessageClosesAll(prev: AppData, msg: Snapshot, now: int)
    requires MessageRows(msg) == []
    ensures |Reconcile(prev, msg, now).history| == |prev.history| + |prev.rows|
    ensures multiset(Reconcile(prev, msg, now).history) == multiset(prev.history) + multiset(CloseAll(prev.rows, now))
    ensures forall h :: h in prev.history ==> h in Reconcile(prev, msg, now).history
    ensures forall j :: 0 <= j < |prev.rows| ==> Close(prev.rows[j], now) in Reconcile(prev, msg, now).history
    ensures Reconcile(prev, msg, now).rows == []
  {
    var keys := Keys(MessageRows(msg));
    assert keys == {};
    DropKeysNone(prev.rows, keys);
    DropKeysNone(prev.history, keys);
    ReconcileHistoryContents(prev, msg, now);
    var closed := CloseAll(DropKeys(prev.rows, keys), now);
    DropKeysNone(prev.history + closed, keys);
    forall h | h in prev.history ensures h in Reconcile(prev, msg, now).history {
      ReconcileKeepsHistory(prev, msg, now, h);
    }
    forall j | 0 <= j < |prev.rows| ensures Close(prev.rows[j], now) in Reconcile(prev, msg, now).history {
      ReconcileClosesVanished(prev, msg, now, j);
    }
  }

  /** Two active rows that differ only in their local address share a session
      key, so when that key disappears both enter the history: the history then
      holds two entries with the same key. */
  lemma DuplicateClose(prev: AppData, msg: Snapshot, now: int, j1: nat, j2: nat)
    requires j1 < |prev.rows| && j2 < |prev.rows|
    requires prev.rows[j2] == prev.rows[j1].(laddr := prev.rows[j2].laddr)
    requires prev.rows[j1].laddr != prev.rows[j2].laddr
    requires SessionKey(prev.rows[j1]) !in Keys(MessageRows(msg))
    ensures Close(prev.rows[j1], now) in Reconcile(prev, msg, now).history
    ensures Close(prev.rows[j2], now) in Reconcile(prev, msg, now).history
    ensures Close(prev.rows[j1], now) != Close(prev.rows[j2], now)
    ensures SessionKey(Close(prev.rows[j1], now)) == SessionKey(Close(prev.rows[j2], now))
  {
    ReconcileClosesVanished(prev, msg, now, j1);
    ReconcileClosesVanished(prev, msg, now, j2);
  }

  // ---------------------------------------------------------------------------
  // The table filter (App.jsx filteredRows)

  datatype ViewMode = ActiveView | HistoryView

  datatype Filters = Filters(search: string, hideApple: bool, onlyEstablished: bool, highRiskOnly: bool)

  function SourceRows(d: AppData, mode: ViewMode): seq<Conn> {
    if mode == ActiveView then d.rows else d.history
  }

  /** Case-insensitive match of the search text against process, remote address
      and user, or a textual match against the pid. */
  predicate SearchMatches(row: Conn, search: string) {
    var q := ToLower(search);
    Contains(ToLower(row.proc), q) || Contains(IntToString(row.pid), q)
      || Contains(ToLower(row.raddr), q) || Contains(ToLower(row.user), q)
  }

  /** The filter callback, written as the cascade of early returns it is;
      `selectedCountry` is empty when no country is selected. */
  predicate Passes(row: Conn, f: Filters, mode: ViewMode, selectedCountry: string)
    ensures Passes(row, f, mode, selectedCountry) <==>
      && (f.search == "" || SearchMatches(row, f.search))
      && !(f.hideApple && row.apple)
      && !(mode == ActiveView && f.onlyEstablished && row.status != "ESTABLISHED")
      && !(f.highRiskOnly && row.level == Bajo)
      && (selectedCountry == "" || row.country == selectedCountry)
  {
    if f.search != "" && !SearchMatches(row, f.search) then false
    else if f.hideApple && row.apple then false
    else if mode == ActiveView && f.onlyEstablished && row.status != "ESTABLISHED" then false
    else if f.highRiskOnly && row.level == Bajo then false
    else if selectedCountry != "" && row.country != selectedCountry then false
    else true
  }

  /** The rows the table shows: the passing rows of the selected view, in order. */
  function FilteredRows(d: AppData, f: Filters, mode: ViewMode, selectedCountry: string): (rows: seq<Conn>)
    ensures forall i :: 0 <= i < |rows| ==> rows[i] in SourceRows(d, mode) && Passes(rows[i], f, mode, selectedCountry)
    ensures forall i :: 0 <= i < |SourceRows(d, mode)| && Passes(SourceRows(d, mode)[i], f, mode, selectedCountry) ==>
      SourceRows(d, mode)[i] in rows
    ensures IsSubsequence(rows, SourceRows(d, mode))
    ensures forall x :: multiset(rows)[x] == if Passes(x, f, mode, selectedCountry) then multiset(SourceRows(d, mode))[x] else 0
  {
    var p := (r: Conn) => Passes(r, f, mode, selectedCountry);
    FilterSubsequence(SourceRows(d, mode), p);
    FilterMultiset(SourceRows(d, mode), p);
    Filter(SourceRows(d, mode), p)
  }

  /** The "only established" switch does not apply to the history view. */
  lemma HistoryIgnoresEstablished(row: Conn, f: Filters, selectedCountry: string)
    ensures Passes(row, f, HistoryView, selectedCountry) == Passes(row, f.(onlyEstablished := false), HistoryView, selectedCountry)
  {
  }

  // ---------------------------------------------------------------------------
  // The WebSocket handler's state

  class AppState {
    var data: AppData
    var killedProcesses: seq<Kill>
    var pendingAlerts: seq<string>
    var showAlerts: bool
    /** The `lastAlertCount` ref: the pending-alert count seen last. */
    var lastAlertCount: nat

    ghost predicate Valid()
      reads this
    {
      HistoryInvariant(data)
    }

    constructor()
      ensures Valid()
      ensures data == InitialData() && killedProcesses == [] && pendingAlerts == []
      ensures !showAlerts && lastAlertCount == 0
    {
      data := InitialData();
      killedProcesses := [];
      pendingAlerts := [];
      showAlerts := false;
      lastAlertCount := 0;
    }

    /** Handles one pushed message.  The alerts panel opens only when the
        pending count strictly exceeds the remembered count, which then becomes
        the current count; a message without pending alerts leaves both alone. */
    method OnMessage(msg: Snapshot, now: int)
      requires Valid()
      modifies this
      ensures Valid()
      ensures data == Reconcile(old(data), msg, now)
      ensures msg.killed.Some? ==> killedProcesses == msg.killed.value
      ensures msg.killed.None? ==> killedProcesses == old(killedProcesses)
      ensures msg.pendingAlerts.Some? ==>
        && pendingAlerts == msg.pendingAlerts.value
        && lastAlertCount == |msg.pendingAlerts.value|
        && showAlerts == (old(showAlerts) || |msg.pendingAlerts.value| > old(lastAlertCount))
      ensures msg.pendingAlerts.None? ==>
        pendingAlerts == old(pendingAlerts) && lastAlertCount == old(lastAlertCount) && showAlerts == old(showAlerts)
    {
      TakeAlerts(msg.pendingAlerts);
      if msg.killed.Some? {
        killedProcesses := msg.killed.value;
      }
      ReconcileKeepsInvariant(data, msg, now);
      data := Reconcile(data, msg, now);
    }

    /** The pending-alert step of the message handler. */
    method TakeAlerts(pending: Option<seq<string>>)
      modifies this
      ensures data == old(data) && killedProcesses == old(killedProcesses)
      ensures pending.Some? ==>
        && pendingAlerts == pending.value
        && lastAlertCount == |pending.value|
        && showAlerts == (old(showAlerts) || |pending.value| > old(lastAlertCount))
      ensures pending.None? ==>
        pendingAlerts == old(pendingAlerts) && lastAlertCount == old(lastAlertCount) && showAlerts == old(showAlerts)
    {
      if pending.Some? {
        var alerts := pending.value;
        pendingAlerts := alerts;
        if |alerts| > lastAlertCount {
          showAlerts := true;
        }
        lastAlertCount := |alerts|;
      }
    }
  }
}

=== FILE: records.dfy ===
/** The records PortWatch passes between its backend and its frontend: one
    connection row as the backend builds it and the frontend shows it, a DNS
    risk assessment, and one entry of the kill log.  Missing JavaScript or
    Python values of string type are modelled by the empty string, which both
    languages treat as false, and missing numbers by `None`. */
module Records {
  import opened Common

  /** Risk verdict of the DNS analyser. */
  datatype DnsLevel = Safe | Low | Suspicious | Critical

  /** Result of analysing one domain name: the capped score, the verdict taken
      from the uncapped score, the reasons in the order they were found, and the
      entropy of the first label when it was computed. */
  datatype DnsAnalysis = DnsAnalysis(score: int, risk: DnsLevel, reasons: seq<string>, entropy: Option<real>)

  /** One connection row.  `score` is kept in hundredths of a point, so the
      backend's 0.1-step weights and the abuse bonus `abuse / 20` are exact. */
  datatype Conn = Conn(
    pid: int,
    proc: string,
    name: Option<string>,
    user: string,
    exe: string,
    laddr: string,
    raddr: string,
    dport: Option<int>,
    service: string,
    status: string,
    beacon: bool,
    uniqueDsts: int,
    signed: bool,
    apple: bool,
    notarized: bool,
    quarantine: bool,
    exeRecent: bool,
    parentName: string,
    suspiciousParent: bool,
    domain: string,
    dnsRisk: Option<DnsAnalysis>,
    cpu: real,
    mem: int,
    score: int,
    level: string,
    reasons: seq<string>,
    country: string,
    abuseScore: int,
    closedAt: Option<int>)

  /** A row with every field empty, false or zero. */
  function EmptyConn(): (c: Conn)
    ensures c.proc == "" && c.raddr == "" && c.dport == None && c.reasons == []
  {
    Conn(0, "", None, "", "", "", "", None, "", "", false, 0, false, false, false, false, false,
         "", false, "", None, 0.0, 0, 0, "", [], "", 0, None)
  }

  /** One entry of the backend's kill log.  Network kills carry a level, an
      address and a port, resource kills a threat score, rule kills a
      destination. */
  datatype Kill = Kill(
    timestamp: real,
    pid: int,
    proc: string,
    reason: string,
    kind: string,
    level: string,
    raddr: string,
    dport: Option<int>,
    score: Option<int>,
    destination: string)

  /** The connection levels, lowest first. */
  const Bajo := "bajo"
  const Medio := "medio"
  const Alto := "alto"

  /** Position of a level in the order bajo < medio < alto; any other text
      ranks with bajo. */
  function LevelRank(level: string): (k: nat)
    ensures k <= 2
    ensures k == 2 <==> level == Alto
    ensures k == 1 <==> level == Medio
  {
    if level == Alto then 2 else if level == Medio then 1 else 0
  }
}

=== FILE: rules.dfy ===
/** The allow/deny rule table of the interactive alert mode
    (backend/core/rules_manager.py): rules keyed by process, executable and
    destination, with an optional expiry, matched in four priority tiers.
    The SQLite table is an in-memory sequence of rules in insertion order,
    timestamps are whole seconds, and rule ids come from a counter. */
module Rules {
  import opened Common

  type RuleId = nat

  datatype Rule = Rule(
    id: RuleId,
    process: string,
    exePath: Option<string>,
    exeHash: Option<string>,
    destination: string,
    port: Option<int>,
    protocol: string,
    action: string,
    scope: string,
    createdAt: int,
    expiresAt: Option<int>,
    userComment: Option<string>,
    enabled: bool)

  predicate ValidAction(action: string) {
    action == "allow" || action == "deny"
  }

  predicate ValidScope(scope: string) {
    scope == "once" || scope == "always" || scope == "temporary"
  }

  /** Python truthiness of an optional text. */
  predicate Truthy(s: Option<string>) {
    s.Some? && s.value != ""
  }

  /** Python truthiness of an optional number. */
  predicate TruthyInt(n: Option<int>) {
    n.Some? && n.value != 0
  }

  /** A rule expires once its expiry time is in the past. */
  predicate ExpiredAt(r: Rule, now: int) {
    r.expiresAt.Some? && r.expiresAt.value < now
  }

  /** The expiry of a new rule: `ttl` hours from now, only for temporary rules
      with a non-zero time to live. */
  function ExpiryFor(scope: string, ttlHours: Option<int>, now: int): (e: Option<int>)
    ensures e.Some? <==> scope == "temporary" && TruthyInt(ttlHours)
    ensures e.Some? ==> e.value == now + 3600 * ttlHours.value
  {
    if scope == "temporary" && TruthyInt(ttlHours) then Some(now + 3600 * ttlHours.value) else None
  }

  /** The fields of a new rule, as the caller gives them. */
  datatype RuleRequest = RuleRequest(
    process: string,
    destination: string,
    action: string,
    scope: string,
    port: Option<int>,
    protocol: string,
    exePath: Option<string>,
    exeHash: Option<string>,
    userComment: Option<string>,
    ttlHours: Option<int>)

  function NewRule(req: RuleRequest, id: RuleId, now: int): Rule {
    Rule(id, req.process, req.exePath, req.exeHash, req.destination, req.port, req.protocol, req.action,
         req.scope, now, ExpiryFor(req.scope, req.ttlHours, now), req.userComment, true)
  }

  /** The check `create_rule` makes before inserting. */
  function RequestError(req: RuleRequest): (e: Option<string>)
    ensures e.None? <==> ValidAction(req.action) && ValidScope(req.scope)
  {
    if !ValidAction(req.action) then Some("Invalid action: " + req.action)
    else if !ValidScope(req.scope) then Some("Invalid scope: " + req.scope)
    else None
  }

  // ---------------------------------------------------------------------------
  // Matching

  /** What a connection is matched on. */
  datatype Query = Query(process: string, destination: string, port: Option<int>,
                         exePath: Option<string>, exeHash: Option<string>)

  /** The rule attributes a tier matches the query on, besides the port. */
  datatype Key = ByHash | ByPath | ByProcess

  /** Whether a tier looks for a rule on the query's port or a port-less rule. */
  datatype PortWanted = ExactPort | NoPort

  /** `port = ?` in SQL: never true for a missing query port. */
  predicate PortEquals(r: Rule, q: Query) {
    q.port.Some? && r.port == q.port
  }

  /** An enabled rule for this destination and for the query's executable
      hash, executable path or process name. */
  predicate KeyMatches(key: Key, r: Rule, q: Query) {
    && r.enabled
    && r.destination == q.destination
    && match key
       case ByHash => Truthy(q.exeHash) && r.exeHash == q.exeHash
       case ByPath => Truthy(q.exePath) && r.exePath == q.exePath
       case ByProcess => r.process == q.process
  }

  predicate Fits(key: Key, want: PortWanted, r: Rule, q: Query) {
    KeyMatches(key, r, q) && (if want == ExactPort then PortEquals(r, q) else r.port.None?)
  }

  /** The first rule of the table that fits; ties between equally good rows go
      to the older row. */
  function First(rules: seq<Rule>, key: Key, want: PortWanted, q: Query): (r: Option<Rule>)
    ensures r.Some? ==> r.value in rules && Fits(key, want, r.value, q)
    ensures r.None? ==> forall i :: 0 <= i < |rules| ==> !Fits(key, want, rules[i], q)
    ensures r.Some? ==> exists i :: 0 <= i < |rules| && rules[i] == r.value && forall k :: 0 <= k < i ==> !Fits(key, want, rules[k], q)
    decreases |rules|
  {
    if |rules| == 0 then None
    else if Fits(key, want, rules[0], q) then Some(rules[0])
    else
      var r := First(rules[1..], key, want, q);
      assert forall k :: 1 <= k < |rules| ==> rules[k] == rules[1..][k - 1];
      r
  }

  /** `(port = ? OR port IS NULL) ORDER BY port DESC NULLS LAST LIMIT 1`: a
      rule for the exact port if there is one, else a port-less rule. */
  function PreferExact(rules: seq<Rule>, key: Key, q: Query): (m: Option<Rule>)
    ensures m.Some? ==> m.value in rules && KeyMatches(key, m.value, q) && (PortEquals(m.value, q) || m.value.port.None?)
    ensures m.Some? && m.value.port.None? ==> forall i :: 0 <= i < |rules| && KeyMatches(key, rules[i], q) ==> !PortEquals(rules[i], q)
    ensures m.None? ==> forall i :: 0 <= i < |rules| && KeyMatches(key, rules[i], q) ==> !PortEquals(rules[i], q) && rules[i].port.Some?
  {
    var exact := First(rules, key, ExactPort, q);
    if exact.Some? then exact else First(rules, key, NoPort, q)
  }

  function HashTier(rules: seq<Rule>, q: Query): Option<Rule> {
    PreferExact(rules, ByHash, q)
  }

  function PathTier(rules: seq<Rule>, q: Query): Option<Rule> {
    PreferExact(rules, ByPath, q)
  }

  function PortTier(rules: seq<Rule>, q: Query): Option<Rule> {
    First(rules, ByProcess, ExactPort, q)
  }

  function AnyPortTier(rules: seq<Rule>, q: Query): Option<Rule> {
    First(rules, ByProcess, NoPort, q)
  }

  /** The four tiers in priority order: the first that finds a rule decides. */
  function Match(rules: seq<Rule>, q: Query): (m: Option<Rule>)
    ensures m.Some? ==> m.value in rules && m.value.enabled
  {
    if Truthy(q.exeHash) && HashTier(rules, q).Some? then HashTier(rules, q)
    else if Truthy(q.exePath) && PathTier(rules, q).Some? then PathTier(rules, q)
    else if PortTier(rules, q).Some? then PortTier(rules, q)
    else AnyPortTier(rules, q)
  }

  /** A rule appended after a table where nothing fits is the first that
      fits. */
  lemma FirstAppend(rules: seq<Rule>, r: Rule, key: Key, want: PortWanted, q: Query)
    requires First(rules, key, want, q).None?
    ensures First(rules + [r], key, want, q) == if Fits(key, want, r, q) then Some(r) else None
    decreases |rules|
  {
    if |rules| > 0 {
      assert (rules + [r])[1..] == rules[1..] + [r];
      FirstAppend(rules[1..], r, key, want, q);
    } else {
      assert rules + [r] == [r];
    }
  }

  /** The table after the expiry sweep: every enabled rule whose expiry has
      passed is disabled, and nothing else changes. */
  function Expire(rules: seq<Rule>, now: int): (out: seq<Rule>)
    ensures |out| == |rules|
    ensures forall i :: 0 <= i < |rules| ==> out[i] == ExpireOne(rules[i], now)
  {
    seq(|rules|, i requires 0 <= i < |rules| => ExpireOne(rules[i], now))
  }

  /** One row of the sweep: disabled if it is enabled and has expired. */
  function ExpireOne(r: Rule, now: int): (out: Rule)
    ensures out.id == r.id
    ensures out.enabled <==> r.enabled && !ExpiredAt(r, now)
    ensures out == r || out == r.(enabled := false)
  {
    if r.enabled && ExpiredAt(r, now) then r.(enabled := false) else r
  }

  lemma ExpireKeepsValid(rules: seq<Rule>, now: int, bound: nat)
    requires IdsBelow(rules, bound) && IdsUnique(rules)
    ensures IdsBelow(Expire(rules, now), bound) && IdsUnique(Expire(rules, now))
  {
    var out := Expire(rules, now);
    forall a, b | a in out && b in out && a.id == b.id
      ensures a == b
    {
      var i :| 0 <= i < |out| && out[i] == a;
      var j :| 0 <= j < |out| && out[j] == b;
      assert rules[i].id == rules[j].id;
    }
  }

  /** After the sweep no enabled rule has expired, so the match is never an
      expired rule. */
  lemma MatchNotExpired(rules: seq<Rule>, q: Query, now: int)
    ensures Match(Expire(rules, now), q).Some? ==>
      Match(Expire(rules, now), q).value.enabled && !ExpiredAt(Match(Expire(rules, now), q).value, now)
  {
    var out := Expire(rules, now);
    var m := Match(out, q);
    if m.Some? {
      var i :| 0 <= i < |out| && out[i] == m.value;
    }
  }

  /** A hash-tier rule beats every other tier; a path-tier rule beats the
      process tiers; the exact-port process tier beats the port-less one. */
  lemma MatchPriority(rules: seq<Rule>, q: Query)
    ensures Truthy(q.exeHash) && HashTier(rules, q).Some? ==> Match(rules, q) == HashTier(rules, q)
    ensures (!Truthy(q.exeHash) || HashTier(rules, q).None?) && Truthy(q.exePath) && PathTier(rules, q).Some? ==>
      Match(rules, q) == PathTier(rules, q)
    ensures (!Truthy(q.exeHash) || HashTier(rules, q).None?) && (!Truthy(q.exePath) || PathTier(rules, q).None?) ==>
      Match(rules, q) == if PortTier(rules, q).Some? then PortTier(rules, q) else AnyPortTier(rules, q)
  {
  }

  /** Within the hash tier an exact-port rule is preferred to a port-less
      one, and a port-less rule is chosen only when no exact-port rule
      exists. */
  lemma HashTierPrefersExact(rules: seq<Rule>, q: Query, i: nat)
    requires i < |rules| && KeyMatches(ByHash, rules[i], q) && PortEquals(rules[i], q)
    ensures HashTier(rules, q).Some? && PortEquals(HashTier(rules, q).value, q)
  {
  }

  /** The same preference within the path tier. */
  lemma PathTierPrefersExact(rules: seq<Rule>, q: Query, i: nat)
    requires i < |rules| && KeyMatches(ByPath, rules[i], q) && PortEquals(rules[i], q)
    ensures PathTier(rules, q).Some? && PortEquals(PathTier(rules, q).value, q)
  {
  }

  /** Without a query port only port-less rules can match. */
  lemma NoPortMatchesPortless(rules: seq<Rule>, q: Query)
    requires q.port.None?
    ensures PortTier(rules, q).None?
    ensures Match(rules, q).Some? ==> Match(rules, q).value.port.None?
  {
  }

  // ---------------------------------------------------------------------------
  // Table edits

  function HasId(rules: seq<Rule>, id: RuleId): bool {
    exists i :: 0 <= i < |rules| && rules[i].id == id
  }

  /** The first rule with this id. */
  function FindId(rules: seq<Rule>, id: RuleId): (r: Option<Rule>)
    ensures r.Some? <==> HasId(rules, id)
    ensures r.Some? ==> r.value in rules && r.value.id == id
    decreases |rules|
  {
    if |rules| == 0 then None
    else if rules[0].id == id then Some(rules[0])
    else
      var r := FindId(rules[1..], id);
      assert forall k :: 1 <= k < |rules| ==> rules[k] == rules[1..][k - 1];
      r
  }

  /** Sets the enabled flag of the rule with this id; the rest are unchanged. */
  function SetEnabled(rules: seq<Rule>, id: RuleId, on: bool): (out: seq<Rule>)
    ensures |out| == |rules|
    ensures forall i :: 0 <= i < |rules| ==> out[i] == if rules[i].id == id then rules[i].(enabled := on) else rules[i]
  {
    seq(|rules|, i requires 0 <= i < |rules| => if rules[i].id == id then rules[i].(enabled := on) else rules[i])
  }

  /** Applies an update to the rule with this id; the rest are unchanged. */
  function UpdateFields(rules: seq<Rule>, id: RuleId, action: Option<string>, comment: Option<string>): (out: seq<Rule>)
    ensures |out| == |rules|
    ensures forall i :: 0 <= i < |rules| && rules[i].id != id ==> out[i] == rules[i]
    ensures forall i :: 0 <= i < |rules| && rules[i].id == id ==>
      out[i] == rules[i].(action := if Truthy(action) then action.value else rules[i].action,
                          userComment := if comment.Some? then comment else rules[i].userComment)
  {
    seq(|rules|, i requires 0 <= i < |rules| =>
      if rules[i].id == id then
        rules[i].(action := if Truthy(action) then action.value else rules[i].action,
                  userComment := if comment.Some? then comment else rules[i].userComment)
      else rules[i])
  }

  /** A record to import: the four required fields may be missing. */
  datatype ImportRecord = ImportRecord(
    process: Option<string>,
    destination: Option<string>,
    action: Option<string>,
    scope: Option<string>,
    exePath: Option<string>,
    exeHash: Option<string>,
    port: Option<int>,
    protocol: Option<string>,
    createdAt: Option<int>,
    expiresAt: Option<int>,
    userComment: Option<string>,
    enabled: Option<bool>)

  predicate Complete(rec: ImportRecord) {
    rec.process.Some? && rec.destination.Some? && rec.action.Some? && rec.scope.Some?
  }

  /** The rule an import record becomes, with defaults for the optional fields:
      protocol TCP, created now, enabled. */
  function Imported(rec: ImportRecord, id: RuleId, now: int): Rule
    requires Complete(rec)
  {
    Rule(id, rec.process.value, rec.exePath, rec.exeHash, rec.destination.value, rec.port,
         if rec.protocol.Some? then rec.protocol.value else "TCP",
         rec.action.value, rec.scope.value,
         if rec.createdAt.Some? then rec.createdAt.value else now,
         rec.expiresAt, rec.userComment,
         if rec.enabled.Some? then rec.enabled.value else true)
  }

  /** The rules an import adds, with consecutive ids from `firstId`;
      incomplete records are skipped. */
  function ImportedRules(recs: seq<ImportRecord>, firstId: nat, now: int): (out: seq<Rule>)
    ensures |out| == Count(recs, Complete)
    ensures forall i :: 0 <= i < |out| ==> out[i].id == firstId + i
    decreases |recs|
  {
    if |recs| == 0 then []
    else
      var prev := ImportedRules(recs[..|recs| - 1], firstId, now);
      var last := recs[|recs| - 1];
      CountSnoc(recs);
      prev + (if Complete(last) then [Imported(last, firstId + |prev|, now)] else [])
  }

  lemma CountSnoc(recs: seq<ImportRecord>)
    requires |recs| > 0
    ensures Count(recs, Complete) == Count(recs[..|recs| - 1], Complete) + (if Complete(recs[|recs| - 1]) then 1 else 0)
  {
    CountAppend(recs[..|recs| - 1], [recs[|recs| - 1]], Complete);
    assert recs[..|recs| - 1] + [recs[|recs| - 1]] == recs;
  }

  // ---------------------------------------------------------------------------
  // The manager

  class RulesManager {
    var rules: seq<Rule>
    var nextId: nat

    /** Rule ids are below the next id to issue, and an id names one rule. */
    ghost predicate Valid()
      reads this
    {
      IdsBelow(rules, nextId) && IdsUnique(rules)
    }

    constructor()
      ensures Valid() && rules == [] && nextId == 0
    {
      rules := [];
      nextId := 0;
    }

    /** Adds a rule, or rejects an unknown action or scope and changes
        nothing. */
    method CreateRule(req: RuleRequest, now: int) returns (r: Result<RuleId, string>)
      requires Valid()
      modifies this
      ensures Valid()
      ensures RequestError(req).Some? ==>
        r == Err(RequestError(req).value) && rules == old(rules) && nextId == old(nextId)
      ensures RequestError(req).None? ==>
        r == Ok(old(nextId)) && rules == old(rules) + [NewRule(req, old(nextId), now)] && nextId == old(nextId) + 1
    {
      if !(req.action == "allow" || req.action == "deny") {
        return Err("Invalid action: " + req.action);
      }
      if !(req.scope == "once" || req.scope == "always" || req.scope == "temporary") {
        return Err("Invalid scope: " + req.scope);
      }
      var id := nextId;
      rules := rules + [NewRule(req, id, now)];
      nextId := nextId + 1;
      r := Ok(id);
    }

    function GetRule(id: RuleId): (r: Option<Rule>)
      reads this
      ensures r.Some? <==> HasId(rules, id)
      ensures r.Some? ==> r.value in rules && r.value.id == id
    {
      FindId(rules, id)
    }

    /** The rule list, newest first, optionally only the enabled rules. */
    function AllRules(enabledOnly: bool): (out: seq<Rule>)
      reads this
      ensures SortedBy(out, (r: Rule) => -r.createdAt)
      ensures multiset(out) == multiset(Filter(rules, (r: Rule) => !enabledOnly || r.enabled))
    {
      var listed := Filter(rules, (r: Rule) => !enabledOnly || r.enabled);
      SortBySorted(listed, (r: Rule) => -r.createdAt);
      SortBy(listed, (r: Rule) => -r.createdAt)
    }

    /** Disables the expired rules, then looks for a match in the four
        tiers. */
    method FindMatchingRule(q: Query, now: int) returns (m: Option<Rule>)
      requires Valid()
      modifies this
      ensures Valid()
      ensures rules == Expire(old(rules), now) && nextId == old(nextId)
      ensures m == Match(rules, q)
    {
      ExpireRules(now);
      m := Match(rules, q);
    }

    /** The expiry sweep, one row at a time. */
    method ExpireRules(now: int)
      requires Valid()
      modifies this
      ensures Valid()
      ensures rules == Expire(old(rules), now) && nextId == old(nextId)
    {
      var i := 0;
      while i < |rules|
        invariant 0 <= i <= |rules| == |old(rules)|
        invariant forall k :: 0 <= k < i ==> rules[k] == ExpireOne(old(rules)[k], now)
        invariant forall k :: i <= k < |rules| ==> rules[k] == old(rules)[k]
        invariant nextId == old(nextId)
      {
        rules := rules[i := ExpireOne(rules[i], now)];
        i := i + 1;
      }
      ExpireKeepsValid(old(rules), now, nextId);
    }

    /** Deletes the rule with this id; true iff there was one. */
    method DeleteRule(id: RuleId) returns (deleted: bool)
      requires Valid()
      modifies this
      ensures Valid()
      ensures deleted <==> HasId(old(rules), id)
      ensures rules == Filter(old(rules), (r: Rule) => r.id != id) && nextId == old(nextId)
    {
      deleted := HasId(rules, id);
      rules := Filter(rules, (r: Rule) => r.id != id);
    }

    method DisableRule(id: RuleId) returns (found: bool)
      requires Valid()
      modifies this
      ensures Valid()
      ensures found <==> HasId(old(rules), id)
      ensures rules == SetEnabled(old(rules), id, false) && nextId == old(nextId)
    {
      found := HasId(rules, id);
      rules := SetEnabled(rules, id, false);
    }

    method EnableRule(id: RuleId) returns (found: bool)
      requires Valid()
      modifies this
      ensures Valid()
      ensures found <==> HasId(old(rules), id)
      ensures rules == SetEnabled(old(rules), id, true) && nextId == old(nextId)
    {
      found := HasId(rules, id);
      rules := SetEnabled(rules, id, true);
    }

    /** Changes the action and the comment of a rule.  A non-empty action
        other than allow or deny is rejected; with nothing to change the
        answer is false and the table is untouched. */
    method UpdateRule(id: RuleId, action: Option<string>, comment: Option<string>) returns (r: Result<bool, string>)
      requires Valid()
      modifies this
      ensures Valid() && nextId == old(nextId)
      ensures Truthy(action) && !ValidAction(action.value) ==> r.Err? && rules == old(rules)
      ensures !Truthy(action) && comment.None? ==> r == Ok(false) && rules == old(rules)
      ensures (Truthy(action) && ValidAction(action.value)) || (!Truthy(action) && comment.Some?) ==>
        r == Ok(HasId(old(rules), id)) && rules == UpdateFields(old(rules), id, action, comment)
    {
      if action.Some? && action.value != "" {
        if !(action.value == "allow" || action.value == "deny") {
          return Err("Invalid action: " + action.value);
        }
      }
      if !(action.Some? && action.value != "") && comment.None? {
        return Ok(false);
      }
      r := Ok(HasId(rules, id));
      rules := UpdateFields(rules, id, action, comment);
    }

    /** Deletes every rule whose expiry has passed, enabled or not, and returns
        how many there were. */
    method CleanupExpiredRules(now: int) returns (count: nat)
      requires Valid()
      modifies this
      ensures Valid() && nextId == old(nextId)
      ensures rules == Filter(old(rules), (r: Rule) => !ExpiredAt(r, now))
      ensures count == Count(old(rules), (r: Rule) => ExpiredAt(r, now))
      ensures count + |rules| == |old(rules)|
    {
      var kept := Filter(rules, (r: Rule) => !ExpiredAt(r, now));
      FilterCountSplit(rules, now);
      count := |rules| - |kept|;
      rules := kept;
    }

    /** Adds the complete records with fresh ids, after clearing the table when
        `overwrite` is set. */
    method ImportRules(recs: seq<ImportRecord>, overwrite: bool, now: int)
      requires Valid()
      modifies this
      ensures Valid()
      ensures rules == (if overwrite then [] else old(rules)) + ImportedRules(recs, old(nextId), now)
      ensures nextId == old(nextId) + Count(recs, Complete)
    {
      if overwrite {
        rules := [];
      }
      ghost var base := rules;
      var i := 0;
      while i < |recs|
        invariant 0 <= i <= |recs|
        invariant rules == base + ImportedRules(recs[..i], old(nextId), now)
        invariant nextId == old(nextId) + |ImportedRules(recs[..i], old(nextId), now)|
        invariant Valid()
      {
        ImportedSnoc(recs, i, old(nextId), now);
        ImportOne(recs[i], now);
        i := i + 1;
      }
      assert recs[..i] == recs;
    }

    /** One record of an import: added with the next id if it is complete. */
    method ImportOne(rec: ImportRecord, now: int)
      requires Valid()
      modifies this
      ensures Valid()
      ensures rules == old(rules) + (if Complete(rec) then [Imported(rec, old(nextId), now)] else [])
      ensures nextId == old(nextId) + (if Complete(rec) then 1 else 0)
    {
      if rec.process.Some? && rec.destination.Some? && rec.action.Some? && rec.scope.Some? {
        rules := rules + [Imported(rec, nextId, now)];
        nextId := nextId + 1;
      } else {
        assert rules + [] == rules;
      }
    }
  }

  lemma ImportedSnoc(recs: seq<ImportRecord>, i: nat, firstId: nat, now: int)
    requires i < |recs|
    ensures ImportedRules(recs[..i + 1], firstId, now) ==
      ImportedRules(recs[..i], firstId, now) +
      (if Complete(recs[i]) then [Imported(recs[i], firstId + |ImportedRules(recs[..i], firstId, now)|, now)] else [])
  {
    assert recs[..i + 1][..i] == recs[..i];
  }

  predicate IdsBelow(rules: seq<Rule>, bound: nat) {
    forall r :: r in rules ==> r.id < bound
  }

  predicate IdsUnique(rules: seq<Rule>) {
    forall a, b :: a in rules && b in rules && a.id == b.id ==> a == b
  }

  lemma {:induction false} FilterCountSplit(rules: seq<Rule>, now: int)
    ensures |Filter(rules, (r: Rule) => !ExpiredAt(r, now))| + Count(rules, (r: Rule) => ExpiredAt(r, now)) == |rules|
    decreases |rules|
  {
    if |rules| > 0 {
      FilterCountSplit(rules[1..], now);
    }
  }
}

=== FILE: scoring.dfy ===
/** The backend's risk score for one connection row (`_score_row` in
    backend/core/server.py and its older copy in server.py): a fixed-weight sum
    of signals, clamped to [0, 10] and mapped to the levels 'bajo', 'medio' and
    'alto'.  Scores are kept in hundredths of a point, so every weight is an
    exact integer. */
module Scoring {
  import opened Common
  import opened Records
  import Evidence

  /** What the scorer learns outside the row: the public-address test of
      `_is_public_ip` (Python's `ipaddress` classification, applied to the
      scored host below), the normalised (resolved, lower-cased) executable path,
      the lower-cased home directory, whether the file was modified in the last
      72 hours, and the renderings `{:.1f}` of the CPU percentage and `{:.0f}`
      of the memory in MiB. */
  datatype Env = Env(isPublic: string -> bool, exeNorm: string, userHome: string, mtimeRecent: bool,
                     cpuText: string, ramText: string)

  /** The host the scorer tests: the remote address up to its first colon.
      For an IPv6 pair printed without brackets this is only the first group. */
  function ScoredHost(row: Conn): (h: string)
    ensures h <= row.raddr && ':' !in h
    ensures ':' in row.raddr ==> row.raddr[|h|] == ':'
  {
    BeforeFirst(row.raddr, ':')
  }

  /** Whether the scorer takes the row to talk to a public address. */
  predicate PublicRemote(row: Conn, env: Env) {
    env.isPublic(ScoredHost(row))
  }

  /** A property of Python's `ipaddress.ip_address` on text: a text with
      neither a dot nor a colon is no address, so the test says false. */
  ghost predicate RejectsBareWords(env: Env) {
    forall h: string :: '.' !in h && ':' !in h ==> !env.isPublic(h)
  }

  /** The two versions of the scorer. */
  datatype Version = Current | Legacy

  datatype Signal =
    | SensitivePort | MiningPort | TorPort | TmpFolder | PublicHost | RecentBinary | Beaconing
    | ManyDests | SomeDests | Unsigned | AppleSigned | Quarantined | SystemPath | UserFolder
    | HighCpu | HighRam | SuspiciousParent | DnsRisk

  /** The signals whose conditions only the current version checks. */
  predicate CurrentOnly(s: Signal) {
    s == HighCpu || s == HighRam || s == SuspiciousParent || s == DnsRisk
  }

  function DnsPoints(row: Conn): int {
    if row.dnsRisk.Some? then row.dnsRisk.value.score else 0
  }

  /** Each signal's weight in hundredths. */
  function Weight(row: Conn, s: Signal): int {
    match s
    case SensitivePort => 300 case MiningPort => 200 case TorPort => 150 case TmpFolder => 300
    case PublicHost => 100 case RecentBinary => 100 case Beaconing => 250 case ManyDests => 150
    case SomeDests => 80 case Unsigned => 200 case AppleSigned => -150 case Quarantined => 100
    case SystemPath => -50 case UserFolder => 50 case HighCpu => 200 case HighRam => 100
    case SuspiciousParent => 250
    case DnsRisk => 100 * DnsPoints(row)
  }

  /** The path the path checks look at: the normalised path in the current
      version, the lower-cased raw path in the legacy one. */
  function PathSeen(row: Conn, env: Env, v: Version): string {
    if v == Current then env.exeNorm else ToLower(row.exe)
  }

  /** The recency flag: the row's own flag, else the file's modification time
      when there is a path. */
  predicate IsRecent(row: Conn, env: Env) {
    row.exeRecent || (row.exe != "" && env.mtimeRecent)
  }

  predicate InSystemFolder(p: string) {
    StartsWith(p, "/system/") || StartsWith(p, "/usr/bin") || StartsWith(p, "/usr/libexec")
  }

  predicate InUserFolder(row: Conn, env: Env, v: Version) {
    var p := PathSeen(row, env, v);
    var legacyRule := Contains(p, "/users/") && (Contains(p, "/downloads") || Contains(p, "/library/")) && PublicRemote(row, env);
    if v == Current && StartsWith(p, env.userHome) then
      Contains(p, "/downloads") || Contains(p, "/library/") || Contains(p, "/desktop")
    else legacyRule
  }

  /** When each signal fires. */
  predicate Fired(row: Conn, env: Env, v: Version, s: Signal) {
    match s
    case SensitivePort => row.dport.Some? && Evidence.IsSensitivePort(row.dport.value)
    case MiningPort => row.dport.Some? && Evidence.IsMiningPort(row.dport.value)
    case TorPort => row.dport.Some? && Evidence.IsTorPort(row.dport.value)
    case TmpFolder => Evidence.HasTmpHint(PathSeen(row, env, v))
    case PublicHost => PublicRemote(row, env)
    case RecentBinary => IsRecent(row, env) && PublicRemote(row, env)
    case Beaconing => row.beacon
    case ManyDests => row.uniqueDsts >= 10
    case SomeDests => 5 <= row.uniqueDsts < 10
    case Unsigned => !row.signed
    case AppleSigned => row.signed && row.apple
    case Quarantined => row.quarantine
    case SystemPath => InSystemFolder(PathSeen(row, env, v)) && row.apple
    case UserFolder => InUserFolder(row, env, v)
    case HighCpu => v == Current && row.cpu > 50.0
    case HighRam => v == Current && row.mem > 524288000
    case SuspiciousParent => v == Current && row.suspiciousParent && PublicRemote(row, env)
    case DnsRisk => v == Current && row.dnsRisk.Some? && row.dnsRisk.value.score > 0
  }

  function DnsReasonTexts(rs: seq<string>): (out: seq<string>)
    ensures |out| == |rs|
    ensures forall i :: 0 <= i < |rs| ==> out[i] == "DNS: " + rs[i]
  {
    seq(|rs|, i requires 0 <= i < |rs| => "DNS: " + rs[i])
  }

  /** The reasons a fired signal appends. */
  function Said(row: Conn, env: Env, s: Signal): seq<string> {
    match s
    case SensitivePort => ["Puerto sensible"]
    case MiningPort => ["Puerto típico de minería (3333/4444)"]
    case TorPort => ["Puerto típico de Tor (9001-9030)"]
    case TmpFolder => ["Ejecutable en carpeta temporal"]
    case PublicHost => ["Conecta a Internet (IP pública)"]
    case RecentBinary => ["Binario reciente con salida"]
    case Beaconing => ["Patrón repetitivo de conexión"]
    case ManyDests => ["Muchos destinos distintos"]
    case SomeDests => []
    case Unsigned => ["Aplicación sin firma"]
    case AppleSigned => ["Aplicación de Apple"]
    case Quarantined => ["Marcado como descargado recientemente"]
    case SystemPath => []
    case UserFolder => ["Ejecutable en carpeta de usuario"]
    case HighCpu => ["Alto consumo CPU (" + env.cpuText + "%)"]
    case HighRam => ["Alto consumo RAM (" + env.ramText + " MB)"]
    case SuspiciousParent => ["Spawn sospechoso: lanzado por '" + row.parentName + "'"]
    case DnsRisk => if row.dnsRisk.Some? then DnsReasonTexts(row.dnsRisk.value.reasons) else []
  }

  function Points(row: Conn, env: Env, v: Version, s: Signal): int {
    if Fired(row, env, v, s) then Weight(row, s) else 0
  }

  function Reasons(row: Conn, env: Env, v: Version, s: Signal): seq<string> {
    if Fired(row, env, v, s) then Said(row, env, s) else []
  }

  // The scorer runs its checks in five stages; each stage is a run of
  // consecutive signals.

  function PortPathPoints(row: Conn, env: Env, v: Version): int {
    Points(row, env, v, SensitivePort) + Points(row, env, v, MiningPort) + Points(row, env, v, TorPort)
    + Points(row, env, v, TmpFolder) + Points(row, env, v, PublicHost)
  }

  function PortPathReasons(row: Conn, env: Env, v: Version): seq<string> {
    Reasons(row, env, v, SensitivePort) + Reasons(row, env, v, MiningPort) + Reasons(row, env, v, TorPort)
    + Reasons(row, env, v, TmpFolder) + Reasons(row, env, v, PublicHost)
  }

  function BehaviourPoints(row: Conn, env: Env, v: Version): int {
    Points(row, env, v, RecentBinary) + Points(row, env, v, Beaconing)
    + Points(row, env, v, ManyDests) + Points(row, env, v, SomeDests)
  }

  function BehaviourReasons(row: Conn, env: Env, v: Version): seq<string> {
    Reasons(row, env, v, RecentBinary) + Reasons(row, env, v, Beaconing)
    + Reasons(row, env, v, ManyDests) + Reasons(row, env, v, SomeDests)
  }

  function SignaturePoints(row: Conn, env: Env, v: Version): int {
    Points(row, env, v, Unsigned) + Points(row, env, v, AppleSigned) + Points(row, env, v, Quarantined)
  }

  function SignatureReasons(row: Conn, env: Env, v: Version): seq<string> {
    Reasons(row, env, v, Unsigned) + Reasons(row, env, v, AppleSigned) + Reasons(row, env, v, Quarantined)
  }

  function FolderPoints(row: Conn, env: Env, v: Version): int {
    Points(row, env, v, SystemPath) + Points(row, env, v, UserFolder)
  }

  function FolderReasons(row: Conn, env: Env, v: Version): seq<string> {
    Reasons(row, env, v, SystemPath) + Reasons(row, env, v, UserFolder)
  }

  function ResourcePoints(row: Conn, env: Env, v: Version): int {
    Points(row, env, v, HighCpu) + Points(row, env, v, HighRam)
    + Points(row, env, v, SuspiciousParent) + Points(row, env, v, DnsRisk)
  }

  function ResourceReasons(row: Conn, env: Env, v: Version): seq<string> {
    Reasons(row, env, v, HighCpu) + Reasons(row, env, v, HighRam)
    + Reasons(row, env, v, SuspiciousParent) + Reasons(row, env, v, DnsRisk)
  }

  /** The unclamped sum of every signal's points, in hundredths. */
  function RawScore(row: Conn, env: Env, v: Version): int {
    PortPathPoints(row, env, v) + BehaviourPoints(row, env, v) + SignaturePoints(row, env, v)
    + FolderPoints(row, env, v) + ResourcePoints(row, env, v)
  }

  /** Every signal's reasons, in the order the checks run. */
  function ReasonList(row: Conn, env: Env, v: Version): seq<string> {
    PortPathReasons(row, env, v) + BehaviourReasons(row, env, v) + SignatureReasons(row, env, v)
    + FolderReasons(row, env, v) + ResourceReasons(row, env, v)
  }

  /** `max(min(s, 10), 0)` in hundredths. */
  function Clamp(s: int): (c: int)
    ensures 0 <= c <= 1000
    ensures 0 <= s <= 1000 ==> c == s
    ensures s < 0 ==> c == 0
    ensures s > 1000 ==> c == 1000
  {
    if s > 1000 then 1000 else if s < 0 then 0 else s
  }

  /** The level of a score in hundredths. */
  function LevelOf(score: int): (level: string)
    ensures level == Alto <==> score >= 700
    ensures level == Medio <==> 400 <= score < 700
    ensures level == Bajo <==> score < 400
  {
    if score >= 700 then Alto else if score >= 400 then Medio else Bajo
  }

  /** The current scorer: the signals checked one after the other, each adding
      its weight and its reasons. */
  method ScoreRow(row: Conn, env: Env) returns (score: int, level: string, reasons: seq<string>)
    ensures score == Clamp(RawScore(row, env, Current))
    ensures level == LevelOf(score)
    ensures reasons == ReasonList(row, env, Current)
  {
    score, reasons := AddPortAndPathSignals(row, env, Current);
    score, reasons := AddBehaviourSignals(row, env, Current, score, reasons);
    score, reasons := AddSignatureSignals(row, env, Current, score, reasons);
    score, reasons := AddFolderSignals(row, env, Current, score, reasons);
    score, reasons := AddResourceSignals(row, env, score, reasons);
    score := if score > 1000 then 1000 else score;
    score := if score < 0 then 0 else score;
    level := Bajo;
    if score >= 700 {
      level := Alto;
    } else if score >= 400 {
      level := Medio;
    }
  }

  /** The legacy scorer: the same checks up to the user-folder bonus, without
      the resource, parent and DNS checks. */
  method LegacyScoreRow(row: Conn, env: Env) returns (score: int, level: string, reasons: seq<string>)
    ensures score == Clamp(RawScore(row, env, Legacy))
    ensures level == LevelOf(score)
    ensures reasons == ReasonList(row, env, Legacy)
  {
    score, reasons := AddPortAndPathSignals(row, env, Legacy);
    score, reasons := AddBehaviourSignals(row, env, Legacy, score, reasons);
    score, reasons := AddSignatureSignals(row, env, Legacy, score, reasons);
    score, reasons := AddFolderSignals(row, env, Legacy, score, reasons);
    LegacyResourcesSilent(row, env);
    score := if score > 1000 then 1000 else score;
    score := if score < 0 then 0 else score;
    level := Bajo;
    if score >= 700 {
      level := Alto;
    } else if score >= 400 {
      level := Medio;
    }
  }

  /** The legacy scorer has no resource stage: that stage adds nothing. */
  lemma LegacyResourcesSilent(row: Conn, env: Env)
    ensures ResourcePoints(row, env, Legacy) == 0
    ensures ResourceReasons(row, env, Legacy) == []
    ensures ReasonList(row, env, Legacy) == PortPathReasons(row, env, Legacy) + BehaviourReasons(row, env, Legacy)
      + SignatureReasons(row, env, Legacy) + FolderReasons(row, env, Legacy)
  {
  }

  /** Sensitive, mining and Tor ports, a temporary folder, a public host. */
  method AddPortAndPathSignals(row: Conn, env: Env, v: Version) returns (score: int, reasons: seq<string>)
    ensures score == PortPathPoints(row, env, v)
    ensures reasons == PortPathReasons(row, env, v)
  {
    score, reasons := AddPortSignals(row, env, v);
    score, reasons := AddPathSignals(row, env, v, score, reasons);
  }

  method AddPortSignals(row: Conn, env: Env, v: Version) returns (score: int, reasons: seq<string>)
    ensures score == Points(row, env, v, SensitivePort) + Points(row, env, v, MiningPort) + Points(row, env, v, TorPort)
    ensures reasons == Reasons(row, env, v, SensitivePort) + Reasons(row, env, v, MiningPort) + Reasons(row, env, v, TorPort)
  {
    score := 0;
    reasons := [];
    if row.dport.Some? && Evidence.IsSensitivePort(row.dport.value) {
      score := score + 300;
      reasons := reasons + ["Puerto sensible"];
    }
    if row.dport.Some? && Evidence.IsMiningPort(row.dport.value) {
      score := score + 200;
      reasons := reasons + ["Puerto típico de minería (3333/4444)"];
    }
    ghost var said := Reasons(row, env, v, SensitivePort) + Reasons(row, env, v, MiningPort);
    assert reasons == said;
    if row.dport.Some? && Evidence.IsTorPort(row.dport.value) {
      score := score + 150;
      reasons := reasons + ["Puerto típico de Tor (9001-9030)"];
    }
  }

  method AddPathSignals(row: Conn, env: Env, v: Version, score0: int, reasons0: seq<string>)
    returns (score: int, reasons: seq<string>)
    ensures score == score0 + Points(row, env, v, TmpFolder) + Points(row, env, v, PublicHost)
    ensures reasons == reasons0 + Reasons(row, env, v, TmpFolder) + Reasons(row, env, v, PublicHost)
  {
    score, reasons := score0, reasons0;
    var exe := PathSeen(row, env, v);
    if Contains(exe, "/tmp") || Contains(exe, "/private/tmp") || Contains(exe, "/var/tmp") || Contains(exe, "/dev/shm") {
      score := score + 300;
      reasons := reasons + ["Ejecutable en carpeta temporal"];
    }
    ghost var said := reasons0 + Reasons(row, env, v, TmpFolder);
    assert reasons == said;
    var rhost := BeforeFirst(row.raddr, ':');
    if env.isPublic(rhost) {
      score := score + 100;
      reasons := reasons + ["Conecta a Internet (IP pública)"];
    }
  }

  /** A recent binary talking out, beaconing, many destinations. */
  method AddBehaviourSignals(row: Conn, env: Env, v: Version, score0: int, reasons0: seq<string>)
    returns (score: int, reasons: seq<string>)
    ensures score == score0 + BehaviourPoints(row, env, v)
    ensures reasons == reasons0 + BehaviourReasons(row, env, v)
  {
    score, reasons := AddActivitySignals(row, env, v, score0, reasons0);
    score, reasons := AddDestinationSignals(row, env, v, score, reasons);
    ConcatFour(reasons0, Reasons(row, env, v, RecentBinary), Reasons(row, env, v, Beaconing),
      Reasons(row, env, v, ManyDests), Reasons(row, env, v, SomeDests));
  }

  lemma ConcatFour(r: seq<string>, a: seq<string>, b: seq<string>, c: seq<string>, d: seq<string>)
    ensures r + a + b + c + d == r + (a + b + c + d)
  {
  }

  method AddActivitySignals(row: Conn, env: Env, v: Version, score0: int, reasons0: seq<string>)
    returns (score: int, reasons: seq<string>)
    ensures score == score0 + Points(row, env, v, RecentBinary) + Points(row, env, v, Beaconing)
    ensures reasons == reasons0 + Reasons(row, env, v, RecentBinary) + Reasons(row, env, v, Beaconing)
  {
    score, reasons := score0, reasons0;
    var exeRecent := row.exeRecent;
    if row.exe != "" && !exeRecent {
      exeRecent := env.mtimeRecent;
    }
    if exeRecent && env.isPublic(BeforeFirst(row.raddr, ':')) {
      score := score + 100;
      reasons := reasons + ["Binario reciente con salida"];
    }
    ghost var said := reasons0 + Reasons(row, env, v, RecentBinary);
    assert reasons == said;
    if row.beacon {
      score := score + 250;
      reasons := reasons + ["Patrón repetitivo de conexión"];
    }
  }

  method AddDestinationSignals(row: Conn, env: Env, v: Version, score0: int, reasons0: seq<string>)
    returns (score: int, reasons: seq<string>)
    ensures score == score0 + Points(row, env, v, ManyDests) + Points(row, env, v, SomeDests)
    ensures reasons == reasons0 + Reasons(row, env, v, ManyDests) + Reasons(row, env, v, SomeDests)
  {
    score, reasons := score0, reasons0;
    if row.uniqueDsts >= 10 {
      score := score + 150;
      reasons := reasons + ["Muchos destinos distintos"];
    } else if row.uniqueDsts >= 5 {
      score := score + 80;
    }
  }

  /** The signature and the quarantine flag. */
  method AddSignatureSignals(row: Conn, env: Env, v: Version, score0: int, reasons0: seq<string>)
    returns (score: int, reasons: seq<string>)
    ensures score == score0 + SignaturePoints(row, env, v)
    ensures reasons == reasons0 + SignatureReasons(row, env, v)
  {
    score, reasons := score0, reasons0;
    if !row.signed {
      score := score + 200;
      reasons := reasons + ["Aplicación sin firma"];
    } else if row.apple {
      score := score - 150;
      reasons := reasons + ["Aplicación de Apple"];
    }
    ghost var said := reasons0 + Reasons(row, env, v, Unsigned) + Reasons(row, env, v, AppleSigned);
    assert reasons == said;
    if row.quarantine {
      score := score + 100;
      reasons := reasons + ["Marcado como descargado recientemente"];
    }
  }

  /** The system-folder discount and the user-folder bonus. */
  method AddFolderSignals(row: Conn, env: Env, v: Version, score0: int, reasons0: seq<string>)
    returns (score: int, reasons: seq<string>)
    ensures score == score0 + FolderPoints(row, env, v)
    ensures reasons == reasons0 + FolderReasons(row, env, v)
  {
    score, reasons := score0, reasons0;
    var exeL := PathSeen(row, env, v);
    if StartsWith(exeL, "/system/") || StartsWith(exeL, "/usr/bin") || StartsWith(exeL, "/usr/libexec") {
      if row.apple {
        score := score - 50;
      }
    }
    assert reasons == reasons0 + Reasons(row, env, v, SystemPath);
    var inFolder := Contains(exeL, "/downloads") || Contains(exeL, "/library/");
    assert Fired(row, env, v, UserFolder) <==>
      if v == Current && StartsWith(exeL, env.userHome) then inFolder || Contains(exeL, "/desktop")
      else Contains(exeL, "/users/") && inFolder && PublicRemote(row, env);
    if v == Current && StartsWith(exeL, env.userHome) {
      if inFolder || Contains(exeL, "/desktop") {
        score := score + 50;
        reasons := reasons + ["Ejecutable en carpeta de usuario"];
      }
    } else if Contains(exeL, "/users/") && inFolder && env.isPublic(BeforeFirst(row.raddr, ':')) {
      score := score + 50;
      reasons := reasons + ["Ejecutable en carpeta de usuario"];
    }
  }

  /** CPU, memory, a suspicious parent and the DNS verdict (current version
      only). */
  method AddResourceSignals(row: Conn, env: Env, score0: int, reasons0: seq<string>)
    returns (score: int, reasons: seq<string>)
    ensures score == score0 + ResourcePoints(row, env, Current)
    ensures reasons == reasons0 + ResourceReasons(row, env, Current)
  {
    score, reasons := AddUsageSignals(row, env, score0, reasons0);
    score, reasons := AddOriginSignals(row, env, score, reasons);
    ConcatFour(reasons0, Reasons(row, env, Current, HighCpu), Reasons(row, env, Current, HighRam),
      Reasons(row, env, Current, SuspiciousParent), Reasons(row, env, Current, DnsRisk));
  }

  method AddUsageSignals(row: Conn, env: Env, score0: int, reasons0: seq<string>)
    returns (score: int, reasons: seq<string>)
    ensures score == score0 + Points(row, env, Current, HighCpu) + Points(row, env, Current, HighRam)
    ensures reasons == reasons0 + Reasons(row, env, Current, HighCpu) + Reasons(row, env, Current, HighRam)
  {
    score, reasons := score0, reasons0;
    if row.cpu > 50.0 {
      score := score + 200;
      reasons := reasons + ["Alto consumo CPU (" + env.cpuText + "%)"];
    }
    ghost var said := reasons0 + Reasons(row, env, Current, HighCpu);
    assert reasons == said;
    if row.mem > 524288000 {
      score := score + 100;
      reasons := reasons + ["Alto consumo RAM (" + env.ramText + " MB)"];
    }
  }

  method AddOriginSignals(row: Conn, env: Env, score0: int, reasons0: seq<string>)
    returns (score: int, reasons: seq<string>)
    ensures score == score0 + Points(row, env, Current, SuspiciousParent) + Points(row, env, Current, DnsRisk)
    ensures reasons == reasons0 + Reasons(row, env, Current, SuspiciousParent) + Reasons(row, env, Current, DnsRisk)
  {
    score, reasons := score0, reasons0;
    if row.suspiciousParent && env.isPublic(BeforeFirst(row.raddr, ':')) {
      score := score + 250;
      reasons := reasons + ["Spawn sospechoso: lanzado por '" + row.parentName + "'"];
    }
    ghost var said := reasons0 + Reasons(row, env, Current, SuspiciousParent);
    assert reasons == said;
    if row.dnsRisk.Some? && row.dnsRisk.value.score > 0 {
      score := score + 100 * row.dnsRisk.value.score;
      var rs := row.dnsRisk.value.reasons;
      if |rs| > 0 {
        reasons := reasons + DnsReasonTexts(rs);
      } else {
        assert DnsReasonTexts(rs) == [];
      }
    }
  }

  // ---------------------------------------------------------------------------
  // Properties

  /** The level is 'alto' from 7 points, 'medio' from 4 and 'bajo' below, on
      a score that always lies in [0, 10]. */
  lemma ScoreAndLevel(row: Conn, env: Env, v: Version)
    ensures 0 <= Clamp(RawScore(row, env, v)) <= 1000
    ensures LevelOf(Clamp(RawScore(row, env, v))) == Alto <==> RawScore(row, env, v) >= 700
    ensures LevelOf(Clamp(RawScore(row, env, v))) == Medio <==> 400 <= RawScore(row, env, v) < 700
  {
  }

  /** The unsigned bonus and the Apple discount never both apply. */
  lemma SignatureExclusive(row: Conn, env: Env, v: Version)
    ensures !(Fired(row, env, v, Unsigned) && Fired(row, env, v, AppleSigned))
    ensures Points(row, env, v, Unsigned) + Points(row, env, v, AppleSigned) in {200, -150, 0}
  {
  }

  /** Every signal that raises the score says why, except the bonus for five
      to nine destinations (and a DNS verdict that came without reasons). */
  lemma SilentSignals(row: Conn, env: Env, s: Signal)
    ensures Weight(row, s) > 0 && s != SomeDests && s != DnsRisk ==> Said(row, env, s) != []
    ensures s == DnsRisk && row.dnsRisk.Some? ==> |Said(row, env, s)| == |row.dnsRisk.value.reasons|
    ensures Said(row, env, SomeDests) == [] && Weight(row, SomeDests) > 0
  {
  }

  /** Signal by signal, the legacy version is blind to the resource, parent
      and DNS fields. */
  lemma LegacySignalIgnoresResources(row: Conn, row': Conn, env: Env, s: Signal)
    requires row' == row.(cpu := row'.cpu, mem := row'.mem, suspiciousParent := row'.suspiciousParent, dnsRisk := row'.dnsRisk)
    ensures Points(row', env, Legacy, s) == Points(row, env, Legacy, s)
    ensures Reasons(row', env, Legacy, s) == Reasons(row, env, Legacy, s)
  {
  }

  /** The legacy scorer never looks at CPU, memory, the parent process or the
      DNS verdict. */
  lemma LegacyIgnoresResources(row: Conn, row': Conn, env: Env)
    requires row' == row.(cpu := row'.cpu, mem := row'.mem, suspiciousParent := row'.suspiciousParent, dnsRisk := row'.dnsRisk)
    ensures RawScore(row', env, Legacy) == RawScore(row, env, Legacy)
    ensures ReasonList(row', env, Legacy) == ReasonList(row, env, Legacy)
  {
    forall s ensures Points(row', env, Legacy, s) == Points(row, env, Legacy, s)
                 && Reasons(row', env, Legacy, s) == Reasons(row, env, Legacy, s) {
      LegacySignalIgnoresResources(row, row', env, s);
    }
  }

  /** Signal by signal, the versions agree where the current version's extra
      checks do not fire and the home-folder rule does not apply. */
  lemma SignalAgrees(row: Conn, env: Env, s: Signal)
    requires env.exeNorm == ToLower(row.exe) && !StartsWith(env.exeNorm, env.userHome)
    requires !CurrentOnly(s) || !Fired(row, env, Current, s)
    ensures Points(row, env, Current, s) == Points(row, env, Legacy, s)
    ensures Reasons(row, env, Current, s) == Reasons(row, env, Legacy, s)
  {
  }

  /** Where the current version's extra checks do not fire and the home-folder
      rule does not apply, the two versions agree. */
  lemma VersionsAgree(row: Conn, env: Env)
    requires env.exeNorm == ToLower(row.exe) && !StartsWith(env.exeNorm, env.userHome)
    requires forall s :: CurrentOnly(s) ==> !Fired(row, env, Current, s)
    ensures RawScore(row, env, Current) == RawScore(row, env, Legacy)
    ensures ReasonList(row, env, Current) == ReasonList(row, env, Legacy)
  {
    forall s ensures Points(row, env, Current, s) == Points(row, env, Legacy, s)
                 && Reasons(row, env, Current, s) == Reasons(row, env, Legacy, s) {
      SignalAgrees(row, env, s);
    }
  }

  /** Only the Apple discount, the system-folder discount and the DNS term can
      be negative, by at most 1.5 and 0.5 points for the first two. */
  lemma SignalFloor(row: Conn, env: Env, v: Version, s: Signal)
    ensures s == AppleSigned ==> Points(row, env, v, s) >= -150
    ensures s == SystemPath ==> Points(row, env, v, s) >= -50
    ensures s != AppleSigned && s != SystemPath && s != DnsRisk ==> Points(row, env, v, s) >= 0
  {
  }

  /** All signals but the DNS one together contribute at least -2 points. */
  lemma NonDnsFloor(row: Conn, env: Env, v: Version)
    ensures RawScore(row, env, v) - Points(row, env, v, DnsRisk) >= -200
  {
    PortPathFloor(row, env, v);
    BehaviourFloor(row, env, v);
    SignatureFloor(row, env, v);
    FolderFloor(row, env, v);
    ResourceFloor(row, env, v);
  }

  lemma PortPathFloor(row: Conn, env: Env, v: Version)
    ensures PortPathPoints(row, env, v) >= 0
  {
    SignalFloor(row, env, v, SensitivePort);
    SignalFloor(row, env, v, MiningPort);
    SignalFloor(row, env, v, TorPort);
    SignalFloor(row, env, v, TmpFolder);
    SignalFloor(row, env, v, PublicHost);
  }

  lemma BehaviourFloor(row: Conn, env: Env, v: Version)
    ensures BehaviourPoints(row, env, v) >= 0
  {
    SignalFloor(row, env, v, RecentBinary);
    SignalFloor(row, env, v, Beaconing);
    SignalFloor(row, env, v, ManyDests);
    SignalFloor(row, env, v, SomeDests);
  }

  lemma SignatureFloor(row: Conn, env: Env, v: Version)
    ensures SignaturePoints(row, env, v) >= -150
  {
    SignalFloor(row, env, v, Unsigned);
    SignalFloor(row, env, v, AppleSigned);
    SignalFloor(row, env, v, Quarantined);
  }

  lemma FolderFloor(row: Conn, env: Env, v: Version)
    ensures FolderPoints(row, env, v) >= -50
  {
    SignalFloor(row, env, v, SystemPath);
    SignalFloor(row, env, v, UserFolder);
  }

  lemma ResourceFloor(row: Conn, env: Env, v: Version)
    ensures ResourcePoints(row, env, v) - Points(row, env, v, DnsRisk) >= 0
  {
    SignalFloor(row, env, v, HighCpu);
    SignalFloor(row, env, v, HighRam);
    SignalFloor(row, env, v, SuspiciousParent);
  }

  /** The DNS verdict is added in whole points although it is a percentage:
      a DNS score of 9 or more puts any row at level 'alto'. */
  lemma DnsSaturates(row: Conn, env: Env)
    requires row.dnsRisk.Some? && row.dnsRisk.value.score >= 9
    ensures LevelOf(Clamp(RawScore(row, env, Current))) == Alto
  {
    NonDnsFloor(row, env, Current);
    DnsWeight(row, env);
  }

  lemma DnsWeight(row: Conn, env: Env)
    requires row.dnsRisk.Some? && row.dnsRisk.value.score >= 9
    ensures Points(row, env, Current, DnsRisk) >= 900
  {
  }
}

=== FILE: table.dfy ===
/** The connection table of the frontend: rows grouped by process id, the
    groups ordered by score, the flag shown for a country code, and what a
    click on a group does. */
module Table {
  import opened Common
  import opened Records

  /** One line of the table: the first row seen for a pid, with every row of
      that pid in input order. */
  datatype Group = Group(head: Conn, connections: seq<Conn>)

  function PidOf(g: Group): int {
    g.head.pid
  }

  /** Sort key for "highest score first". */
  function NegScore(g: Group): int {
    -g.head.score
  }

  /** The rows of `rows` whose pid is `pid`, in input order. */
  function WithPid(rows: seq<Conn>, pid: int): (r: seq<Conn>)
    ensures |r| <= |rows|
    decreases |rows|
  {
    if |rows| == 0 then []
    else
      var init := rows[..|rows| - 1];
      var last := rows[|rows| - 1];
      assert rows == init + [last];
      if last.pid == pid then WithPid(init, pid) + [last] else WithPid(init, pid)
  }

  /** Position of the group whose pid is `pid` (the lookup `groups[row.pid]`). */
  function FindPid(groups: seq<Group>, pid: int): (r: Option<nat>)
    ensures r.Some? ==> r.value < |groups| && groups[r.value].head.pid == pid
    ensures r.None? ==> forall k :: 0 <= k < |groups| ==> groups[k].head.pid != pid
    decreases |groups|
  {
    if |groups| == 0 then None
    else if groups[|groups| - 1].head.pid == pid then Some(|groups| - 1)
    else FindPid(groups[..|groups| - 1], pid)
  }

  /** The groups the `forEach` builds, in the order their pids first appear. */
  function GroupsOf(rows: seq<Conn>): seq<Group>
    decreases |rows|
  {
    if |rows| == 0 then []
    else
      var gs := GroupsOf(rows[..|rows| - 1]);
      var row := rows[|rows| - 1];
      match FindPid(gs, row.pid)
      case Some(k) => gs[k := gs[k].(connections := gs[k].connections + [row])]
      case None => gs + [Group(row, [row])]
  }

  /** The largest array index of JavaScript. */
  const MaxArrayIndex := 0xFFFF_FFFE

  /** Where `Object.values` lists a group: keys that are array indices (pids
      from 0 to `MaxArrayIndex`) come first in ascending order, and every
      other key, such as the `-1` of a row without a pid, after them in the
      order it was created. */
  function KeyRank(g: Group): int {
    if 0 <= g.head.pid <= MaxArrayIndex then g.head.pid else MaxArrayIndex + 1
  }

  /** `Object.values(groups)`, then the stable sort by the comparator
      `b.score - a.score`: highest score first, ties in key order. */
  function Grouped(rows: seq<Conn>): seq<Group> {
    SortBy(SortBy(GroupsOf(rows), KeyRank), NegScore)
  }

  ghost predicate DistinctPids(gs: seq<Group>) {
    DistinctBy(gs, PidOf)
  }

  /** A group is made of exactly the rows with its pid, and starts with the
      first of them. */
  ghost predicate GroupOfRows(g: Group, rows: seq<Conn>) {
    g.connections == WithPid(rows, g.head.pid) && |g.connections| > 0 && g.connections[0] == g.head
  }

  lemma WithPidSnoc(rows: seq<Conn>, row: Conn, pid: int)
    ensures WithPid(rows + [row], pid) == if row.pid == pid then WithPid(rows, pid) + [row] else WithPid(rows, pid)
  {
    assert (rows + [row])[..|rows|] == rows;
  }

  lemma WithPidNone(rows: seq<Conn>, pid: int)
    requires forall c :: c in rows ==> c.pid != pid
    ensures WithPid(rows, pid) == []
  {
    if WithPid(rows, pid) != [] {
      WithPidMembers(rows, pid, WithPid(rows, pid)[0]);
    }
  }

  /** The shape the grouping keeps: groups made of their pid's rows,
      distinct pids, and a group for every row. */
  ghost predicate Shape(gs: seq<Group>, rows: seq<Conn>) {
    (forall k :: 0 <= k < |gs| ==> GroupOfRows(gs[k], rows)) &&
    DistinctPids(gs) &&
    (forall c :: c in rows ==> FindPid(gs, c.pid).Some?)
  }

  lemma {:induction false} WithPidMembers(rows: seq<Conn>, pid: int, c: Conn)
    ensures c in WithPid(rows, pid) <==> c in rows && c.pid == pid
    decreases |rows|
  {
    if |rows| > 0 {
      var init := rows[..|rows| - 1];
      assert rows == init + [rows[|rows| - 1]];
      WithPidMembers(init, pid, c);
    }
  }

  /** One group after one more row: extended when the row has its pid,
      unchanged otherwise. */
  function Extend(g: Group, row: Conn): Group {
    if g.head.pid == row.pid then g.(connections := g.connections + [row]) else g
  }

  lemma ExtendKeepsGroup(g: Group, rows: seq<Conn>, row: Conn)
    requires GroupOfRows(g, rows)
    ensures GroupOfRows(Extend(g, row), rows + [row])
  {
    WithPidSnoc(rows, row, g.head.pid);
  }

  /** A row whose pid already has a group is appended to that group. */
  lemma GroupsStepFound(gs: seq<Group>, rows: seq<Conn>, row: Conn, k: nat)
    requires Shape(gs, rows) && FindPid(gs, row.pid) == Some(k)
    ensures Shape(gs[k := gs[k].(connections := gs[k].connections + [row])], rows + [row])
  {
    var out := gs[k := gs[k].(connections := gs[k].connections + [row])];
    forall m | 0 <= m < |out| ensures out[m] == Extend(gs[m], row) {
      if m != k {
        assert PidOf(gs[m]) != PidOf(gs[k]) by {
          if m < k {} else {}
        }
      }
    }
    forall m | 0 <= m < |out| ensures GroupOfRows(out[m], rows + [row]) {
      ExtendKeepsGroup(gs[m], rows, row);
    }
    assert DistinctPids(out) by {
      forall i, j | 0 <= i < j < |out| ensures PidOf(out[i]) != PidOf(out[j]) {
        assert PidOf(out[i]) == PidOf(gs[i]) && PidOf(out[j]) == PidOf(gs[j]);
      }
    }
    forall c | c in rows + [row] ensures FindPid(out, c.pid).Some? {
      if c in rows {
        var j := FindPid(gs, c.pid).value;
        assert out[j].head.pid == c.pid;
      } else {
        assert out[k].head.pid == c.pid;
      }
    }
  }

  lemma NewGroupOfRows(gs: seq<Group>, rows: seq<Conn>, row: Conn)
    requires Shape(gs, rows) && FindPid(gs, row.pid).None?
    ensures GroupOfRows(Group(row, [row]), rows + [row])
  {
    forall c | c in rows ensures c.pid != row.pid {
      var j := FindPid(gs, c.pid).value;
      assert gs[j].head.pid == c.pid;
    }
    WithPidNone(rows, row.pid);
    WithPidSnoc(rows, row, row.pid);
  }

  /** Groups of other pids are unaffected by a row. */
  lemma OthersKept(gs: seq<Group>, rows: seq<Conn>, row: Conn)
    requires forall k :: 0 <= k < |gs| ==> GroupOfRows(gs[k], rows) && gs[k].head.pid != row.pid
    ensures forall k :: 0 <= k < |gs| ==> GroupOfRows(gs[k], rows + [row])
  {
    forall k | 0 <= k < |gs| ensures GroupOfRows(gs[k], rows + [row]) {
      ExtendKeepsGroup(gs[k], rows, row);
    }
  }

  /** A row with a new pid opens a group of its own at the end. */
  lemma GroupsStepNew(gs: seq<Group>, rows: seq<Conn>, row: Conn)
    requires Shape(gs, rows) && FindPid(gs, row.pid).None?
    ensures Shape(gs + [Group(row, [row])], rows + [row])
  {
    var out := gs + [Group(row, [row])];
    NewGroupOfRows(gs, rows, row);
    OthersKept(gs, rows, row);
    assert forall m :: 0 <= m < |out| ==> GroupOfRows(out[m], rows + [row]) by {
      forall m | 0 <= m < |out| ensures GroupOfRows(out[m], rows + [row]) {
        if m < |gs| { assert out[m] == gs[m]; }
      }
    }
    assert DistinctPids(out) by {
      forall i, j | 0 <= i < j < |out| ensures PidOf(out[i]) != PidOf(out[j]) {
        if j < |gs| {
          assert out[i] == gs[i] && out[j] == gs[j];
        }
      }
    }
    forall c | c in rows + [row] ensures FindPid(out, c.pid).Some? {
      if c in rows {
        var j := FindPid(gs, c.pid).value;
        assert out[j].head.pid == c.pid;
      } else {
        assert out[|gs|].head.pid == c.pid;
      }
    }
  }

  lemma {:induction false} GroupsOfShape(rows: seq<Conn>)
    ensures Shape(GroupsOf(rows), rows)
    decreases |rows|
  {
    if |rows| > 0 {
      var init := rows[..|rows| - 1];
      var row := rows[|rows| - 1];
      assert rows == init + [row];
      GroupsOfShape(init);
      var gs := GroupsOf(init);
      match FindPid(gs, row.pid)
      case Some(k) => GroupsStepFound(gs, init, row, k);
      case None => GroupsStepNew(gs, init, row);
    }
  }

  /** The table holds the same groups as the grouping pass, reordered. */
  lemma GroupedMembers(rows: seq<Conn>)
    ensures forall g :: g in Grouped(rows) <==> g in GroupsOf(rows)
    ensures DistinctPids(Grouped(rows))
  {
    var gs := GroupsOf(rows);
    var byPid := SortBy(gs, KeyRank);
    GroupsOfShape(rows);
    PermutationKeepsDistinct(gs, byPid, PidOf);
    PermutationKeepsDistinct(byPid, Grouped(rows), PidOf);
    forall g ensures g in Grouped(rows) <==> g in gs {
      MultisetMembership(byPid, Grouped(rows), g);
      MultisetMembership(gs, byPid, g);
    }
  }

  /** The table's groups: each holds exactly its pid's rows in input order
      and starts with the first of them, pids are distinct, and groups come
      highest score first. */
  lemma GroupedShape(rows: seq<Conn>)
    ensures forall g :: g in Grouped(rows) ==> GroupOfRows(g, rows)
    ensures DistinctPids(Grouped(rows))
    ensures SortedBy(Grouped(rows), NegScore)
  {
    GroupsOfShape(rows);
    GroupedMembers(rows);
    SortBySorted(SortBy(GroupsOf(rows), KeyRank), NegScore);
    forall g | g in Grouped(rows) ensures GroupOfRows(g, rows) {
      var gs := GroupsOf(rows);
      var k :| 0 <= k < |gs| && gs[k] == g;
    }
  }

  /** Groups with the same score are listed in key order: a group keyed by a
      negative pid never comes before one keyed by an array index. */
  lemma GroupedTiesInKeyOrder(rows: seq<Conn>)
    ensures forall i, j :: 0 <= i < j < |Grouped(rows)| && Grouped(rows)[i].head.score == Grouped(rows)[j].head.score ==>
      KeyRank(Grouped(rows)[i]) <= KeyRank(Grouped(rows)[j])
    ensures forall i, j ::
      (0 <= i < j < |Grouped(rows)| && Grouped(rows)[i].head.score == Grouped(rows)[j].head.score
       && Grouped(rows)[i].head.pid < 0) ==> !(0 <= Grouped(rows)[j].head.pid <= MaxArrayIndex)
  {
    var byKey := SortBy(GroupsOf(rows), KeyRank);
    SortBySorted(GroupsOf(rows), KeyRank);
    SortByThenBy(byKey, NegScore, KeyRank);
  }

  lemma MemberHasPid(g: Group, rows: seq<Conn>, c: Conn)
    requires GroupOfRows(g, rows)
    ensures c in g.connections <==> c in rows && c.pid == PidOf(g)
  {
    WithPidMembers(rows, PidOf(g), c);
  }

  /** Every row lies in the connections of exactly one group of the table. */
  lemma RowInOneGroup(rows: seq<Conn>, c: Conn)
    requires c in rows
    ensures exists k :: 0 <= k < |Grouped(rows)| && c in Grouped(rows)[k].connections
    ensures forall k1, k2 ::
      (0 <= k1 < |Grouped(rows)| && 0 <= k2 < |Grouped(rows)| &&
       c in Grouped(rows)[k1].connections && c in Grouped(rows)[k2].connections) ==> k1 == k2
  {
    var out := Grouped(rows);
    GroupedShape(rows);
    RowHasGroup(rows, c);
    forall k1, k2 | 0 <= k1 < |out| && 0 <= k2 < |out| && c in out[k1].connections && c in out[k2].connections
      ensures k1 == k2
    {
      assert out[k1] in out && out[k2] in out;
      MemberHasPid(out[k1], rows, c);
      MemberHasPid(out[k2], rows, c);
      if k1 < k2 {} else if k2 < k1 {}
    }
  }

  lemma RowHasGroup(rows: seq<Conn>, c: Conn)
    requires c in rows
    ensures exists k :: 0 <= k < |Grouped(rows)| && c in Grouped(rows)[k].connections
  {
    var gs := GroupsOf(rows);
    var out := Grouped(rows);
    GroupsOfShape(rows);
    GroupedMembers(rows);
    var j := FindPid(gs, c.pid).value;
    assert gs[j] in out;
    var k :| 0 <= k < |out| && out[k] == gs[j];
    MemberHasPid(gs[j], rows, c);
  }

  /** The `useMemo` body: one pass that creates a pid's group at its first row
      and appends every row to its group, then the ordering. */
  method GroupRows(rows: seq<Conn>) returns (out: seq<Group>)
    ensures out == Grouped(rows)
  {
    var groups: seq<Group> := [];
    var i := 0;
    while i < |rows|
      invariant 0 <= i <= |rows|
      invariant groups == GroupsOf(rows[..i])
    {
      var row := rows[i];
      assert rows[..i + 1][..i] == rows[..i];
      var found := FindPid(groups, row.pid);
      if found.Some? {
        var k := found.value;
        groups := groups[k := groups[k].(connections := groups[k].connections + [row])];
      } else {
        groups := groups + [Group(row, [row])];
      }
      i := i + 1;
    }
    assert rows[..i] == rows;
    out := SortBy(SortBy(groups, KeyRank), NegScore);
  }

  // ---------------------------------------------------------------------------
  // Flag emoji

  /** The UTF-16 code units of a text, as JavaScript's `split('')` and
      `charCodeAt` see them. */
  function Utf16(s: string): (u: seq<int>)
    ensures |u| >= |s|
    ensures forall k :: 0 <= k < |u| ==> 0 <= u[k] < 0x1_0000
    decreases |s|
  {
    if |s| == 0 then []
    else
      var c := s[0] as int;
      var head := if c < 0x1_0000 then [c]
                  else [0xD800 + (c - 0x1_0000) / 0x400, 0xDC00 + (c - 0x1_0000) % 0x400];
      head + Utf16(s[1..])
  }

  /** Offset from an ASCII capital to its regional-indicator symbol. */
  const RegionalOffset := 127397

  /** `getFlagEmoji`: each code unit of the upper-cased code becomes the code
      point 127397 + unit; a missing code gives "". */
  function FlagEmoji(code: string): (r: string)
    ensures code == "" ==> r == ""
    ensures |r| == |Utf16(ToUpper(code))|
    ensures forall k :: 0 <= k < |r| ==> r[k] as int - RegionalOffset == Utf16(ToUpper(code))[k]
  {
    if code == "" then ""
    else
      var units := Utf16(ToUpper(code));
      seq(|units|, k requires 0 <= k < |units| => (RegionalOffset + units[k]) as char)
  }

  /** Reading a flag back: each symbol minus the regional offset. */
  function FlagCode(flag: string): string {
    seq(|flag|, k requires 0 <= k < |flag| => if 0 <= flag[k] as int - RegionalOffset < 0xD800
                                              then (flag[k] as int - RegionalOffset) as char else '?')
  }

  lemma {:induction false} Utf16Basic(s: string)
    requires forall k :: 0 <= k < |s| ==> (s[k] as int) < 0x1_0000
    ensures |Utf16(s)| == |s|
    ensures forall k :: 0 <= k < |s| ==> Utf16(s)[k] == s[k] as int
    decreases |s|
  {
    if |s| > 0 {
      Utf16Basic(s[1..]);
    }
  }

  /** For a code of ASCII characters the flag has one symbol per character,
      and reading it back gives the upper-cased code. */
  lemma FlagRoundTrip(code: string)
    requires forall k :: 0 <= k < |code| ==> (code[k] as int) < 128
    ensures |FlagEmoji(code)| == |code|
    ensures FlagCode(FlagEmoji(code)) == ToUpper(code)
  {
    var up := ToUpper(code);
    Utf16Basic(up);
  }

  // ---------------------------------------------------------------------------
  // Clicking a group

  /** What a click on a group changes: its expansion, or the selected row. */
  datatype ClickOutcome = ClickOutcome(expanded: bool, selected: Option<Group>)

  /** `RowGroup.handleClick`: a group with several connections toggles its
      expansion; a single-connection group is selected instead. */
  function Click(g: Group, expanded: bool): (r: ClickOutcome)
    ensures r.selected.Some? <==> |g.connections| <= 1
    ensures r.selected.Some? ==> r.selected.value == g && r.expanded == expanded
    ensures r.expanded != expanded <==> |g.connections| > 1
  {
    if |g.connections| > 1 then ClickOutcome(!expanded, None) else ClickOutcome(expanded, Some(g))
  }

  /** Two clicks on a multi-connection group restore its expansion. */
  lemma ClickTwice(g: Group, expanded: bool)
    requires |g.connections| > 1
    ensures Click(g, Click(g, expanded).expanded).expanded == expanded
  {
  }
}

=== FILE: threats.dfy ===
/** The paranoid-mode resource scan of the backend (backend/core/server.py,
    `_scan_resource_threats` and one pass of `resource_monitor_loop`): a
    threat score per process from CPU, memory, signature, folder and disk
    writes, the per-process disk-write cache it keeps, and the bounded
    newest-first log of killed processes. */
module Threats {
  import opened Common
  import opened Records
  import Evidence

  // ---------------------------------------------------------------------------
  // Inputs

  /** What the scan reads about one running process.  `cpu` and `rssBytes` are
      None when psutil reports nothing; `writeBytes` is None when the I/O
      counters cannot be read; `signed` and `apple` are the signature of the
      executable; `protectedProc` says the process is the server itself or one
      of its ancestors while self-protection is on. */
  datatype ProcSample = ProcSample(
    pid: int,
    name: string,
    user: string,
    exe: string,
    cpu: Option<real>,
    rssBytes: Option<int>,
    writeBytes: Option<int>,
    signed: bool,
    apple: bool,
    protectedProc: bool)

  const Mebibyte: real := 1048576.0

  function CpuOf(p: ProcSample): real {
    if p.cpu.Some? then p.cpu.value else 0.0
  }

  function MemMbOf(p: ProcSample): real {
    (if p.rssBytes.Some? then p.rssBytes.value else 0) as real / Mebibyte
  }

  function WriteBytesOf(p: ProcSample): int {
    if p.writeBytes.Some? then p.writeBytes.value else 0
  }

  /** Unsigned means neither signed nor Apple; a process without an executable
      path counts as unsigned. */
  predicate IsUnsigned(p: ProcSample) {
    if p.exe == "" then true else !p.signed && !p.apple
  }

  predicate IsTmp(p: ProcSample) {
    p.exe != "" && Evidence.HasTmpHint(p.exe)
  }

  /** A process the scan looks at: positive pid and not protected. */
  predicate Scanned(p: ProcSample) {
    p.pid > 0 && !p.protectedProc
  }

  // ---------------------------------------------------------------------------
  // The disk-write cache

  /** pid to the time and the cumulative written bytes of its last sample. */
  type IoTable = map<int, (real, int)>

  /** MB/s written since the cached sample; 0 without one, when no time passed,
      or when the counter went down. */
  function WriteSpeed(cache: IoTable, pid: int, now: real, bytes: int): (speed: real)
    ensures speed >= 0.0
    ensures pid !in cache ==> speed == 0.0
    ensures speed > 0.0 ==> pid in cache && now > cache[pid].0 && bytes > cache[pid].1
    ensures pid in cache && now > cache[pid].0 && bytes >= cache[pid].1 ==>
      speed * (now - cache[pid].0) * Mebibyte == (bytes - cache[pid].1) as real
  {
    if pid in cache && now - cache[pid].0 > 0.0 && bytes - cache[pid].1 >= 0 then
      ((bytes - cache[pid].1) as real / (now - cache[pid].0)) / Mebibyte
    else 0.0
  }

  class IoCache {
    var entries: IoTable

    constructor()
      ensures entries == map[]
    {
      entries := map[];
    }

    /** Forgets the processes that are no longer running. */
    method Prune(alive: set<int>)
      modifies this
      ensures entries == map pid | pid in old(entries) && pid in alive :: old(entries)[pid]
    {
      entries := map pid | pid in entries && pid in alive :: entries[pid];
    }

    /** Reads the write speed of `pid` and stores the new sample. */
    method Sample(pid: int, now: real, bytes: int) returns (speed: real)
      modifies this
      ensures speed == WriteSpeed(old(entries), pid, now, bytes)
      ensures entries == old(entries)[pid := (now, bytes)]
    {
      speed := 0.0;
      if pid in entries {
        var (lastTs, lastBytes) := entries[pid];
        var deltaT := now - lastTs;
        if deltaT > 0.0 {
          var deltaBytes := bytes - lastBytes;
          if deltaBytes >= 0 {
            speed := (deltaBytes as real / deltaT) / Mebibyte;
          }
        }
      }
      entries := entries[pid := (now, bytes)];
    }
  }

  // ---------------------------------------------------------------------------
  // The threat score

  /** The reasons a process is suspicious, with the numbers they show. */
  datatype ThreatReason = CpuUse(cpu: real) | RamUse(mb: real) | NoSignature | RunsFromTmp
                        | RansomwareIo(speed: real, cpuAt: real) | HighIo(rate: real)

  /** How numbers are shown: with one decimal and with none.  Float formatting
      is not part of this model. */
  datatype Formats = Formats(fixed1: real -> string, fixed0: real -> string)

  function Render(r: ThreatReason, fmt: Formats): string {
    match r
    case CpuUse(cpu) => "CPU: " + fmt.fixed1(cpu) + "%"
    case RamUse(mb) => "RAM: " + fmt.fixed0(mb) + "MB"
    case NoSignature => "Sin firma"
    case RunsFromTmp => "Ejecutando desde /tmp"
    case RansomwareIo(speed, cpu) => "RANSOMWARE: Write " + fmt.fixed1(speed) + "MB/s + CPU " + fmt.fixed1(cpu) + "%"
    case HighIo(rate) => "High I/O: " + fmt.fixed1(rate) + "MB/s"
  }

  function CpuPoints(cpu: real): int {
    if cpu > 70.0 then 3 else if cpu > 50.0 then 1 else 0
  }

  function RamPoints(mb: real): int {
    if mb > 1024.0 then 2 else if mb > 512.0 then 1 else 0
  }

  function IoPoints(speed: real, cpu: real): int {
    if speed > 50.0 && cpu > 40.0 then 5 else if speed > 20.0 && cpu > 30.0 then 2 else 0
  }

  /** The CPU and memory checks. */
  function UsagePoints(cpu: real, mb: real): int {
    CpuPoints(cpu) + RamPoints(mb)
  }

  function UsageReasons(cpu: real, mb: real): seq<ThreatReason> {
    (if cpu > 50.0 then [CpuUse(cpu)] else []) + (if mb > 512.0 then [RamUse(mb)] else [])
  }

  /** The signature and folder checks. */
  function BinaryPoints(unsigned: bool, tmp: bool): int {
    (if unsigned then 2 else 0) + (if tmp then 3 else 0)
  }

  function BinaryReasons(unsigned: bool, tmp: bool): seq<ThreatReason> {
    (if unsigned then [NoSignature] else []) + (if tmp then [RunsFromTmp] else [])
  }

  /** The disk-write check: the ransomware pattern, or else heavy I/O. */
  function IoReasons(speed: real, cpu: real): seq<ThreatReason> {
    if speed > 50.0 && cpu > 40.0 then [RansomwareIo(speed, cpu)]
    else if speed > 20.0 && cpu > 30.0 then [HighIo(speed)] else []
  }

  /** The additive threat score. */
  function ThreatPoints(cpu: real, mb: real, unsigned: bool, tmp: bool, speed: real): int {
    UsagePoints(cpu, mb) + BinaryPoints(unsigned, tmp) + IoPoints(speed, cpu)
  }

  /** The reasons, one per scoring check that fired, in check order. */
  function ThreatReasons(cpu: real, mb: real, unsigned: bool, tmp: bool, speed: real): seq<ThreatReason> {
    UsageReasons(cpu, mb) + BinaryReasons(unsigned, tmp) + IoReasons(speed, cpu)
  }

  /** The scoring block, check by check. */
  method ScoreThreat(cpu: real, mb: real, unsigned: bool, tmp: bool, speed: real)
    returns (score: int, reasons: seq<ThreatReason>)
    ensures score == ThreatPoints(cpu, mb, unsigned, tmp, speed)
    ensures reasons == ThreatReasons(cpu, mb, unsigned, tmp, speed)
  {
    score, reasons := ScoreUsage(cpu, mb);
    score, reasons := ScoreBinary(score, reasons, unsigned, tmp);
    score, reasons := ScoreIo(score, reasons, speed, cpu);
  }

  method ScoreUsage(cpu: real, mb: real) returns (score: int, reasons: seq<ThreatReason>)
    ensures score == UsagePoints(cpu, mb) && reasons == UsageReasons(cpu, mb)
  {
    score := 0;
    reasons := [];
    if cpu > 70.0 {
      score := score + 3;
      reasons := reasons + [CpuUse(cpu)];
    } else if cpu > 50.0 {
      score := score + 1;
      reasons := reasons + [CpuUse(cpu)];
    }
    if mb > 1024.0 {
      score := score + 2;
      reasons := reasons + [RamUse(mb)];
    } else if mb > 512.0 {
      score := score + 1;
      reasons := reasons + [RamUse(mb)];
    }
  }

  method ScoreBinary(score0: int, reasons0: seq<ThreatReason>, unsigned: bool, tmp: bool)
    returns (score: int, reasons: seq<ThreatReason>)
    ensures score == score0 + BinaryPoints(unsigned, tmp)
    ensures reasons == reasons0 + BinaryReasons(unsigned, tmp)
  {
    score, reasons := score0, reasons0;
    if unsigned {
      score := score + 2;
      reasons := reasons + [NoSignature];
    }
    if tmp {
      score := score + 3;
      reasons := reasons + [RunsFromTmp];
    }
  }

  method ScoreIo(score0: int, reasons0: seq<ThreatReason>, speed: real, cpu: real)
    returns (score: int, reasons: seq<ThreatReason>)
    ensures score == score0 + IoPoints(speed, cpu)
    ensures reasons == reasons0 + IoReasons(speed, cpu)
  {
    score, reasons := score0, reasons0;
    if speed > 50.0 && cpu > 40.0 {
      score := score + 5;
      reasons := reasons + [RansomwareIo(speed, cpu)];
    } else if speed > 20.0 && cpu > 30.0 {
      score := score + 2;
      reasons := reasons + [HighIo(speed)];
    }
  }

  /** Every point comes with a reason and no reason is worth more than five, so
      the score lies between the number of reasons and five times it; in
      particular a reported process always has a reason. */
  lemma ThreatScoreAndReasons(cpu: real, mb: real, unsigned: bool, tmp: bool, speed: real)
    ensures |ThreatReasons(cpu, mb, unsigned, tmp, speed)| <= ThreatPoints(cpu, mb, unsigned, tmp, speed)
    ensures ThreatPoints(cpu, mb, unsigned, tmp, speed) <= 5 * |ThreatReasons(cpu, mb, unsigned, tmp, speed)|
    ensures 0 <= ThreatPoints(cpu, mb, unsigned, tmp, speed) <= 15
  {
  }

  /** The reporting threshold of four: high CPU with an unsigned binary, large
      memory use from a temporary folder, or the ransomware write pattern alone
      reach it; a single CPU, memory, signature or folder signal does not. */
  lemma ThreatThreshold(cpu: real, mb: real, unsigned: bool, tmp: bool, speed: real)
    ensures cpu > 70.0 && unsigned ==> ThreatPoints(cpu, mb, unsigned, tmp, speed) >= 4
    ensures mb > 1024.0 && tmp ==> ThreatPoints(cpu, mb, unsigned, tmp, speed) >= 4
    ensures speed > 50.0 && cpu > 40.0 ==> ThreatPoints(cpu, mb, unsigned, tmp, speed) >= 4
    ensures speed <= 20.0 && mb <= 512.0 && !unsigned && !tmp ==> ThreatPoints(cpu, mb, unsigned, tmp, speed) < 4
    ensures speed <= 20.0 && cpu <= 50.0 && mb <= 512.0 && !unsigned ==> ThreatPoints(cpu, mb, unsigned, tmp, speed) < 4
  {
  }

  // ---------------------------------------------------------------------------
  // The scan

  /** One reported process. */
  datatype Threat = Threat(
    pid: int, proc: string, user: string, exe: string, cpu: real, memMb: real,
    score: int, reasons: seq<ThreatReason>, unsigned: bool, tmp: bool)

  const ReportThreshold := 4

  /** The outcome of one sample against the cache before it: the threat it
      reports, if any, and the cache after it. */
  function Step(cache: IoTable, p: ProcSample, now: real): (Option<Threat>, IoTable) {
    if !Scanned(p) then (None, cache)
    else
      var speed := WriteSpeed(cache, p.pid, now, WriteBytesOf(p));
      var cache' := cache[p.pid := (now, WriteBytesOf(p))];
      var cpu := CpuOf(p);
      var mb := MemMbOf(p);
      var score := ThreatPoints(cpu, mb, IsUnsigned(p), IsTmp(p), speed);
      if score >= ReportThreshold then
        (Some(Threat(p.pid, p.name, p.user, p.exe, cpu, mb, score,
                     ThreatReasons(cpu, mb, IsUnsigned(p), IsTmp(p), speed), IsUnsigned(p), IsTmp(p))),
         cache')
      else (None, cache')
  }

  function OptionList<T>(o: Option<T>): seq<T> {
    if o.Some? then [o.value] else []
  }

  /** The threats reported for the samples, in order, and the final cache. */
  function ScanAll(cache: IoTable, ps: seq<ProcSample>, now: real): (out: (seq<Threat>, IoTable))
    ensures forall i :: 0 <= i < |out.0| ==> out.0[i].score >= ReportThreshold && out.0[i].pid > 0
    ensures |out.0| <= |ps|
    decreases |ps|
  {
    if |ps| == 0 then ([], cache)
    else
      var (ts, c) := ScanAll(cache, ps[..|ps| - 1], now);
      var (t, c') := Step(c, ps[|ps| - 1], now);
      (ts + OptionList(t), c')
  }

  /** The pids of the processes the scan looks at. */
  function ScannedPids(ps: seq<ProcSample>): (pids: set<int>)
    ensures forall i :: 0 <= i < |ps| && Scanned(ps[i]) ==> ps[i].pid in pids
    ensures forall pid :: pid in pids ==> pid > 0
    decreases |ps|
  {
    if |ps| == 0 then {}
    else
      assert forall i :: 0 <= i < |ps| - 1 ==> ps[..|ps| - 1][i] == ps[i];
      ScannedPids(ps[..|ps| - 1]) + (if Scanned(ps[|ps| - 1]) then {ps[|ps| - 1].pid} else {})
  }

  /** After the scan the cache holds exactly the pruned entries and one entry
      per scanned process. */
  lemma {:induction false} ScanCacheKeys(cache: IoTable, ps: seq<ProcSample>, now: real)
    ensures ScanAll(cache, ps, now).1.Keys == cache.Keys + ScannedPids(ps)
    decreases |ps|
  {
    if |ps| > 0 {
      ScanCacheKeys(cache, ps[..|ps| - 1], now);
    }
  }

  /** A scanned process is reported exactly when its score reaches the
      threshold; skipped processes are never reported and leave the cache
      alone. */
  lemma StepReportsIff(cache: IoTable, p: ProcSample, now: real)
    ensures Step(cache, p, now).0.Some? <==>
      Scanned(p) && ThreatPoints(CpuOf(p), MemMbOf(p), IsUnsigned(p), IsTmp(p),
                                 WriteSpeed(cache, p.pid, now, WriteBytesOf(p))) >= 4
    ensures !Scanned(p) ==> Step(cache, p, now).1 == cache
    ensures Scanned(p) ==> Step(cache, p, now).1 == cache[p.pid := (now, WriteBytesOf(p))]
  {
  }

  lemma ScanAllSnoc(cache: IoTable, ps: seq<ProcSample>, i: nat, now: real)
    requires i < |ps|
    ensures ScanAll(cache, ps[..i + 1], now) ==
      (ScanAll(cache, ps[..i], now).0 + OptionList(Step(ScanAll(cache, ps[..i], now).1, ps[i], now).0),
       Step(ScanAll(cache, ps[..i], now).1, ps[i], now).1)
  {
    assert ps[..i + 1][..i] == ps[..i];
  }

  /** The body of the scan loop for one process. */
  method ScanOne(io: IoCache, p: ProcSample, now: real) returns (found: Option<Threat>)
    modifies io
    ensures (found, io.entries) == Step(old(io.entries), p, now)
  {
    found := None;
    if p.pid > 0 && !p.protectedProc {
      var cpu := CpuOf(p);
      var mb := MemMbOf(p);
      var speed := io.Sample(p.pid, now, WriteBytesOf(p));
      var unsigned := IsUnsigned(p);
      var tmp := IsTmp(p);
      var score, reasons := ScoreThreat(cpu, mb, unsigned, tmp, speed);
      if score >= ReportThreshold {
        found := Some(Threat(p.pid, p.name, p.user, p.exe, cpu, mb, score, reasons, unsigned, tmp));
      }
    }
  }

  /** The scan: prunes the cache to the running pids, then samples every
      scanned process in order and collects the reported ones. */
  method ScanThreats(io: IoCache, alive: set<int>, ps: seq<ProcSample>, now: real)
    returns (threats: seq<Threat>)
    modifies io
    ensures (threats, io.entries) == ScanAll(map pid | pid in old(io.entries) && pid in alive :: old(io.entries)[pid], ps, now)
  {
    io.Prune(alive);
    ghost var start := io.entries;
    threats := [];
    var i := 0;
    while i < |ps|
      invariant 0 <= i <= |ps|
      invariant (threats, io.entries) == ScanAll(start, ps[..i], now)
    {
      ScanAllSnoc(start, ps, i, now);
      var found := ScanOne(io, ps[i], now);
      threats := threats + OptionList(found);
      i := i + 1;
    }
    assert ps[..i] == ps;
  }

  // ---------------------------------------------------------------------------
  // The kill log

  const MaxKilledHistory: nat := 50

  /** Inserting at the front, then dropping the last entry once the log is over
      its bound. */
  function Pushed(entries: seq<Kill>, k: Kill): (r: seq<Kill>)
    ensures |entries| < MaxKilledHistory ==> r == [k] + entries
    ensures |entries| >= MaxKilledHistory ==> r == [k] + entries[..|entries| - 1]
  {
    var grown := [k] + entries;
    if |grown| > MaxKilledHistory then grown[..|grown| - 1] else grown
  }

  class KillLog {
    var entries: seq<Kill>

    ghost predicate Valid()
      reads this
    {
      |entries| <= MaxKilledHistory
    }

    constructor()
      ensures Valid() && entries == []
    {
      entries := [];
    }

    /** Records one kill, newest first. */
    method Record(k: Kill)
      modifies this
      ensures entries == Pushed(old(entries), k)
      ensures old(Valid()) ==> Valid()
    {
      entries := [k] + entries;
      if |entries| > MaxKilledHistory {
        entries := entries[..|entries| - 1];
      }
    }

    /** The entries pushed to the clients: the twenty newest. */
    function Recent(): (r: seq<Kill>)
      reads this
      ensures |r| <= 20 && |r| <= |entries| && r == entries[..|r|]
      ensures |entries| >= 20 ==> |r| == 20
    {
      Take(entries, 20)
    }

    method Clear()
      modifies this
      ensures Valid() && entries == []
    {
      entries := [];
    }
  }

  /** Pushing keeps the log within its bound, puts the new kill first and keeps
      the older entries after it in their order, losing at most the oldest. */
  lemma PushedShape(entries: seq<Kill>, k: Kill)
    requires |entries| <= MaxKilledHistory
    ensures |Pushed(entries, k)| <= MaxKilledHistory
    ensures |Pushed(entries, k)| >= 1 && Pushed(entries, k)[0] == k
    ensures Pushed(entries, k)[1..] == entries[..|Pushed(entries, k)| - 1]
    ensures |Pushed(entries, k)| == if |entries| == MaxKilledHistory then MaxKilledHistory else |entries| + 1
  {
  }

  /** The log after pushing several kills in order. */
  function PushedAll(entries: seq<Kill>, ks: seq<Kill>): seq<Kill>
    decreases |ks|
  {
    if |ks| == 0 then entries else PushedAll(Pushed(entries, ks[0]), ks[1..])
  }

  lemma KillsOfAt(threats: seq<Threat>, i: nat, killed: set<int>, now: real, fmt: Formats)
    requires i < |threats|
    ensures KillsOf(threats[i..], killed, now, fmt) ==
      (if threats[i].pid in killed then [ResourceKill(threats[i], now, fmt)] else []) + KillsOf(threats[i + 1..], killed, now, fmt)
  {
    assert threats[i..][1..] == threats[i + 1..];
  }

  lemma PushedAllCons(entries: seq<Kill>, k: Kill, rest: seq<Kill>)
    ensures PushedAll(entries, [k] + rest) == PushedAll(Pushed(entries, k), rest)
  {
    assert ([k] + rest)[1..] == rest;
  }

  /** After a series of kills the log is still bounded and the last kill is the
      newest entry. */
  lemma {:induction false} PushedAllShape(entries: seq<Kill>, ks: seq<Kill>)
    requires |entries| <= MaxKilledHistory
    ensures |PushedAll(entries, ks)| <= MaxKilledHistory
    ensures |ks| > 0 ==> |PushedAll(entries, ks)| >= 1 && PushedAll(entries, ks)[0] == ks[|ks| - 1]
    decreases |ks|
  {
    if |ks| > 0 {
      PushedShape(entries, ks[0]);
      PushedAllShape(Pushed(entries, ks[0]), ks[1..]);
    }
  }

  /** The kill record of a killed resource threat; the reasons are joined with
      ", ". */
  function ResourceKill(t: Threat, now: real, fmt: Formats): Kill {
    Kill(now, t.pid, t.proc, Join(RenderAll(t.reasons, fmt), ", "), "resource", "", "", None, Some(t.score), "")
  }

  function RenderAll(rs: seq<ThreatReason>, fmt: Formats): (r: seq<string>)
    ensures |r| == |rs| && forall i :: 0 <= i < |rs| ==> r[i] == Render(rs[i], fmt)
  {
    seq(|rs|, i requires 0 <= i < |rs| => Render(rs[i], fmt))
  }

  /** The kill records of the threats whose kill succeeded, in scan order. */
  function KillsOf(threats: seq<Threat>, killed: set<int>, now: real, fmt: Formats): (ks: seq<Kill>)
    ensures |ks| <= |threats|
    ensures forall i :: 0 <= i < |ks| ==> ks[i].kind == "resource" && ks[i].pid in killed
    decreases |threats|
  {
    if |threats| == 0 then []
    else (if threats[0].pid in killed then [ResourceKill(threats[0], now, fmt)] else []) + KillsOf(threats[1..], killed, now, fmt)
  }

  /** One pass of the monitor over the reported threats: each threat whose kill
      succeeded (its pid is in `killed`) is logged. */
  method LogKills(log: KillLog, threats: seq<Threat>, killed: set<int>, now: real, fmt: Formats)
    modifies log
    ensures log.entries == PushedAll(old(log.entries), KillsOf(threats, killed, now, fmt))
    ensures old(log.Valid()) ==> log.Valid()
  {
    ghost var start := log.entries;
    var i := 0;
    while i < |threats|
      invariant 0 <= i <= |threats|
      invariant PushedAll(start, KillsOf(threats, killed, now, fmt))
        == PushedAll(log.entries, KillsOf(threats[i..], killed, now, fmt))
      invariant |start| <= MaxKilledHistory ==> |log.entries| <= MaxKilledHistory
    {
      var t := threats[i];
      KillsOfAt(threats, i, killed, now, fmt);
      if t.pid in killed {
        var k := ResourceKill(t, now, fmt);
        PushedAllCons(log.entries, k, KillsOf(threats[i + 1..], killed, now, fmt));
        log.Record(k);
      } else {
        assert [] + KillsOf(threats[i + 1..], killed, now, fmt) == KillsOf(threats[i + 1..], killed, now, fmt);
      }
      i := i + 1;
    }
  }
}

=== FILE: tray.dfy ===
/** The menu-bar application: the port it serves the interface on, and one
    tick of its monitor, which counts pending alerts, decides the risk level
    shown and picks the pair of icons the tray blinks between.  The socket
    probe, the alert engine and the connections table are inputs. */
module Tray {
  import opened Common
  import opened Records

  // ---------------------------------------------------------------------------
  // Port choice

  /** The candidates tried, in order: the preferred port and the five after
      it. */
  function Candidates(preferred: int): (r: seq<int>)
    ensures |r| == 6
    ensures forall k :: 0 <= k < 6 ==> r[k] == preferred + k
  {
    [preferred] + seq(5, k requires 0 <= k < 5 => preferred + 1 + k)
  }

  /** `_choose_port`: the first candidate the probe does not report as in
      use, or an error when all six are taken.  `busy` is the set of ports
      the probe reports as in use. */
  method ChoosePort(preferred: int, busy: set<int>) returns (r: Result<int, string>)
    ensures r.Ok? ==> preferred <= r.value <= preferred + 5 && r.value !in busy
    ensures r.Ok? ==> forall p :: preferred <= p < r.value ==> p in busy
    ensures r.Err? <==> forall p :: preferred <= p <= preferred + 5 ==> p in busy
  {
    var candidates := Candidates(preferred);
    var i := 0;
    while i < |candidates|
      invariant 0 <= i <= |candidates|
      invariant forall p :: preferred <= p < preferred + i ==> p in busy
    {
      var port := candidates[i];
      if port !in busy {
        return Ok(port);
      }
      i := i + 1;
    }
    return Err("No hay puertos libres en el rango configurado (PW_PORT..PW_PORT+5)");
  }

  // ---------------------------------------------------------------------------
  // Risk level of a tick

  /** Some connection of the table has the level. */
  predicate HasLevel(conns: seq<Conn>, level: string) {
    exists i :: 0 <= i < |conns| && conns[i].level == level
  }

  /** The connections check: the scan stops at the first `alto`, and a
      `medio` seen before it is kept. */
  method ConnectionsRisk(conns: seq<Conn>) returns (risk: string)
    ensures risk == Alto <==> HasLevel(conns, Alto)
    ensures risk == Medio <==> !HasLevel(conns, Alto) && HasLevel(conns, Medio)
    ensures risk == Bajo <==> !HasLevel(conns, Alto) && !HasLevel(conns, Medio)
  {
    risk := Bajo;
    var i := 0;
    while i < |conns|
      invariant 0 <= i <= |conns|
      invariant !HasLevel(conns[..i], Alto)
      invariant risk == (if HasLevel(conns[..i], Medio) then Medio else Bajo)
    {
      var level := conns[i].level;
      if level == Alto {
        assert conns[i] == conns[..i + 1][i];
        return Alto;
      } else if level == Medio {
        risk := Medio;
      }
      LevelsGrow(conns, i, Alto);
      LevelsGrow(conns, i, Medio);
      i := i + 1;
    }
    assert conns[..i] == conns;
  }

  /** One more connection scanned: the level is present in the longer
      prefix exactly when it was in the shorter one or is this one's. */
  lemma LevelsGrow(conns: seq<Conn>, i: nat, level: string)
    requires i < |conns|
    ensures HasLevel(conns[..i + 1], level) <==> HasLevel(conns[..i], level) || conns[i].level == level
  {
    var longer := conns[..i + 1];
    if HasLevel(longer, level) && conns[i].level != level {
      var k :| 0 <= k < i + 1 && longer[k].level == level;
      assert k < i && conns[..i][k] == longer[k];
    }
    if HasLevel(conns[..i], level) {
      var k :| 0 <= k < i && conns[..i][k].level == level;
      assert longer[k] == conns[..i][k];
    }
    if conns[i].level == level {
      assert longer[i] == conns[i];
    }
  }

  /** The tray's monitor, which keeps the pending-alert count seen on the
      previous tick. */
  class Monitor {
    var lastAlertCount: nat

    constructor ()
      ensures lastAlertCount == 0
    {
      lastAlertCount := 0;
    }

    /** One tick of `_monitor_loop`: whether the alarm fires, and the risk
        level the icon shows.  With alert mode off the engine is not asked
        and the count seen is kept; a pending alert forces `alto`; otherwise
        the connections decide. */
    method Tick(alertMode: bool, pendingCount: nat, conns: seq<Conn>) returns (risk: string, newAlert: bool)
      modifies this
      ensures newAlert <==> alertMode && pendingCount > old(lastAlertCount)
      ensures lastAlertCount == if alertMode then pendingCount else old(lastAlertCount)
      ensures alertMode && pendingCount > 0 ==> risk == Alto
      ensures !(alertMode && pendingCount > 0) ==>
        (risk == Alto <==> HasLevel(conns, Alto))
        && (risk == Medio <==> !HasLevel(conns, Alto) && HasLevel(conns, Medio))
        && (risk == Bajo <==> !HasLevel(conns, Alto) && !HasLevel(conns, Medio))
    {
      risk := Bajo;
      newAlert := false;
      if alertMode {
        if pendingCount > lastAlertCount {
          newAlert := true;
          risk := Alto;
        }
        lastAlertCount := pendingCount;
        if pendingCount > 0 {
          risk := Alto;
        }
      }
      if risk == Bajo {
        risk := ConnectionsRisk(conns);
      }
    }
  }

  // ---------------------------------------------------------------------------
  // Icons

  /** A loaded tray image. */
  datatype Icon = Icon(name: string)

  /** `icons.get(key)`. */
  function Lookup(icons: map<string, Icon>, key: string): Option<Icon> {
    if key in icons then Some(icons[key]) else None
  }

  /** `icons.get(key) or icons.get(fallback)`. */
  function LookupOr(icons: map<string, Icon>, key: string, fallback: string): Option<Icon> {
    if key in icons then Some(icons[key]) else Lookup(icons, fallback)
  }

  /** The closed and open icons for a risk level: the red pair for `alto`,
      the amber pair for `medio`, each falling back to the normal icon when
      missing, and the normal pair for any other level. */
  function IconPair(icons: map<string, Icon>, risk: string): (Option<Icon>, Option<Icon>) {
    if risk == Alto then (LookupOr(icons, "closed_risk", "closed"), LookupOr(icons, "open_risk", "open"))
    else if risk == Medio then (LookupOr(icons, "closed_med", "closed"), LookupOr(icons, "open_med", "open"))
    else (Lookup(icons, "closed"), Lookup(icons, "open"))
  }

  /** The monitor only runs when the normal pair is loaded. */
  predicate MonitorRuns(icons: map<string, Icon>) {
    "open" in icons && "closed" in icons
  }

  /** While the monitor runs, every tick has an icon to show in both phases
      of the blink. */
  lemma IconsAlwaysShown(icons: map<string, Icon>, risk: string)
    requires MonitorRuns(icons)
    ensures IconPair(icons, risk).0.Some? && IconPair(icons, risk).1.Some?
  {
  }

  /** The key suffix of a level's own icons, as the icon files are named. */
  function Suffix(risk: string): string {
    if risk == Alto then "_risk" else if risk == Medio then "_med" else ""
  }

  /** Each icon of the pair is the level's own when loaded and the normal
      one otherwise. */
  lemma IconFallback(icons: map<string, Icon>, risk: string)
    ensures IconPair(icons, risk).0
      == (if "closed" + Suffix(risk) in icons then Some(icons["closed" + Suffix(risk)]) else Lookup(icons, "closed"))
    ensures IconPair(icons, risk).1
      == (if "open" + Suffix(risk) in icons then Some(icons["open" + Suffix(risk)]) else Lookup(icons, "open"))
  {
    if risk == Alto {
      assert "closed" + Suffix(risk) == "closed_risk" && "open" + Suffix(risk) == "open_risk";
    } else if risk == Medio {
      assert "closed" + Suffix(risk) == "closed_med" && "open" + Suffix(risk) == "open_med";
    } else {
      assert "closed" + Suffix(risk) == "closed" && "open" + Suffix(risk) == "open";
    }
  }
}

=== FILE: worldmap.dfy ===
/** The world map: connections counted per country, under the two-letter
    code and, for the countries in its table, under the numeric map id too;
    the largest count; and what a click on a country does. */
module WorldMap {
  import opened Common
  import opened Records

  /** `iso2ToId`, each id read as the number its three digits spell. */
  function IdNumber(code: string): Option<int> {
    match code
    case "US" => Some(840) case "CA" => Some(124) case "MX" => Some(484) case "BR" => Some(76) case "AR" => Some(32)
    case "CO" => Some(170) case "PE" => Some(604) case "CL" => Some(152) case "ES" => Some(724) case "FR" => Some(250)
    case "DE" => Some(276) case "IT" => Some(380) case "GB" => Some(826) case "RU" => Some(643) case "CN" => Some(156)
    case "JP" => Some(392) case "IN" => Some(356) case "AU" => Some(36) case "ZA" => Some(710) case "EG" => Some(818)
    case "NL" => Some(528) case "BE" => Some(56) case "CH" => Some(756) case "SE" => Some(752) case "NO" => Some(578)
    case "DK" => Some(208) case "FI" => Some(246) case "IE" => Some(372) case "PT" => Some(620) case "GR" => Some(300)
    case "TR" => Some(792) case "KR" => Some(410) case "SG" => Some(702) case "HK" => Some(344) case "TW" => Some(158)
    case "UA" => Some(804) case "PL" => Some(616) case "RO" => Some(642) case "CZ" => Some(203) case "HU" => Some(348)
    case "AT" => Some(40) case "NZ" => Some(554) case "ID" => Some(360) case "MY" => Some(458) case "TH" => Some(764)
    case "VN" => Some(704) case "PH" => Some(608) case "IL" => Some(376) case "SA" => Some(682) case "AE" => Some(784)
    case _ => None
  }

  /** The table read backwards, by number. */
  function CodeOfNumber(n: int): Option<string> {
    match n
    case 840 => Some("US") case 124 => Some("CA") case 484 => Some("MX") case 76 => Some("BR") case 32 => Some("AR")
    case 170 => Some("CO") case 604 => Some("PE") case 152 => Some("CL") case 724 => Some("ES") case 250 => Some("FR")
    case 276 => Some("DE") case 380 => Some("IT") case 826 => Some("GB") case 643 => Some("RU") case 156 => Some("CN")
    case 392 => Some("JP") case 356 => Some("IN") case 36 => Some("AU") case 710 => Some("ZA") case 818 => Some("EG")
    case 528 => Some("NL") case 56 => Some("BE") case 756 => Some("CH") case 752 => Some("SE") case 578 => Some("NO")
    case 208 => Some("DK") case 246 => Some("FI") case 372 => Some("IE") case 620 => Some("PT") case 300 => Some("GR")
    case 792 => Some("TR") case 410 => Some("KR") case 702 => Some("SG") case 344 => Some("HK") case 158 => Some("TW")
    case 804 => Some("UA") case 616 => Some("PL") case 642 => Some("RO") case 203 => Some("CZ") case 348 => Some("HU")
    case 40 => Some("AT") case 554 => Some("NZ") case 360 => Some("ID") case 458 => Some("MY") case 764 => Some("TH")
    case 704 => Some("VN") case 608 => Some("PH") case 376 => Some("IL") case 682 => Some("SA") case 784 => Some("AE")
    case _ => None
  }

  lemma NumberInverts(code: string)
    requires IdNumber(code).Some?
    ensures CodeOfNumber(IdNumber(code).value) == Some(code)
  {
  }

  lemma CodeInverts(n: int)
    requires CodeOfNumber(n).Some?
    ensures IdNumber(CodeOfNumber(n).value) == Some(n)
  {
  }

  /** Codes have two letters and ids three digits. */
  lemma IdRange(code: string)
    requires IdNumber(code).Some?
    ensures |code| == 2 && 0 <= IdNumber(code).value < 1000
  {
  }

  /** The map's id text: the number written with three digits, zero-padded. */
  lemma DigitsOf(a: int, b: int, c: int)
    requires 0 <= a < 10 && 0 <= b < 10 && 0 <= c < 10
    ensures (a * 100 + b * 10 + c) / 100 == a
    ensures (a * 100 + b * 10 + c) / 10 % 10 == b
    ensures (a * 100 + b * 10 + c) % 10 == c
  {
    var v := a * 100 + b * 10 + c;
    assert v == 100 * a + (10 * b + c) && 0 <= 10 * b + c < 100;
    assert v == 10 * (10 * a + b) + c;
    assert v / 10 == 10 * a + b;
  }

  function IdText(n: int): (s: string)
    requires 0 <= n < 1000
    ensures |s| == 3 && IsDigit(s[0]) && IsDigit(s[1]) && IsDigit(s[2])
  {
    [DigitChar(n / 100), DigitChar(n / 10 % 10), DigitChar(n % 10)]
  }

  /** The number a three-digit text spells, if it is one. */
  function IdValue(s: string): Option<int> {
    if |s| == 3 && IsDigit(s[0]) && IsDigit(s[1]) && IsDigit(s[2]) then
      Some((s[0] as int - '0' as int) * 100 + (s[1] as int - '0' as int) * 10 + (s[2] as int - '0' as int))
    else
      None
  }

  lemma IdTextValue(n: int)
    requires 0 <= n < 1000
    ensures IdValue(IdText(n)) == Some(n)
  {
    assert n == n / 100 * 100 + n / 10 % 10 * 10 + n % 10;
  }

  lemma ValueIdText(s: string)
    requires IdValue(s).Some?
    ensures 0 <= IdValue(s).value < 1000 && IdText(IdValue(s).value) == s
  {
    var a, b, c := s[0] as int - '0' as int, s[1] as int - '0' as int, s[2] as int - '0' as int;
    DigitsOf(a, b, c);
    var t := IdText(IdValue(s).value);
    assert t[0] == s[0] && t[1] == s[1] && t[2] == s[2];
  }

  /** `iso2ToId[code]`: the map id of a two-letter country code. */
  function IsoToId(code: string): (r: Option<string>)
    ensures r.Some? ==> |code| == 2 && |r.value| == 3
  {
    match IdNumber(code)
    case None => None
    case Some(n) => IdRange(code); Some(IdText(n))
  }

  /** The code whose id is `id`: the key `find` meets first in the table. */
  function IdToIso(id: string): Option<string> {
    match IdValue(id)
    case None => None
    case Some(n) => CodeOfNumber(n)
  }

  /** The two readings of the table undo each other. */
  lemma IdToIsoInverts(code: string)
    requires IsoToId(code).Some?
    ensures IdToIso(IsoToId(code).value) == Some(code)
  {
    IdRange(code);
    IdTextValue(IdNumber(code).value);
    NumberInverts(code);
  }

  lemma IsoToIdInverts(id: string)
    requires IdToIso(id).Some?
    ensures IsoToId(IdToIso(id).value) == Some(id)
  {
    var n := IdValue(id).value;
    CodeInverts(n);
    ValueIdText(id);
  }

  /** No two codes share an id, so `find` has one key to meet. */
  lemma IsoToIdInjective(a: string, b: string)
    requires IsoToId(a).Some? && IsoToId(a) == IsoToId(b)
    ensures a == b
  {
    IdToIsoInverts(a);
    IdToIsoInverts(b);
  }

  // ---------------------------------------------------------------------
  // Counting

  /** `counts[k] || 0`. */
  function Get(m: map<string, nat>, k: string): nat {
    if k in m then m[k] else 0
  }

  function Bump(m: map<string, nat>, k: string): map<string, nat> {
    m[k := Get(m, k) + 1]
  }

  /** One row: an empty country is skipped; a code in the table counts
      under its id, and every code counts under itself. */
  function Step(m: map<string, nat>, country: string): map<string, nat> {
    if country == "" then m
    else
      var withId := match IsoToId(country) case None => m case Some(id) => Bump(m, id);
      Bump(withId, country)
  }

  function CountsOf(cs: seq<string>): map<string, nat> {
    if |cs| == 0 then map[] else Step(CountsOf(cs[..|cs| - 1]), cs[|cs| - 1])
  }

  function Countries(rows: seq<Conn>): (cs: seq<string>)
    ensures |cs| == |rows| && forall i :: 0 <= i < |rows| ==> cs[i] == rows[i].country
  {
    seq(|rows|, i requires 0 <= i < |rows| => rows[i].country)
  }

  /** The `countries` memo of the map. */
  function CountryCounts(rows: seq<Conn>): map<string, nat> {
    CountsOf(Countries(rows))
  }

  /** How many entries equal `k`. */
  function Occurrences(cs: seq<string>, k: string): nat {
    if |cs| == 0 then 0 else Occurrences(cs[..|cs| - 1], k) + (if cs[|cs| - 1] == k then 1 else 0)
  }

  /** How many entries are codes whose id is `id`. */
  function IdHits(cs: seq<string>, id: string): nat {
    if |cs| == 0 then 0 else IdHits(cs[..|cs| - 1], id) + (if IsoToId(cs[|cs| - 1]) == Some(id) then 1 else 0)
  }

  lemma StepGet(m: map<string, nat>, c: string, k: string)
    ensures Get(Step(m, c), k) == Get(m, k) + (if c != "" && c == k then 1 else 0) + (if IsoToId(c) == Some(k) then 1 else 0)
  {
  }

  /** Each key counts the rows whose country is it and the rows whose
      country's id is it; the empty country is never counted. */
  lemma {:induction false} CountsOfGet(cs: seq<string>, k: string)
    ensures Get(CountsOf(cs), k) == (if k == "" then 0 else Occurrences(cs, k)) + IdHits(cs, k)
    decreases |cs|
  {
    if |cs| > 0 {
      CountsOfGet(cs[..|cs| - 1], k);
      StepGet(CountsOf(cs[..|cs| - 1]), cs[|cs| - 1], k);
    }
  }

  lemma {:induction false} NoHitsOffLength(cs: seq<string>, k: string)
    requires |k| != 3
    ensures IdHits(cs, k) == 0
    decreases |cs|
  {
    if |cs| > 0 {
      NoHitsOffLength(cs[..|cs| - 1], k);
    }
  }

  lemma {:induction false} HitsAreOccurrences(cs: seq<string>, code: string)
    requires IsoToId(code).Some?
    ensures IdHits(cs, IsoToId(code).value) == Occurrences(cs, code)
    decreases |cs|
  {
    if |cs| > 0 {
      HitsAreOccurrences(cs[..|cs| - 1], code);
      var c := cs[|cs| - 1];
      if IsoToId(c) == IsoToId(code) {
        IsoToIdInjective(code, c);
      }
    }
  }

  /** Under a two-letter code the count is the number of rows from that
      country. */
  lemma CodeCount(rows: seq<Conn>, code: string)
    requires |code| == 2
    ensures Get(CountryCounts(rows), code) == Occurrences(Countries(rows), code)
  {
    CountsOfGet(Countries(rows), code);
    NoHitsOffLength(Countries(rows), code);
  }

  /** Under a table id the count is the same number, unless some row's
      country is itself that id text. */
  lemma IdCount(rows: seq<Conn>, code: string)
    requires IsoToId(code).Some? && Occurrences(Countries(rows), IsoToId(code).value) == 0
    ensures Get(CountryCounts(rows), IsoToId(code).value) == Occurrences(Countries(rows), code)
  {
    CountsOfGet(Countries(rows), IsoToId(code).value);
    HitsAreOccurrences(Countries(rows), code);
  }

  /** A key is present exactly when its count is positive. */
  lemma {:induction false} KeysCounted(cs: seq<string>, k: string)
    ensures k in CountsOf(cs) <==> Get(CountsOf(cs), k) > 0
    decreases |cs|
  {
    if |cs| > 0 {
      KeysCounted(cs[..|cs| - 1], k);
      StepGet(CountsOf(cs[..|cs| - 1]), cs[|cs| - 1], k);
    }
  }

  /** The body of the `forEach`: one row's country counted in place. */
  method AddCountry(counts: map<string, nat>, country: string) returns (out: map<string, nat>)
    ensures out == Step(counts, country)
  {
    out := counts;
    if country != "" {
      var id := IsoToId(country);
      if id.Some? {
        out := out[id.value := Get(out, id.value) + 1];
      }
      out := out[country := Get(out, country) + 1];
    }
  }

  /** The `rows.forEach` that fills the counts. */
  method CountCountries(rows: seq<Conn>) returns (counts: map<string, nat>)
    ensures counts == CountryCounts(rows)
  {
    ghost var cs := Countries(rows);
    counts := map[];
    var i := 0;
    while i < |rows|
      invariant 0 <= i <= |rows|
      invariant counts == CountsOf(cs[..i])
    {
      counts := AddCountry(counts, rows[i].country);
      assert cs[..i + 1][..i] == cs[..i];
      i := i + 1;
    }
    assert cs[..|rows|] == cs;
  }

  /** `Math.max(...Object.values(countries), 0)`. */
  ghost function MaxCount(m: map<string, nat>): (r: nat)
    ensures forall j :: j in m ==> m[j] <= r
    ensures m == map[] ==> r == 0
    ensures m != map[] ==> exists j :: j in m && m[j] == r
    decreases |m|
  {
    if m == map[] then 0
    else
      var k :| k in m;
      var rest := m - {k};
      var best := MaxCount(rest);
      assert forall j :: j in m && j != k ==> j in rest && rest[j] == m[j];
      if m[k] >= best then m[k] else best
  }

  // ---------------------------------------------------------------------
  // Selecting a country

  datatype Selection = Unchanged | Select(code: string) | Clear

  /** `selectedCountry && isoCode === selectedCountry`. */
  predicate IsSelected(code: Option<string>, selected: Option<string>) {
    selected.Some? && selected.value != "" && code == selected
  }

  /** A click on the country with map id `geoId`: a country with
      connections and a code is selected, or cleared when it already was. */
  function MapClick(counts: map<string, nat>, geoId: string, selected: Option<string>): (r: Selection)
    ensures r.Select? <==> Get(counts, geoId) > 0 && IdToIso(geoId).Some? && !IsSelected(IdToIso(geoId), selected)
    ensures r.Clear? <==> Get(counts, geoId) > 0 && IdToIso(geoId).Some? && IsSelected(IdToIso(geoId), selected)
    ensures r.Select? ==> r.code == IdToIso(geoId).value && IsoToId(r.code) == Some(geoId)
  {
    var code := IdToIso(geoId);
    if Get(counts, geoId) > 0 && code.Some? && code.value != "" then
      IsoToIdInverts(geoId);
      if IsSelected(code, selected) then Clear else Select(code.value)
    else
      Unchanged
  }

  /** A second click on the same country clears the selection, and a click
      after clearing selects it again. */
  lemma ClickToggles(counts: map<string, nat>, geoId: string, selected: Option<string>)
    ensures MapClick(counts, geoId, selected).Select? ==>
      MapClick(counts, geoId, Some(MapClick(counts, geoId, selected).code)) == Clear
    ensures MapClick(counts, geoId, selected).Clear? ==>
      MapClick(counts, geoId, None) == Select(selected.value)
  {
    if MapClick(counts, geoId, selected).Select? {
      IsoToIdInverts(geoId);
    }
  }

  /** A click on a country some row comes from selects its code. */
  lemma ClickSelectsCountry(rows: seq<Conn>, code: string)
    requires IsoToId(code).Some? && Occurrences(Countries(rows), IsoToId(code).value) == 0
    requires Occurrences(Countries(rows), code) > 0
    ensures MapClick(CountryCounts(rows), IsoToId(code).value, None) == Select(code)
  {
    IdCount(rows, code);
    IdToIsoInverts(code);
  }
}
